=== FILE: README.md ===
# Verified model of the Limited-Time-Benefits-Event text core

This project models, in Dafny, the text-processing core of the Android client and server of the
Limited-Time-Benefits-Event app. It follows the code as written, including its quirks.

- **Markdown parser** (`MarkdownParser.kt`).
  - `parse` is a line-cursor loop. It tries, in order: blank line, `#` heading, thematic break,
    `<audio`/`<video`, fenced code, `>` blockquote (parsed again recursively), list, pipe table, and
    otherwise a paragraph.
  - `parseInline` scans a shrinking `remaining` string. It tries, in order: escape, image, link,
    `***`, `___`, `**`, `*`, `~~`, `__`, inline code and `<autolink>`; anything else is a plain run.
  - `parseTable` builds a table from its pipe rows.
  - Each regular expression is a hand-written predicate over `seq<char>`, for example `IsRuleLine`,
    `IsPipeRow`, `IsSeparatorRow`, `IsAutolinkUrl` and `IsEmail`.
- **Inline segments** (`buildInlineSegments` in `MarkdownRenderer.kt`). Consecutive text and link
  nodes are grouped into one text segment; every other node becomes a segment of its own.
- **Formula preprocessor** (`FormulaRenderer.kt`).
  - `preprocessMathFormula` applies the macro table longest key first, then the font, `\text`,
    matrix, cases, fraction, root, operator, subscript, superscript, bracket and accent handlers.
    It finishes with brace removal, the spacing commands, removal of unknown commands, whitespace
    collapse and a trim.
  - `preprocessChemicalFormula` keeps only the sub/superscript, brace and trim steps.
  - The regular expressions the handlers use are the `Pattern` datatype; `Regex.replace` is `Replace`.
- **Update check** (`UpdateChecker.kt`): `isNewVersionAvailable` on `major.yyyymmdd.hhmm` stamps
  (the build pads the time with zeros, as in `1.20260106.0243`),
  the locale-to-changelog code, the changelog fallback, and the `UpdateInfo` built from a response.
- **Answer files** (`AnswersScreen.kt`): `parseFilename` for names like `251001.md`, and the index
  logic of `getMonthName`, with the month names as a parameter.
- **APK server** (`server/main.js`): `extractInfo`, the newest-first comparator and the sort, the
  `.apk` and `.md` filters, `latest`, and the download name check. The module `Releases` proves
  that client and server agree: an update is offered exactly when some published release is newer
  than the installed one, for stamps written with or without leading zeros.

Methods with loops (`Parse`, `ParseBlock`, the `Collect*` inner loops, `ParseInline`, `ParseLink`,
`BuildInlineSegments`, `ApplyMacros`, `HandleTextCommand`, `HandleSqrt`, `ExtractBalancedBraces`,
`HandleFractions`, `PreprocessMathFormula`) are proved equal to functions. The properties are then
proved about those functions.

What the code does, as the model shows:

- The list branch of `parse` never fires. Its patterns must match the whole trimmed line, and such
  a line never ends in whitespace. So `- a` and `1. a` are paragraph text (`ListBranchUnreachable`).
- `parse` does not terminate on some inputs. The first case is a blockquote line indented before
  its `>`: the trimmed test accepts it but the raw test collects nothing. The second is a paragraph
  whose first line is a pipe row or separator row that does not start a table. The result type
  `Outcome` has a `Diverges` case for these, and `StuckCases` characterises exactly when one turn
  of the loop makes no progress (examples: `" >x"`, `"|a|"`).
- `handleFractions` starts the numerator scan one character after the `{` of `\frac{`. So only
  `\frac{{A}{B}` becomes `(A/B)`. An ordinary fraction is left to the clean-up, which drops the
  braces and then the unknown command (`FractionNeedsDoubleBrace`). When the numerator does not
  start with an ASCII letter, the result is numerator and denominator side by side: `\frac{1}{2}`
  gives `12` (`FractionDropped`). When it does, the command pattern `\\([a-zA-Z]+)` takes the
  letters after `\frac` with it: `\frac{x+1}{2}` gives `+12`, and `\frac{a}{b}` gives an empty
  formula (`FractionSwallowed`, `FractionOfLetters`).
- The macro table runs first, and it damages later handlers:
  - `\le` turns `\left(` into `≤ft(` (`LeftEndToEnd`).
  - `\big` is removed before `\bigg`, so `\bigg(` becomes `g(` (`BiggEndToEnd`).
  - The table also rewrites `\sqrt`, `\lim`, `\sum`, `\prod` and `\int`. Yet `handleSqrt` and
    `handleLimitsAndOperators` can still match. `\sq\text{rt}{h}` survives the macro pass and is
    joined into `\sqrt{h}` by the `\text` handler (`SplitRootReachesRoots`). `\\lim_{x}` becomes
    `\lim_{x}` (`DoubleBackslashLim`, `LimitOfGroup`).
- A key that appears twice in the table keeps its later value (`DuplicatesKeepLaterValue`).
- The one-character superscript class `[0-9a-zA-Z+-=()]` holds the range `+`..`=`. So `^,` loses
  its caret (`SuperscriptComma`). A subscript letter without a glyph also loses its underscore
  (`SubscriptB`).

## Model

| member | source | states |
|---|---|---|
| Text.Lines | android/app/src/main/java/com/chronie/gift/ui/markdown/MarkdownParser.kt:65 | `lines()`: at least one piece; no piece holds `\n` or `\r`; the text is one piece exactly when it has no line break |
| Text.Trim | android/app/src/main/java/com/chronie/gift/ui/markdown/MarkdownParser.kt:70 | `trim()`: no longer than the text, and no whitespace at either end of the result |
| Text.TrimSlice | android/app/src/main/java/com/chronie/gift/ui/markdown/MarkdownParser.kt:70 | the trimmed text is the slice of the text that starts after its leading whitespace |
| Text.TrimTwice | android/app/src/main/java/com/chronie/gift/ui/markdown/MarkdownParser.kt:70 | trimming is idempotent |
| Text.Split | android/app/src/main/java/com/chronie/gift/ui/markdown/MarkdownParser.kt:416 | `split(sep)`: at least one piece, and no piece contains the separator |
| Text.JoinSplit | android/app/src/main/java/com/chronie/gift/ui/markdown/MarkdownParser.kt:416 | joining the pieces with the separator gives the text back |
| Text.SplitWhole | android/app/src/main/java/com/chronie/gift/ui/markdown/FormulaRenderer.kt:1016 | a text without the separator is one piece |
| Text.SplitFirst | android/app/src/main/java/com/chronie/gift/ui/markdown/FormulaRenderer.kt:1016 | when no separator starts inside `a`, splitting `a + sep + b` gives `a` followed by the pieces of `b` |
| Text.JoinCons | android/app/src/main/java/com/chronie/gift/ui/markdown/FormulaRenderer.kt:1025 | `joinToString(sep)` of a further piece in front is that piece, the separator and the join of the rest |
| Text.ReplaceAll | android/app/src/main/java/com/chronie/gift/ui/markdown/FormulaRenderer.kt:369-371 | `replace(k, v)`: every character of the result comes from the text or from `v` |
| Text.ReplaceAbsent | android/app/src/main/java/com/chronie/gift/ui/markdown/FormulaRenderer.kt:369-371 | replacing a key that does not occur changes nothing |
| Text.ReplaceAllRemoves | android/app/src/main/java/com/chronie/gift/ui/markdown/FormulaRenderer.kt:406 | replacing a character by a text without it leaves none of it |
| BlockParser.HashRun | android/app/src/main/java/com/chronie/gift/ui/markdown/MarkdownParser.kt:79 | the heading level is the whole run of leading `#`, and the character after it is not `#` |
| BlockParser.HeadingBlock | android/app/src/main/java/com/chronie/gift/ui/markdown/MarkdownParser.kt:78-83 | a heading line emits one `Heading` and advances one line. Its level is at least 1, with no cap, and equals the full `#` run of the trimmed line. Its children are the inline nodes of the trimmed rest |
| BlockParser.SevenHashes | android/app/src/main/java/com/chronie/gift/ui/markdown/MarkdownParser.kt:79 | `#######x` has level 7: there is no cap at six |
| BlockParser.FindSrc | android/app/src/main/java/com/chronie/gift/ui/markdown/MarkdownParser.kt:92 | a value is found exactly when `src=['"]([^'"]+)['"]` matches at some position. The value is the group of the match at the leftmost such position, with no match before it. It is non-empty and holds no quote character |
| BlockParser.MediaNodes | android/app/src/main/java/com/chronie/gift/ui/markdown/MarkdownParser.kt:90-103 | at most one node, and one exactly when the line holds a `src` match (the `contains("src=")` guard never rejects such a line). The node's URL is the leftmost match's value. It is `Audio` exactly when the line starts with `<audio`, and `Video` otherwise |
| BlockParser.FenceBlock | android/app/src/main/java/com/chronie/gift/ui/markdown/MarkdownParser.kt:105-120 | a fence emits one code block. The language is the trimmed text after the three backticks. The code is the untrimmed lines up to the first line whose trimmed form starts with a fence, joined with newlines. The closing line is consumed when present; otherwise the block runs to the end |
| BlockParser.CodeRun | android/app/src/main/java/com/chronie/gift/ui/markdown/MarkdownParser.kt:110-113 | the collected code lines hold no fence, and the line that ends the run is one |
| BlockParser.CollectCode | android/app/src/main/java/com/chronie/gift/ui/markdown/MarkdownParser.kt:107-113 | the inner loop returns exactly the maximal run of non-fence lines and its end |
| BlockParser.CollectQuote | android/app/src/main/java/com/chronie/gift/ui/markdown/MarkdownParser.kt:123-127 | the inner loop returns the maximal run of raw `>` lines, each with one character dropped and then trimmed |
| BlockParser.QuoteShorter | android/app/src/main/java/com/chronie/gift/ui/markdown/MarkdownParser.kt:122-128 | the document that a blockquote parses again is strictly shorter than the current one |
| BlockParser.ListBranchUnreachable | android/app/src/main/java/com/chronie/gift/ui/markdown/MarkdownParser.kt:131 | the list branch is never chosen, whatever the lines |
| BlockParser.NoMarkerAtEnd | android/app/src/main/java/com/chronie/gift/ui/markdown/MarkdownParser.kt:131 | a line that does not end in whitespace matches neither the list-marker pattern nor the task-marker pattern |
| BlockParser.TableBlock | android/app/src/main/java/com/chronie/gift/ui/markdown/MarkdownParser.kt:159-176 | a table start emits one table built from the header, the separator and the maximal run of pipe rows after them; the cursor moves past that run |
| BlockParser.CollectRows | android/app/src/main/java/com/chronie/gift/ui/markdown/MarkdownParser.kt:168-172 | the inner loop returns exactly the maximal run of pipe rows |
| BlockParser.CollectParagraph | android/app/src/main/java/com/chronie/gift/ui/markdown/MarkdownParser.kt:180-191 | the inner loop returns the maximal run of paragraph lines, trimmed |
| BlockParser.QuoteStallIffIndented | android/app/src/main/java/com/chronie/gift/ui/markdown/MarkdownParser.kt:122-124 | in the blockquote branch, the raw line fails the `>` test exactly when it starts with whitespace |
| BlockParser.ParagraphStallIffTableLike | android/app/src/main/java/com/chronie/gift/ui/markdown/MarkdownParser.kt:181-188 | in the paragraph branch, the first line stops the run at once exactly when, trimmed, it is a pipe row or a separator row |
| BlockParser.StuckCases | android/app/src/main/java/com/chronie/gift/ui/markdown/MarkdownParser.kt:69-197 | one turn of the loop makes no progress exactly in the indented-blockquote case, the table-like-paragraph case, or when the nested parse of a blockquote diverges |
| BlockParser.StuckFirstLine | android/app/src/main/java/com/chronie/gift/ui/markdown/MarkdownParser.kt:69-197 | a document whose first turn makes no progress never finishes |
| BlockParser.IndentedQuoteDiverges | android/app/src/main/java/com/chronie/gift/ui/markdown/MarkdownParser.kt:122-129 | `" >x"` makes `parse` loop forever |
| BlockParser.LoneRowDiverges | android/app/src/main/java/com/chronie/gift/ui/markdown/MarkdownParser.kt:159-188 | `"\|a\|"` makes `parse` loop forever |
| BlockParser.BlockAt | android/app/src/main/java/com/chronie/gift/ui/markdown/MarkdownParser.kt:69-197 | a turn that makes progress moves the cursor forward, stays within the lines, and emits at most one node |
| BlockParser.ParseBlock | android/app/src/main/java/com/chronie/gift/ui/markdown/MarkdownParser.kt:69-197 | the loop body computes the step `BlockAt` specifies |
| BlockParser.Parse | android/app/src/main/java/com/chronie/gift/ui/markdown/MarkdownParser.kt:64-199 | the loop computes `ParseDoc`, including the diverging case |
| BlockParser.CellTexts | android/app/src/main/java/com/chronie/gift/ui/markdown/MarkdownParser.kt:416-418 | each cell text is trimmed, non-empty and free of `\|` |
| BlockParser.Cell | android/app/src/main/java/com/chronie/gift/ui/markdown/MarkdownParser.kt:419-420 | a cell that parses to one node is that node; otherwise it is a `Paragraph` of two or more nodes |
| BlockParser.RowCells | android/app/src/main/java/com/chronie/gift/ui/markdown/MarkdownParser.kt:416-420 | one cell node per non-empty trimmed piece of the row, in order |
| BlockParser.TableOf | android/app/src/main/java/com/chronie/gift/ui/markdown/MarkdownParser.kt:408-433 | fewer than two lines give an empty table. Otherwise the headers come from the first line and there is one row per line after the separator, with no padding to the header width |
| InlineParser.UrlOf | android/app/src/main/java/com/chronie/gift/ui/markdown/MarkdownParser.kt:225-233 | the URL holds no `"`. With a quote in the target it is the trimmed text before the first quote; without one it is the whole target |
| InlineParser.Bracketed | android/app/src/main/java/com/chronie/gift/ui/markdown/MarkdownParser.kt:217-222 | the caption is the text from the opening bracket up to the first `]`, a `(` follows at once, and the consumed count ends just after the first `)` after it |
| InlineParser.BracketedFound | android/app/src/main/java/com/chronie/gift/ui/markdown/MarkdownParser.kt:217-222 | conversely, wherever that shape is, the caption, the target URL and the count are found, taken up to the first `]` and the first `)` |
| InlineParser.ScanDelimited | android/app/src/main/java/com/chronie/gift/ui/markdown/MarkdownParser.kt:273-362 | with a closing delimiter, the node is the text before the first one, in the style, and the scan stops just after it; without one, only the first character is emitted, as normal text |
| InlineParser.ScanAutolink | android/app/src/main/java/com/chronie/gift/ui/markdown/MarkdownParser.kt:364-390 | with `e` the first `>`: the result is a link exactly when the text between `<` and `>` is a URL or an e-mail address. A URL gives a link to itself, an address that is not a URL a link to `mailto:` and the address; the one child is that text, and the scan stops just after `>`. Otherwise, and when no `>` follows, it emits `<` and consumes one character |
| InlineParser.UpperCaseUrl | android/app/src/main/java/com/chronie/gift/ui/markdown/MarkdownParser.kt:369 | the URL pattern ignores the letter case of the scheme: `HTTPS://a.b/c` is a URL |
| InlineParser.HostWithoutDot | android/app/src/main/java/com/chronie/gift/ui/markdown/MarkdownParser.kt:369 | the host needs a dot: `http://ab` is not a URL |
| InlineParser.EmailShapes | android/app/src/main/java/com/chronie/gift/ui/markdown/MarkdownParser.kt:371 | `me@a.b` is an e-mail address; `me@ab` (no dot after `@`) and `@a.b` (no name) are not |
| InlineParser.ScanPlain | android/app/src/main/java/com/chronie/gift/ui/markdown/MarkdownParser.kt:392-401 | a plain run is the longest prefix free of `[`, `*`, backtick and `<` |
| InlineParser.ScanImage | android/app/src/main/java/com/chronie/gift/ui/markdown/MarkdownParser.kt:215-242 | an image exactly when `](`…`)` follows `![`. Its alt text runs up to the first `]`, its URL is the target up to the first `)` with the title dropped, and the scan stops just after that `)`. Otherwise it emits a bare `!` and consumes one character |
| InlineParser.ScanLink | android/app/src/main/java/com/chronie/gift/ui/markdown/MarkdownParser.kt:244-270 | a link exactly when `](`…`)` follows `[`. Its children are the nodes of the caption up to the first `]`, its URL is the target up to the first `)` with the title dropped, and the scan stops just after that `)`. Otherwise it emits a bare `[` and consumes one character |
| InlineParser.ParseLink | android/app/src/main/java/com/chronie/gift/ui/markdown/MarkdownParser.kt:244-270 | the link branch, with its recursive call on the link text, computes `ScanLink` |
| InlineParser.ScanAt | android/app/src/main/java/com/chronie/gift/ui/markdown/MarkdownParser.kt:206-402 | each iteration consumes between 1 and all of the remaining characters and emits one text, link or image node |
| InlineParser.InlineNodes | android/app/src/main/java/com/chronie/gift/ui/markdown/MarkdownParser.kt:205-404 | empty text gives no node; otherwise between 1 and `\|text\|` nodes, each a text, link or image |
| InlineParser.ParseInline | android/app/src/main/java/com/chronie/gift/ui/markdown/MarkdownParser.kt:202-405 | the loop computes `InlineNodes` |
| InlineParser.ScanAtStar | android/app/src/main/java/com/chronie/gift/ui/markdown/MarkdownParser.kt:312-323 | a `*` not followed by `*` goes to the italic branch |
| InlineParser.ScanAtTick | android/app/src/main/java/com/chronie/gift/ui/markdown/MarkdownParser.kt:351-362 | a backtick goes to the code branch |
| InlineParser.ScanAtUnderscore | android/app/src/main/java/com/chronie/gift/ui/markdown/MarkdownParser.kt:338-349 | `__` not followed by `_` goes to the underline branch |
| InlineParser.ScanAtTilde | android/app/src/main/java/com/chronie/gift/ui/markdown/MarkdownParser.kt:325-336 | `~~` goes to the strikethrough branch |
| InlineParser.ScanAtTripleStar | android/app/src/main/java/com/chronie/gift/ui/markdown/MarkdownParser.kt:273-284 | `***` opens a bold-italic span up to the next `***`; unclosed, it emits `*` and advances one |
| InlineParser.ScanAtTripleUnderscore | android/app/src/main/java/com/chronie/gift/ui/markdown/MarkdownParser.kt:286-297 | `___` opens a bold-italic span up to the next `___`; unclosed, it emits `_` and advances one |
| InlineParser.ScanAtDoubleStar | android/app/src/main/java/com/chronie/gift/ui/markdown/MarkdownParser.kt:299-310 | `**` not followed by `*` opens a bold span up to the next `**`; unclosed, it emits `*` and advances one |
| InlineParser.UnclosedStarOrTick | android/app/src/main/java/com/chronie/gift/ui/markdown/MarkdownParser.kt:312-361 | an unclosed `*` or backtick emits only that character and advances one |
| InlineParser.UnclosedUnderscores | android/app/src/main/java/com/chronie/gift/ui/markdown/MarkdownParser.kt:338-349 | an unclosed `__` emits `_` and advances one |
| InlineParser.UnclosedTildes | android/app/src/main/java/com/chronie/gift/ui/markdown/MarkdownParser.kt:325-336 | an unclosed `~~` emits `~` and advances one |
| InlineParser.UnclosedAngle | android/app/src/main/java/com/chronie/gift/ui/markdown/MarkdownParser.kt:385-389 | a `<` with no `>` after it emits `<` and advances one |
| InlineParser.PlainRun | android/app/src/main/java/com/chronie/gift/ui/markdown/MarkdownParser.kt:392-401 | text with no special character anywhere is a single normal text node |
| InlineParser.UnclosedStar | android/app/src/main/java/com/chronie/gift/ui/markdown/MarkdownParser.kt:312-322 | `*abc` gives `[Text("*"), Text("abc")]` |
| InlineParser.ImageNode | android/app/src/main/java/com/chronie/gift/ui/markdown/MarkdownParser.kt:215-242 | a complete `![alt](target)` is one image node with that alt text and the target's URL, followed by the nodes of the rest |
| InlineParser.LinkNode | android/app/src/main/java/com/chronie/gift/ui/markdown/MarkdownParser.kt:244-270 | a complete `[caption](target)` is one link node with the target's URL and the caption's own nodes, followed by the nodes of the rest |
| InlineSegments.Single | android/app/src/main/java/com/chronie/gift/ui/markdown/MarkdownRenderer.kt:594-609 | a non-text child gets one proper segment that stands for exactly that child (math and chemical fields copied) |
| InlineSegments.CloseKeeps | android/app/src/main/java/com/chronie/gift/ui/markdown/MarkdownRenderer.kt:582-587 | flushing keeps the covered children and the grouping, and never adds an empty text segment |
| InlineSegments.TakeText | android/app/src/main/java/com/chronie/gift/ui/markdown/MarkdownRenderer.kt:591-593 | appending a text or link child to the open run keeps the loop invariant |
| InlineSegments.TakeOther | android/app/src/main/java/com/chronie/gift/ui/markdown/MarkdownRenderer.kt:594-609 | a non-text child flushes the run and adds its own segment, keeping the loop invariant |
| InlineSegments.BuildInlineSegments | android/app/src/main/java/com/chronie/gift/ui/markdown/MarkdownRenderer.kt:578-615 | flattening the segments gives back the children in order. Every segment is proper: text segments are non-empty and hold only text and links. No two text segments are adjacent. There are no more segments than children |
| InlineSegments.GroupedUnique | android/app/src/main/java/com/chronie/gift/ui/markdown/MarkdownRenderer.kt:589-613 | two grouped segmentations of the same children are equal, so the result is the only one |
| Macros.MapOf | android/app/src/main/java/com/chronie/gift/ui/markdown/FormulaRenderer.kt:108-364 | `mapOf` keeps one entry per key |
| Macros.MapOfKeys | android/app/src/main/java/com/chronie/gift/ui/markdown/FormulaRenderer.kt:108-364 | it has exactly the keys of the pairs |
| Macros.MapOfValues | android/app/src/main/java/com/chronie/gift/ui/markdown/FormulaRenderer.kt:108-364 | each key maps to its last value among the pairs |
| Macros.MapOfOrder | android/app/src/main/java/com/chronie/gift/ui/markdown/FormulaRenderer.kt:108-364 | keys keep the order of their first occurrence |
| Macros.SortByKeyLength | android/app/src/main/java/com/chronie/gift/ui/markdown/FormulaRenderer.kt:367-368 | the sorted list is ordered by descending key length and is a permutation of its input |
| Macros.SortStable | android/app/src/main/java/com/chronie/gift/ui/markdown/FormulaRenderer.kt:367-368 | entries of equal key length keep their order |
| Macros.SortKeys | android/app/src/main/java/com/chronie/gift/ui/markdown/FormulaRenderer.kt:367-368 | sorting keeps the keys and their uniqueness |
| Macros.MacroOrder | android/app/src/main/java/com/chronie/gift/ui/markdown/FormulaRenderer.kt:366-371 | the applied list has unique, non-empty command keys in descending length order, exactly the table's keys, each with its last value |
| Macros.ApplyMacros | android/app/src/main/java/com/chronie/gift/ui/markdown/FormulaRenderer.kt:367-371 | the `forEach` loop applies every entry of the ordered table in turn |
| Macros.ApplyAllAbsent | android/app/src/main/java/com/chronie/gift/ui/markdown/FormulaRenderer.kt:369-371 | entries whose keys do not occur leave the text unchanged |
| Macros.ApplyAllOne | android/app/src/main/java/com/chronie/gift/ui/markdown/FormulaRenderer.kt:369-371 | when only one entry's key occurs, before and after its replacement, the pass is that one replacement |
| Macros.MacroPassNone | android/app/src/main/java/com/chronie/gift/ui/markdown/FormulaRenderer.kt:366-371 | a formula containing no command key is unchanged by the macro pass |
| Macros.MacroPassOne | android/app/src/main/java/com/chronie/gift/ui/markdown/FormulaRenderer.kt:366-371 | a formula containing one key, and no other before or after its replacement, gets only that replacement |
| Macros.DuplicatesKeepLaterValue | android/app/src/main/java/com/chronie/gift/ui/markdown/FormulaRenderer.kt:153-321 | duplicated keys keep the later value: `\circ` gives `°` and `\setminus` gives `∖`; the single entries `\le` and `\lim` give `≤` and `lim` |
| Macros.CircValue | android/app/src/main/java/com/chronie/gift/ui/markdown/FormulaRenderer.kt:305-321 | `\circ` maps to `°`, the later of its two entries |
| Macros.SetminusValue | android/app/src/main/java/com/chronie/gift/ui/markdown/FormulaRenderer.kt:204-221 | `\setminus` maps to `∖`, the later of its two entries |
| Macros.LessEqualValue | android/app/src/main/java/com/chronie/gift/ui/markdown/FormulaRenderer.kt:153-280 | `\le` maps to `≤` |
| Macros.LimValue | android/app/src/main/java/com/chronie/gift/ui/markdown/FormulaRenderer.kt:226 | `\lim` maps to `lim` |
| Macros.LeftBecomesLessEqual | android/app/src/main/java/com/chronie/gift/ui/markdown/FormulaRenderer.kt:153 | the macro pass turns `\left(` into `≤ft(` |
| Macros.MacrosKeepBigg | android/app/src/main/java/com/chronie/gift/ui/markdown/FormulaRenderer.kt:366-371 | the macro pass leaves `\bigg(` alone |
| Macros.MacrosKeepSplitRoot | android/app/src/main/java/com/chronie/gift/ui/markdown/FormulaRenderer.kt:366-371 | the macro pass leaves `\sq\text{rt}{x}` alone |
| Macros.DoubleBackslashLim | android/app/src/main/java/com/chronie/gift/ui/markdown/FormulaRenderer.kt:226 | the macro pass turns `\\lim_{x}` into `\lim_{x}` |
| FormulaPatterns.MatchAt | android/app/src/main/java/com/chronie/gift/ui/markdown/FormulaRenderer.kt:533 | a match of a handler pattern at the start of a text consumes at least one character and no more than the text (`Replace` is proved through `ReplaceNoMatch`, `ReplaceNoLead`, `ReplacePrefix`, `ReplaceOne` and `BracedHit`) |
| FormulaPatterns.MapThrough | android/app/src/main/java/com/chronie/gift/ui/markdown/FormulaRenderer.kt:536-610 | the per-character table keeps the length and maps each character through the table |
| FormulaPatterns.Cell | android/app/src/main/java/com/chronie/gift/ui/markdown/FormulaRenderer.kt:1019-1022 | a processed row is trimmed and holds no `&` |
| FormulaPatterns.Cells | android/app/src/main/java/com/chronie/gift/ui/markdown/FormulaRenderer.kt:1016-1022 | one processed cell per piece of the body split at `\\` |
| FormulaPatterns.FormatMatrix | android/app/src/main/java/com/chronie/gift/ui/markdown/FormulaRenderer.kt:1014-1026 | the result is wrapped in the delimiters with no `&` between them; a one-row body gives that row's cell; `MatrixRows` gives every further row |
| FormulaPatterns.FormatCases | android/app/src/main/java/com/chronie/gift/ui/markdown/FormulaRenderer.kt:1047-1059 | the result holds no `&`; a single case gives that case's cell; `CasesRows` gives every further case |
| FormulaPatterns.CellPlain | android/app/src/main/java/com/chronie/gift/ui/markdown/FormulaRenderer.kt:1019-1022 | a row without `&` is only trimmed |
| FormulaPatterns.CellAmp | android/app/src/main/java/com/chronie/gift/ui/markdown/FormulaRenderer.kt:1019-1022 | in a row `a&b`, with `a` and `b` non-empty and free of `&`, `a` not starting and `b` not ending in whitespace, the `&` becomes `amp`: the cell is `a + amp + b` |
| FormulaPatterns.CellsFirst | android/app/src/main/java/com/chronie/gift/ui/markdown/FormulaRenderer.kt:1016-1022 | when `a` holds no `\\` and does not end in a backslash, the cells of `a\\b` are the cell of `a` followed by the cells of `b` |
| FormulaPatterns.MatrixRows | android/app/src/main/java/com/chronie/gift/ui/markdown/FormulaRenderer.kt:1014-1026 | for such an `a`, a matrix body `a\\b` gives the delimiters around the cell of `a`, `; `, and the rows of `b` |
| FormulaPatterns.CasesRows | android/app/src/main/java/com/chronie/gift/ui/markdown/FormulaRenderer.kt:1047-1059 | for such an `a`, a cases body `a\\b` gives the cell of `a`, `, `, and the cases of `b` |
| FormulaPatterns.MatrixTwoByTwo | android/app/src/main/java/com/chronie/gift/ui/markdown/FormulaRenderer.kt:1014-1026 | a two-by-two body `a&b\\c&d` gives `a b; c d` inside the delimiters |
| FormulaPatterns.CasesTwo | android/app/src/main/java/com/chronie/gift/ui/markdown/FormulaRenderer.kt:1047-1059 | two cases `a&b\\c&d` give `a if b, c if d` |
| FormulaPatterns.ReplaceNoMatch | android/app/src/main/java/com/chronie/gift/ui/markdown/FormulaRenderer.kt:534 | `replace` with no match anywhere leaves the text unchanged |
| FormulaPatterns.ReplaceNoLead | android/app/src/main/java/com/chronie/gift/ui/markdown/FormulaRenderer.kt:534 | a text without the literal start of a pattern is unchanged |
| FormulaPatterns.NoLeadOccurs | android/app/src/main/java/com/chronie/gift/ui/markdown/FormulaRenderer.kt:534 | a text without the literal start of a pattern has no match anywhere |
| FormulaPatterns.ReplacePrefix | android/app/src/main/java/com/chronie/gift/ui/markdown/FormulaRenderer.kt:534 | text without the first character of the pattern's literal start passes through `replace` unchanged, in front of whatever follows |
| FormulaPatterns.ReplaceOne | android/app/src/main/java/com/chronie/gift/ui/markdown/FormulaRenderer.kt:534 | one match between match-free text is the only rewrite |
| FormulaExamples.BracedHit | android/app/src/main/java/com/chronie/gift/ui/markdown/FormulaRenderer.kt:532-534 | a `prefix{g}` match after text that cannot start one is rewritten in place, and `replace` goes on with the rest |
| FormulaPatterns.ReplaceShorter | android/app/src/main/java/com/chronie/gift/ui/markdown/FormulaRenderer.kt:511-516 | a rewrite that shortens every match shortens the text whenever a match exists, so the `containsMatchIn` loops end |
| FormulaPatterns.UnwrapShrinks | android/app/src/main/java/com/chronie/gift/ui/markdown/FormulaRenderer.kt:769-773 | unwrapping `\text{…}` shortens each match |
| FormulaPatterns.RootShrinks | android/app/src/main/java/com/chronie/gift/ui/markdown/FormulaRenderer.kt:511-516 | `\sqrt{x}` to `√(x)` shortens each match |
| FormulaPatterns.ReplaceConstantChars | android/app/src/main/java/com/chronie/gift/ui/markdown/FormulaRenderer.kt:417-422 | replacing matches by a constant brings in no character the constant and the text lack |
| FormulaPatterns.RemoveCommands | android/app/src/main/java/com/chronie/gift/ui/markdown/FormulaRenderer.kt:417-419 | after the unknown-command pass no backslash is followed by an ASCII letter |
| FormulaPatterns.Collapse | android/app/src/main/java/com/chronie/gift/ui/markdown/FormulaRenderer.kt:422 | after the whitespace pass no two whitespace characters are adjacent, and no command comes back |
| Formula.ReplaceEachFixed | android/app/src/main/java/com/chronie/gift/ui/markdown/FormulaRenderer.kt:778-833 | a chain of replacements none of whose patterns can start in the text leaves it unchanged |
| HandlerGroups.ReplaceEachPrefix | android/app/src/main/java/com/chronie/gift/ui/markdown/FormulaRenderer.kt:778-968 | text without a backslash passes through a chain of command rules (fonts, operators, accents) unchanged, in front of whatever follows |
| HandlerGroups.RuleInContext | android/app/src/main/java/com/chronie/gift/ui/markdown/FormulaRenderer.kt:778-968 | in a chain of command rules, a command that rule `k` always matches, and that no earlier rule can start at, is rewritten in place; the rest goes through the whole chain |
| HandlerGroups.FontGroup | android/app/src/main/java/com/chronie/gift/ui/markdown/FormulaRenderer.kt:778-833 | `handleMathFontCommands` (`MathFonts`): a font command with its argument, after backslash-free text, becomes the argument alone |
| MathExamples.FontsKeep | android/app/src/main/java/com/chronie/gift/ui/markdown/FormulaRenderer.kt:778-833 | `MathFonts` leaves a text without backslash unchanged |
| MathExamples.MatricesKeep | android/app/src/main/java/com/chronie/gift/ui/markdown/FormulaRenderer.kt:970-1009 | `handleMatrices` then `handleCases` (`Matrices`, `CasesEnvironment`) leave a text without backslash unchanged |
| MathExamples.CasesKeep | android/app/src/main/java/com/chronie/gift/ui/markdown/FormulaRenderer.kt:1031-1042 | `CasesEnvironment` leaves a text without backslash unchanged |
| HandlerGroups.LimitGroup | android/app/src/main/java/com/chronie/gift/ui/markdown/FormulaRenderer.kt:839-844 | `handleLimitsAndOperators` (`Limits`): `\lim_{g}`, after backslash-free text, becomes `lim` followed by `g` through the subscript table |
| HandlerGroups.LimitPair | android/app/src/main/java/com/chronie/gift/ui/markdown/FormulaRenderer.kt:846-891 | `\sum_{a}^{b}`, `\prod_{a}^{b}` and `\int_{a}^{b}` become the operator symbol, `a` through the subscript table and `b` through the superscript table |
| MathExamples.LimitsKeep | android/app/src/main/java/com/chronie/gift/ui/markdown/FormulaRenderer.kt:835-894 | `Limits` leaves a text without backslash unchanged |
| HandlerGroups.ApplyAllPrefix | android/app/src/main/java/com/chronie/gift/ui/markdown/FormulaRenderer.kt:896-929 | text without a backslash passes through a chain of plain replacements of command keys unchanged, in front of whatever follows |
| HandlerGroups.KeyInContext | android/app/src/main/java/com/chronie/gift/ui/markdown/FormulaRenderer.kt:896-929 | in such a chain, a key that no earlier key can start at becomes its value in place, and the rest goes through the whole chain |
| HandlerGroups.BracketInContext | android/app/src/main/java/com/chronie/gift/ui/markdown/FormulaRenderer.kt:896-929 | `handleBrackets` (`Brackets`): each bracket command other than `\bigg` and `\Bigg`, after backslash-free text, becomes its glyph, or nothing for the sizing commands |
| HandlerGroups.BiggInContext | android/app/src/main/java/com/chronie/gift/ui/markdown/FormulaRenderer.kt:904-907 | `\bigg` and `\Bigg` become a stray `g`, because `\big` and `\Big` are replaced before them |
| HandlerGroups.BracketsPrefix | android/app/src/main/java/com/chronie/gift/ui/markdown/FormulaRenderer.kt:896-929 | `Brackets` leaves backslash-free text in front of whatever follows it unchanged |
| HandlerGroups.AccentGroup | android/app/src/main/java/com/chronie/gift/ui/markdown/FormulaRenderer.kt:931-968 | `handleAccents` (`Accents`): an accent command with its argument, after backslash-free text, becomes the argument followed by the accent's mark |
| MathExamples.BracketsAccentsKeep | android/app/src/main/java/com/chronie/gift/ui/markdown/FormulaRenderer.kt:896-968 | `Brackets` then `Accents` leave a text without backslash unchanged |
| MathExamples.RootsKeep | android/app/src/main/java/com/chronie/gift/ui/markdown/FormulaRenderer.kt:507-527 | `handleSqrt` (`Roots`) leaves a text without backslash unchanged |
| Formula.UnwrapText | android/app/src/main/java/com/chronie/gift/ui/markdown/FormulaRenderer.kt:765-776 | the result is no longer than the input and holds no `\text{…}`; an input with none is unchanged |
| Formula.HandleTextCommand | android/app/src/main/java/com/chronie/gift/ui/markdown/FormulaRenderer.kt:765-776 | the loop computes `UnwrapText` |
| Formula.SquareRoots | android/app/src/main/java/com/chronie/gift/ui/markdown/FormulaRenderer.kt:509-516 | the result is no longer than the input and holds no `\sqrt{…}`; an input with none is unchanged |
| Formula.HandleSqrt | android/app/src/main/java/com/chronie/gift/ui/markdown/FormulaRenderer.kt:507-527 | the loop and the indexed-root pass compute `Roots` |
| Formula.CloseScan | android/app/src/main/java/com/chronie/gift/ui/markdown/FormulaRenderer.kt:489-498 | the scan returns -1 or an index after its start |
| Formula.CloseScanFinds | android/app/src/main/java/com/chronie/gift/ui/markdown/FormulaRenderer.kt:489-504 | the scan ends just after the brace that closes the opening one, or returns -1 when no brace closes it |
| Formula.ExtractBraces | android/app/src/main/java/com/chronie/gift/ui/markdown/FormulaRenderer.kt:484-505 | on success the content is the text strictly between the braces and the index is at most the length; `null` goes with -1 |
| Formula.ExtractBracesSpec | android/app/src/main/java/com/chronie/gift/ui/markdown/FormulaRenderer.kt:484-505 | it fails exactly when `text[start]` is not `{` or no later brace closes it; on success the returned index is one past the closing brace |
| Formula.BalancedContent | android/app/src/main/java/com/chronie/gift/ui/markdown/FormulaRenderer.kt:500-501 | the closing character is `}`, the content is balanced, and no prefix of it closes more braces than it opens |
| Formula.ExtractBalancedBraces | android/app/src/main/java/com/chronie/gift/ui/markdown/FormulaRenderer.kt:484-505 | the counting loop computes `ExtractBraces` |
| Formula.FractionAt | android/app/src/main/java/com/chronie/gift/ui/markdown/FormulaRenderer.kt:458-472 | a rewrite found at `i` is 7 characters shorter and needs `{` right after `\frac{` |
| Formula.FractionStep | android/app/src/main/java/com/chronie/gift/ui/markdown/FormulaRenderer.kt:453-473 | a rewrite is 7 characters shorter, and the first `\frac{` is followed by another `{` |
| Formula.Fractions | android/app/src/main/java/com/chronie/gift/ui/markdown/FormulaRenderer.kt:445-478 | the loop leaves a text no longer than the input in which no fraction step applies |
| Formula.HandleFractions | android/app/src/main/java/com/chronie/gift/ui/markdown/FormulaRenderer.kt:445-478 | the `continueProcessing` loop computes `Fractions` |
| Formula.DoubleBraceStep | android/app/src/main/java/com/chronie/gift/ui/markdown/FormulaRenderer.kt:459-470 | `\frac{{a}{b}` is rewritten in one step to `(a/b)` |
| Formula.FractionOfDoubleBrace | android/app/src/main/java/com/chronie/gift/ui/markdown/FormulaRenderer.kt:459-470 | `\frac{{a}{b}` becomes `(a/b)` |
| Formula.FractionNeedsDoubleBrace | android/app/src/main/java/com/chronie/gift/ui/markdown/FormulaRenderer.kt:459-462 | when the first `\frac{` is not followed by `{`, the fraction handler returns its input unchanged |
| Formula.Unbraced | android/app/src/main/java/com/chronie/gift/ui/markdown/FormulaRenderer.kt:406 | no brace is left |
| Formula.Spacing | android/app/src/main/java/com/chronie/gift/ui/markdown/FormulaRenderer.kt:409-414 | the spacing replacements bring in no brace |
| Formula.PassesClean | android/app/src/main/java/com/chronie/gift/ui/markdown/FormulaRenderer.kt:417-422 | after the command and whitespace passes: no brace, no command, no two adjacent whitespace characters |
| Formula.TrimClean | android/app/src/main/java/com/chronie/gift/ui/markdown/FormulaRenderer.kt:424 | trimming such a text leaves it clean at both ends as well |
| Formula.CleanupClean | android/app/src/main/java/com/chronie/gift/ui/markdown/FormulaRenderer.kt:406-424 | `Cleanup`, the clean-up at the end of `preprocessMathFormula`, always leaves a clean text |
| Formula.MathOutputClean | android/app/src/main/java/com/chronie/gift/ui/markdown/FormulaRenderer.kt:104-425 | every output of `PreprocessMath` has no brace, no backslash before an ASCII letter, no two adjacent whitespace characters, and no whitespace at either end |
| Formula.PreprocessMathFormula | android/app/src/main/java/com/chronie/gift/ui/markdown/FormulaRenderer.kt:104-425 | the chain of handlers computes `PreprocessMath`, and its result is clean |
| Formula.PreprocessChemical | android/app/src/main/java/com/chronie/gift/ui/markdown/FormulaRenderer.kt:430-443 | the result has no brace and no whitespace at either end |
| FormulaExamples.SubscriptGroup | android/app/src/main/java/com/chronie/gift/ui/markdown/FormulaRenderer.kt:532-572 | `handleSubscripts` (`Subscripts`): `_{g}` after text without `_` becomes `g` mapped through the subscript table, and the handler goes on with the rest |
| FormulaExamples.SuperscriptGroup | android/app/src/main/java/com/chronie/gift/ui/markdown/FormulaRenderer.kt:619-689 | `handleSuperscripts` (`Superscripts`): `^{g}` after text without `^` becomes `g` mapped through the superscript table, and the handler goes on with the rest |
| FormulaExamples.SubscriptSingle | android/app/src/main/java/com/chronie/gift/ui/markdown/FormulaRenderer.kt:574-612 | `_c` for an ASCII letter or digit, after text without `_`, becomes the subscript glyph of `c`, and the handler goes on with the rest |
| FormulaExamples.SubscriptB | android/app/src/main/java/com/chronie/gift/ui/markdown/FormulaRenderer.kt:574-612 | `_b` loses its underscore although `b` has no subscript glyph |
| FormulaExamples.SuperscriptSingle | android/app/src/main/java/com/chronie/gift/ui/markdown/FormulaRenderer.kt:692-760 | `^c` for a character of the class, after text without `^`, becomes its superscript glyph, and the handler goes on with the rest |
| FormulaExamples.SuperscriptComma | android/app/src/main/java/com/chronie/gift/ui/markdown/FormulaRenderer.kt:692 | `^,` loses its caret, because `,` lies in the class range `+`..`=` |
| ChemicalExamples.ScriptsAbsent | android/app/src/main/java/com/chronie/gift/ui/markdown/FormulaRenderer.kt:529-614 | without the mark, the handler changes nothing |
| ChemicalExamples.ChemicalChain | android/app/src/main/java/com/chronie/gift/ui/markdown/FormulaRenderer.kt:430-443 | the chemical pass is subscripts, then superscripts, then brace removal and trim |
| ChemicalExamples.Water | android/app/src/main/java/com/chronie/gift/ui/markdown/FormulaRenderer.kt:430-443 | `H_2O` gives `H₂O` |
| ChemicalExamples.IronNoSubscript | android/app/src/main/java/com/chronie/gift/ui/markdown/FormulaRenderer.kt:529-614 | `Fe^{3+}` has nothing for the subscript handler |
| ChemicalExamples.IronCharge | android/app/src/main/java/com/chronie/gift/ui/markdown/FormulaRenderer.kt:616-763 | the superscript handler turns `Fe^{3+}` into `Fe³⁺` |
| ChemicalExamples.IronIon | android/app/src/main/java/com/chronie/gift/ui/markdown/FormulaRenderer.kt:430-443 | `Fe^{3+}` gives `Fe³⁺` |
| MathExamples.HandlersKeepPlain | android/app/src/main/java/com/chronie/gift/ui/markdown/FormulaRenderer.kt:375-403 | a text without backslash, `_` or `^` passes through `Handlers`, the whole handler chain, unchanged |
| MathExamples.LeftEndToEnd | android/app/src/main/java/com/chronie/gift/ui/markdown/FormulaRenderer.kt:104-425 | `\left(` comes out as `≤ft(` |
| MathExamples.BiggBrackets | android/app/src/main/java/com/chronie/gift/ui/markdown/FormulaRenderer.kt:900-907 | the bracket handler turns `\bigg(` into `g(` |
| MathExamples.BiggEndToEnd | android/app/src/main/java/com/chronie/gift/ui/markdown/FormulaRenderer.kt:104-425 | `\bigg(` comes out as `g(` |
| MathExamples.FractionUnbraced | android/app/src/main/java/com/chronie/gift/ui/markdown/FormulaRenderer.kt:406 | brace removal turns `\frac{a}{b}` into `\frac` + a + b |
| MathExamples.FractionCommandRemoved | android/app/src/main/java/com/chronie/gift/ui/markdown/FormulaRenderer.kt:417-419 | when `a` does not start with an ASCII letter, the unknown-command pass then drops only `\frac` |
| MathExamples.FractionCleanup | android/app/src/main/java/com/chronie/gift/ui/markdown/FormulaRenderer.kt:406-424 | for `a` and `b` without backslash, brace, `_`, `^` or whitespace, and `a` non-empty and not starting with an ASCII letter, the clean-up turns `\frac{a}{b}` into a + b |
| MathExamples.FractionDropped | android/app/src/main/java/com/chronie/gift/ui/markdown/FormulaRenderer.kt:104-425 | under the same conditions (the numerator does not start with an ASCII letter), `\frac{a}{b}` comes out as a + b, so `\frac{1}{2}` gives `12` |
| MathExamples.FractionLetterCommand | android/app/src/main/java/com/chronie/gift/ui/markdown/FormulaRenderer.kt:417-419 | when the numerator starts with a letter, the unknown-command pass removes `\frac` together with the letter run that follows it |
| MathExamples.FractionSwallowed | android/app/src/main/java/com/chronie/gift/ui/markdown/FormulaRenderer.kt:104-425 | for `a` and `b` as in `FractionCleanup` but with `a` starting with an ASCII letter, `\frac{a}{b}` comes out as a + b without its leading letters, so `\frac{x+1}{2}` gives `+12` |
| MathExamples.FractionOfLetters | android/app/src/main/java/com/chronie/gift/ui/markdown/FormulaRenderer.kt:104-425 | with letters only, `\frac{a}{b}` comes out as the empty formula |
| MathExamples.TextJoinsCommand | android/app/src/main/java/com/chronie/gift/ui/markdown/FormulaRenderer.kt:765-776 | unwrapping `\text{g}` inside a command joins the pieces around it |
| MathExamples.SplitRootReachesRoots | android/app/src/main/java/com/chronie/gift/ui/markdown/FormulaRenderer.kt:507-527 | `\sq\text{rt}{h}` becomes `\sqrt{h}`, and the root handler then gives `√(h)` |
| MathExamples.RootOfGroup | android/app/src/main/java/com/chronie/gift/ui/markdown/FormulaRenderer.kt:509-516 | `\sqrt{h}` gives `√(h)` |
| MathExamples.LimitOfGroup | android/app/src/main/java/com/chronie/gift/ui/markdown/FormulaRenderer.kt:839-844 | `\lim_{g}` gives `lim` with `g` in subscript glyphs |
| Numerals.Decimal | android/app/src/main/java/com/chronie/gift/data/UpdateChecker.kt:82-88 | the decimal text of a number is non-empty digits without a leading zero |
| Numerals.DecimalValue | android/app/src/main/java/com/chronie/gift/data/UpdateChecker.kt:82-88 | reading the decimal text back gives the number |
| Numerals.ParseInteger | android/app/src/main/java/com/chronie/gift/data/UpdateChecker.kt:82-88 | a parsed value lies in the range, is negative only after a `-`, and comes from text holding a digit |
| Numerals.ParseDigits | android/app/src/main/java/com/chronie/gift/data/UpdateChecker.kt:82-88 | digits whose value is in range parse to that value |
| Numerals.ParseNegated | android/app/src/main/java/com/chronie/gift/data/UpdateChecker.kt:82-88 | `-` and digits parse to the negated value when in range |
| Numerals.ParseSigned | android/app/src/main/java/com/chronie/gift/data/UpdateChecker.kt:82-88 | the signed text of any in-range number parses back to it |
| Numerals.NoDigitNoNumber | android/app/src/main/java/com/chronie/gift/data/UpdateChecker.kt:82-88 | text with no digit does not parse |
| Versions.Key | android/app/src/main/java/com/chronie/gift/data/UpdateChecker.kt:90-98 | the comparison key is the triple (major, date, time) |
| Versions.LexIrreflexive | android/app/src/main/java/com/chronie/gift/data/UpdateChecker.kt:90-98 | no key is greater than itself |
| Versions.LexAsymmetric | android/app/src/main/java/com/chronie/gift/data/UpdateChecker.kt:90-98 | no two keys are each greater than the other |
| Versions.LexTransitive | android/app/src/main/java/com/chronie/gift/data/UpdateChecker.kt:90-98 | the order is transitive |
| Versions.LexTotal | android/app/src/main/java/com/chronie/gift/data/UpdateChecker.kt:90-98 | of two keys, they are equal or one is greater |
| Versions.KeyOrder | android/app/src/main/java/com/chronie/gift/data/UpdateChecker.kt:90-98 | greater keys are exactly those with a greater major, then date, then time; equal keys are equal stamps |
| Versions.SplitDotted | android/app/src/main/java/com/chronie/gift/data/UpdateChecker.kt:75 | a printed stamp splits at `.` into its three decimal parts |
| Versions.PrintedSpelled | android/app/build.gradle.kts:18-22 | printing a stamp without leading zeros is one way of writing it as three digit runs, and it stands for the stamp |
| Versions.SplitSpelled | android/app/src/main/java/com/chronie/gift/data/UpdateChecker.kt:75 | a stamp written as three digit runs, leading zeros allowed, splits at `.` into those runs |
| Versions.PaddedDigits | android/app/build.gradle.kts:18-22 | the runs `1`, `20260106` and the zero-padded `0243` stand for 1, 20260106 and 243 |
| UpdateChecker.RemoveSuffix | android/app/src/main/java/com/chronie/gift/data/UpdateChecker.kt:76 | the suffix is removed exactly when present |
| UpdateChecker.VersionOf | android/app/src/main/java/com/chronie/gift/data/UpdateChecker.kt:75-88 | a read stamp comes from at least three parts, each within the Int, Long and Int ranges |
| UpdateChecker.NewerIsLexGreater | android/app/src/main/java/com/chronie/gift/data/UpdateChecker.kt:90-98 | the nested comparison is the lexicographic order on the triples |
| UpdateChecker.IsNewVersionAvailable | android/app/src/main/java/com/chronie/gift/data/UpdateChecker.kt:71-103 | true exactly when both stamps read and latest (without `.apk`) is lexicographically greater |
| UpdateChecker.ExtraPartIgnored | android/app/src/main/java/com/chronie/gift/data/UpdateChecker.kt:75-88 | parts after the third are ignored |
| UpdateChecker.ApkIgnored | android/app/src/main/java/com/chronie/gift/data/UpdateChecker.kt:76 | a trailing `.apk` does not change the stamp read |
| UpdateChecker.SuffixIgnored | android/app/src/main/java/com/chronie/gift/data/UpdateChecker.kt:76 | when both forms read, removing `.apk` does not change the stamp |
| UpdateChecker.NotNewerThanItself | android/app/src/main/java/com/chronie/gift/data/UpdateChecker.kt:90-98 | a version is not newer than itself, with or without `.apk` |
| UpdateChecker.NeverBothWays | android/app/src/main/java/com/chronie/gift/data/UpdateChecker.kt:90-98 | the check is never true in both directions |
| UpdateChecker.DottedReads | android/app/src/main/java/com/chronie/gift/data/UpdateChecker.kt:75-88 | a stamp printed without leading zeros reads back as itself |
| UpdateChecker.SpelledReads | android/app/src/main/java/com/chronie/gift/data/UpdateChecker.kt:75-88 | three digit runs in the Int, Long and Int ranges read as their values; leading zeros do not count |
| UpdateChecker.PaddedReads | android/app/src/main/java/com/chronie/gift/data/UpdateChecker.kt:75-88 | the app's own kind of version name `1.20260106.0243` reads as (1, 20260106, 243) |
| UpdateChecker.SpelledOfferedIffNewer | android/app/src/main/java/com/chronie/gift/data/UpdateChecker.kt:71-103 | for an installed name and a published `.apk` name written as digit runs in range, padded or not, the check is true exactly when the published stamp is lexicographically greater |
| UpdateChecker.UpdateOfferedIffNewer | android/app/src/main/java/com/chronie/gift/data/UpdateChecker.kt:71-103 | the same for stamps printed without leading zeros |
| UpdateChecker.LanguageCode | android/app/src/main/java/com/chronie/gift/data/UpdateChecker.kt:63-68 | `zh-cn` exactly for (zh, CN), `zh-tw` exactly for (zh, TW), `ja` for any Japanese locale, `en` otherwise |
| UpdateChecker.CountryOnlyForChinese | android/app/src/main/java/com/chronie/gift/data/UpdateChecker.kt:63-68 | outside Chinese the country does not matter |
| UpdateChecker.ChangelogText | android/app/src/main/java/com/chronie/gift/data/UpdateChecker.kt:40 | the entry for the code, else the `en` entry, else `""` |
| UpdateChecker.UpdateFor | android/app/src/main/java/com/chronie/gift/data/UpdateChecker.kt:35-48 | an update is returned exactly for a successful response with a newer latest name. It carries that name, the download URL built from it, the chosen changelog, and the size or `0.0` |
| UpdateChecker.NoOfferOfInstalled | android/app/src/main/java/com/chronie/gift/data/UpdateChecker.kt:35-48 | a response naming the installed version offers nothing |
| Answers.ParseFilename | android/app/src/main/java/com/chronie/gift/ui/screens/AnswersScreen.kt:383-393 | the result is non-empty exactly for six ASCII digits followed by `.md`. The year is `20` and two digits; the month and the activity are two digits each |
| Answers.FilenameRoundTrip | android/app/src/main/java/com/chronie/gift/ui/screens/AnswersScreen.kt:385-390 | year without `20`, then month, then activity, then `.md` give the name back |
| Answers.ParseBuiltName | android/app/src/main/java/com/chronie/gift/ui/screens/AnswersScreen.kt:386-390 | a name built from three digit pairs parses to `20` + the first pair, the second pair and the third pair |
| Answers.October2025 | android/app/src/main/java/com/chronie/gift/ui/screens/AnswersScreen.kt:386-390 | `251001.md` gives (`2025`, `10`, `01`) |
| Answers.MonthName | android/app/src/main/java/com/chronie/gift/ui/screens/AnswersScreen.kt:414-424 | the result is the input or one of the month names |
| Answers.TwoDigitMonth | android/app/src/main/java/com/chronie/gift/ui/screens/AnswersScreen.kt:414-424 | two digits naming 1 to 12 give that month's name; anything else gives the input |
| Answers.MonthOfAnswer | android/app/src/main/java/com/chronie/gift/ui/screens/AnswersScreen.kt:414-424 | the month of a parsed name gives its month name, or itself when out of range |
| ApkServer.ExtractInfo | server/main.js:71-81 | the triple is natural, and (0, 0, 0) for a name not of the form digits.digits.digits`.apk`; `ExtractSpelled` gives the value of every release name |
| ApkServer.ExtractSpelled | server/main.js:72-79 | three digit runs, leading zeros allowed, with `.apk` form a release name whose triple is the runs' base-10 values |
| ApkServer.ReleaseSpelled | server/main.js:72 | every release name is three digit runs with `.apk`, so `ExtractSpelled` covers all of them |
| ApkServer.PaddedRelease | server/main.js:68-79 | the name `1.20260106.0243.apk` gives (1, 20260106, 243) |
| ApkServer.ExtractDotted | server/main.js:72-79 | a stamp printed without leading zeros, with `.apk`, gives its triple back |
| ApkServer.Compare | server/main.js:87-89 | 0 exactly for equal triples, negative exactly when the first is newer |
| ApkServer.CompareAntisymmetric | server/main.js:87-89 | swapping the arguments negates the result |
| ApkServer.CompareTransitive | server/main.js:87-89 | the comparator is transitive |
| ApkServer.Insert | server/main.js:69-90 | inserting into a newest-first list keeps it sorted and adds exactly the element |
| ApkServer.SortNewestFirst | server/main.js:69-90 | the sorted list is newest first and a permutation of its input |
| ApkServer.InsertStable | server/main.js:69-90 | inserting into a newest-first list puts the new name in front of every name with the same triple and moves no other |
| ApkServer.SortStable | server/main.js:69-90 | the sort is stable: for every triple, the names with that triple come out in their input order |
| ApkServer.KeepEnding | server/main.js:66 | the filter keeps every name with the suffix, as often as it occurs, and nothing else |
| ApkServer.ApkListing | server/main.js:66-92 | the data are the `.apk` names, newest first. `latest` is absent exactly when there are none, and is otherwise the first |
| ApkServer.LatestIsNewest | server/main.js:92 | `latest` exists exactly when some `.apk` name does; it is one of them, and no `.apk` name is newer |
| ApkServer.FirstIsNewest | server/main.js:92 | the head of a newest-first list is as new as any element |
| ApkServer.CheckDownload | server/main.js:134-140 | a name is rejected with status 400 exactly when it does not end in `.apk` |
| ApkServer.ListedDownloadable | server/main.js:134-140 | every listed name passes the download check |
| ApkServer.MarkdownListing | server/main.js:209 | the listing holds exactly the `.md` names, with their multiplicities |
| Releases.ApkName | server/main.js:68-72 | a release's file name, its written stamp with `.apk`, ends in `.apk` |
| Releases.NameValue | server/main.js:72-79 | the server reads a release's file name as the value of its written stamp |
| Releases.ApkNames | server/main.js:66 | one file name per release, in order |
| Releases.AboveNotBelow | server/main.js:87-89 | if `b` is not above `a` and `b` is above `c`, then `a` is above `c` |
| Releases.LatestStamp | server/main.js:92 | for releases written as digit runs, padded or not, the server's `latest` is the file of a release that no release is newer than |
| Releases.NewerOffered | android/app/src/main/java/com/chronie/gift/data/UpdateChecker.kt:90-98 | if some release is newer than the installed version (both written as digit runs in range, padded or not), the client offers the server's `latest` |
| Releases.OfferedNewer | android/app/src/main/java/com/chronie/gift/data/UpdateChecker.kt:90-98 | if the client offers `latest`, some release is newer than the installed version; stamps as in `NewerOffered` |
| Releases.OfferIffSomeReleaseNewer | android/app/src/main/java/com/chronie/gift/data/UpdateChecker.kt:71-103 | for stamps written as digit runs in range, padded or not, the client offers the server's `latest` exactly when some published release is newer than the installed version |

## Left out

- Compose UI: the renderer composables, screens, components and themes draw widgets and have nothing to prove.
- Network and file I/O: the HTTP call of `checkForUpdates` and the file reads and streaming of the server routes. The response, the directory listing and the locale become parameters (`UpdateFor`, `ApkListing`, `LanguageCode`).
- The APK size in MB is a float (`server/main.js:100`); the model carries the size text as given.
- `localeCompare` on the `.md` listing is locale-dependent. `MarkdownListing` states the filter and not the order.
- ApkServer.SortNewestFirst: the model is a stable insertion sort (`SortStable`). JavaScript engines have had to sort stably since ECMAScript 2019; an older engine may order names with equal triples differently.
- JavaScript `parseInt` loses precision above 2^53; the model uses unbounded integers.
- Numerals.ParseInteger: Kotlin's `toInt`/`toLong` also accept non-ASCII decimal digits; the model reads an optional sign and ASCII digits only.
- `trim()` and `\s` differ on some Unicode spaces; the model uses one whitespace class for both.
- The regular expression engine is not modelled; each pattern the code uses is a hand-written predicate or a `Pattern` case.
- The macro table is a constant sequence of (key, value) pairs, one group per block of the source, in source order, turned into a map by `MapOf` as `mapOf` does; the sub/superscript tables and `toSubscript`/`toSuperscript` are `match` functions, following the source's `when`.
- The `MathFormula` and `ChemicalFormula` nodes exist in the datatype, but no parser rule builds them, and the model invents no `$…$` syntax.
- BlockParser.Parse: the list branch is kept in the dispatch. Since it never fires, the construction of list items and the checkbox parsing are not modelled.
- MathExamples.FractionDropped: the literal instance `\frac{1}{2}` → `12` is not proved separately; it follows from the general lemma with `a = "1"` and `b = "2"`. Likewise `\frac{x+1}{2}` → `+12` follows from `FractionSwallowed` and is not proved as a literal.
- Formula.Matrices, Formula.CasesEnvironment: proved only to leave text without a command alone (`MatricesKeep`, `CasesKeep`) and through the row formatting (`FormatMatrix`, `FormatCases`); no lemma places a whole `\begin{…}…\end{…}` environment in surrounding text, because its body may hold further backslashes.
- HandlerGroups.LimitPair: the one-bound forms `\sum_{a}`, `\prod_{a}` and `\int_{a}` are not proved in context, because the two-bound rule before each shares its literal start.
- InlineParser.ScanAt: Kotlin strings index UTF-16 code units, so the escape branch (`MarkdownParser.kt:207-211`) takes half of a surrogate pair where the model, whose characters are whole code points, takes the whole character.
- Formula.PreprocessMath: proved clean for every input and exact on the handler groups above and a few worked inputs; the matrix and cases environments and the one-bound operators inside the whole chain are not traced.

=== FILE: answers.dfy ===
/** The answer files of past events, named `yymmaa.md`: what their names
    say, and the month name shown for them. */
module Answers {
  import opened Wrappers
  import opened Text
  import opened Numerals

  /** Year, month and activity number read from a file name; all three
      empty when the name does not fit. */
  datatype FileInfo = FileInfo(year: string, month: string, activity: string)

  /** The whole name is six ASCII digits followed by ".md". */
  predicate AnswerName(filename: string) {
    |filename| == 9 && AllDigits(filename[..6]) && filename[6..] == ".md"
  }

  /** `parseFilename`: the first two digits are the year in this century,
      the next two the month, the last two the activity. */
  function ParseFilename(filename: string): (info: FileInfo)
    ensures AnswerName(filename) <==> info != FileInfo("", "", "")
    ensures AnswerName(filename) ==>
              |info.year| == 4 && info.year[..2] == "20" && AllDigits(info.year[2..])
              && |info.month| == 2 && AllDigits(info.month)
              && |info.activity| == 2 && AllDigits(info.activity)
  {
    if AnswerName(filename) then
      assert forall k | 0 <= k < 2 :: filename[2..4][k] == filename[..6][2 + k];
      assert forall k | 0 <= k < 2 :: filename[4..6][k] == filename[..6][4 + k];
      assert ("20" + filename[..2])[2..] == filename[..2];
      FileInfo("20" + filename[..2], filename[2..4], filename[4..6])
    else FileInfo("", "", "")
  }

  /** The parts of a fitting name, the year without its "20", give the name
      back. */
  lemma FilenameRoundTrip(filename: string)
    requires AnswerName(filename)
    ensures var info := ParseFilename(filename);
            info.year[2..] + info.month + info.activity + ".md" == filename
  {
    var info := ParseFilename(filename);
    assert info.year[2..] == filename[..2];
    assert filename == filename[..2] + filename[2..4] + filename[4..6] + filename[6..];
  }

  /** A name made of three two-digit parts and ".md" reads as those parts. */
  lemma ParseBuiltName(yy: string, mm: string, aa: string)
    requires |yy| == 2 && |mm| == 2 && |aa| == 2 && AllDigits(yy) && AllDigits(mm) && AllDigits(aa)
    ensures ParseFilename(yy + mm + aa + ".md") == FileInfo("20" + yy, mm, aa)
  {
    var f := yy + mm + aa + ".md";
    assert f[..2] == yy && f[2..4] == mm && f[4..6] == aa && f[6..] == ".md";
    assert AllDigits(f[..6]) by {
      forall k | 0 <= k < 6 ensures IsDigit(f[..6][k]) {
        if k < 2 { assert f[..6][k] == yy[k]; }
        else if k < 4 { assert f[..6][k] == mm[k - 2]; }
        else { assert f[..6][k] == aa[k - 4]; }
      }
    }
  }

  /** The name of the first activity of October 2025. */
  lemma October2025()
    ensures ParseFilename("251001.md") == FileInfo("2025", "10", "01")
  {
    ParseBuiltName("25", "10", "01");
    assert "25" + "10" + "01" + ".md" == "251001.md";
  }

  /** `getMonthName`, with the twelve localised month names as a
      parameter: the month's name when the text reads as an `Int` from 1 to
      12, and the text itself otherwise. */
  function MonthName(month: string, monthNames: seq<string>): (name: string)
    requires |monthNames| == 12
    ensures name == month || name in monthNames
  {
    match ParseInteger(month, IntMin, IntMax)
    case Some(m) =>
      var index := m - 1;
      if 0 <= index <= 11 then monthNames[index] else month
    case None => month
  }

  /** For two digits, as the file names carry, the name of month 01 to 12
      and the digits themselves for any other value such as 00 or 13. */
  lemma TwoDigitMonth(mm: string, monthNames: seq<string>)
    requires |mm| == 2 && AllDigits(mm) && |monthNames| == 12
    ensures var m := DigitsValue(mm);
            MonthName(mm, monthNames) == if 1 <= m <= 12 then monthNames[m - 1] else mm
  {
    assert mm[..1][..0] == [];
    assert DigitsValue(mm[..1]) == DigitValue(mm[..1][0]) < 10;
    assert DigitsValue(mm) < 100;
    assert ParseInteger(mm, IntMin, IntMax) == Some(DigitsValue(mm) as int);
  }

  /** The month of every fitting file name is shown as a month name or as
      its own two digits; the name itself is not checked for a valid
      month. */
  lemma MonthOfAnswer(filename: string, monthNames: seq<string>)
    requires AnswerName(filename) && |monthNames| == 12
    ensures var month := ParseFilename(filename).month;
            var m := DigitsValue(month);
            MonthName(month, monthNames) == if 1 <= m <= 12 then monthNames[m - 1] else month
  {
    TwoDigitMonth(ParseFilename(filename).month, monthNames);
  }
}

=== FILE: apk_server.dfy ===
/** The download server's release listing: which files are releases, the
    order they are listed in, the newest one, and the checks on requested
    file names. */
module ApkServer {
  import opened Wrappers
  import opened Text
  import opened Numerals
  import opened Versions

  /** A name of the form `digits.digits.digits.apk`, all of it. */
  predicate ReleaseName(filename: string) {
    EndsWith(filename, ".apk") &&
    var parts := Split(filename[..|filename| - 4], ".");
    |parts| == 3 && forall k | 0 <= k < 3 :: parts[k] != [] && AllDigits(parts[k])
  }

  /** `extractInfo`: the three numbers of a release name, and (0, 0, 0)
      for any other name. */
  function ExtractInfo(filename: string): (v: Version)
    ensures Natural(v)
    ensures !ReleaseName(filename) ==> v == Version(0, 0, 0)
  {
    if ReleaseName(filename) then
      var parts := Split(filename[..|filename| - 4], ".");
      Version(DigitsValue(parts[0]), DigitsValue(parts[1]), DigitsValue(parts[2]))
    else Version(0, 0, 0)
  }

  /** Every written stamp with `.apk` is a release name, and its triple is
      the value of the digit runs, leading zeros ignored. */
  lemma ExtractSpelled(w: Written)
    requires DigitRuns(w)
    ensures ReleaseName(Spelled(w) + ".apk")
    ensures ExtractInfo(Spelled(w) + ".apk") == ValueOf(w)
  {
    var name := Spelled(w) + ".apk";
    assert name[|name| - 4..] == ".apk";
    assert name[..|name| - 4] == Spelled(w);
    SplitSpelled(w);
  }

  /** Conversely, every release name is a written stamp with `.apk`. */
  lemma ReleaseSpelled(filename: string) returns (w: Written)
    requires ReleaseName(filename)
    ensures DigitRuns(w) && filename == Spelled(w) + ".apk"
  {
    var stem := filename[..|filename| - 4];
    var parts := Split(stem, ".");
    assert parts[0] != [] && AllDigits(parts[0]);
    assert parts[1] != [] && AllDigits(parts[1]);
    assert parts[2] != [] && AllDigits(parts[2]);
    w := Written(parts[0], parts[1], parts[2]);
    JoinSplit(stem, ".");
    assert parts[1..][1..] == [parts[2]];
    assert Join(parts, ".") == parts[0] + "." + (parts[1] + "." + parts[2]);
    assert filename == stem + filename[|filename| - 4..];
  }

  /** A stamp printed as `major.date.time.apk` reads back as itself. */
  lemma ExtractDotted(v: Version)
    requires Natural(v)
    ensures ExtractInfo(Dotted(v) + ".apk") == v
  {
    PrintedSpelled(v);
    ExtractSpelled(Printed(v));
  }

  /** The app's own kind of name, with the time padded to four digits. */
  lemma PaddedRelease()
    ensures ExtractInfo("1.20260106.0243.apk") == Version(1, 20260106, 243)
  {
    var w := Written("1", "20260106", "0243");
    assert Spelled(w) + ".apk" == "1.20260106.0243.apk";
    PaddedDigits();
    assert ValueOf(w) == Version(1, 20260106, 243);
    ExtractSpelled(w);
  }

  /** The comparator of the listing's sort; `a` goes first when it is
      negative. */
  function Compare(a: string, b: string): (r: int)
    ensures r == 0 <==> ExtractInfo(a) == ExtractInfo(b)
    ensures r < 0 <==> LexGreater(Key(ExtractInfo(a)), Key(ExtractInfo(b)))
  {
    var infoA, infoB := ExtractInfo(a), ExtractInfo(b);
    KeyOrder(infoA, infoB);
    if infoB.major != infoA.major then infoB.major - infoA.major
    else if infoB.date != infoA.date then infoB.date - infoA.date
    else infoB.time - infoA.time
  }

  /** Swapping the arguments negates the comparator. */
  lemma CompareAntisymmetric(a: string, b: string)
    ensures Compare(a, b) == -Compare(b, a)
  {
  }

  lemma CompareTransitive(a: string, b: string, c: string)
    requires Compare(a, b) <= 0 && Compare(b, c) <= 0
    ensures Compare(a, c) <= 0
  {
    var ka, kb, kc := Key(ExtractInfo(a)), Key(ExtractInfo(b)), Key(ExtractInfo(c));
    if LexGreater(ka, kb) && LexGreater(kb, kc) {
      LexTransitive(ka, kb, kc);
    }
  }

  /** Newer releases first: the order the comparator asks for. */
  predicate SortedNewestFirst(xs: seq<string>) {
    forall i, j | 0 <= i < j < |xs| :: Compare(xs[i], xs[j]) <= 0
  }

  /** A sorted sequence stays sorted behind an element that may precede
      all of it. */
  lemma SortedCons(x: string, xs: seq<string>)
    requires SortedNewestFirst(xs)
    requires forall j | 0 <= j < |xs| :: Compare(x, xs[j]) <= 0
    ensures SortedNewestFirst([x] + xs)
  {
    var r := [x] + xs;
    forall i, j | 0 <= i < j < |r| ensures Compare(r[i], r[j]) <= 0 {
      assert r[j] == xs[j - 1];
      if i > 0 {
        assert r[i] == xs[i - 1];
      }
    }
  }

  /** What may precede the head of a sorted sequence may precede all of
      it. */
  lemma PrecedesAll(x: string, xs: seq<string>)
    requires SortedNewestFirst(xs) && xs != [] && Compare(x, xs[0]) <= 0
    ensures forall j | 0 <= j < |xs| :: Compare(x, xs[j]) <= 0
  {
    forall j | 0 <= j < |xs| ensures Compare(x, xs[j]) <= 0 {
      if j > 0 {
        CompareTransitive(x, xs[0], xs[j]);
      }
    }
  }

  /** What may precede `x` and each of `tail` may precede each element of
      a rearrangement of `tail` with `x`. */
  lemma PrecedesMix(y: string, x: string, tail: seq<string>, mix: seq<string>)
    requires Compare(y, x) <= 0
    requires forall j | 0 <= j < |tail| :: Compare(y, tail[j]) <= 0
    requires multiset(mix) == multiset(tail) + multiset{x}
    ensures forall k | 0 <= k < |mix| :: Compare(y, mix[k]) <= 0
  {
    forall k | 0 <= k < |mix| ensures Compare(y, mix[k]) <= 0 {
      assert mix[k] in multiset(mix);
      if mix[k] != x {
        assert mix[k] in multiset(tail);
        var j :| 0 <= j < |tail| && tail[j] == mix[k];
      }
    }
  }

  /** The tail of a sorted sequence is sorted, and its head may precede
      all of the tail. */
  lemma SortedTail(xs: seq<string>)
    requires SortedNewestFirst(xs) && xs != []
    ensures SortedNewestFirst(xs[1..])
    ensures forall j | 0 <= j < |xs| - 1 :: Compare(xs[0], xs[1..][j]) <= 0
  {
    var tail := xs[1..];
    forall i, j | 0 <= i < j < |tail| ensures Compare(tail[i], tail[j]) <= 0 {
      assert tail[i] == xs[i + 1] && tail[j] == xs[j + 1];
    }
    forall j | 0 <= j < |tail| ensures Compare(xs[0], tail[j]) <= 0 {
      assert tail[j] == xs[j + 1];
    }
  }

  /** Inserting behind the head of a sorted sequence, when `x` may not
      precede that head, keeps the head first. */
  lemma InsertBehind(x: string, xs: seq<string>, rest: seq<string>)
    requires SortedNewestFirst(xs) && xs != [] && Compare(x, xs[0]) > 0
    requires forall j | 0 <= j < |xs| - 1 :: Compare(xs[0], xs[1..][j]) <= 0
    requires SortedNewestFirst(rest)
    requires multiset(rest) == multiset(xs[1..]) + multiset{x}
    ensures SortedNewestFirst([xs[0]] + rest)
    ensures multiset([xs[0]] + rest) == multiset(xs) + multiset{x}
  {
    var head, tail := xs[0], xs[1..];
    assert xs == [head] + tail;
    CompareAntisymmetric(x, head);
    PrecedesMix(head, x, tail, rest);
    SortedCons(head, rest);
  }

  /** `xs` with `x` put before the first element it may precede. */
  function Insert(x: string, xs: seq<string>): (r: seq<string>)
    requires SortedNewestFirst(xs)
    ensures SortedNewestFirst(r)
    ensures multiset(r) == multiset(xs) + multiset{x}
  {
    if xs == [] then [x]
    else if Compare(x, xs[0]) <= 0 then
      PrecedesAll(x, xs);
      SortedCons(x, xs);
      [x] + xs
    else
      SortedTail(xs);
      var rest := Insert(x, xs[1..]);
      InsertBehind(x, xs, rest);
      [xs[0]] + rest
  }

  /** `apks.sort(comparator)`: a permutation of the releases, newest
      first. */
  function SortNewestFirst(xs: seq<string>): (r: seq<string>)
    ensures SortedNewestFirst(r)
    ensures multiset(r) == multiset(xs)
  {
    if xs == [] then []
    else
      assert xs == [xs[0]] + xs[1..];
      Insert(xs[0], SortNewestFirst(xs[1..]))
  }

  /** The names in `xs` whose stamp is `v`, in their order. */
  function WithStamp(xs: seq<string>, v: Version): seq<string> {
    if xs == [] then []
    else (if ExtractInfo(xs[0]) == v then [xs[0]] else []) + WithStamp(xs[1..], v)
  }

  lemma WithStampCons(y: string, ys: seq<string>, v: Version)
    ensures WithStamp([y] + ys, v) == (if ExtractInfo(y) == v then [y] else []) + WithStamp(ys, v)
  {
    assert ([y] + ys)[0] == y && ([y] + ys)[1..] == ys;
  }

  /** `x` goes in front of every name with the same stamp. */
  lemma {:induction false} InsertStable(x: string, xs: seq<string>, v: Version)
    requires SortedNewestFirst(xs)
    ensures WithStamp(Insert(x, xs), v)
            == (if ExtractInfo(x) == v then [x] else []) + WithStamp(xs, v)
    decreases |xs|
  {
    if xs == [] {
    } else if Compare(x, xs[0]) <= 0 {
      WithStampCons(x, xs, v);
    } else {
      SortedTail(xs);
      InsertStable(x, xs[1..], v);
      PassHead(x, xs, Insert(x, xs[1..]), v);
    }
  }

  /** Passing a head with another stamp keeps the stamp's names in order. */
  lemma PassHead(x: string, xs: seq<string>, rest: seq<string>, v: Version)
    requires xs != [] && ExtractInfo(x) != ExtractInfo(xs[0])
    requires WithStamp(rest, v) == (if ExtractInfo(x) == v then [x] else []) + WithStamp(xs[1..], v)
    ensures WithStamp([xs[0]] + rest, v)
            == (if ExtractInfo(x) == v then [x] else []) + WithStamp(xs, v)
  {
    var h, tail := xs[0], xs[1..];
    WithStampCons(h, rest, v);
    WithStampCons(h, tail, v);
    assert xs == [h] + tail;
    var px := if ExtractInfo(x) == v then [x] else [];
    var ph := if ExtractInfo(h) == v then [h] else [];
    var w := WithStamp(tail, v);
    if px == [] {
      assert px + w == w && px + (ph + w) == ph + w;
    } else {
      assert ph == [];
      assert ph + (px + w) == px + w && ph + w == w;
    }
  }

  /** The sort is stable: names with equal stamps keep their order. */
  lemma {:induction false} SortStable(xs: seq<string>, v: Version)
    ensures WithStamp(SortNewestFirst(xs), v) == WithStamp(xs, v)
    decreases |xs|
  {
    if xs != [] {
      SortStable(xs[1..], v);
      InsertStable(xs[0], SortNewestFirst(xs[1..]), v);
    }
  }

  /** `files.filter(file => file.endsWith(suffix))`. */
  function KeepEnding(files: seq<string>, suffix: string): (kept: seq<string>)
    ensures forall k | 0 <= k < |kept| :: EndsWith(kept[k], suffix)
    ensures forall f :: multiset(kept)[f] == if EndsWith(f, suffix) then multiset(files)[f] else 0
  {
    if files == [] then []
    else
      assert files == [files[0]] + files[1..];
      var rest := KeepEnding(files[1..], suffix);
      if EndsWith(files[0], suffix) then [files[0]] + rest else rest
  }

  /** What the release listing answers. */
  datatype Listing = Listing(data: seq<string>, latest: Option<string>)

  /** The release listing of the directory's `files`: the names ending
      ".apk", newest first, and the first of them as the latest. */
  function ApkListing(files: seq<string>): (listing: Listing)
    ensures SortedNewestFirst(listing.data)
    ensures forall f :: multiset(listing.data)[f] == if EndsWith(f, ".apk") then multiset(files)[f] else 0
    ensures listing.latest.None? <==> listing.data == []
    ensures listing.latest.Some? ==> listing.latest.value == listing.data[0]
  {
    var apks := SortNewestFirst(KeepEnding(files, ".apk"));
    Listing(apks, if |apks| > 0 then Some(apks[0]) else None)
  }

  /** The latest release is one of the files, ends with ".apk", and no
      file ending with ".apk" has a greater stamp. */
  lemma LatestIsNewest(files: seq<string>)
    ensures var listing := ApkListing(files);
            listing.latest.Some? <==> exists f | f in files :: EndsWith(f, ".apk")
    ensures var listing := ApkListing(files);
            listing.latest.Some? ==>
              listing.latest.value in files && EndsWith(listing.latest.value, ".apk")
              && forall f | f in files && EndsWith(f, ".apk") ::
                   !LexGreater(Key(ExtractInfo(f)), Key(ExtractInfo(listing.latest.value)))
  {
    var listing := ApkListing(files);
    var data := listing.data;
    if exists f | f in files :: EndsWith(f, ".apk") {
      var f :| f in files && EndsWith(f, ".apk");
      assert multiset(data)[f] > 0;
    }
    if data != [] {
      var latest := data[0];
      assert multiset(data)[latest] > 0;
      forall f | f in files && EndsWith(f, ".apk")
        ensures !LexGreater(Key(ExtractInfo(f)), Key(ExtractInfo(latest)))
      {
        assert multiset(data)[f] > 0;
        var j :| 0 <= j < |data| && data[j] == f;
        FirstIsNewest(data, j);
      }
    }
  }

  /** Nothing in a sorted sequence is newer than its first element. */
  lemma FirstIsNewest(data: seq<string>, j: nat)
    requires SortedNewestFirst(data) && j < |data|
    ensures !LexGreater(Key(ExtractInfo(data[j])), Key(ExtractInfo(data[0])))
  {
    if j > 0 {
      assert Compare(data[0], data[j]) <= 0;
      CompareAntisymmetric(data[0], data[j]);
    } else {
      LexIrreflexive(Key(ExtractInfo(data[0])));
    }
  }

  /** How the download of one file is answered before the file system is
      consulted. */
  datatype DownloadCheck = Rejected(status: nat, message: string) | Accepted(filename: string)

  /** The per-file download: a name not ending ".apk" is refused with
      status 400. */
  function CheckDownload(filename: string): (r: DownloadCheck)
    ensures r.Rejected? <==> !EndsWith(filename, ".apk")
    ensures r.Rejected? ==> r.status == 400
    ensures r.Accepted? ==> r.filename == filename
  {
    if !EndsWith(filename, ".apk") then Rejected(400, "Invalid file type")
    else Accepted(filename)
  }

  /** Every listed release may be downloaded. */
  lemma ListedDownloadable(files: seq<string>)
    ensures forall k | 0 <= k < |ApkListing(files).data| :: CheckDownload(ApkListing(files).data[k]).Accepted?
  {
    var data := ApkListing(files).data;
    forall k | 0 <= k < |data| ensures EndsWith(data[k], ".apk") {
      assert multiset(data)[data[k]] > 0;
    }
  }

  /** The answer-file listing keeps the names ending ".md". */
  function MarkdownListing(files: seq<string>): (names: seq<string>)
    ensures forall f :: multiset(names)[f] == if EndsWith(f, ".md") then multiset(files)[f] else 0
  {
    KeepEnding(files, ".md")
  }
}

=== FILE: block_parser.dfy ===
/** The block level of the Markdown parser: one cursor over the lines of
    the document, a fixed order of line kinds, and a recursive parse for
    the body of a blockquote. */
module BlockParser {
  import opened Wrappers
  import opened Text
  import opened MarkdownNodes
  import opened InlineParser

  // ---------------------------------------------------------------------
  // The line patterns. Each is matched against a whole line.

  predicate AllOf(s: string, c: char) { forall i | 0 <= i < |s| :: s[i] == c }

  predicate NoLineTerminator(s: string) { forall i | 0 <= i < |s| :: !IsLineTerminator(s[i]) }

  /** `^(-{3,}|\*{3,}|_{3,})$`: a thematic break. */
  predicate IsRuleLine(s: string) {
    |s| >= 3 && (AllOf(s, '-') || AllOf(s, '*') || AllOf(s, '_'))
  }

  /** `^\|.*\|$`: a table row. */
  predicate IsPipeRow(s: string) {
    |s| >= 2 && s[0] == '|' && s[|s| - 1] == '|' && NoLineTerminator(s)
  }

  /** The number of characters from `[-: ]` starting at index `i`. */
  function AlignRun(s: string, i: nat): (n: nat)
    requires i <= |s|
    ensures i + n <= |s|
    ensures forall k | i <= k < i + n :: s[k] in "-: "
    ensures i + n == |s| || s[i + n] !in "-: "
    decreases |s| - i
  {
    if i < |s| && s[i] in "-: " then 1 + AlignRun(s, i + 1) else 0
  }

  /** `^\|[-: ]+\|.*$`: a table separator row. The run of `[-: ]` cannot
      hold `|`, so it must end exactly where the second `|` stands. */
  predicate IsSeparatorRow(s: string) {
    |s| >= 1 && s[0] == '|' &&
    var n := AlignRun(s, 1);
    n >= 1 && 1 + n < |s| && s[1 + n] == '|' && NoLineTerminator(s[2 + n..])
  }

  /** `^([*+-]|\d+\.)\s+`, matched against the whole line: a list marker
      followed by whitespace and nothing else. */
  predicate IsListMarkerLine(s: string) {
    || (|s| >= 2 && s[0] in "*+-" && AllWhitespace(s[1..]))
    || (var d := DigitRun(s, 0); d >= 1 && d + 1 < |s| && s[d] == '.' && AllWhitespace(s[d + 1..]))
  }

  /** `^\[[ x]]\s+`, matched against the whole line. */
  predicate IsTaskMarkerLine(s: string) {
    |s| >= 4 && s[0] == '[' && s[1] in " x" && s[2] == ']' && AllWhitespace(s[3..])
  }

  /** The number of leading `#`: the heading level, with no upper bound. */
  function HashRun(s: string): (n: nat)
    ensures n <= |s| && AllOf(s[..n], '#')
    ensures n == |s| || s[n] != '#'
  {
    if s != [] && s[0] == '#' then
      var n := 1 + HashRun(s[1..]);
      assert s[..n] == [s[0]] + s[1..][..n - 1];
      n
    else 0
  }

  // ---------------------------------------------------------------------
  // Audio and video lines.

  /** The number of characters other than quotes starting at index `i`. */
  function UnquotedRun(s: string, i: nat): (n: nat)
    requires i <= |s|
    ensures i + n <= |s|
    ensures forall k | i <= k < i + n :: s[k] != '\'' && s[k] != '"'
    ensures i + n == |s| || s[i + n] == '\'' || s[i + n] == '"'
    decreases |s| - i
  {
    if i < |s| && s[i] != '\'' && s[i] != '"' then 1 + UnquotedRun(s, i + 1) else 0
  }

  /** `src=['"]([^'"]+)['"]` matched at the start of `s`: the group. */
  function SrcAt(s: string): (r: Option<string>)
    ensures r.Some? ==> r.value != [] && '\'' !in r.value && '"' !in r.value
  {
    if StartsWith(s, "src=") && |s| > 5 && (s[4] == '\'' || s[4] == '"') then
      var n := UnquotedRun(s, 5);
      if n >= 1 && 5 + n < |s| then Some(s[5..5 + n]) else None
    else None
  }

  /** The group of the leftmost match of `src=['"]([^'"]+)['"]` in `s`. */
  function FindSrc(s: string): (r: Option<string>)
    ensures r.Some? ==> r.value != [] && '\'' !in r.value && '"' !in r.value
    ensures r.Some? <==> exists i | 0 <= i <= |s| :: SrcAt(s[i..]).Some?
    ensures r.Some? ==>
      exists i | 0 <= i <= |s| :: SrcAt(s[i..]) == r && forall j | 0 <= j < i :: SrcAt(s[j..]).None?
  {
    if s == [] then
      assert forall i | 0 <= i <= |s| :: s[i..] == [];
      None
    else if SrcAt(s).Some? then
      assert s[0..] == s;
      SrcAt(s)
    else
      var r := FindSrc(s[1..]);
      assert s[0..] == s;
      assert forall i | 0 <= i <= |s| - 1 :: s[1..][i..] == s[i + 1..];
      assert r.Some? ==> exists i | 0 <= i <= |s| :: SrcAt(s[i..]).Some? by {
        if r.Some? {
          var i :| 0 <= i <= |s| - 1 && SrcAt(s[1..][i..]).Some?;
          assert SrcAt(s[i + 1..]).Some?;
        }
      }
      assert (exists i | 0 <= i <= |s| :: SrcAt(s[i..]).Some?) ==> r.Some? by {
        if exists i | 0 <= i <= |s| :: SrcAt(s[i..]).Some? {
          var i :| 0 <= i <= |s| && SrcAt(s[i..]).Some?;
          assert i != 0;
          assert SrcAt(s[1..][i - 1..]).Some?;
        }
      }
      assert r.Some? ==>
        exists i | 0 <= i <= |s| :: SrcAt(s[i..]) == r && forall j | 0 <= j < i :: SrcAt(s[j..]).None? by {
        if r.Some? {
          var i :| 0 <= i <= |s| - 1 && SrcAt(s[1..][i..]) == r
            && forall j | 0 <= j < i :: SrcAt(s[1..][j..]).None?;
          assert SrcAt(s[i + 1..]) == r;
          forall j | 0 <= j < i + 1 ensures SrcAt(s[j..]).None? {
            if j > 0 { assert SrcAt(s[1..][j - 1..]).None?; }
          }
        }
      }
      r
  }

  /** A match of `src=...` anywhere in `s` means `s` contains `src=`. */
  lemma SrcContains(s: string)
    ensures FindSrc(s).Some? ==> Contains(s, "src=")
  {
    if FindSrc(s).Some? {
        var i :| 0 <= i <= |s| && SrcAt(s[i..]).Some?;
      var t := s[i..];
      assert StartsWith(t, "src=");
      assert t[..4] == s[i..i + 4];
      assert OccursAt(s, "src=", i);
    }
  }

  /** What an `<audio` or `<video` line adds: one node carrying the leftmost
      `src` value when there is one, nothing otherwise. */
  function MediaNodes(line: string): (r: seq<Node>)
    ensures |r| <= 1
    ensures |r| == 1 <==> FindSrc(line).Some?
    ensures r != [] ==> (r[0].Audio? <==> StartsWith(line, "<audio")) && (r[0].Audio? || r[0].Video?)
    ensures r != [] ==> r[0].url == FindSrc(line).value
  {
    if Contains(line, "src=") then
      match FindSrc(line)
      case Some(src) => [if StartsWith(line, "<audio") then Audio(src) else Video(src)]
      case None => []
    else
      SrcContains(line);
      []
  }

  // ---------------------------------------------------------------------
  // Tables.

  /** The cells of a row: the pieces between `|`, trimmed, empty ones dropped. */
  function TrimmedCells(pieces: seq<string>): (r: seq<string>)
    requires forall k | 0 <= k < |pieces| :: '|' !in pieces[k]
    ensures |r| <= |pieces|
    ensures forall k | 0 <= k < |r| :: r[k] != [] && Trim(r[k]) == r[k] && '|' !in r[k]
  {
    if pieces == [] then []
    else
      var t := Trim(pieces[0]);
      TrimTwice(pieces[0]);
      TrimChars(pieces[0]);
      (if t != [] then [t] else []) + TrimmedCells(pieces[1..])
  }

  function CellTexts(row: string): (r: seq<string>)
    ensures forall k | 0 <= k < |r| :: r[k] != [] && Trim(r[k]) == r[k] && '|' !in r[k]
  {
    var pieces := Split(row, "|");
    assert forall k | 0 <= k < |pieces| :: '|' !in pieces[k] by {
      forall k | 0 <= k < |pieces| ensures '|' !in pieces[k] {
        ContainsChar(pieces[k], '|');
      }
    }
    TrimmedCells(pieces)
  }

  /** A cell's node: the single inline node when there is one, otherwise
      a paragraph of them. */
  function Cell(text: string): (r: Node)
    requires text != []
    ensures r.Paragraph? ==> r.children == InlineNodes(text) && |r.children| >= 2
    ensures !r.Paragraph? ==> InlineNodes(text) == [r]
  {
    var ns := InlineNodes(text);
    if |ns| == 1 then ns[0] else Paragraph(ns)
  }

  function RowCells(row: string): (r: seq<Node>)
    ensures |r| == |CellTexts(row)|
    ensures forall k | 0 <= k < |r| :: r[k] == Cell(CellTexts(row)[k])
  {
    var texts := CellTexts(row);
    seq(|texts|, k requires 0 <= k < |texts| => Cell(texts[k]))
  }

  /** `parseTable`: headers from the first line, one row per line after the
      separator, each as many cells as its own line has. */
  function TableOf(tableLines: seq<string>): (r: Node)
    ensures r.Table?
    ensures |tableLines| < 2 ==> r.headers == [] && r.rows == []
    ensures |tableLines| >= 2 ==>
              && r.headers == RowCells(tableLines[0])
              && |r.rows| == |tableLines| - 2
              && forall k | 0 <= k < |r.rows| :: r.rows[k] == RowCells(tableLines[k + 2])
  {
    if |tableLines| < 2 then Table([], [])
    else
      var body := tableLines[2..];
      Table(RowCells(tableLines[0]), seq(|body|, k requires 0 <= k < |body| => RowCells(body[k])))
  }

  // ---------------------------------------------------------------------
  // The line kinds, in the order the parser tries them.

  datatype Branch = Blank | HeadingLine | Rule | Media | Fence | Quote | ListLine | TableStart | ParagraphStart

  function BranchAt(lines: seq<string>, i: nat): Branch
    requires i < |lines|
  {
    var line := Trim(lines[i]);
    if line == [] then Blank
    else if StartsWith(line, "#") then HeadingLine
    else if IsRuleLine(line) then Rule
    else if StartsWith(Trim(line), "<audio") || StartsWith(Trim(line), "<video") then Media
    else if StartsWith(line, "```") then Fence
    else if StartsWith(line, ">") then Quote
    else if IsListMarkerLine(line) || IsTaskMarkerLine(line) then ListLine
    else if IsPipeRow(line) && i + 1 < |lines| && IsSeparatorRow(lines[i + 1]) then TableStart
    else ParagraphStart
  }

  /** A trimmed line never ends in whitespace, so neither list pattern,
      matched against the whole line, can hold: the list branch never runs. */
  lemma ListBranchUnreachable(lines: seq<string>, i: nat)
    requires i < |lines|
    ensures BranchAt(lines, i) != ListLine
  {
    NoMarkerAtEnd(Trim(lines[i]));
  }

  /** Both list patterns need the line to end in whitespace. */
  lemma NoMarkerAtEnd(line: string)
    requires line != [] ==> !IsWhitespace(line[|line| - 1])
    ensures !IsListMarkerLine(line) && !IsTaskMarkerLine(line)
  {
    if line != [] {
      var last := |line| - 1;
      if |line| >= 2 { assert line[1..][last - 1] == line[last]; }
      var d := DigitRun(line, 0);
      if d >= 1 && d + 1 < |line| { assert line[d + 1..][last - d - 1] == line[last]; }
      if |line| >= 4 { assert line[3..][last - 3] == line[last]; }
    }
  }

  // ---------------------------------------------------------------------
  // Runs of lines.

  /** The end of the run of lines from `j` on that satisfy `p`. */
  function RunEnd(lines: seq<string>, j: nat, p: string -> bool): (k: nat)
    requires j <= |lines|
    ensures j <= k <= |lines|
    ensures forall m | j <= m < k :: p(lines[m])
    ensures k == |lines| || !p(lines[k])
    decreases |lines| - j
  {
    if j < |lines| && p(lines[j]) then RunEnd(lines, j + 1, p) else j
  }

  /** `QuoteText` of each of `lines[a..b]`. */
  function QuoteTexts(lines: seq<string>, a: nat, b: nat): (r: seq<string>)
    requires a <= b <= |lines|
    ensures |r| == b - a
    ensures forall k | 0 <= k < b - a :: r[k] == QuoteText(lines[a + k])
    decreases b - a
  {
    if a == b then [] else QuoteTexts(lines, a, b - 1) + [QuoteText(lines[b - 1])]
  }

  /** Each of `lines[a..b]`, trimmed. */
  function TrimmedLines(lines: seq<string>, a: nat, b: nat): (r: seq<string>)
    requires a <= b <= |lines|
    ensures |r| == b - a
    ensures forall k | 0 <= k < b - a :: r[k] == Trim(lines[a + k])
    decreases b - a
  {
    if a == b then [] else TrimmedLines(lines, a, b - 1) + [Trim(lines[b - 1])]
  }

  /** A line inside a code block: its trimmed form does not open a fence. */
  predicate IsCodeLine(line: string) { !StartsWith(Trim(line), "```") }

  /** A blockquote line, recognised on the raw, untrimmed line. */
  predicate IsQuoteLine(line: string) { StartsWith(line, ">") }

  /** The text a blockquote line contributes: one character dropped, trimmed. */
  function QuoteText(line: string): string { if line == [] then [] else Trim(line[1..]) }

  /** A line that continues a paragraph. */
  predicate IsParagraphLine(line: string) {
    var t := Trim(line);
    && t != []
    && !StartsWith(t, "#")
    && !StartsWith(t, ">")
    && !IsListMarkerLine(t)
    && !StartsWith(t, "```")
    && !IsRuleLine(t)
    && !IsPipeRow(t)
    && !IsSeparatorRow(t)
  }

  // ---------------------------------------------------------------------
  // The parse. `Stuck` is a turn of the loop that leaves the cursor where
  // it was: the source then loops forever, which `Diverges` records.

  datatype Step = Advance(emitted: seq<Node>, next: nat) | Stuck

  datatype Outcome = Parsed(nodes: seq<Node>) | Diverges

  function Prepend(nodes: seq<Node>, o: Outcome): Outcome {
    match o
    case Parsed(rest) => Parsed(nodes + rest)
    case Diverges => Diverges
  }

  lemma PrependTwice(first: seq<Node>, second: seq<Node>, o: Outcome)
    ensures Prepend(first, Prepend(second, o)) == Prepend(first + second, o)
  {
    if o.Parsed? {
      assert first + (second + o.nodes) == (first + second) + o.nodes;
    }
  }

  /** A run that ends where `p` first fails is the run `RunEnd` finds. */
  lemma RunEndUnique(lines: seq<string>, j: nat, k: nat, p: string -> bool)
    requires j <= k <= |lines|
    requires forall m | j <= m < k :: p(lines[m])
    requires k == |lines| || !p(lines[k])
    ensures RunEnd(lines, j, p) == k
  {
  }

  /** The size of the document a list of lines came from. */
  function Size(lines: seq<string>): nat { |Join(lines, "\n")| }

  /** One turn of the loop at line `i`. */
  function BlockAt(lines: seq<string>, i: nat): (r: Step)
    requires i < |lines|
    ensures r.Advance? ==> i < r.next <= |lines| && |r.emitted| <= 1
    decreases Size(lines), 0, 0
  {
    var line := Trim(lines[i]);
    match BranchAt(lines, i)
    case Blank => Advance([], i + 1)
    case HeadingLine =>
      var level := HashRun(line);
      Advance([Heading(level, InlineNodes(Trim(line[level..])))], i + 1)
    case Rule => Advance([HorizontalRule], i + 1)
    case Media => Advance(MediaNodes(line), i + 1)
    case Fence =>
      var end := RunEnd(lines, i + 1, IsCodeLine);
      Advance([CodeBlock(Join(lines[i + 1..end], "\n"), Trim(Drop(line, 3)))], if end < |lines| then end + 1 else end)
    case Quote =>
      var end := RunEnd(lines, i, IsQuoteLine);
      if end == i then Stuck
      else
        var quoted := Join(QuoteTexts(lines, i, end), "\n");
        QuoteShorter(lines, i, end);
        (match ParseDoc(quoted)
         case Parsed(children) => Advance([Blockquote(children)], end)
         case Diverges => Stuck)
    case ListLine =>
      ListBranchUnreachable(lines, i);
      assert false;
      Stuck
    case TableStart =>
      var end := RunEnd(lines, i + 2, IsPipeRow);
      Advance([TableOf([line, lines[i + 1]] + lines[i + 2..end])], end)
    case ParagraphStart =>
      var end := RunEnd(lines, i, IsParagraphLine);
      if end == i then Stuck
      else Advance([Paragraph(InlineNodes(Join(TrimmedLines(lines, i, end), "\n")))], end)
  }

  /** The nodes of `lines[i..]`. */
  function ParseLines(lines: seq<string>, i: nat): Outcome
    requires i <= |lines|
    decreases Size(lines), 1, |lines| - i
  {
    if i == |lines| then Parsed([])
    else
      match BlockAt(lines, i)
      case Stuck => Diverges
      case Advance(emitted, next) => Prepend(emitted, ParseLines(lines, next))
  }

  /** What `parse` returns for a document, or `Diverges` when it never returns. */
  function ParseDoc(markdown: string): Outcome
    decreases |markdown|, 2, 0
  {
    ParseLines(Lines(markdown), 0)
  }

  // ---------------------------------------------------------------------
  // Lengths, for the termination of the blockquote recursion.

  lemma {:induction false} TotalLengthSplit(xs: seq<string>, k: nat)
    requires k <= |xs|
    ensures TotalLength(xs) == TotalLength(xs[..k]) + TotalLength(xs[k..])
  {
    if k > 0 {
      TotalLengthSplit(xs[1..], k - 1);
      assert xs[1..][..k - 1] == xs[..k][1..];
      assert xs[1..][k - 1..] == xs[k..];
    }
  }

  lemma QuoteTextShorter(line: string)
    requires line != []
    ensures |QuoteText(line)| < |line|
  {
    assert |Trim(line[1..])| <= |line[1..]|;
  }

  lemma QuoteTextsShorter(lines: seq<string>, a: nat, b: nat)
    requires a <= b <= |lines|
    requires forall m | a <= m < b :: lines[m] != []
    ensures TotalLength(QuoteTexts(lines, a, b)) + (b - a) <= TotalLength(lines[a..b])
  {
    var quoted := QuoteTexts(lines, a, b);
    forall k | 0 <= k < b - a ensures |quoted[k]| < |lines[a..b][k]| {
      QuoteTextShorter(lines[a + k]);
    }
    TotalLengthShorter(quoted, lines[a..b]);
  }

  lemma LineJoinLength(parts: seq<string>)
    requires |parts| >= 1
    ensures |Join(parts, "\n")| == TotalLength(parts) + |parts| - 1
  {
    JoinLength(parts, "\n");
  }

  /** Pieces that add up to less than a run of lines join to less than
      all the lines. */
  lemma JoinShorter(pieces: seq<string>, lines: seq<string>, i: nat, end: nat)
    requires i < end <= |lines| && |pieces| == end - i
    requires TotalLength(pieces) + |pieces| <= TotalLength(lines[i..end])
    ensures |Join(pieces, "\n")| < Size(lines)
  {
    LineJoinLength(pieces);
    LineJoinLength(lines);
    TotalLengthSplit(lines, i);
    TotalLengthSplit(lines[i..], end - i);
    assert lines[i..][..end - i] == lines[i..end];
  }

  /** The text a blockquote parses again is shorter than the document. */
  lemma QuoteShorter(lines: seq<string>, i: nat, end: nat)
    requires i < end <= |lines|
    requires forall m | i <= m < end :: IsQuoteLine(lines[m])
    ensures |Join(QuoteTexts(lines, i, end), "\n")| < Size(lines)
  {
    assert forall m | i <= m < end :: lines[m] != [];
    QuoteTextsShorter(lines, i, end);
    JoinShorter(QuoteTexts(lines, i, end), lines, i, end);
  }

  // ---------------------------------------------------------------------
  // What each branch produces.

  /** A heading's level is the whole run of `#` (there is no upper bound)
      and its text is the rest of the line, trimmed. */
  lemma HeadingBlock(lines: seq<string>, i: nat)
    requires i < |lines| && BranchAt(lines, i) == HeadingLine
    ensures var line := Trim(lines[i]);
            var b := BlockAt(lines, i);
            && b == Advance(b.emitted, i + 1) && |b.emitted| == 1 && b.emitted[0].Heading?
            && var level := b.emitted[0].level;
            && 1 <= level <= |line| && AllOf(line[..level], '#') && (level == |line| || line[level] != '#')
            && b.emitted[0].children == InlineNodes(Trim(line[level..]))
  {
  }

  lemma SevenHashes()
    ensures HashRun("#######x") == 7
  {
  }

  /** A fence takes every raw line up to the next line whose trimmed form
      opens a fence and skips that line; an unclosed fence takes the rest of
      the document. */
  lemma FenceBlock(lines: seq<string>, i: nat)
    requires i < |lines| && BranchAt(lines, i) == Fence
    ensures var b := BlockAt(lines, i);
            && b.Advance? && |b.emitted| == 1 && b.emitted[0].CodeBlock?
            && b.emitted[0].language == Trim(Drop(Trim(lines[i]), 3))
            && exists end | i + 1 <= end <= |lines| ::
                 && b.emitted[0].code == Join(lines[i + 1..end], "\n")
                 && (forall m | i + 1 <= m < end :: !StartsWith(Trim(lines[m]), "```"))
                 && (if end < |lines| then StartsWith(Trim(lines[end]), "```") && b.next == end + 1 else b.next == end)
  {
    var end := RunEnd(lines, i + 1, IsCodeLine);
    FenceAt(lines, i);
    CodeRun(lines, i + 1, end);
  }

  lemma FenceAt(lines: seq<string>, i: nat)
    requires i < |lines| && BranchAt(lines, i) == Fence
    ensures var end := RunEnd(lines, i + 1, IsCodeLine);
            BlockAt(lines, i) == Advance([CodeBlock(Join(lines[i + 1..end], "\n"), Trim(Drop(Trim(lines[i]), 3)))],
                                         if end < |lines| then end + 1 else end)
  {
  }

  /** The run of code lines, spelt out. */
  lemma CodeRun(lines: seq<string>, start: nat, end: nat)
    requires start <= |lines| && end == RunEnd(lines, start, IsCodeLine)
    ensures forall m | start <= m < end :: !StartsWith(Trim(lines[m]), "```")
    ensures end < |lines| ==> StartsWith(Trim(lines[end]), "```")
  {
    assert forall m | start <= m < end :: IsCodeLine(lines[m]);
  }

  /** A table takes its first line trimmed, the separator row raw, and then
      the longest run of raw pipe rows. */
  lemma TableBlock(lines: seq<string>, i: nat)
    requires i < |lines| && BranchAt(lines, i) == TableStart
    ensures var b := BlockAt(lines, i);
            && b.Advance? && i + 2 <= b.next
            && b.emitted == [TableOf([Trim(lines[i]), lines[i + 1]] + lines[i + 2..b.next])]
            && (forall m | i + 2 <= m < b.next :: IsPipeRow(lines[m]))
            && (b.next == |lines| || !IsPipeRow(lines[b.next]))
  {
  }

  // ---------------------------------------------------------------------
  // When the loop stalls.

  /** A turn makes no progress exactly when a blockquote's first line does
      not itself start with `>`, when the blockquote's text stalls, or when a
      paragraph starts at a line the paragraph loop refuses. */
  lemma StuckCases(lines: seq<string>, i: nat)
    requires i < |lines|
    ensures BlockAt(lines, i).Stuck? <==>
              || (BranchAt(lines, i) == Quote && !IsQuoteLine(lines[i]))
              || (BranchAt(lines, i) == Quote && IsQuoteLine(lines[i]) &&
                  ParseDoc(Join(QuoteTexts(lines, i, RunEnd(lines, i, IsQuoteLine)), "\n")).Diverges?)
              || (BranchAt(lines, i) == ParagraphStart && !IsParagraphLine(lines[i]))
  {
    ListBranchUnreachable(lines, i);
  }

  /** The blockquote branch is chosen on the trimmed line but collects raw
      lines: it stalls exactly when the line is indented. */
  lemma QuoteStallIffIndented(lines: seq<string>, i: nat)
    requires i < |lines| && BranchAt(lines, i) == Quote
    ensures !IsQuoteLine(lines[i]) <==> IsWhitespace(lines[i][0])
  {
    var line := lines[i];
    var t := Trim(line);
    assert t[0] == '>';
    TrimSlice(line);
    if LeadingSpace(line) == 0 {
      assert t[0] == line[0];
    } else {
      assert IsWhitespace(line[..LeadingSpace(line)][0]);
    }
  }

  /** The paragraph branch is the fallback for a line that opens no other
      block, but the paragraph loop also refuses pipe rows and separator
      rows: it stalls exactly on those. */
  lemma ParagraphStallIffTableLike(lines: seq<string>, i: nat)
    requires i < |lines| && BranchAt(lines, i) == ParagraphStart
    ensures !IsParagraphLine(lines[i]) <==> IsPipeRow(Trim(lines[i])) || IsSeparatorRow(Trim(lines[i]))
  {
    NoMarkerAtEnd(Trim(lines[i]));
  }

  /** A document whose first turn stalls never finishes parsing. */
  lemma StuckFirstLine(markdown: string)
    requires BlockAt(Lines(markdown), 0).Stuck?
    ensures ParseDoc(markdown).Diverges?
  {
  }

  /** A document without line breaks is one line. */
  lemma OneLine(markdown: string)
    requires forall k | 0 <= k < |markdown| :: markdown[k] != '\n' && markdown[k] != '\r'
    ensures Lines(markdown) == [markdown]
  {
  }

  /** A one-line document whose `>` is indented never finishes parsing. */
  lemma IndentedQuoteDiverges()
    ensures ParseDoc(" >x").Diverges?
  {
    var line := " >x";
    OneLine(line);
    IndentedQuoteStalls([line]);
    StuckFirstLine(line);
  }

  lemma IndentedQuoteStalls(lines: seq<string>)
    requires lines == [" >x"]
    ensures BlockAt(lines, 0).Stuck?
  {
    assert Trim(" >x") == ">x" by {
      assert " >x"[1..] == ">x";
    }
    assert BranchAt(lines, 0) == Quote;
    assert !IsQuoteLine(lines[0]);
    StuckCases(lines, 0);
  }

  /** A one-line document that is a lone table row never finishes parsing. */
  lemma LoneRowDiverges()
    ensures ParseDoc("|a|").Diverges?
  {
    var line := "|a|";
    OneLine(line);
    LoneRowStalls([line]);
    StuckFirstLine(line);
  }

  lemma LoneRowStalls(lines: seq<string>)
    requires lines == ["|a|"]
    ensures BlockAt(lines, 0).Stuck?
  {
    TrimFixed("|a|");
    assert IsPipeRow("|a|");
    assert BranchAt(lines, 0) == ParagraphStart;
    ParagraphStallIffTableLike(lines, 0);
    StuckCases(lines, 0);
  }

  // ---------------------------------------------------------------------
  // The parser as the source writes it: one loop over the lines, with an
  // inner loop for each block that spans several lines.

  /** The raw lines of a code block, from `start` to the closing fence. */
  method CollectCode(lines: seq<string>, start: nat) returns (code: seq<string>, end: nat)
    requires start <= |lines|
    ensures end == RunEnd(lines, start, IsCodeLine) && code == lines[start..end]
  {
    code := [];
    end := start;
    while end < |lines| && IsCodeLine(lines[end])
      invariant start <= end <= |lines| && code == lines[start..end]
      invariant RunEnd(lines, start, IsCodeLine) == RunEnd(lines, end, IsCodeLine)
      decreases |lines| - end
    {
      code := code + [lines[end]];
      end := end + 1;
    }
  }

  /** The texts of the run of `>` lines starting at `start`. */
  method CollectQuote(lines: seq<string>, start: nat) returns (quoteLines: seq<string>, end: nat)
    requires start <= |lines|
    ensures end == RunEnd(lines, start, IsQuoteLine) && quoteLines == QuoteTexts(lines, start, end)
  {
    quoteLines := [];
    end := start;
    while end < |lines| && StartsWith(lines[end], ">")
      invariant start <= end <= |lines| && quoteLines == QuoteTexts(lines, start, end)
      invariant forall m | start <= m < end :: IsQuoteLine(lines[m])
      decreases |lines| - end
    {
      quoteLines := quoteLines + [QuoteText(lines[end])];
      end := end + 1;
    }
  }

  /** The raw pipe rows starting at `start`. */
  method CollectRows(lines: seq<string>, start: nat) returns (rows: seq<string>, end: nat)
    requires start <= |lines|
    ensures end == RunEnd(lines, start, IsPipeRow) && rows == lines[start..end]
  {
    rows := [];
    end := start;
    while end < |lines| && IsPipeRow(lines[end])
      invariant start <= end <= |lines| && rows == lines[start..end]
      invariant forall m | start <= m < end :: IsPipeRow(lines[m])
      decreases |lines| - end
    {
      rows := rows + [lines[end]];
      end := end + 1;
    }
  }

  /** The trimmed lines of a paragraph starting at `start`. */
  method CollectParagraph(lines: seq<string>, start: nat) returns (paragraphLines: seq<string>, end: nat)
    requires start <= |lines|
    ensures end == RunEnd(lines, start, IsParagraphLine) && paragraphLines == TrimmedLines(lines, start, end)
  {
    paragraphLines := [];
    end := start;
    while end < |lines| && IsParagraphLine(lines[end])
      invariant start <= end <= |lines| && paragraphLines == TrimmedLines(lines, start, end)
      invariant forall m | start <= m < end :: IsParagraphLine(lines[m])
      decreases |lines| - end
    {
      paragraphLines := paragraphLines + [Trim(lines[end])];
      end := end + 1;
    }
    RunEndUnique(lines, start, end, IsParagraphLine);
  }

  /** One turn of the loop of `parse`. */
  method ParseBlock(lines: seq<string>, i: nat) returns (step: Step)
    requires i < |lines|
    ensures step == BlockAt(lines, i)
    decreases Size(lines), 0
  {
    var line := Trim(lines[i]);
    match BranchAt(lines, i) {
      case Blank =>
        step := Advance([], i + 1);
      case HeadingLine =>
        var level := HashRun(line);
        var children := ParseInline(Trim(line[level..]));
        step := Advance([Heading(level, children)], i + 1);
      case Rule =>
        step := Advance([HorizontalRule], i + 1);
      case Media =>
        step := Advance(MediaNodes(line), i + 1);
      case Fence =>
        var code, end := CollectCode(lines, i + 1);
        var next := if end < |lines| then end + 1 else end;
        step := Advance([CodeBlock(Join(code, "\n"), Trim(Drop(line, 3)))], next);
      case Quote =>
        var quoteLines, end := CollectQuote(lines, i);
        if end == i {
          step := Stuck;
        } else {
          QuoteShorter(lines, i, end);
          var inner := Parse(Join(quoteLines, "\n"));
          step := if inner.Parsed? then Advance([Blockquote(inner.nodes)], end) else Stuck;
        }
      case ListLine =>
        ListBranchUnreachable(lines, i);
        assert false;
      case TableStart =>
        var rows, end := CollectRows(lines, i + 2);
        step := Advance([TableOf([line, lines[i + 1]] + rows)], end);
      case ParagraphStart =>
        var paragraphLines, end := CollectParagraph(lines, i);
        if end == i {
          step := Stuck;
        } else {
          var children := ParseInline(Join(paragraphLines, "\n"));
          step := Advance([Paragraph(children)], end);
        }
    }
  }

  /** `parse`: where the source would loop forever the result is `Diverges`. */
  method Parse(markdown: string) returns (r: Outcome)
    ensures r == ParseDoc(markdown)
    decreases |markdown|, 1
  {
    var lines := Lines(markdown);
    var nodes: seq<Node> := [];
    var i := 0;
    while i < |lines|
      invariant i <= |lines|
      invariant ParseLines(lines, 0) == Prepend(nodes, ParseLines(lines, i))
      decreases |lines| - i
    {
      var step := ParseBlock(lines, i);
      if step.Stuck? {
        return Diverges;
      }
      PrependTwice(nodes, step.emitted, ParseLines(lines, step.next));
      nodes := nodes + step.emitted;
      i := step.next;
    }
    return Parsed(nodes);
  }
}

=== FILE: formula.dfy ===
/** `preprocessMathFormula` and `preprocessChemicalFormula`: the fixed chain
    of rewrites that turns a LaTeX formula into plain Unicode text, and the
    handlers it calls. */
module Formula {
  import opened Wrappers
  import opened Text
  import opened FormulaTables
  import opened FormulaPatterns
  import opened Macros

  /** `result = regex.replace(result) { … }` for each rule in turn. */
  function ReplaceEach(s: string, rules: seq<(Pattern, Rewrite)>): string
    decreases |rules|
  {
    if rules == [] then s else ReplaceEach(Replace(s, rules[0].0, rules[0].1), rules[1..])
  }

  /** Rules none of whose patterns can match leave the text as it is. */
  lemma {:induction false} ReplaceEachFixed(s: string, rules: seq<(Pattern, Rewrite)>)
    requires forall j | 0 <= j < |rules| :: Lead(rules[j].0) != [] && !Contains(s, Lead(rules[j].0))
    ensures ReplaceEach(s, rules) == s
    decreases |rules|
  {
    if rules != [] {
      ReplaceNoLead(s, rules[0].0, rules[0].1);
      ReplaceEachFixed(s, rules[1..]);
    }
  }

  // ---------------------------------------------------------------------
  // The straight-line handlers.

  /** `handleMathFontCommands`: each font command is dropped, its argument kept. */
  const FontRules: seq<(Pattern, Rewrite)> := [
    (Braced("\\mathbf{"), Unwrap), (Braced("\\mathit{"), Unwrap), (Braced("\\mathrm{"), Unwrap),
    (Braced("\\mathsf{"), Unwrap), (Braced("\\mathtt{"), Unwrap), (Braced("\\mathcal{"), Unwrap),
    (Braced("\\mathfrak{"), Unwrap), (Braced("\\mathbb{"), Unwrap)
  ]

  function MathFonts(s: string): string { ReplaceEach(s, FontRules) }

  /** `handleMatrices`: each environment becomes its rows, with its own
      delimiters. */
  const MatrixRules: seq<(Pattern, Rewrite)> := [
    (Environment("bmatrix"), Matrix("[", "]")), (Environment("pmatrix"), Matrix("(", ")")),
    (Environment("vmatrix"), Matrix("|", "|")), (Environment("Bmatrix"), Matrix("{", "}")),
    (Environment("matrix"), Matrix("", ""))
  ]

  function Matrices(s: string): string { ReplaceEach(s, MatrixRules) }

  /** `handleCases`. */
  function CasesEnvironment(s: string): string { Replace(s, Environment("cases"), Cases) }

  /** `handleLimitsAndOperators`: the bounds go through `toSubscript` and
      `toSuperscript`; a two-bound form is tried before its one-bound form. */
  const LimitRules: seq<(Pattern, Rewrite)> := [
    (Braced("\\lim_{"), Operator("lim")),
    (BracedPair("\\sum_{", "}^{"), Operator("∑")), (Braced("\\sum_{"), Operator("∑")),
    (BracedPair("\\prod_{", "}^{"), Operator("∏")), (Braced("\\prod_{"), Operator("∏")),
    (BracedPair("\\int_{", "}^{"), Operator("∫")), (Braced("\\int_{"), Operator("∫"))
  ]

  function Limits(s: string): string { ReplaceEach(s, LimitRules) }

  /** `handleSubscripts`: `_{…}` through the table, then `_c` for one ASCII
      letter or digit. */
  const SubscriptRules: seq<(Pattern, Rewrite)> := [
    (Braced("_{"), MapChars(Subscript)), (MarkedChar('_', false), MapChars(Subscript))
  ]

  function Subscripts(s: string): string { ReplaceEach(s, SubscriptRules) }

  /** `handleSuperscripts`, the same with `^`. */
  const SuperscriptRules: seq<(Pattern, Rewrite)> := [
    (Braced("^{"), MapChars(Superscript)), (MarkedChar('^', true), MapChars(Superscript))
  ]

  function Superscripts(s: string): string { ReplaceEach(s, SuperscriptRules) }

  /** `handleBrackets`: plain replacements, in this order. */
  const BracketPairs: seq<(string, string)> := [
    ("\\left", ""), ("\\right", ""), ("\\big", ""), ("\\Big", ""), ("\\bigg", ""), ("\\Bigg", ""),
    ("\\langle", "⟨"), ("\\rangle", "⟩"), ("\\lfloor", "⌊"), ("\\rfloor", "⌋"),
    ("\\lceil", "⌈"), ("\\rceil", "⌉"), ("\\{", "{"), ("\\}", "}")
  ]

  function Brackets(s: string): string {
    assert NonEmptyKeys(BracketPairs);
    ApplyAll(s, BracketPairs)
  }

  /** `handleAccents`: the argument followed by a mark. */
  const AccentRules: seq<(Pattern, Rewrite)> := [
    (Braced("\\dot{"), Suffix("˙")), (Braced("\\ddot{"), Suffix("¨")), (Braced("\\tilde{"), Suffix("˜")),
    (Braced("\\widehat{"), Suffix("^")), (Braced("\\widetilde{"), Suffix("˜"))
  ]

  function Accents(s: string): string { ReplaceEach(s, AccentRules) }

  // ---------------------------------------------------------------------
  // handleTextCommand and handleSqrt: rewrite until no match is left.

  const TextCommand := Braced("\\text{")
  const SquareRoot := Braced("\\sqrt{")

  /** What `handleTextCommand` computes: `\text{…}` unwrapped until none is
      left. */
  function UnwrapText(s: string): (r: string)
    ensures |r| <= |s| && !ContainsMatch(r, TextCommand)
    ensures !ContainsMatch(s, TextCommand) ==> r == s
    decreases |s|
  {
    if ContainsMatch(s, TextCommand) then
      UnwrapShrinks("\\text{");
      ReplaceShorter(s, TextCommand, Unwrap);
      UnwrapText(Replace(s, TextCommand, Unwrap))
    else s
  }

  method HandleTextCommand(formula: string) returns (result: string)
    ensures result == UnwrapText(formula)
  {
    result := formula;
    while ContainsMatch(result, TextCommand)
      invariant UnwrapText(result) == UnwrapText(formula)
      decreases |result|
    {
      UnwrapShrinks("\\text{");
      ReplaceShorter(result, TextCommand, Unwrap);
      result := Replace(result, TextCommand, Unwrap);
    }
  }

  /** The loop of `handleSqrt`: `\sqrt{x}` becomes `√(x)` until none is left. */
  function SquareRoots(s: string): (r: string)
    ensures |r| <= |s| && !ContainsMatch(r, SquareRoot)
    ensures !ContainsMatch(s, SquareRoot) ==> r == s
    decreases |s|
  {
    if ContainsMatch(s, SquareRoot) then
      RootShrinks();
      ReplaceShorter(s, SquareRoot, Root);
      SquareRoots(Replace(s, SquareRoot, Root))
    else s
  }

  /** What `handleSqrt` computes: the loop, then one pass for `\sqrt[n]{x}`. */
  function Roots(s: string): string {
    Replace(SquareRoots(s), IndexedRoot, RootWithIndex)
  }

  method HandleSqrt(formula: string) returns (result: string)
    ensures result == Roots(formula)
  {
    result := formula;
    while ContainsMatch(result, SquareRoot)
      invariant SquareRoots(result) == SquareRoots(formula)
      decreases |result|
    {
      RootShrinks();
      ReplaceShorter(result, SquareRoot, Root);
      result := Replace(result, SquareRoot, Root);
    }
    result := Replace(result, IndexedRoot, RootWithIndex);
  }

  // ---------------------------------------------------------------------
  // extractBalancedBraces.

  /** Opening minus closing braces in `s`. */
  function Depth(s: string): int {
    if s == [] then 0
    else Depth(s[..|s| - 1]) + (if s[|s| - 1] == '{' then 1 else if s[|s| - 1] == '}' then -1 else 0)
  }

  lemma {:induction false} DepthAppend(a: string, b: string)
    ensures Depth(a + b) == Depth(a) + Depth(b)
    decreases |b|
  {
    if b != [] {
      assert (a + b)[..|a + b| - 1] == a + b[..|b| - 1];
      DepthAppend(a, b[..|b| - 1]);
    } else {
      assert a + b == a;
    }
  }

  /** The brace at `start` is closed at `j`: the depth of `text[start..k]`
      stays positive up to `j` and reaches zero just after it. */
  predicate Closes(text: string, start: nat, j: nat) {
    start < j < |text| && Depth(text[start..j + 1]) == 0 &&
    forall k | start < k <= j :: Depth(text[start..k]) > 0
  }

  /** The scan of `extractBalancedBraces` from `index` with `count` braces
      open: the index just after the brace that closes them, or -1. */
  function CloseScan(text: string, index: nat, count: nat): (r: int)
    requires index <= |text|
    ensures r == -1 || (index <= r <= |text| && (count > 0 ==> index < r))
    decreases |text| - index
  {
    if count == 0 then index
    else if index >= |text| then -1
    else CloseScan(text, index + 1, if text[index] == '{' then count + 1 else if text[index] == '}' then count - 1 else count)
  }

  /** What `extractBalancedBraces` returns: the text inside the brace at
      `start` and the index after its closing brace, or `(null, -1)`. */
  function ExtractBraces(text: string, start: nat): (r: (Option<string>, int))
    ensures r.0.None? <==> r.1 == -1
    ensures r.0.Some? ==> start + 2 <= r.1 <= |text| && r.0.value == text[start + 1..r.1 - 1]
  {
    if start >= |text| || text[start] != '{' then (None, -1)
    else
      var e := CloseScan(text, start + 1, 1);
      if e == -1 then (None, -1) else (Some(text[start + 1..e - 1]), e)
  }

  lemma {:induction false} CloseScanFinds(text: string, start: nat, i: nat, count: nat)
    requires start < i <= |text| && count > 0 && count == Depth(text[start..i])
    requires forall k | start < k <= i :: Depth(text[start..k]) > 0
    ensures CloseScan(text, i, count) == -1 ==> forall j: nat :: !Closes(text, start, j)
    ensures CloseScan(text, i, count) != -1 ==> i < CloseScan(text, i, count) && Closes(text, start, CloseScan(text, i, count) - 1)
    decreases |text| - i
  {
    if i == |text| {
      forall j: nat ensures !Closes(text, start, j) {
        if start < j < |text| {
          assert Depth(text[start..j + 1]) > 0;
        }
      }
    } else {
      assert text[start..i + 1][..i - start] == text[start..i];
      var next := if text[i] == '{' then count + 1 else if text[i] == '}' then count - 1 else count;
      assert Depth(text[start..i + 1]) == next;
      if next > 0 {
        CloseScanFinds(text, start, i + 1, next);
      } else {
        assert CloseScan(text, i, count) == i + 1;
      }
    }
  }

  /** `extractBalancedBraces` succeeds exactly when `text[start]` is `{` and
      some later brace closes it; it then returns the text strictly between
      the two and the index after the closing one. */
  lemma ExtractBracesSpec(text: string, start: nat)
    ensures var (content, after) := ExtractBraces(text, start);
      (content.None? <==> start >= |text| || text[start] != '{' || forall j: nat :: !Closes(text, start, j)) &&
      (content.Some? ==> text[start] == '{' && Closes(text, start, after - 1))
  {
    if start < |text| && text[start] == '{' {
      assert text[start..start + 1] == "{";
      assert Depth("{") == 1 by {
        assert "{"[..0] == [];
      }
      CloseScanFinds(text, start, start + 1, 1);
    }
  }

  /** The returned content is balanced: no prefix of it closes more braces
      than it opens, and the whole of it closes as many as it opens. */
  lemma BalancedContent(text: string, start: nat, j: nat)
    requires start < |text| && text[start] == '{' && Closes(text, start, j)
    ensures text[j] == '}'
    ensures Depth(text[start + 1..j]) == 0
    ensures var content := text[start + 1..j]; forall k | 0 <= k <= |content| :: Depth(content[..k]) >= 0
  {
    assert Depth("{") == 1 by {
      assert "{"[..0] == [];
    }
    forall k | start + 1 <= k <= j + 1
      ensures Depth(text[start..k]) == 1 + Depth(text[start + 1..k])
    {
      assert text[start..k] == "{" + text[start + 1..k];
      DepthAppend("{", text[start + 1..k]);
    }
    var content := text[start + 1..j];
    forall k | 0 <= k <= |content| ensures Depth(content[..k]) >= 0 {
      assert content[..k] == text[start + 1..start + 1 + k];
      if k > 0 {
        assert Depth(text[start..start + 1 + k]) > 0;
      }
    }
    assert text[start..j + 1][..j - start] == text[start..j];
    if j > start + 1 {
      assert Depth(text[start..j]) > 0;
    } else {
      assert text[start..j] == "{";
    }
  }

  method ExtractBalancedBraces(text: string, startIndex: nat) returns (content: Option<string>, after: int)
    ensures (content, after) == ExtractBraces(text, startIndex)
  {
    if startIndex >= |text| || text[startIndex] != '{' {
      return None, -1;
    }
    var braceCount: nat := 1;
    var index := startIndex + 1;
    while index < |text| && braceCount > 0
      invariant startIndex < index <= |text|
      invariant CloseScan(text, index, braceCount) == CloseScan(text, startIndex + 1, 1)
      decreases |text| - index
    {
      if text[index] == '{' {
        braceCount := braceCount + 1;
      } else if text[index] == '}' {
        braceCount := braceCount - 1;
      }
      index := index + 1;
    }
    if braceCount == 0 {
      content, after := Some(text[startIndex + 1..index - 1]), index;
    } else {
      content, after := None, -1;
    }
  }

  // ---------------------------------------------------------------------
  // handleFractions.

  /** One pass of the `handleFractions` loop. The numerator is looked for at
      the index just after `\frac{`, so it must itself start with `{`:
      `\frac{{A}{B}` becomes `(A/B)`, and `\frac{A}{B}` is not rewritten. */
  function FractionStep(s: string): (r: Option<string>)
    ensures r.Some? ==> |r.value| + 7 == |s|
    ensures r.Some? ==> var i := IndexOf(s, "\\frac{", 0); 0 <= i && i + 6 < |s| && s[i + 6] == '{'
  {
    var i := IndexOf(s, "\\frac{", 0);
    if i == -1 then None else FractionAt(s, i)
  }

  /** The pass once `\frac{` has been found at `i`. */
  function FractionAt(s: string, i: nat): (r: Option<string>)
    requires i + 6 <= |s|
    ensures r.Some? ==> |r.value| + 7 == |s| && i + 6 < |s| && s[i + 6] == '{'
  {
    var (numerator, afterNumerator) := ExtractBraces(s, i + 6);
    if numerator.None? then None
    else
      var (denominator, afterDenominator) := ExtractBraces(s, afterNumerator);
      if denominator.None? then None
      else Some(s[..i] + "(" + numerator.value + "/" + denominator.value + ")" + s[afterDenominator..])
  }

  /** What `handleFractions` computes: passes until one rewrites nothing.
      Each pass that rewrites removes exactly seven characters. */
  function Fractions(s: string): (r: string)
    ensures |r| <= |s|
    ensures FractionStep(r).None?
    decreases |s|
  {
    match FractionStep(s)
    case None => s
    case Some(t) => Fractions(t)
  }

  method HandleFractions(formula: string) returns (result: string)
    ensures result == Fractions(formula)
  {
    result := formula;
    var continueProcessing := true;
    while continueProcessing
      invariant continueProcessing ==> Fractions(result) == Fractions(formula)
      invariant !continueProcessing ==> result == Fractions(formula)
      decreases |result|, if continueProcessing then 1 else 0
    {
      continueProcessing := false;
      var startIndex := IndexOf(result, "\\frac{", 0);
      if startIndex != -1 {
        var afterFrac := startIndex + 6;
        var numerator, afterNumerator := ExtractBalancedBraces(result, afterFrac);
        if numerator.Some? {
          var denominator, afterDenominator := ExtractBalancedBraces(result, afterNumerator);
          if denominator.Some? {
            var before := result[..startIndex];
            var after := result[afterDenominator..];
            FractionTaken(result, startIndex, numerator.value, afterNumerator, denominator.value, afterDenominator);
            result := before + "(" + numerator.value + "/" + denominator.value + ")" + after;
            continueProcessing := true;
          } else {
            FractionStops(result);
          }
        } else {
          FractionStops(result);
        }
      } else {
        FractionStops(result);
      }
    }
  }

  /** A pass that rewrites leaves the outcome of the loop as it was. */
  lemma FractionTaken(s: string, i: nat, num: string, afterNum: nat, den: string, afterDen: nat)
    requires IndexOf(s, "\\frac{", 0) == i
    requires ExtractBraces(s, i + 6) == (Some(num), afterNum)
    requires ExtractBraces(s, afterNum) == (Some(den), afterDen)
    ensures afterDen <= |s|
    ensures Fractions(s) == Fractions(s[..i] + "(" + num + "/" + den + ")" + s[afterDen..])
  {
  }

  /** A pass that finds nothing to rewrite ends the loop. */
  lemma FractionStops(s: string)
    requires FractionStep(s).None?
    ensures Fractions(s) == s
  {
  }

  lemma {:induction false} CloseScanSkip(text: string, i: nat, j: nat, count: nat)
    requires i <= j <= |text| && count > 0
    requires '{' !in text[i..j] && '}' !in text[i..j]
    ensures CloseScan(text, i, count) == CloseScan(text, j, count)
    decreases j - i
  {
    if i < j {
      assert text[i] == text[i..j][0];
      assert text[i + 1..j] == text[i..j][1..];
      CloseScanSkip(text, i + 1, j, count);
    }
  }

  /** A group without braces closes at the first `}` after it. */
  lemma PlainGroup(text: string, start: nat, g: string)
    requires start + |g| + 2 <= |text| && text[start] == '{' && text[start + 1..start + 1 + |g|] == g
    requires text[start + 1 + |g|] == '}' && '{' !in g && '}' !in g
    ensures ExtractBraces(text, start) == (Some(g), start + |g| + 2)
  {
    CloseScanSkip(text, start + 1, start + 1 + |g|, 1);
  }

  lemma FirstFraction(a: string, b: string)
    ensures IndexOf("\\frac{{" + a + "}{" + b + "}", "\\frac{", 0) == 0
  {
    var s := "\\frac{{" + a + "}{" + b + "}";
    assert s[..6] == "\\frac{";
    assert OccursAt(s, "\\frac{", 0);
  }

  lemma DoubleBraceShape(a: string, b: string)
    ensures var s := "\\frac{{" + a + "}{" + b + "}";
      |s| == 10 + |a| + |b| && s[6] == '{' && s[7..7 + |a|] == a && s[7 + |a|] == '}' &&
      s[8 + |a|] == '{' && s[9 + |a|..9 + |a| + |b|] == b && s[9 + |a| + |b|] == '}'
  {
  }

  lemma DoubleBraceGroups(a: string, b: string)
    requires '{' !in a && '}' !in a && '{' !in b && '}' !in b
    ensures var s := "\\frac{{" + a + "}{" + b + "}";
      ExtractBraces(s, 6) == (Some(a), 8 + |a|) && ExtractBraces(s, 8 + |a|) == (Some(b), |s|)
  {
    var s := "\\frac{{" + a + "}{" + b + "}";
    DoubleBraceShape(a, b);
    PlainGroup(s, 6, a);
    PlainGroup(s, 8 + |a|, b);
  }

  /** A fraction spanning the whole text is replaced by the quotient alone. */
  lemma WholeFraction(s: string, num: string, afterNum: nat, den: string)
    requires IndexOf(s, "\\frac{", 0) == 0 && 6 <= |s|
    requires ExtractBraces(s, 6) == (Some(num), afterNum)
    requires ExtractBraces(s, afterNum) == (Some(den), |s|)
    ensures FractionStep(s) == Some("(" + num + "/" + den + ")")
  {
    WholeFractionAt(s, num, afterNum, den);
  }

  lemma WholeFractionAt(s: string, num: string, afterNum: nat, den: string)
    requires 6 <= |s|
    requires ExtractBraces(s, 6) == (Some(num), afterNum)
    requires ExtractBraces(s, afterNum) == (Some(den), |s|)
    ensures FractionAt(s, 0) == Some("(" + num + "/" + den + ")")
  {
    QuotientAlone(s, num, den);
  }

  lemma DoubleBraceStep(a: string, b: string)
    requires '{' !in a && '}' !in a && '{' !in b && '}' !in b
    ensures FractionStep("\\frac{{" + a + "}{" + b + "}") == Some("(" + a + "/" + b + ")")
  {
    var s := "\\frac{{" + a + "}{" + b + "}";
    FirstFraction(a, b);
    DoubleBraceGroups(a, b);
    WholeFraction(s, a, 8 + |a|, b);
  }

  lemma QuotientAlone(s: string, a: string, b: string)
    ensures s[..0] + "(" + a + "/" + b + ")" + s[|s|..] == "(" + a + "/" + b + ")"
  {
    var t := "(" + a + "/" + b + ")";
    assert s[..0] + "(" == "(";
    assert s[|s|..] == [];
    assert t + [] == t;
  }

  /** `\frac{{A}{B}` with brace-free `A` and `B` becomes `(A/B)`. */
  lemma FractionOfDoubleBrace(a: string, b: string)
    requires '{' !in a && '}' !in a && '{' !in b && '}' !in b
    ensures Fractions("\\frac{{" + a + "}{" + b + "}") == "(" + a + "/" + b + ")"
  {
    DoubleBraceStep(a, b);
    var t := "(" + a + "/" + b + ")";
    AbsentChar(t, "\\frac{", 5);
    assert IndexOf(t, "\\frac{", 0) == -1;
  }

  /** When the first `\frac{` is not followed by another `{`, the loop stops
      at once and nothing is rewritten, however many fractions follow. */
  lemma FractionNeedsDoubleBrace(s: string)
    requires Contains(s, "\\frac{")
    requires var i := IndexOf(s, "\\frac{", 0); i + 6 == |s| || s[i + 6] != '{'
    ensures Fractions(s) == s
  {
    var i := IndexOf(s, "\\frac{", 0);
    assert ExtractBraces(s, i + 6).0.None?;
    assert FractionStep(s).None?;
  }

  // ---------------------------------------------------------------------
  // The whole chain.

  /** `replace("{", "").replace("}", "")`. */
  function Unbraced(s: string): (r: string)
    ensures '{' !in r && '}' !in r
  {
    ReplaceAllRemoves(s, '{', "");
    ReplaceAllRemoves(ReplaceAll(s, "{", ""), '}', "");
    ReplaceAll(ReplaceAll(s, "{", ""), "}", "")
  }

  /** The six spacing commands; they bring in no brace. */
  function Spacing(s: string): (r: string)
    ensures '{' !in s ==> '{' !in r
    ensures '}' !in s ==> '}' !in r
  {
    ReplaceAll(ReplaceAll(ReplaceAll(ReplaceAll(ReplaceAll(ReplaceAll(
      s, "\\,", " "), "\\;", " "), "\\:", " "), "\\!", ""), "\\quad", "  "), "\\qquad", "    ")
  }

  /** The clean-up at the end of `preprocessMathFormula`: braces, spacing
      commands, unknown commands, runs of whitespace, and the ends. */
  function Cleanup(s: string): string {
    var bare := Replace(Spacing(Unbraced(s)), CommandName, Constant(""));
    Trim(Replace(bare, WhitespaceRun, Constant(" ")))
  }

  /** The handlers from `handleMathFontCommands` to `handleAccents`, in the
      order `preprocessMathFormula` calls them. */
  function Handlers(s: string): string {
    var fonts := MathFonts(s);
    var text := UnwrapText(fonts);
    var matrices := Matrices(text);
    var cases := CasesEnvironment(matrices);
    var fractions := Fractions(cases);
    var roots := Roots(fractions);
    var limits := Limits(roots);
    var scripts := Superscripts(Subscripts(limits));
    Accents(Brackets(scripts))
  }

  /** What `preprocessMathFormula` computes. */
  function PreprocessMath(formula: string): string {
    Cleanup(Handlers(ApplyAll(formula, MacroOrder())))
  }

  /** A text with no brace, no backslash followed by a letter, no two
      whitespace characters in a row, and no whitespace at either end. */
  predicate Clean(r: string) {
    '{' !in r && '}' !in r && NoCommand(r) && NoDoubleSpace(r) &&
    (r == [] || (!IsWhitespace(r[0]) && !IsWhitespace(r[|r| - 1])))
  }

  /** The two passes before the trim leave no brace, no command and no two
      adjacent whitespace characters. */
  lemma PassesClean(spaced: string)
    requires '{' !in spaced && '}' !in spaced
    ensures var collapsed := Replace(Replace(spaced, CommandName, Constant("")), WhitespaceRun, Constant(" "));
      '{' !in collapsed && '}' !in collapsed && NoCommand(collapsed) && NoDoubleSpace(collapsed)
  {
    var bare := Replace(spaced, CommandName, Constant(""));
    ReplaceConstantChars(spaced, CommandName, "", '{');
    ReplaceConstantChars(spaced, CommandName, "", '}');
    RemoveCommands(spaced);
    ReplaceConstantChars(bare, WhitespaceRun, " ", '{');
    ReplaceConstantChars(bare, WhitespaceRun, " ", '}');
    Collapse(bare);
  }

  /** Trimming keeps a text clean and makes its ends clean. */
  lemma TrimClean(s: string)
    requires '{' !in s && '}' !in s && NoCommand(s) && NoDoubleSpace(s)
    ensures Clean(Trim(s))
  {
    TrimSlice(s);
    TrimChars(s);
    var lo := LeadingSpace(s);
    NoCommandSlice(s, lo, lo + |Trim(s)|);
    NoDoubleSpaceSlice(s, lo, lo + |Trim(s)|);
  }

  /** Whatever the formula, the clean-up leaves a clean text. */
  lemma CleanupClean(s: string)
    ensures Clean(Cleanup(s))
  {
    var spaced := Spacing(Unbraced(s));
    PassesClean(spaced);
    TrimClean(Replace(Replace(spaced, CommandName, Constant("")), WhitespaceRun, Constant(" ")));
  }

  /** So is the output of `preprocessMathFormula`, whatever its input. */
  lemma MathOutputClean(formula: string)
    ensures Clean(PreprocessMath(formula))
  {
    CleanupClean(Handlers(ApplyAll(formula, MacroOrder())));
  }

  method PreprocessMathFormula(formula: string) returns (result: string)
    ensures result == PreprocessMath(formula)
    ensures Clean(result)
  {
    result := ApplyMacros(formula);
    result := MathFonts(result);
    result := HandleTextCommand(result);
    result := Matrices(result);
    result := CasesEnvironment(result);
    result := HandleFractions(result);
    result := HandleSqrt(result);
    result := Limits(result);
    result := Subscripts(result);
    result := Superscripts(result);
    result := Brackets(result);
    result := Accents(result);
    result := ReplaceAll(result, "{", "");
    result := ReplaceAll(result, "}", "");
    result := ReplaceAll(result, "\\,", " ");
    result := ReplaceAll(result, "\\;", " ");
    result := ReplaceAll(result, "\\:", " ");
    result := ReplaceAll(result, "\\!", "");
    result := ReplaceAll(result, "\\quad", "  ");
    result := ReplaceAll(result, "\\qquad", "    ");
    result := Replace(result, CommandName, Constant(""));
    result := Replace(result, WhitespaceRun, Constant(" "));
    result := Trim(result);
    MathOutputClean(formula);
  }

  /** `preprocessChemicalFormula`: subscripts, superscripts, braces, trim.
      The result has no brace and no whitespace at either end. */
  function PreprocessChemical(formula: string): (r: string)
    ensures '{' !in r && '}' !in r
    ensures r == [] || (!IsWhitespace(r[0]) && !IsWhitespace(r[|r| - 1]))
  {
    var unbraced := Unbraced(Superscripts(Subscripts(formula)));
    TrimChars(unbraced);
    Trim(unbraced)
  }
}

=== FILE: formula_examples.dfy ===
/** What the subscript and superscript handlers make of the shapes they are
    written for. */
module FormulaExamples {
  import opened Wrappers
  import opened Text
  import opened FormulaTables
  import opened FormulaPatterns
  import opened Formula

  lemma ReplaceEachTwo(s: string, rules: seq<(Pattern, Rewrite)>)
    requires |rules| == 2
    ensures ReplaceEach(s, rules) == Replace(Replace(s, rules[0].0, rules[0].1), rules[1].0, rules[1].1)
  {
    var once := Replace(s, rules[0].0, rules[0].1);
    assert ReplaceEach(once, rules[1..]) == ReplaceEach(Replace(once, rules[1].0, rules[1].1), rules[2..]);
  }

  /** One pass of a `prefix([^}]+)\}` rule over a text whose only match is
      one group. */
  lemma GroupPass(x: string, prefix: string, g: string, y: string, rw: Rewrite)
    requires prefix != [] && prefix[0] !in x && prefix[0] !in y && g != [] && '}' !in g
    ensures Replace(x + prefix + g + "}" + y, Braced(prefix), rw) == x + Rewritten(rw, [g]) + y
  {
    var m := prefix + g + "}";
    GroupAtStart(prefix, g, y);
    assert x + prefix + g + "}" + y == x + m + y;
    ReplaceOne(x, m, y, Braced(prefix), rw, [g]);
  }

  lemma GroupAtStart(prefix: string, g: string, y: string)
    requires g != [] && '}' !in g
    ensures MatchAt(Braced(prefix), prefix + g + "}" + y) == Some(Match([g], |prefix + g + "}"|))
  {
    var t := prefix + g + "}" + y;
    assert t[..|prefix|] == prefix && t[|prefix|..|prefix| + |g|] == g && t[|prefix| + |g|] == '}';
    BracedMatch(prefix, t, g);
  }

  /** A text without the mark has no one-character subscript or superscript. */
  lemma MarkAbsent(r: string, mark: char, superscript: bool, rw: Rewrite)
    requires mark !in r
    ensures Replace(r, MarkedChar(mark, superscript), rw) == r
  {
    assert Lead(MarkedChar(mark, superscript)) == [mark];
    AbsentChar(r, [mark], 0);
    ReplaceNoLead(r, MarkedChar(mark, superscript), rw);
  }

  /** The rules of a subscript or superscript handler: a braced group, then a
      single character, both through the same table. */
  function ScriptRules(mark: char, superscript: bool, t: Script): seq<(Pattern, Rewrite)> {
    [(Braced([mark, '{']), MapChars(t)), (MarkedChar(mark, superscript), MapChars(t))]
  }

  lemma ScriptRulesOf()
    ensures SubscriptRules == ScriptRules('_', false, Subscript)
    ensures SuperscriptRules == ScriptRules('^', true, Superscript)
  {
    assert "_{" == ['_', '{'];
    assert "^{" == ['^', '{'];
  }

  /** A `prefix([^}]+)\}` rule over a group preceded by a text without the
      prefix's first character: the text, the rewritten group, then the
      rule applied to the rest. */
  lemma BracedHit(x: string, prefix: string, g: string, y: string, rw: Rewrite)
    requires prefix != [] && prefix[0] !in x && g != [] && '}' !in g
    ensures Replace(x + prefix + g + "}" + y, Braced(prefix), rw)
         == x + Rewritten(rw, [g]) + Replace(y, Braced(prefix), rw)
  {
    var m := prefix + g + "}";
    GroupAtStart(prefix, g, y);
    ReplaceHit(m + y, Braced(prefix), rw, Match([g], |m|));
    DropFront(m, y);
    Regroup(x, prefix, g, y);
    AppendAssoc(x, m, y);
    ReplacePrefix(x, m + y, Braced(prefix), rw);
    AppendAssoc(x, Rewritten(rw, [g]), Replace(y, Braced(prefix), rw));
  }

  lemma Regroup(x: string, c: string, g: string, y: string)
    ensures x + c + g + "}" + y == x + (c + g + "}") + y
  {
  }

  /** The two rules over a text whose first mark opens a braced group: the
      text before it, the group through the table, then the handler applied
      to the rest. */
  lemma MarkedGroup(x: string, mark: char, superscript: bool, g: string, y: string, t: Script)
    requires mark !in x && g != [] && '}' !in g && mark !in g
    requires forall c :: Glyph(t, c) == mark ==> c == mark
    ensures ReplaceEach(x + [mark, '{'] + g + "}" + y, ScriptRules(mark, superscript, t))
         == x + MapThrough(t, g) + ReplaceEach(y, ScriptRules(mark, superscript, t))
  {
    var rules := ScriptRules(mark, superscript, t);
    var s := x + [mark, '{'] + g + "}" + y;
    var y1 := Replace(y, Braced([mark, '{']), MapChars(t));
    BracedHit(x, [mark, '{'], g, y, MapChars(t));
    var w := x + MapThrough(t, g);
    assert mark !in w by {
      MapThroughAvoids(t, g, mark);
      ConcatLacks(x, MapThrough(t, g), mark);
    }
    ReplacePrefix(w, y1, MarkedChar(mark, superscript), MapChars(t));
    ReplaceEachTwo(s, rules);
    ReplaceEachTwo(y, rules);
  }

  /** No character but the mark itself comes out of its table as the mark. */
  lemma MarkGlyphs()
    ensures forall c :: Glyph(Subscript, c) == '_' ==> c == '_'
    ensures forall c :: Glyph(Superscript, c) == '^' ==> c == '^'
  {
  }

  /** `x_{g}y` becomes `x`, then `g` through the subscript table, then what
      the handler makes of `y`, when `x` and the group have no `_` and the
      group has no `}`. */
  lemma SubscriptGroup(x: string, g: string, y: string)
    requires '_' !in x && g != [] && '}' !in g && '_' !in g
    ensures Subscripts(x + "_{" + g + "}" + y) == x + MapThrough(Subscript, g) + Subscripts(y)
  {
    MarkGlyphs();
    ScriptRulesOf();
    MarkedGroup(x, '_', false, g, y, Subscript);
  }

  /** `x^{g}y` becomes `x`, then `g` through the superscript table, then what
      the handler makes of `y`. */
  lemma SuperscriptGroup(x: string, g: string, y: string)
    requires '^' !in x && g != [] && '}' !in g && '^' !in g
    ensures Superscripts(x + "^{" + g + "}" + y) == x + MapThrough(Superscript, g) + Superscripts(y)
  {
    MarkGlyphs();
    ScriptRulesOf();
    MarkedGroup(x, '^', true, g, y, Superscript);
  }

  /** The braced rule passes over a mark followed by a character other than
      `{`. */
  lemma SinglePass(x: string, mark: char, c: char, y: string, rw: Rewrite)
    requires mark !in x && c != '{' && c != mark
    ensures Replace(x + [mark, c] + y, Braced([mark, '{']), rw)
         == x + [mark, c] + Replace(y, Braced([mark, '{']), rw)
  {
    var p := Braced([mark, '{']);
    var u := [c] + y;
    var w := [mark] + u;
    ConsTail(mark, u);
    assert !StartsWith(w, [mark, '{']) by { ConsTail(c, y); }
    assert MatchAt(p, w).None?;
    ReplaceSkip(w, p, rw);
    ReplacePrefix([c], y, p, rw);
    TwoChars(x, mark, c, y);
    ReplacePrefix(x, w, p, rw);
    TwoChars(x, mark, c, Replace(y, p, rw));
  }

  lemma TwoChars(x: string, a: char, b: char, y: string)
    ensures x + [a, b] + y == x + ([a] + ([b] + y))
  {
    assert [a, b] == [a] + [b];
  }

  /** The one-character rule maps the first mark and its character. */
  lemma SingleHit(x: string, mark: char, superscript: bool, c: char, y: string, t: Script)
    requires mark !in x
    requires if superscript then IsSuperscriptClassChar(c) else IsSubscriptClassChar(c)
    ensures Replace(x + [mark, c] + y, MarkedChar(mark, superscript), MapChars(t))
         == x + [Glyph(t, c)] + Replace(y, MarkedChar(mark, superscript), MapChars(t))
  {
    var p := MarkedChar(mark, superscript);
    var u := [mark, c] + y;
    assert u[1..2] == [c];
    assert MatchAt(p, u) == Some(Match([[c]], 2));
    ReplaceHit(u, p, MapChars(t), Match([[c]], 2));
    assert u[2..] == y;
    assert MapThrough(t, [c]) == [Glyph(t, c)];
    assert x + [mark, c] + y == x + u;
    ReplacePrefix(x, u, p, MapChars(t));
  }

  /** The two rules over a text whose first mark is followed by one
      character of the rule's class: the braced rule passes over it, the
      one-character rule maps it. */
  lemma MarkedSingle(x: string, mark: char, superscript: bool, c: char, y: string, t: Script)
    requires mark !in x && c != '{' && c != mark
    requires if superscript then IsSuperscriptClassChar(c) else IsSubscriptClassChar(c)
    ensures ReplaceEach(x + [mark, c] + y, ScriptRules(mark, superscript, t))
         == x + [Glyph(t, c)] + ReplaceEach(y, ScriptRules(mark, superscript, t))
  {
    var rw := MapChars(t);
    var y1 := Replace(y, Braced([mark, '{']), rw);
    SinglePass(x, mark, c, y, rw);
    SingleHit(x, mark, superscript, c, y1, t);
    ReplaceEachTwo(x + [mark, c] + y, ScriptRules(mark, superscript, t));
    ReplaceEachTwo(y, ScriptRules(mark, superscript, t));
  }

  /** `x_cy` becomes `x`, then `c` through the subscript table, then what the
      handler makes of `y`, for an ASCII letter or digit `c`. */
  lemma SubscriptSingle(x: string, c: char, y: string)
    requires '_' !in x && IsSubscriptClassChar(c)
    ensures Subscripts(x + ['_', c] + y) == x + [SubscriptGlyph(c)] + Subscripts(y)
  {
    ScriptRulesOf();
    MarkedSingle(x, '_', false, c, y, Subscript);
  }

  /** The handlers leave the empty text empty. */
  lemma ScriptsOfEmpty()
    ensures Subscripts("") == "" && Superscripts("") == ""
  {
    ScriptRulesOf();
    ReplaceEachTwo("", SubscriptRules);
    ReplaceEachTwo("", SuperscriptRules);
  }

  /** The table has no subscript `b`: `_b` just loses its underscore. */
  lemma SubscriptB(x: string)
    requires '_' !in x
    ensures Subscripts(x + "_b") == x + "b"
  {
    SubscriptSingle(x, 'b', "");
    ScriptsOfEmpty();
    assert x + ['_', 'b'] + "" == x + "_b";
  }

  /** `x^cy` becomes `x`, then `c` through the superscript table, then what
      the handler makes of `y`, for `c` of the class `[0-9a-zA-Z+-=()]`. */
  lemma SuperscriptSingle(x: string, c: char, y: string)
    requires '^' !in x && IsSuperscriptClassChar(c)
    ensures Superscripts(x + ['^', c] + y) == x + [SuperscriptGlyph(c)] + Superscripts(y)
  {
    ScriptRulesOf();
    MarkedSingle(x, '^', true, c, y, Superscript);
  }

  /** The class range `+-=` also holds the comma, which the table lacks: `^,`
      loses its caret. */
  lemma SuperscriptComma(x: string)
    requires '^' !in x
    ensures Superscripts(x + "^,") == x + ","
  {
    SuperscriptSingle(x, ',', "");
    ScriptsOfEmpty();
    assert x + ['^', ','] + "" == x + "^,";
  }
}

/** `preprocessChemicalFormula` on the shapes it is meant for. */
module ChemicalExamples {
  import opened Text
  import opened FormulaTables
  import opened FormulaPatterns
  import opened Formula
  import opened FormulaExamples

  /** A text without the mark is left alone by the handler. */
  lemma ScriptsAbsent(s: string, mark: char, superscript: bool, t: Script)
    requires mark !in s
    ensures ReplaceEach(s, ScriptRules(mark, superscript, t)) == s
  {
    assert Lead(Braced([mark, '{'])) == [mark, '{'];
    AbsentChar(s, [mark, '{'], 0);
    ReplaceNoLead(s, Braced([mark, '{']), MapChars(t));
    MarkAbsent(s, mark, superscript, MapChars(t));
    ReplaceEachTwo(s, ScriptRules(mark, superscript, t));
  }

  /** A text without braces whose ends are not whitespace is left alone by
      the brace removal and the trim. */
  lemma UnbracedTrimmed(s: string)
    requires '{' !in s && '}' !in s
    requires s == [] || (!IsWhitespace(s[0]) && !IsWhitespace(s[|s| - 1]))
    ensures Trim(Unbraced(s)) == s
  {
    AbsentChar(s, "{", 0);
    ReplaceAbsent(s, "{", "");
    AbsentChar(s, "}", 0);
    ReplaceAbsent(s, "}", "");
    TrimFixed(s);
  }

  /** The chemical chain, given what the two handlers make of a formula. */
  lemma ChemicalChain(formula: string, subscripted: string, r: string)
    requires Subscripts(formula) == subscripted && Superscripts(subscripted) == r
    requires '{' !in r && '}' !in r
    requires r == [] || (!IsWhitespace(r[0]) && !IsWhitespace(r[|r| - 1]))
    ensures PreprocessChemical(formula) == r
  {
    UnbracedTrimmed(r);
  }

  /** `H_2O` becomes `H₂O`. */
  lemma Water()
    ensures PreprocessChemical("H_2O") == "H₂O"
  {
    assert Subscripts("H_2O") == "H₂O" by {
      SubscriptSingle("H", '2', "O");
      ScriptRulesOf();
      ScriptsAbsent("O", '_', false, Subscript);
      assert "H" + ['_', '2'] + "O" == "H_2O";
      assert "H" + [SubscriptGlyph('2')] + "O" == "H₂O";
    }
    assert Superscripts("H₂O") == "H₂O" by {
      ScriptRulesOf();
      ScriptsAbsent("H₂O", '^', true, Superscript);
    }
    ChemicalChain("H_2O", "H₂O", "H₂O");
  }

  lemma IronNoSubscript()
    ensures Subscripts("Fe^{3+}") == "Fe^{3+}"
  {
    ScriptRulesOf();
    ScriptsAbsent("Fe^{3+}", '_', false, Subscript);
  }

  lemma IronCharge()
    ensures Superscripts("Fe^{3+}") == "Fe³⁺"
  {
    SuperscriptGroup("Fe", "3+", "");
    ScriptsOfEmpty();
    IronLayout();
    ChargeGlyphs();
  }

  lemma IronLayout()
    ensures "Fe" + "^{" + "3+" + "}" + "" == "Fe^{3+}"
    ensures "Fe" + "³⁺" + "" == "Fe³⁺"
  {
  }

  lemma ChargeGlyphs()
    ensures MapThrough(Superscript, "3+") == "³⁺"
  {
  }

  /** `Fe^{3+}` becomes `Fe³⁺`. */
  lemma IronIon()
    ensures PreprocessChemical("Fe^{3+}") == "Fe³⁺"
  {
    IronNoSubscript();
    IronCharge();
    ChemicalChain("Fe^{3+}", "Fe^{3+}", "Fe³⁺");
  }
}

=== FILE: formula_patterns.dfy ===
/** The regular expressions of the formula preprocessor, each written out
    as a matcher anchored at the start of a string, and Kotlin's
    `Regex.replace(input, transform)` over them: matches are found left to
    right, do not overlap, and the scan resumes after each match. */
module FormulaPatterns {
  import opened Wrappers
  import opened Text
  import opened FormulaTables

  /** The shapes of pattern the preprocessor uses. */
  datatype Pattern =
    | Braced(prefix: string)
      // prefix `([^}]+)\}`
    | BracedPair(prefix: string, middle: string)
      // prefix `([^}]+)` middle `([^}]+)\}`
    | IndexedRoot
      // `\\sqrt\[(\d+)\]\{([^}]+)\}`
    | Environment(name: string)
      // `\\begin\{`name`\}([^\}]+)\\end\{`name`\}`
    | MarkedChar(mark: char, superscript: bool)
      // the mark, then one character of the subscript or superscript class
    | CommandName
      // `\\([a-zA-Z]+)`
    | WhitespaceRun
      // `\s+`

  datatype Match = Match(groups: seq<string>, length: nat)

  /** The class `[0-9a-zA-Z]` of the one-character subscript. */
  predicate IsSubscriptClassChar(c: char) { IsDigit(c) || IsLetter(c) }

  /** The class `[0-9a-zA-Z+-=()]` of the one-character superscript: `+-=`
      is the range from `+` to `=`, which also holds `,` `.` `/` `:` `;` `<`. */
  predicate IsSuperscriptClassChar(c: char) {
    IsDigit(c) || IsLetter(c) || ('+' <= c <= '=') || c == '(' || c == ')'
  }

  /** `([^}]+)\}` at index `from`: the index of the closing `}` when the
      group before it is not empty. */
  function GroupClose(s: string, from: nat): (r: Option<nat>)
    ensures r.Some? ==> from < r.value < |s| && s[r.value] == '}' && '}' !in s[from..r.value]
    ensures r.None? <==> from >= |s| || s[from] == '}' || '}' !in s[from..]
  {
    var j := IndexOfChar(s, '}', from);
    if j > from then Some(j)
    else
      None
  }

  /** `prefix([^}]+)middle([^}]+)\}` at the first character of `s`. */
  function MatchPair(prefix: string, middle: string, s: string): (r: Option<Match>)
    ensures r.Some? ==> |r.value.groups| == 2 && 1 <= r.value.length <= |s|
  {
    if StartsWith(s, prefix) then
      match GroupClose(s, |prefix|)
      case Some(j) =>
        if StartsWith(s[j..], middle) then
          match GroupClose(s, j + |middle|)
          case Some(k) => Some(Match([s[|prefix|..j], s[j + |middle|..k]], k + 1))
          case None => None
        else None
      case None => None
    else None
  }

  /** The match of `p` that starts at the first character of `s`, if any. */
  function MatchAt(p: Pattern, s: string): (r: Option<Match>)
    ensures r.Some? ==> 1 <= r.value.length <= |s|
  {
    match p
    case Braced(prefix) =>
      if StartsWith(s, prefix) then
        match GroupClose(s, |prefix|)
        case Some(j) => Some(Match([s[|prefix|..j]], j + 1))
        case None => None
      else None
    case BracedPair(prefix, middle) => MatchPair(prefix, middle, s)
    case IndexedRoot =>
      if StartsWith(s, "\\sqrt[") then
        var d := DigitRun(s, 6);
        if d >= 1 && StartsWith(s[6 + d..], "]{") then
          match GroupClose(s, 8 + d)
          case Some(k) => Some(Match([s[6..6 + d], s[8 + d..k]], k + 1))
          case None => None
        else None
      else None
    case Environment(name) =>
      var open := "\\begin{" + name + "}";
      var close := "\\end{" + name + "}";
      if StartsWith(s, open) then
        match GroupClose(s, |open|)
        case Some(j) =>
          if |open| + |close| <= j + 1 && s[j + 1 - |close|..j + 1] == close then
            var groupEnd := j + 1 - |close|;
            if groupEnd > |open| then Some(Match([s[|open|..groupEnd]], j + 1)) else None
          else None
        case None => None
      else None
    case MarkedChar(mark, superscript) =>
      if |s| >= 2 && s[0] == mark &&
         (if superscript then IsSuperscriptClassChar(s[1]) else IsSubscriptClassChar(s[1]))
      then Some(Match([s[1..2]], 2))
      else None
    case CommandName =>
      if |s| >= 2 && s[0] == '\\' && IsLetter(s[1]) then
        var n := LetterRun(s, 1);
        Some(Match([s[1..1 + n]], 1 + n))
      else None
    case WhitespaceRun =>
      if s != [] && IsWhitespace(s[0]) then
        var n := LeadingSpace(s);
        Some(Match([s[..n]], n))
      else None
  }

  /** `containsMatchIn`. */
  predicate ContainsMatch(s: string, p: Pattern) {
    exists i | 0 <= i < |s| :: MatchAt(p, s[i..]).Some?
  }

  // ---------------------------------------------------------------------
  // What replaces a match: the lambdas the handlers pass to `replace`.

  datatype Rewrite =
    | Unwrap                           // the group
    | Suffix(mark: string)             // the group, then a mark
    | Root                             // `√(` group `)`
    | RootWithIndex                    // index, `√(`, radicand, `)`
    | Matrix(left: string, right: string)
    | Cases
    | MapChars(table: Script)          // each character through the table
    | Operator(symbol: string)         // symbol, lower bound, upper bound
    | Constant(text: string)

  function Group(groups: seq<string>, i: nat): string {
    if i < |groups| then groups[i] else ""
  }

  /** Each character of `s` through table `t`. */
  function MapThrough(t: Script, s: string): (r: string)
    ensures |r| == |s|
    ensures forall i | 0 <= i < |s| :: r[i] == Glyph(t, s[i])
  {
    if s == [] then [] else [Glyph(t, s[0])] + MapThrough(t, s[1..])
  }

  /** A character not in the text, and the glyph of no other character, is
      not in the mapped text. */
  lemma MapThroughAvoids(t: Script, s: string, c: char)
    requires c !in s && forall k :: Glyph(t, k) == c ==> k == c
    ensures c !in MapThrough(t, s)
  {
    var r := MapThrough(t, s);
    forall i | 0 <= i < |r| ensures r[i] != c {
      assert r[i] == Glyph(t, s[i]);
    }
  }

  /** One row of a `matrix` or `cases` body: trimmed, each `&` replaced
      by `amp`, trimmed again. */
  function Cell(row: string, amp: string): (cell: string)
    requires '&' !in amp
    ensures '&' !in cell && Trim(cell) == cell
  {
    var spaced := ReplaceAll(Trim(row), "&", amp);
    ReplaceAllRemoves(Trim(row), '&', amp);
    TrimChars(spaced);
    TrimTwice(spaced);
    Trim(spaced)
  }

  /** The rows of a body split at `\\`, one cell per row. */
  function Cells(content: string, amp: string): (cells: seq<string>)
    requires '&' !in amp
    ensures |cells| == |Split(content, "\\\\")|
    ensures forall k | 0 <= k < |cells| :: cells[k] == Cell(Split(content, "\\\\")[k], amp)
    ensures forall k | 0 <= k < |cells| :: '&' !in cells[k] && Trim(cells[k]) == cells[k]
  {
    var rows := Split(content, "\\\\");
    seq(|rows|, k requires 0 <= k < |rows| => Cell(rows[k], amp))
  }

  /** `formatMatrix`: one trimmed, `&`-free cell per row, joined with "; "
      inside the delimiters; a body with one row is that row's cell. */
  function FormatMatrix(content: string, left: string, right: string): (r: string)
    ensures StartsWith(r, left) && EndsWith(r, right) && |left| + |right| <= |r|
    ensures '&' !in r[|left|..|r| - |right|]
    ensures |Split(content, "\\\\")| == 1 ==> r == left + Cell(content, " ") + right
  {
    var cells := Cells(content, " ");
    var body := Join(cells, "; ");
    JoinAvoids(cells, "; ", '&');
    var r := left + body + right;
    assert r[..|left|] == left;
    assert r[|r| - |right|..] == right;
    assert r[|left|..|r| - |right|] == body;
    r
  }

  /** `formatCases`: one trimmed, `&`-free cell per case (each `&` read as
      " if "), joined with ", " and no delimiters. */
  function FormatCases(content: string): (r: string)
    ensures '&' !in r
    ensures |Split(content, "\\\\")| == 1 ==> r == Cell(content, " if ")
  {
    var cells := Cells(content, " if ");
    JoinAvoids(cells, ", ", '&');
    Join(cells, ", ")
  }

  /** A row without `&` is only trimmed. */
  lemma CellPlain(row: string, amp: string)
    requires '&' !in amp && '&' !in row
    ensures Cell(row, amp) == Trim(row)
  {
    TrimChars(row);
    AbsentChar(Trim(row), "&", 0);
    ReplaceAbsent(Trim(row), "&", amp);
    TrimTwice(row);
  }

  /** The `&` between two entries becomes `amp`. */
  lemma CellAmp(a: string, b: string, amp: string)
    requires '&' !in amp && '&' !in a && '&' !in b
    requires a != [] && b != [] && !IsWhitespace(a[0]) && !IsWhitespace(b[|b| - 1])
    ensures Cell(a + "&" + b, amp) == a + amp + b
  {
    var row := a + "&" + b;
    assert row[0] == a[0] && row[|row| - 1] == b[|b| - 1];
    TrimFixed(row);
    AppendAssoc(a, "&", b);
    ReplaceAllPrefix(a, "&" + b, "&", amp);
    ReplaceAllKey("&", b, amp);
    AbsentChar(b, "&", 0);
    ReplaceAbsent(b, "&", amp);
    var spaced := a + (amp + b);
    assert spaced[0] == a[0] && spaced[|spaced| - 1] == b[|b| - 1];
    TrimFixed(spaced);
    AppendAssoc(a, amp, b);
  }

  /** The rows of a body: the first ends at the first `\\`. */
  lemma CellsFirst(a: string, b: string, amp: string)
    requires '&' !in amp && !Contains(a + "\\", "\\\\")
    ensures Cells(a + "\\\\" + b, amp) == [Cell(a, amp)] + Cells(b, amp)
  {
    assert a + "\\\\"[..1] == a + "\\";
    SplitFirst(a, "\\\\", b);
  }

  /** A further row adds its cell and "; " in front of the other rows. */
  lemma MatrixRows(a: string, b: string, left: string, right: string)
    requires !Contains(a + "\\", "\\\\")
    ensures FormatMatrix(a + "\\\\" + b, left, right)
            == left + Cell(a, " ") + "; " + FormatMatrix(b, "", "") + right
  {
    var c, rest := Cell(a, " "), Cells(b, " ");
    var j := Join(rest, "; ");
    calc {
      FormatMatrix(a + "\\\\" + b, left, right);
    == { MatrixJoin(a + "\\\\" + b, left, right); }
      left + Join(Cells(a + "\\\\" + b, " "), "; ") + right;
    == { CellsFirst(a, b, " "); }
      left + Join([c] + rest, "; ") + right;
    == { JoinCons(c, rest, "; "); }
      left + (c + "; " + j) + right;
    == { InnerAssoc(left, c, "; ", j); }
      left + c + "; " + j + right;
    == { MatrixJoin(b, "", ""); assert "" + j + "" == j; }
      left + c + "; " + FormatMatrix(b, "", "") + right;
    }
  }

  /** A two-by-two body `a&b\\\\c&d` reads as `a b; c d` inside the
      delimiters. */
  lemma MatrixTwoByTwo(a: string, b: string, c: string, d: string, left: string, right: string)
    requires Entry(a) && Entry(b) && Entry(c) && Entry(d)
    ensures FormatMatrix((a + "&" + b) + "\\\\" + (c + "&" + d), left, right)
            == left + (a + " " + b) + "; " + (c + " " + d) + right
  {
    var row1, row2 := a + "&" + b, c + "&" + d;
    EntriesRow(a, b);
    EntriesRow(c, d);
    SplitWhole(row2, "\\\\");
    calc {
      FormatMatrix(row1 + "\\\\" + row2, left, right);
    == { MatrixRows(row1, row2, left, right); }
      left + Cell(row1, " ") + "; " + FormatMatrix(row2, "", "") + right;
    == { CellAmp(a, b, " "); }
      left + (a + " " + b) + "; " + FormatMatrix(row2, "", "") + right;
    == { MatrixJoin(row2, "", ""); CellAmp(c, d, " "); assert "" + (c + " " + d) + "" == c + " " + d; }
      left + (a + " " + b) + "; " + (c + " " + d) + right;
    }
  }

  /** Two cases `a&b\\\\c&d` read as `a if b, c if d`. */
  lemma CasesTwo(a: string, b: string, c: string, d: string)
    requires Entry(a) && Entry(b) && Entry(c) && Entry(d)
    ensures FormatCases((a + "&" + b) + "\\\\" + (c + "&" + d))
            == (a + " if " + b) + ", " + (c + " if " + d)
  {
    var row1, row2 := a + "&" + b, c + "&" + d;
    EntriesRow(a, b);
    EntriesRow(c, d);
    SplitWhole(row2, "\\\\");
    CasesRows(row1, row2);
    CellAmp(a, b, " if ");
    CellAmp(c, d, " if ");
  }

  /** Two entries joined by `&` hold no `\\\\`, and neither does that
      row followed by one backslash. */
  lemma EntriesRow(a: string, b: string)
    requires Entry(a) && Entry(b)
    ensures !Contains(a + "&" + b, "\\\\") && !Contains(a + "&" + b + "\\", "\\\\")
  {
    var row := a + "&" + b;
    assert '\\' !in row by {
      forall i | 0 <= i < |row| ensures row[i] != '\\' { }
    }
    AbsentChar(row, "\\\\", 0);
    var s := row + "\\";
    forall i | 0 <= i <= |s| - 2 ensures !OccursAt(s, "\\\\", i) {
      assert s[i] == row[i] && s[i..i + 2][0] == s[i];
    }
  }

  /** A matrix entry: non-empty, no `&` or backslash, no whitespace at
      either end. */
  predicate Entry(s: string) {
    s != [] && '&' !in s && '\\' !in s && !IsWhitespace(s[0]) && !IsWhitespace(s[|s| - 1])
  }

  lemma InnerAssoc(x: string, y: string, z: string, w: string)
    ensures x + (y + z + w) == x + y + z + w
  {
  }

  lemma MatrixJoin(content: string, left: string, right: string)
    ensures FormatMatrix(content, left, right) == left + Join(Cells(content, " "), "; ") + right
  {
  }

  /** A further case adds its cell and ", " in front of the other cases. */
  lemma CasesRows(a: string, b: string)
    requires !Contains(a + "\\", "\\\\")
    ensures FormatCases(a + "\\\\" + b) == Cell(a, " if ") + ", " + FormatCases(b)
  {
    CellsFirst(a, b, " if ");
    JoinCons(Cell(a, " if "), Cells(b, " if "), ", ");
  }

  /** The text that replaces a match with these groups. `toSubscript` and
      `toSuperscript` are `MapThrough` with their tables. */
  function Rewritten(rw: Rewrite, groups: seq<string>): string {
    match rw
    case Unwrap => Group(groups, 0)
    case Suffix(mark) => Group(groups, 0) + mark
    case Root => "√(" + Group(groups, 0) + ")"
    case RootWithIndex => Group(groups, 0) + "√(" + Group(groups, 1) + ")"
    case Matrix(left, right) => FormatMatrix(Group(groups, 0), left, right)
    case Cases => FormatCases(Group(groups, 0))
    case MapChars(table) => MapThrough(table, Group(groups, 0))
    case Operator(symbol) =>
      symbol + MapThrough(ToSubscript, Group(groups, 0)) +
      (if |groups| >= 2 then MapThrough(ToSuperscript, groups[1]) else "")
    case Constant(text) => text
  }

  /** `Regex.replace(s, transform)` for pattern `p` and the transform `rw`. */
  function Replace(s: string, p: Pattern, rw: Rewrite): string
    decreases |s|
  {
    if s == [] then []
    else
      match MatchAt(p, s)
      case Some(m) => Rewritten(rw, m.groups) + Replace(s[m.length..], p, rw)
      case None => [s[0]] + Replace(s[1..], p, rw)
  }

  // ---------------------------------------------------------------------
  // Facts about `Replace` the handlers rely on.

  /** The fixed text every match of a pattern starts with. */
  function Lead(p: Pattern): string {
    match p
    case Braced(prefix) => prefix
    case BracedPair(prefix, _) => prefix
    case IndexedRoot => "\\sqrt["
    case Environment(name) => "\\begin{" + name + "}"
    case MarkedChar(mark, _) => [mark]
    case CommandName => "\\"
    case WhitespaceRun => []
  }

  lemma MatchLead(p: Pattern, s: string)
    ensures MatchAt(p, s).Some? ==> StartsWith(s, Lead(p))
  {
    if p.MarkedChar? || p.CommandName? {
      if |s| >= 1 {
        assert s[..1] == [s[0]];
      }
    }
  }

  /** A text with no match anywhere is left as it is. */
  lemma {:induction false} ReplaceNoMatch(s: string, p: Pattern, rw: Rewrite)
    requires !ContainsMatch(s, p)
    ensures Replace(s, p, rw) == s
    decreases |s|
  {
    if s != [] {
      assert s[0..] == s;
      assert !ContainsMatch(s[1..], p) by {
        forall i | 0 <= i < |s[1..]| ensures MatchAt(p, s[1..][i..]).None? {
          assert s[1..][i..] == s[i + 1..];
        }
      }
      ReplaceNoMatch(s[1..], p, rw);
    }
  }

  /** In particular, a text without the pattern's fixed start. */
  lemma ReplaceNoLead(s: string, p: Pattern, rw: Rewrite)
    requires Lead(p) != [] && !Contains(s, Lead(p))
    ensures Replace(s, p, rw) == s
  {
    NoLeadOccurs(s, p);
    ReplaceNoMatch(s, p, rw);
  }

  /** A text without the pattern's fixed start has no match anywhere. */
  lemma NoLeadOccurs(s: string, p: Pattern)
    requires Lead(p) != [] && !Contains(s, Lead(p))
    ensures !ContainsMatch(s, p)
  {
    forall i | 0 <= i < |s| ensures MatchAt(p, s[i..]).None? {
      NoLeadAt(s, p, i);
    }
  }

  lemma NoLeadAt(s: string, p: Pattern, i: nat)
    requires Lead(p) != [] && i < |s| && !OccursAt(s, Lead(p), i)
    ensures MatchAt(p, s[i..]).None?
  {
    var lead := Lead(p);
    MatchLead(p, s[i..]);
    if i + |lead| <= |s| {
      assert s[i..][..|lead|] == s[i..i + |lead|];
    }
  }

  /** A stretch of text without the first character of the pattern's fixed
      start passes through unchanged in front of whatever follows it. */
  lemma {:induction false} ReplacePrefix(x: string, t: string, p: Pattern, rw: Rewrite)
    requires Lead(p) != [] && Lead(p)[0] !in x
    ensures Replace(x + t, p, rw) == x + Replace(t, p, rw)
    decreases |x|
  {
    if x == [] {
      assert x + t == t;
    } else {
      var c, y := x[0], x[1..];
      assert x == [c] + y;
      assert Lead(p)[0] !in y;
      ReplacePrefix(y, t, p, rw);
      SkipLeadFree(c, y, t, p, rw);
      var r := Replace(t, p, rw);
      ConsAssoc(c, y, t);
      ConsAssoc(c, y, r);
    }
  }

  /** A character that cannot start a match passes through. */
  lemma SkipLeadFree(c: char, y: string, t: string, p: Pattern, rw: Rewrite)
    requires Lead(p) != [] && c != Lead(p)[0]
    requires Replace(y + t, p, rw) == y + Replace(t, p, rw)
    ensures Replace([c] + (y + t), p, rw) == [c] + (y + Replace(t, p, rw))
  {
    var u := y + t;
    var s := [c] + u;
    ConsTail(c, u);
    NoMatchHere(p, s);
    ReplaceSkip(s, p, rw);
  }

  /** A text that starts with a match and has no other has just that match
      rewritten. */
  lemma ReplaceFirstOnly(m: string, y: string, p: Pattern, rw: Rewrite, groups: seq<string>)
    requires Lead(p) != [] && Lead(p)[0] !in y
    requires MatchAt(p, m + y) == Some(Match(groups, |m|))
    ensures Replace(m + y, p, rw) == Rewritten(rw, groups) + y
  {
    ReplaceHit(m + y, p, rw, Match(groups, |m|));
    assert (m + y)[|m|..] == y;
    AbsentChar(y, Lead(p), 0);
    ReplaceNoLead(y, p, rw);
  }

  /** A text with exactly one match, between two stretches without the first
      character of the pattern's fixed start, has just that match rewritten. */
  lemma ReplaceOne(x: string, m: string, y: string, p: Pattern, rw: Rewrite, groups: seq<string>)
    requires Lead(p) != [] && Lead(p)[0] !in x && Lead(p)[0] !in y
    requires MatchAt(p, m + y) == Some(Match(groups, |m|))
    ensures Replace(x + m + y, p, rw) == x + Rewritten(rw, groups) + y
  {
    assert x + m + y == x + (m + y);
    ReplacePrefix(x, m + y, p, rw);
    ReplaceFirstOnly(m, y, p, rw, groups);
  }

  /** A text without whitespace has no whitespace run. */
  lemma NoWhitespaceRun(s: string, rw: Rewrite)
    requires forall i | 0 <= i < |s| :: !IsWhitespace(s[i])
    ensures Replace(s, WhitespaceRun, rw) == s
  {
    forall i | 0 <= i < |s| ensures MatchAt(WhitespaceRun, s[i..]).None? {
      assert s[i..][0] == s[i];
    }
    ReplaceNoMatch(s, WhitespaceRun, rw);
  }

  /** A rewrite that is shorter than every match it replaces. */
  ghost predicate Shrinking(p: Pattern, rw: Rewrite) {
    forall t :: MatchAt(p, t).Some? ==> |Rewritten(rw, MatchAt(p, t).value.groups)| < MatchAt(p, t).value.length
  }

  /** A shrinking rewrite never lengthens the text, and shortens it when
      there is a match; this is what ends the `while (containsMatchIn)`
      loops. */
  lemma {:induction false} ReplaceShorter(s: string, p: Pattern, rw: Rewrite)
    requires Shrinking(p, rw)
    ensures |Replace(s, p, rw)| <= |s|
    ensures ContainsMatch(s, p) ==> |Replace(s, p, rw)| < |s|
    decreases |s|
  {
    if s != [] {
      match MatchAt(p, s)
      case Some(m) =>
        ReplaceShorter(s[m.length..], p, rw);
      case None =>
        ReplaceShorter(s[1..], p, rw);
        if ContainsMatch(s, p) {
          var i :| 0 <= i < |s| && MatchAt(p, s[i..]).Some?;
          assert s[0..] == s;
          assert s[1..][i - 1..] == s[i..];
        }
    }
  }

  /** A match of `prefix([^}]+)\}`: the prefix, a non-empty group without
      `}`, and the closing brace. */
  lemma BracedShape(prefix: string, t: string)
    ensures MatchAt(Braced(prefix), t).Some? ==>
      var m := MatchAt(Braced(prefix), t).value;
      |m.groups| == 1 && m.groups[0] != [] && '}' !in m.groups[0] &&
      m.length == |prefix| + |m.groups[0]| + 1 &&
      t[..m.length] == prefix + m.groups[0] + "}"
  {
    if MatchAt(Braced(prefix), t).Some? {
      var j := GroupClose(t, |prefix|).value;
      assert t[..j + 1] == t[..|prefix|] + t[|prefix|..j] + [t[j]];
    }
  }

  lemma UnwrapShrinks(prefix: string)
    ensures Shrinking(Braced(prefix), Unwrap)
  {
    forall t | MatchAt(Braced(prefix), t).Some?
      ensures |Rewritten(Unwrap, MatchAt(Braced(prefix), t).value.groups)| < MatchAt(Braced(prefix), t).value.length
    {
      BracedShape(prefix, t);
    }
  }

  /** `√(x)` is shorter than `\sqrt{x}`. */
  lemma RootShrinks()
    ensures Shrinking(Braced("\\sqrt{"), Root)
  {
    forall t | MatchAt(Braced("\\sqrt{"), t).Some?
      ensures |Rewritten(Root, MatchAt(Braced("\\sqrt{"), t).value.groups)| < MatchAt(Braced("\\sqrt{"), t).value.length
    {
      BracedShape("\\sqrt{", t);
    }
  }

  /** A constant rewrite only adds the characters of its text. */
  lemma {:induction false} ReplaceConstantChars(s: string, p: Pattern, text: string, c: char)
    requires c !in s && c !in text
    ensures c !in Replace(s, p, Constant(text))
    decreases |s|
  {
    if s != [] {
      var r := MatchAt(p, s);
      if r.Some? {
        SuffixLacks(s, r.value.length, c);
        ReplaceConstantChars(s[r.value.length..], p, text, c);
        HitLacks(s, p, text, c, r.value);
      } else {
        SuffixLacks(s, 1, c);
        ReplaceConstantChars(s[1..], p, text, c);
        SkipLacks(s, p, text, c);
      }
    }
  }

  lemma HitLacks(s: string, p: Pattern, text: string, c: char, m: Match)
    requires MatchAt(p, s) == Some(m) && c !in text
    requires c !in Replace(s[m.length..], p, Constant(text))
    ensures c !in Replace(s, p, Constant(text))
  {
    ReplaceHit(s, p, Constant(text), m);
    assert Rewritten(Constant(text), m.groups) == text;
    ConcatLacks(text, Replace(s[m.length..], p, Constant(text)), c);
  }

  lemma SkipLacks(s: string, p: Pattern, text: string, c: char)
    requires s != [] && MatchAt(p, s).None? && c !in s
    requires c !in Replace(s[1..], p, Constant(text))
    ensures c !in Replace(s, p, Constant(text))
  {
    ReplaceSkip(s, p, Constant(text));
    ConcatLacks([s[0]], Replace(s[1..], p, Constant(text)), c);
  }

  lemma SuffixLacks(s: string, n: nat, c: char)
    requires n <= |s| && c !in s
    ensures c !in s[n..]
  {
    forall i | 0 <= i < |s[n..]| ensures s[n..][i] != c {
      assert s[n..][i] == s[n + i];
    }
  }

  lemma ConcatLacks(a: string, b: string, c: char)
    requires c !in a && c !in b
    ensures c !in a + b
  {
    forall i | 0 <= i < |a + b| ensures (a + b)[i] != c {
      if i >= |a| {
        assert (a + b)[i] == b[i - |a|];
      }
    }
  }

  /** One step of `Replace` where no match starts. */
  lemma ReplaceSkip(s: string, p: Pattern, rw: Rewrite)
    requires s != [] && MatchAt(p, s).None?
    ensures Replace(s, p, rw) == [s[0]] + Replace(s[1..], p, rw)
  {
  }

  /** One step of `Replace` where a match starts. */
  lemma ReplaceHit(s: string, p: Pattern, rw: Rewrite, m: Match)
    requires MatchAt(p, s) == Some(m)
    ensures Replace(s, p, rw) == Rewritten(rw, m.groups) + Replace(s[m.length..], p, rw)
  {
  }

  /** `prefix([^}]+)\}` matches a prefix, a non-empty group without `}` and
      the closing brace. */
  lemma BracedMatch(prefix: string, s: string, g: string)
    requires |prefix| + |g| + 1 <= |s| && s[..|prefix|] == prefix && s[|prefix|..|prefix| + |g|] == g
    requires s[|prefix| + |g|] == '}' && g != [] && '}' !in g
    ensures MatchAt(Braced(prefix), s) == Some(Match([g], |prefix| + |g| + 1))
  {
    forall i | |prefix| <= i < |prefix| + |g| ensures s[i] != '}' {
      assert s[i] == g[i - |prefix|];
    }
    assert GroupClose(s, |prefix|) == Some(|prefix| + |g|);
  }

  /** A pattern cannot match where the first character of its fixed start
      is not. */
  lemma NoMatchHere(p: Pattern, s: string)
    requires Lead(p) != [] && (s == [] || s[0] != Lead(p)[0])
    ensures MatchAt(p, s).None?
  {
    MatchLead(p, s);
  }

  // ---------------------------------------------------------------------
  // The last two clean-up passes.

  /** No backslash is followed by an ASCII letter. */
  predicate NoCommand(s: string) {
    forall i | 0 <= i < |s| - 1 :: s[i] == '\\' ==> !IsLetter(s[i + 1])
  }

  /** No two whitespace characters are adjacent. */
  predicate NoDoubleSpace(s: string) {
    forall i | 0 <= i < |s| - 1 :: !(IsWhitespace(s[i]) && IsWhitespace(s[i + 1]))
  }

  lemma NoCommandSlice(s: string, lo: nat, hi: nat)
    requires NoCommand(s) && lo <= hi <= |s|
    ensures NoCommand(s[lo..hi])
  {
    forall i | 0 <= i < |s[lo..hi]| - 1 ensures s[lo..hi][i] == '\\' ==> !IsLetter(s[lo..hi][i + 1]) {
      assert s[lo..hi][i] == s[lo + i] && s[lo..hi][i + 1] == s[lo + i + 1];
    }
  }

  lemma NoDoubleSpaceSlice(s: string, lo: nat, hi: nat)
    requires NoDoubleSpace(s) && lo <= hi <= |s|
    ensures NoDoubleSpace(s[lo..hi])
  {
    forall i | 0 <= i < |s[lo..hi]| - 1 ensures !(IsWhitespace(s[lo..hi][i]) && IsWhitespace(s[lo..hi][i + 1])) {
      assert s[lo..hi][i] == s[lo + i] && s[lo..hi][i + 1] == s[lo + i + 1];
    }
  }

  /** Removing commands never exposes a letter at the front: a removed
      command takes its whole run of letters with it. */
  lemma {:induction false} RemoveCommandsFront(s: string)
    requires s == [] || !IsLetter(s[0])
    ensures var r := Replace(s, CommandName, Constant(""));
      r == [] || !IsLetter(r[0])
    decreases |s|
  {
    if s != [] {
      match MatchAt(CommandName, s)
      case Some(m) =>
        var n := LetterRun(s, 1);
        assert m.length == 1 + n;
        RemoveCommandsFront(s[m.length..]);
      case None =>
    }
  }

  /** `replace(Regex("\\\\([a-zA-Z]+)")) { "" }` leaves no backslash
      followed by a letter. */
  lemma {:induction false} RemoveCommands(s: string)
    ensures NoCommand(Replace(s, CommandName, Constant("")))
    decreases |s|
  {
    if s != [] {
      match MatchAt(CommandName, s)
      case Some(m) =>
        RemoveCommands(s[m.length..]);
      case None =>
        var rest := Replace(s[1..], CommandName, Constant(""));
        RemoveCommands(s[1..]);
        if s[0] == '\\' && |s| >= 2 {
          RemoveCommandsFront(s[1..]);
        }
        var r := [s[0]] + rest;
        forall i | 0 <= i < |r| - 1 ensures r[i] == '\\' ==> !IsLetter(r[i + 1]) {
          if i > 0 {
            assert r[i] == rest[i - 1] && r[i + 1] == rest[i];
          }
        }
    }
  }

  /** What a collapsed text starts with. */
  lemma CollapseFront(s: string)
    ensures var r := Replace(s, WhitespaceRun, Constant(" "));
      (s == [] <==> r == []) && (s != [] ==> r[0] == ' ' || r[0] == s[0])
  {
  }

  /** `replace(Regex("\\s+"), " ")` leaves no two adjacent whitespace
      characters, and creates no command. */
  lemma {:induction false} Collapse(s: string)
    ensures NoDoubleSpace(Replace(s, WhitespaceRun, Constant(" ")))
    ensures NoCommand(s) ==> NoCommand(Replace(s, WhitespaceRun, Constant(" ")))
    decreases |s|
  {
    if s != [] {
      match MatchAt(WhitespaceRun, s)
      case Some(m) =>
        var n := m.length;
        var rest := Replace(s[n..], WhitespaceRun, Constant(" "));
        Collapse(s[n..]);
        CollapseFront(s[n..]);
        if NoCommand(s) {
          NoCommandSlice(s, n, |s|);
        }
        var r := " " + rest;
        forall i | 0 <= i < |r| - 1
          ensures !(IsWhitespace(r[i]) && IsWhitespace(r[i + 1]))
          ensures NoCommand(s) ==> (r[i] == '\\' ==> !IsLetter(r[i + 1]))
        {
          if i > 0 {
            assert r[i] == rest[i - 1] && r[i + 1] == rest[i];
          }
        }
      case None =>
        var rest := Replace(s[1..], WhitespaceRun, Constant(" "));
        Collapse(s[1..]);
        CollapseFront(s[1..]);
        if NoCommand(s) {
          NoCommandSlice(s, 1, |s|);
        }
        var r := [s[0]] + rest;
        forall i | 0 <= i < |r| - 1
          ensures !(IsWhitespace(r[i]) && IsWhitespace(r[i + 1]))
          ensures NoCommand(s) ==> (r[i] == '\\' ==> !IsLetter(r[i + 1]))
        {
          if i > 0 {
            assert r[i] == rest[i - 1] && r[i + 1] == rest[i];
          }
        }
    }
  }
}

=== FILE: formula_tables.dfy ===
/** The constant tables of the formula preprocessor. */
module FormulaTables {

  /** The LaTeX command replacements of `preprocessMathFormula`, in the
      order the source lists them, duplicates included. */
  const MacroPairs: seq<(string, string)> := Flatten(MacroGroups)

  /** The table group by group, as its comments divide it. */
  const MacroGroups: seq<seq<(string, string)>> := [
    GreekLowercase, GreekUppercase, MathSymbols, AccentArrows,
    Comparison, Logic, SetTheory, Calculus,
    Arrows, Harpoons, LongArrows, DoubleArrows,
    Relations, Operators, Brackets, OtherSymbols
  ]

  /** The groups one after another. */
  function Flatten(groups: seq<seq<(string, string)>>): seq<(string, string)>
  {
    if groups == [] then [] else Flatten(groups[..|groups| - 1]) + groups[|groups| - 1]
  }

  /** Greek letters, lower case. */
  const GreekLowercase: seq<(string, string)> := [
    ("\\alpha", "α"),
    ("\\beta", "β"),
    ("\\gamma", "γ"),
    ("\\delta", "δ"),
    ("\\epsilon", "ε"),
    ("\\zeta", "ζ"),
    ("\\eta", "η"),
    ("\\theta", "θ"),
    ("\\iota", "ι"),
    ("\\kappa", "κ"),
    ("\\lambda", "λ"),
    ("\\mu", "μ"),
    ("\\nu", "ν"),
    ("\\xi", "ξ"),
    ("\\pi", "π"),
    ("\\rho", "ρ"),
    ("\\sigma", "σ"),
    ("\\tau", "τ"),
    ("\\upsilon", "υ"),
    ("\\phi", "φ"),
    ("\\chi", "χ"),
    ("\\psi", "ψ"),
    ("\\omega", "ω")
  ]

  /** Greek letters, upper case. */
  const GreekUppercase: seq<(string, string)> := [
    ("\\Gamma", "Γ"),
    ("\\Delta", "Δ"),
    ("\\Theta", "Θ"),
    ("\\Lambda", "Λ"),
    ("\\Xi", "Ξ"),
    ("\\Pi", "Π"),
    ("\\Sigma", "Σ"),
    ("\\Upsilon", "Υ"),
    ("\\Phi", "Φ"),
    ("\\Psi", "Ψ"),
    ("\\Omega", "Ω")
  ]

  /** Operators and symbols. */
  const MathSymbols: seq<(string, string)> := [
    ("\\infty", "∞"),
    ("\\infinity", "∞"),
    ("\\pm", "±"),
    ("\\times", "×"),
    ("\\div", "÷"),
    ("\\cdot", "·"),
    ("\\leq", "≤"),
    ("\\le", "≤"),
    ("\\geq", "≥"),
    ("\\ge", "≥"),
    ("\\neq", "≠"),
    ("\\approx", "≈"),
    ("\\sim", "∼"),
    ("\\rightarrow", "→"),
    ("\\to", "→"),
    ("\\leftarrow", "←"),
    ("\\Rightarrow", "⇒"),
    ("\\Leftarrow", "⇐"),
    ("\\in", "∈"),
    ("\\notin", "∉"),
    ("\\subset", "⊂"),
    ("\\subseteq", "⊆"),
    ("\\cup", "∪"),
    ("\\cap", "∩"),
    ("\\emptyset", "∅"),
    ("\\forall", "∀"),
    ("\\exists", "∃"),
    ("\\nabla", "∇"),
    ("\\partial", "∂"),
    ("\\int", "∫"),
    ("\\sum", "∑"),
    ("\\prod", "∏"),
    ("\\sqrt", "√"),
    ("\\ldots", "…"),
    ("\\cdots", "⋯"),
    ("\\vdots", "⋮"),
    ("\\ddots", "⋱")
  ]

  /** Arrows and accents. */
  const AccentArrows: seq<(string, string)> := [
    ("\\vec", "→"),
    ("\\hat", "^"),
    ("\\bar", "‾"),
    ("\\overline", "‾"),
    ("\\underline", "_")
  ]

  /** Comparison. */
  const Comparison: seq<(string, string)> := [
    ("\\equiv", "≡"),
    ("\\cong", "≅"),
    ("\\propto", "∝"),
    ("\\perp", "⊥"),
    ("\\parallel", "∥"),
    ("\\angle", "∠"),
    ("\\triangle", "△")
  ]

  /** Logic. */
  const Logic: seq<(string, string)> := [
    ("\\land", "∧"),
    ("\\lor", "∨"),
    ("\\neg", "¬"),
    ("\\implies", "⇒"),
    ("\\iff", "⇔")
  ]

  /** Set theory. */
  const SetTheory: seq<(string, string)> := [
    ("\\setminus", "\\"),
    ("\\complement", "∁"),
    ("\\subset", "⊂"),
    ("\\subseteq", "⊆"),
    ("\\supset", "⊃"),
    ("\\supseteq", "⊇"),
    ("\\nsubseteq", "⊈"),
    ("\\nsupseteq", "⊉"),
    ("\\in", "∈"),
    ("\\notin", "∉"),
    ("\\ni", "∋"),
    ("\\emptyset", "∅"),
    ("\\varnothing", "∅"),
    ("\\cup", "∪"),
    ("\\cap", "∩"),
    ("\\bigcup", "⋃"),
    ("\\bigcap", "⋂"),
    ("\\setminus", "∖")
  ]

  /** Calculus. */
  const Calculus: seq<(string, string)> := [
    ("\\oint", "∮"),
    ("\\iint", "∬"),
    ("\\iiint", "∭"),
    ("\\lim", "lim"),
    ("\\sup", "sup"),
    ("\\inf", "inf"),
    ("\\max", "max"),
    ("\\min", "min"),
    ("\\limsup", "lim sup"),
    ("\\liminf", "lim inf"),
    ("\\infty", "∞"),
    ("\\infinity", "∞"),
    ("\\partial", "∂"),
    ("\\nabla", "∇"),
    ("\\int", "∫"),
    ("\\sum", "∑"),
    ("\\prod", "∏"),
    ("\\oint", "∮"),
    ("\\iint", "∬"),
    ("\\iiint", "∭")
  ]

  /** Arrows. */
  const Arrows: seq<(string, string)> := [
    ("\\rightarrow", "→"),
    ("\\to", "→"),
    ("\\leftarrow", "←"),
    ("\\Rightarrow", "⇒"),
    ("\\Leftarrow", "⇐"),
    ("\\leftrightarrow", "↔"),
    ("\\Leftrightarrow", "⇔"),
    ("\\mapsto", "↦"),
    ("\\longrightarrow", "⟶"),
    ("\\longleftarrow", "⟵"),
    ("\\uparrow", "↑"),
    ("\\downarrow", "↓"),
    ("\\updownarrow", "↕")
  ]

  /** Harpoons. */
  const Harpoons: seq<(string, string)> := [
    ("\\leftharpoonup", "↼"),
    ("\\leftharpoondown", "↽"),
    ("\\rightharpoonup", "⇀"),
    ("\\rightharpoondown", "⇁"),
    ("\\rightleftharpoons", "⇌"),
    ("\\leftrightharpoons", "⇋"),
    ("\\upharpoonleft", "↿"),
    ("\\upharpoonright", "↾"),
    ("\\downharpoonleft", "⇃"),
    ("\\downharpoonright", "⇂")
  ]

  /** Long arrows. */
  const LongArrows: seq<(string, string)> := [
    ("\\longleftrightarrow", "⟷"),
    ("\\Longleftrightarrow", "⟺"),
    ("\\Longrightarrow", "⟹"),
    ("\\Longleftarrow", "⟸")
  ]

  /** Double arrows. */
  const DoubleArrows: seq<(string, string)> := [
    ("\\leftrightarrows", "⇆"),
    ("\\rightleftarrows", "⇄"),
    ("\\updownarrows", "⇅"),
    ("\\downuparrows", "⇵")
  ]

  /** Relations. */
  const Relations: seq<(string, string)> := [
    ("\\leq", "≤"),
    ("\\le", "≤"),
    ("\\geq", "≥"),
    ("\\ge", "≥"),
    ("\\neq", "≠"),
    ("\\approx", "≈"),
    ("\\sim", "∼"),
    ("\\simeq", "≃"),
    ("\\cong", "≅"),
    ("\\equiv", "≡"),
    ("\\propto", "∝"),
    ("\\perp", "⊥"),
    ("\\parallel", "∥"),
    ("\\asymp", "≍"),
    ("\\doteq", "≐")
  ]

  /** Operators. */
  const Operators: seq<(string, string)> := [
    ("\\times", "×"),
    ("\\div", "÷"),
    ("\\cdot", "·"),
    ("\\pm", "±"),
    ("\\mp", "∓"),
    ("\\oplus", "⊕"),
    ("\\ominus", "⊖"),
    ("\\otimes", "⊗"),
    ("\\oslash", "⊘"),
    ("\\odot", "⊙"),
    ("\\circ", "∘"),
    ("\\bullet", "•"),
    ("\\dagger", "†"),
    ("\\ddagger", "‡"),
    ("\\amalg", "⨿")
  ]

  /** Brackets. */
  const Brackets: seq<(string, string)> := [
    ("\\langle", "⟨"),
    ("\\rangle", "⟩"),
    ("\\lfloor", "⌊"),
    ("\\rfloor", "⌋"),
    ("\\lceil", "⌈"),
    ("\\rceil", "⌉"),
    ("\\vert", "|"),
    ("\\Vert", "‖")
  ]

  /** Other symbols. */
  const OtherSymbols: seq<(string, string)> := [
    ("\\degree", "°"),
    ("\\circ", "°"),
    ("\\prime", "′"),
    ("\\dots", "…"),
    ("\\vdots", "⋮"),
    ("\\cdots", "⋯"),
    ("\\ddots", "⋱"),
    ("\\ldots", "…"),
    ("\\angle", "∠"),
    ("\\triangle", "△"),
    ("\\square", "□"),
    ("\\diamond", "◇"),
    ("\\star", "★"),
    ("\\ast", "∗"),
    ("\\bullet", "•"),
    ("\\wedge", "∧"),
    ("\\vee", "∨"),
    ("\\neg", "¬"),
    ("\\forall", "∀"),
    ("\\exists", "∃"),
    ("\\nexists", "∄"),
    ("\\top", "⊤"),
    ("\\bot", "⊥"),
    ("\\vdash", "⊢"),
    ("\\models", "⊨"),
    ("\\aleph", "ℵ"),
    ("\\hbar", "ℏ"),
    ("\\ell", "ℓ"),
    ("\\wp", "℘"),
    ("\\Re", "ℜ"),
    ("\\Im", "ℑ"),
    ("\\mho", "℧"),
    ("\\prime", "′"),
    ("\\emptyset", "∅"),
    ("\\nabla", "∇"),
    ("\\surd", "√"),
    ("\\neg", "¬"),
    ("\\flat", "♭"),
    ("\\natural", "♮"),
    ("\\sharp", "♯"),
    ("\\clubsuit", "♣"),
    ("\\diamondsuit", "♢"),
    ("\\heartsuit", "♡"),
    ("\\spadesuit", "♠")
  ]

  /** The four character tables: the `when` of `handleSubscripts` and
      `handleSuperscripts`, and those of `toSubscript` and `toSuperscript`,
      which add a few letters. */
  datatype Script = Subscript | Superscript | ToSubscript | ToSuperscript

  /** A character through a table; one the table lacks is kept. */
  function Glyph(t: Script, c: char): char {
    match t
    case Subscript => SubscriptGlyph(c)
    case Superscript => SuperscriptGlyph(c)
    case ToSubscript => ToSubscriptGlyph(c)
    case ToSuperscript => ToSuperscriptGlyph(c)
  }

  /** The `when` of `handleSubscripts`. */
  function SubscriptGlyph(c: char): char {
    match c
    case '0' => '₀'
    case '1' => '₁'
    case '2' => '₂'
    case '3' => '₃'
    case '4' => '₄'
    case '5' => '₅'
    case '6' => '₆'
    case '7' => '₇'
    case '8' => '₈'
    case '9' => '₉'
    case '+' => '₊'
    case '-' => '₋'
    case '=' => '₌'
    case '(' => '₍'
    case ')' => '₎'
    case 'a' => 'ₐ'
    case 'e' => 'ₑ'
    case 'i' => 'ᵢ'
    case 'o' => 'ₒ'
    case 'u' => 'ᵤ'
    case 'v' => 'ᵥ'
    case 'x' => 'ₓ'
    case 'h' => 'ₕ'
    case 'k' => 'ₖ'
    case 'l' => 'ₗ'
    case 'm' => 'ₘ'
    case 'n' => 'ₙ'
    case 'p' => 'ₚ'
    case 's' => 'ₛ'
    case 't' => 'ₜ'
    case _ => c
  }

  /** The `when` of `handleSuperscripts`. */
  function SuperscriptGlyph(c: char): char {
    match c
    case '0' => '⁰'
    case '1' => '¹'
    case '2' => '²'
    case '3' => '³'
    case '4' => '⁴'
    case '5' => '⁵'
    case '6' => '⁶'
    case '7' => '⁷'
    case '8' => '⁸'
    case '9' => '⁹'
    case '+' => '⁺'
    case '-' => '⁻'
    case '=' => '⁼'
    case '(' => '⁽'
    case ')' => '⁾'
    case 'a' => 'ᵃ'
    case 'b' => 'ᵇ'
    case 'c' => 'ᶜ'
    case 'd' => 'ᵈ'
    case 'e' => 'ᵉ'
    case 'f' => 'ᶠ'
    case 'g' => 'ᵍ'
    case 'h' => 'ʰ'
    case 'i' => 'ⁱ'
    case 'j' => 'ʲ'
    case 'k' => 'ᵏ'
    case 'l' => 'ˡ'
    case 'm' => 'ᵐ'
    case 'n' => 'ⁿ'
    case 'o' => 'ᵒ'
    case 'p' => 'ᵖ'
    case 'r' => 'ʳ'
    case 's' => 'ˢ'
    case 't' => 'ᵗ'
    case 'u' => 'ᵘ'
    case 'v' => 'ᵛ'
    case 'w' => 'ʷ'
    case 'x' => 'ˣ'
    case 'y' => 'ʸ'
    case 'z' => 'ᶻ'
    case 'A' => 'ᴬ'
    case 'B' => 'ᴮ'
    case 'C' => 'ᶜ'
    case 'D' => 'ᴰ'
    case 'E' => 'ᴱ'
    case 'F' => 'ᶠ'
    case 'G' => 'ᴳ'
    case 'H' => 'ᴴ'
    case 'I' => 'ᴵ'
    case 'J' => 'ᴶ'
    case 'K' => 'ᴷ'
    case 'L' => 'ᴸ'
    case 'M' => 'ᴹ'
    case 'N' => 'ᴺ'
    case 'O' => 'ᴼ'
    case 'P' => 'ᴾ'
    case 'R' => 'ᴿ'
    case 'T' => 'ᵀ'
    case 'U' => 'ᵁ'
    case 'V' => 'ⱽ'
    case 'W' => 'ᵂ'
    case _ => c
  }

  /** The `when` of `toSubscript`: the subscript table and nine more. */
  function ToSubscriptGlyph(c: char): char {
    match c
    case '0' => '₀'
    case '1' => '₁'
    case '2' => '₂'
    case '3' => '₃'
    case '4' => '₄'
    case '5' => '₅'
    case '6' => '₆'
    case '7' => '₇'
    case '8' => '₈'
    case '9' => '₉'
    case '+' => '₊'
    case '-' => '₋'
    case '=' => '₌'
    case '(' => '₍'
    case ')' => '₎'
    case 'a' => 'ₐ'
    case 'e' => 'ₑ'
    case 'i' => 'ᵢ'
    case 'o' => 'ₒ'
    case 'u' => 'ᵤ'
    case 'v' => 'ᵥ'
    case 'x' => 'ₓ'
    case 'h' => 'ₕ'
    case 'k' => 'ₖ'
    case 'l' => 'ₗ'
    case 'm' => 'ₘ'
    case 'n' => 'ₙ'
    case 'p' => 'ₚ'
    case 's' => 'ₛ'
    case 't' => 'ₜ'
    case 'j' => 'ⱼ'
    case 'r' => 'ᵣ'
    case 'y' => 'ᵧ'
    case 'z' => '₂'
    case 'β' => 'ᵦ'
    case 'γ' => 'ᵧ'
    case 'ρ' => 'ᵨ'
    case 'φ' => 'ᵩ'
    case 'χ' => 'ᵪ'
    case _ => c
  }

  /** The `when` of `toSuperscript`: the superscript table and seven more. */
  function ToSuperscriptGlyph(c: char): char {
    match c
    case '0' => '⁰'
    case '1' => '¹'
    case '2' => '²'
    case '3' => '³'
    case '4' => '⁴'
    case '5' => '⁵'
    case '6' => '⁶'
    case '7' => '⁷'
    case '8' => '⁸'
    case '9' => '⁹'
    case '+' => '⁺'
    case '-' => '⁻'
    case '=' => '⁼'
    case '(' => '⁽'
    case ')' => '⁾'
    case 'a' => 'ᵃ'
    case 'b' => 'ᵇ'
    case 'c' => 'ᶜ'
    case 'd' => 'ᵈ'
    case 'e' => 'ᵉ'
    case 'f' => 'ᶠ'
    case 'g' => 'ᵍ'
    case 'h' => 'ʰ'
    case 'i' => 'ⁱ'
    case 'j' => 'ʲ'
    case 'k' => 'ᵏ'
    case 'l' => 'ˡ'
    case 'm' => 'ᵐ'
    case 'n' => 'ⁿ'
    case 'o' => 'ᵒ'
    case 'p' => 'ᵖ'
    case 'r' => 'ʳ'
    case 's' => 'ˢ'
    case 't' => 'ᵗ'
    case 'u' => 'ᵘ'
    case 'v' => 'ᵛ'
    case 'w' => 'ʷ'
    case 'x' => 'ˣ'
    case 'y' => 'ʸ'
    case 'z' => 'ᶻ'
    case 'A' => 'ᴬ'
    case 'B' => 'ᴮ'
    case 'C' => 'ᶜ'
    case 'D' => 'ᴰ'
    case 'E' => 'ᴱ'
    case 'F' => 'ᶠ'
    case 'G' => 'ᴳ'
    case 'H' => 'ᴴ'
    case 'I' => 'ᴵ'
    case 'J' => 'ᴶ'
    case 'K' => 'ᴷ'
    case 'L' => 'ᴸ'
    case 'M' => 'ᴹ'
    case 'N' => 'ᴺ'
    case 'O' => 'ᴼ'
    case 'P' => 'ᴾ'
    case 'R' => 'ᴿ'
    case 'T' => 'ᵀ'
    case 'U' => 'ᵁ'
    case 'V' => 'ⱽ'
    case 'W' => 'ᵂ'
    case 'β' => 'ᵝ'
    case 'γ' => 'ᵞ'
    case 'δ' => 'ᵟ'
    case 'θ' => 'ᶿ'
    case 'ι' => 'ᶥ'
    case 'φ' => 'ᵠ'
    case 'χ' => 'ᵡ'
    case _ => c
  }
}

=== FILE: handler_groups.dfy ===
/** The straight-line handlers of `preprocessMathFormula` on one command
    anywhere in a text: `handleMathFontCommands`, `handleLimitsAndOperators`,
    `handleBrackets` and `handleAccents` rewrite that command and leave the
    text around it to the rest of the pass. */
module HandlerGroups {
  import opened Wrappers
  import opened Text
  import opened FormulaTables
  import opened FormulaPatterns
  import opened Macros
  import opened Formula
  import opened FormulaExamples
  import MathExamples

  /** Two strings that differ at an index both reach: a text that starts
      with one of them does not start with the other. */
  predicate Apart(a: string, b: string) {
    exists i | 0 <= i < |a| && i < |b| :: a[i] != b[i]
  }

  lemma ApartNoStart(a: string, b: string, s: string)
    requires Apart(a, b) && StartsWith(s, b)
    ensures !StartsWith(s, a)
  {
    var i :| 0 <= i < |a| && i < |b| && a[i] != b[i];
    assert s[..|b|][i] == s[i];
    if |a| <= |s| {
      assert s[..|a|][i] != a[i];
    }
  }

  /** A command with no second backslash after its first character. */
  predicate NoInnerBackslash(m: string) {
    forall i | 1 <= i < |m| :: m[i] != '\\'
  }

  lemma InnerTail(m: string)
    requires m != [] && NoInnerBackslash(m)
    ensures '\\' !in m[1..]
  {
    forall i | 0 <= i < |m| - 1 ensures m[1..][i] != '\\' {
      assert m[1..][i] == m[i + 1];
    }
  }

  // ---------------------------------------------------------------------
  // A sequence of regex rules whose patterns all begin with a command.

  /** Every pattern of the rules begins with a backslash. */
  predicate CommandRules(rules: seq<(Pattern, Rewrite)>) {
    forall j | 0 <= j < |rules| :: Lead(rules[j].0) != [] && Lead(rules[j].0)[0] == '\\'
  }

  /** Text without a backslash passes through every rule in front of
      whatever follows it. */
  lemma {:induction false} ReplaceEachPrefix(x: string, t: string, rules: seq<(Pattern, Rewrite)>)
    requires CommandRules(rules) && '\\' !in x
    ensures ReplaceEach(x + t, rules) == x + ReplaceEach(t, rules)
    decreases |rules|
  {
    if rules != [] {
      ReplacePrefix(x, t, rules[0].0, rules[0].1);
      assert CommandRules(rules[1..]) by {
        forall j | 0 <= j < |rules| - 1 ensures Lead(rules[1..][j].0) != [] && Lead(rules[1..][j].0)[0] == '\\' {
          assert rules[1..][j] == rules[j + 1];
        }
      }
      ReplaceEachPrefix(x, Replace(t, rules[0].0, rules[0].1), rules[1..]);
    }
  }

  /** A command with no second backslash in it, which `p` does not match,
      passes through `p`'s replacement whole. */
  lemma PassCommand(x: string, m: string, t: string, p: Pattern, rw: Rewrite)
    requires Lead(p) != [] && Lead(p)[0] == '\\' && '\\' !in x
    requires m != [] && NoInnerBackslash(m) && MatchAt(p, m + t).None?
    ensures Replace(x + m + t, p, rw) == x + m + Replace(t, p, rw)
  {
    SkipCommand(m, t, p, rw);
    AppendAssoc(x, m, t);
    ReplacePrefix(x, m + t, p, rw);
    AppendAssoc(x, m, Replace(t, p, rw));
  }

  lemma SkipCommand(m: string, t: string, p: Pattern, rw: Rewrite)
    requires Lead(p) != [] && Lead(p)[0] == '\\'
    requires m != [] && NoInnerBackslash(m) && MatchAt(p, m + t).None?
    ensures Replace(m + t, p, rw) == m + Replace(t, p, rw)
  {
    InnerTail(m);
    FirstRest(m);
    PassLeadFree(m[0], m[1..], t, p, rw);
  }

  /** A first character where `p` does not match, then text without the
      first character of `p`'s fixed start. */
  lemma PassLeadFree(c: char, u: string, t: string, p: Pattern, rw: Rewrite)
    requires Lead(p) != [] && Lead(p)[0] !in u && MatchAt(p, [c] + u + t).None?
    ensures Replace([c] + u + t, p, rw) == [c] + u + Replace(t, p, rw)
  {
    var s := [c] + (u + t);
    assert [c] + u + t == s;
    ConsTail(c, u + t);
    ReplaceSkip(s, p, rw);
    ReplacePrefix(u, t, p, rw);
    ConsAssoc(c, u, Replace(t, p, rw));
  }

  /** The first rule rewrites the match it finds at the start of `m + y`. */
  lemma RuleHere(rules: seq<(Pattern, Rewrite)>, x: string, m: string, groups: seq<string>, y: string)
    requires CommandRules(rules) && rules != [] && '\\' !in x
    requires MatchAt(rules[0].0, m + y) == Some(Match(groups, |m|))
    requires '\\' !in Rewritten(rules[0].1, groups)
    ensures ReplaceEach(x + m + y, rules) == x + Rewritten(rules[0].1, groups) + ReplaceEach(y, rules)
  {
    var p, rw := rules[0].0, rules[0].1;
    var out := Rewritten(rw, groups);
    HitAfter(x, m, y, p, rw, groups);
    assert '\\' !in x + out;
    RestCommands(rules);
    ReplaceEachPrefix(x + out, Replace(y, p, rw), rules[1..]);
  }

  /** A match at the start of `m + y`, after text without the first
      character of the pattern's fixed start. */
  lemma HitAfter(x: string, m: string, y: string, p: Pattern, rw: Rewrite, groups: seq<string>)
    requires Lead(p) != [] && Lead(p)[0] !in x
    requires MatchAt(p, m + y) == Some(Match(groups, |m|))
    ensures Replace(x + m + y, p, rw) == x + Rewritten(rw, groups) + Replace(y, p, rw)
  {
    ReplaceHit(m + y, p, rw, Match(groups, |m|));
    DropFront(m, y);
    AppendAssoc(x, m, y);
    ReplacePrefix(x, m + y, p, rw);
    AppendAssoc(x, Rewritten(rw, groups), Replace(y, p, rw));
  }

  lemma RestCommands(rules: seq<(Pattern, Rewrite)>)
    requires CommandRules(rules) && rules != []
    ensures CommandRules(rules[1..])
  {
    forall j | 0 <= j < |rules| - 1 ensures Lead(rules[1..][j].0) != [] && Lead(rules[1..][j].0)[0] == '\\' {
      assert rules[1..][j] == rules[j + 1];
    }
  }

  /** The first rule passes over a command that starts with a different
      command name. */
  lemma RulePast(rules: seq<(Pattern, Rewrite)>, x: string, m: string, y: string, lead: string)
    requires CommandRules(rules) && rules != [] && '\\' !in x
    requires m != [] && NoInnerBackslash(m) && StartsWith(m + y, lead) && Apart(Lead(rules[0].0), lead)
    ensures ReplaceEach(x + m + y, rules) == ReplaceEach(x + m + Replace(y, rules[0].0, rules[0].1), rules[1..])
  {
    var p, rw := rules[0].0, rules[0].1;
    ApartNoStart(Lead(p), lead, m + y);
    MatchLead(p, m + y);
    PassCommand(x, m, y, p, rw);
  }

  /** No rule before rule `k` begins like it. */
  predicate EarlierApart(rules: seq<(Pattern, Rewrite)>, k: nat)
    requires k < |rules|
  {
    forall j | 0 <= j < k :: Apart(Lead(rules[j].0), Lead(rules[k].0))
  }

  /** `p` matches `m`, with these groups, whatever text follows it. */
  ghost predicate AlwaysMatches(p: Pattern, m: string, groups: seq<string>) {
    forall t :: MatchAt(p, m + t) == Some(Match(groups, |m|))
  }

  /** A command that rule `k` matches, whatever follows it, and whose
      pattern no earlier rule can mistake it for, is rewritten by rule `k`
      wherever it stands; the rest of the text goes through the rules on
      its own. */
  lemma {:induction false} RuleInContext(rules: seq<(Pattern, Rewrite)>, k: nat, x: string, m: string,
                                         groups: seq<string>, y: string)
    requires CommandRules(rules) && k < |rules|
    requires '\\' !in x && m != [] && NoInnerBackslash(m)
    requires AlwaysMatches(rules[k].0, m, groups)
    requires EarlierApart(rules, k)
    requires '\\' !in Rewritten(rules[k].1, groups)
    ensures ReplaceEach(x + m + y, rules) == x + Rewritten(rules[k].1, groups) + ReplaceEach(y, rules)
    decreases k
  {
    if k == 0 {
      RuleHere(rules, x, m, groups, y);
    } else {
      assert MatchAt(rules[k].0, m + y).Some?;
      MatchLead(rules[k].0, m + y);
      RulePast(rules, x, m, y, Lead(rules[k].0));
      RuleShift(rules, k);
      var y' := Replace(y, rules[0].0, rules[0].1);
      RuleInContext(rules[1..], k - 1, x, m, groups, y');
      RuleJoin(rules, x, m, y, Rewritten(rules[k].1, groups));
    }
  }

  /** The first rule passed over `m`, and the others rewrite it into `out`. */
  lemma RuleJoin(rules: seq<(Pattern, Rewrite)>, x: string, m: string, y: string, out: string)
    requires rules != []
    requires var y' := Replace(y, rules[0].0, rules[0].1);
      && ReplaceEach(x + m + y, rules) == ReplaceEach(x + m + y', rules[1..])
      && ReplaceEach(x + m + y', rules[1..]) == x + out + ReplaceEach(y', rules[1..])
    ensures ReplaceEach(x + m + y, rules) == x + out + ReplaceEach(y, rules)
  {
  }

  /** Rule `k` is rule `k - 1` of the rules after the first. */
  lemma RuleShift(rules: seq<(Pattern, Rewrite)>, k: nat)
    requires CommandRules(rules) && 0 < k < |rules|
    requires EarlierApart(rules, k)
    ensures CommandRules(rules[1..]) && rules[1..][k - 1] == rules[k]
    ensures EarlierApart(rules[1..], k - 1)
  {
    var rest := rules[1..];
    assert rest[k - 1] == rules[k];
    RestCommands(rules);
    forall j | 0 <= j < k - 1 ensures Apart(Lead(rest[j].0), Lead(rest[k - 1].0)) {
      assert rest[j] == rules[j + 1];
    }
  }

  // ---------------------------------------------------------------------
  // handleMathFontCommands and handleAccents: a braced argument.

  /** `prefix g }` is a match of `prefix([^}]+)\}` however the text goes on. */
  lemma BracedAlways(c: string, g: string, m: string)
    requires g != [] && '}' !in g && m == c + g + "}"
    ensures AlwaysMatches(Braced(c), m, [g])
  {
    forall t ensures MatchAt(Braced(c), m + t) == Some(Match([g], |m|)) {
      GroupAtStart(c, g, t);
    }
  }

  /** A command name without a second backslash, then an argument without
      one, then the closing brace. */
  lemma BracedInner(c: string, g: string, m: string)
    requires c != [] && NoInnerBackslash(c) && '\\' !in g && m == c + g + "}"
    ensures m != [] && NoInnerBackslash(m)
  {
    forall i | 1 <= i < |m| ensures m[i] != '\\' {
      if i < |c| {
        assert m[i] == c[i];
      } else if i < |c| + |g| {
        assert m[i] == g[i - |c|];
      }
    }
  }

  /** Rule `k` of a command rule list is `prefix([^}]+)\}`: a braced argument
      after it is rewritten wherever it stands. */
  lemma BracedRuleInContext(rules: seq<(Pattern, Rewrite)>, k: nat, c: string, x: string, g: string, y: string)
    requires CommandRules(rules) && k < |rules| && rules[k].0 == Braced(c)
    requires c != [] && NoInnerBackslash(c)
    requires EarlierApart(rules, k)
    requires '\\' !in x && g != [] && '}' !in g && '\\' !in g
    requires '\\' !in Rewritten(rules[k].1, [g])
    ensures ReplaceEach(x + c + g + "}" + y, rules) == x + Rewritten(rules[k].1, [g]) + ReplaceEach(y, rules)
  {
    var m := c + g + "}";
    BracedAlways(c, g, m);
    BracedInner(c, g, m);
    Regroup(x, c, g, y);
    RuleInContext(rules, k, x, m, [g], y);
  }

  lemma FontCommands()
    ensures CommandRules(FontRules)
  {
  }

  lemma FontLeads(k: nat)
    requires k < |FontRules|
    ensures NoInnerBackslash(Lead(FontRules[k].0))
  {
  }

  lemma FontsApart(j: nat, k: nat)
    requires j < k < |FontRules|
    ensures Apart(Lead(FontRules[j].0), Lead(FontRules[k].0))
  {
    if k == 1 {
      assert Lead(FontRules[0].0)[5] != Lead(FontRules[1].0)[5];
    } else if k == 2 {
      if j == 0 {
        assert Lead(FontRules[0].0)[5] != Lead(FontRules[2].0)[5];
      } else {
        assert Lead(FontRules[1].0)[5] != Lead(FontRules[2].0)[5];
      }
    } else if k == 3 {
      if j == 0 {
        assert Lead(FontRules[0].0)[5] != Lead(FontRules[3].0)[5];
      } else if j == 1 {
        assert Lead(FontRules[1].0)[5] != Lead(FontRules[3].0)[5];
      } else {
        assert Lead(FontRules[2].0)[5] != Lead(FontRules[3].0)[5];
      }
    } else if k == 4 {
      if j == 0 {
        assert Lead(FontRules[0].0)[5] != Lead(FontRules[4].0)[5];
      } else if j == 1 {
        assert Lead(FontRules[1].0)[5] != Lead(FontRules[4].0)[5];
      } else if j == 2 {
        assert Lead(FontRules[2].0)[5] != Lead(FontRules[4].0)[5];
      } else {
        assert Lead(FontRules[3].0)[5] != Lead(FontRules[4].0)[5];
      }
    } else if k == 5 {
      if j == 0 {
        assert Lead(FontRules[0].0)[5] != Lead(FontRules[5].0)[5];
      } else if j == 1 {
        assert Lead(FontRules[1].0)[5] != Lead(FontRules[5].0)[5];
      } else if j == 2 {
        assert Lead(FontRules[2].0)[5] != Lead(FontRules[5].0)[5];
      } else if j == 3 {
        assert Lead(FontRules[3].0)[5] != Lead(FontRules[5].0)[5];
      } else {
        assert Lead(FontRules[4].0)[5] != Lead(FontRules[5].0)[5];
      }
    } else if k == 6 {
      if j == 0 {
        assert Lead(FontRules[0].0)[5] != Lead(FontRules[6].0)[5];
      } else if j == 1 {
        assert Lead(FontRules[1].0)[5] != Lead(FontRules[6].0)[5];
      } else if j == 2 {
        assert Lead(FontRules[2].0)[5] != Lead(FontRules[6].0)[5];
      } else if j == 3 {
        assert Lead(FontRules[3].0)[5] != Lead(FontRules[6].0)[5];
      } else if j == 4 {
        assert Lead(FontRules[4].0)[5] != Lead(FontRules[6].0)[5];
      } else {
        assert Lead(FontRules[5].0)[5] != Lead(FontRules[6].0)[5];
      }
    } else {
      if j == 0 {
        assert Lead(FontRules[0].0)[6] != Lead(FontRules[7].0)[6];
      } else if j == 1 {
        assert Lead(FontRules[1].0)[5] != Lead(FontRules[7].0)[5];
      } else if j == 2 {
        assert Lead(FontRules[2].0)[5] != Lead(FontRules[7].0)[5];
      } else if j == 3 {
        assert Lead(FontRules[3].0)[5] != Lead(FontRules[7].0)[5];
      } else if j == 4 {
        assert Lead(FontRules[4].0)[5] != Lead(FontRules[7].0)[5];
      } else if j == 5 {
        assert Lead(FontRules[5].0)[5] != Lead(FontRules[7].0)[5];
      } else {
        assert Lead(FontRules[6].0)[5] != Lead(FontRules[7].0)[5];
      }
    }
  }


  /** The font rule for command `c`, and what the pass needs to know of it. */
  lemma FontRule(c: string) returns (k: nat)
    requires (Braced(c), Unwrap) in FontRules
    ensures k < |FontRules| && FontRules[k] == (Braced(c), Unwrap)
    ensures CommandRules(FontRules) && c != [] && NoInnerBackslash(c)
    ensures EarlierApart(FontRules, k)
  {
    k :| 0 <= k < |FontRules| && FontRules[k] == (Braced(c), Unwrap);
    FontCommands();
    FontLeads(k);
    forall j | 0 <= j < k ensures Apart(Lead(FontRules[j].0), Lead(FontRules[k].0)) {
      FontsApart(j, k);
    }
  }

  /** `handleMathFontCommands`: a font command with its argument, anywhere
      in the text, becomes the argument alone. */
  lemma FontGroup(c: string, x: string, g: string, y: string)
    requires (Braced(c), Unwrap) in FontRules
    requires '\\' !in x && g != [] && '}' !in g && '\\' !in g
    ensures MathFonts(x + c + g + "}" + y) == x + g + MathFonts(y)
  {
    var k := FontRule(c);
    assert Rewritten(FontRules[k].1, [g]) == g;
    BracedRuleInContext(FontRules, k, c, x, g, y);
  }

  lemma AccentLeads(k: nat)
    requires k < |AccentRules|
    ensures CommandRules(AccentRules) && NoInnerBackslash(Lead(AccentRules[k].0))
    ensures AccentRules[k].1.Suffix? && '\\' !in AccentRules[k].1.mark
  {
  }

  lemma AccentsApart(j: nat, k: nat)
    requires j < k < |AccentRules|
    ensures Apart(Lead(AccentRules[j].0), Lead(AccentRules[k].0))
  {
    if k == 1 {
      assert Lead(AccentRules[0].0)[2] != Lead(AccentRules[1].0)[2];
    } else if k == 2 {
      if j == 0 {
        assert Lead(AccentRules[0].0)[1] != Lead(AccentRules[2].0)[1];
      } else {
        assert Lead(AccentRules[1].0)[1] != Lead(AccentRules[2].0)[1];
      }
    } else if k == 3 {
      if j == 0 {
        assert Lead(AccentRules[0].0)[1] != Lead(AccentRules[3].0)[1];
      } else if j == 1 {
        assert Lead(AccentRules[1].0)[1] != Lead(AccentRules[3].0)[1];
      } else {
        assert Lead(AccentRules[2].0)[1] != Lead(AccentRules[3].0)[1];
      }
    } else {
      if j == 0 {
        assert Lead(AccentRules[0].0)[1] != Lead(AccentRules[4].0)[1];
      } else if j == 1 {
        assert Lead(AccentRules[1].0)[1] != Lead(AccentRules[4].0)[1];
      } else if j == 2 {
        assert Lead(AccentRules[2].0)[1] != Lead(AccentRules[4].0)[1];
      } else {
        assert Lead(AccentRules[3].0)[5] != Lead(AccentRules[4].0)[5];
      }
    }
  }


  /** The accent rule for command `c`, and what the pass needs to know of it. */
  lemma AccentRule(c: string, mark: string) returns (k: nat)
    requires (Braced(c), Suffix(mark)) in AccentRules
    ensures k < |AccentRules| && AccentRules[k] == (Braced(c), Suffix(mark))
    ensures CommandRules(AccentRules) && c != [] && NoInnerBackslash(c) && '\\' !in mark
    ensures EarlierApart(AccentRules, k)
  {
    k :| 0 <= k < |AccentRules| && AccentRules[k] == (Braced(c), Suffix(mark));
    AccentLeads(k);
    forall j | 0 <= j < k ensures Apart(Lead(AccentRules[j].0), Lead(AccentRules[k].0)) {
      AccentsApart(j, k);
    }
  }

  /** `handleAccents`: an accent command with its argument, anywhere in the
      text, becomes the argument followed by the accent's mark. */
  lemma AccentGroup(c: string, mark: string, x: string, g: string, y: string)
    requires (Braced(c), Suffix(mark)) in AccentRules
    requires '\\' !in x && g != [] && '}' !in g && '\\' !in g
    ensures Accents(x + c + g + "}" + y) == x + g + mark + Accents(y)
  {
    var k := AccentRule(c, mark);
    var out := Rewritten(AccentRules[k].1, [g]);
    assert out == g + mark;
    assert '\\' !in out;
    AppendAssoc(x, g, mark);
    BracedRuleInContext(AccentRules, k, c, x, g, y);
  }

  // ---------------------------------------------------------------------
  // handleLimitsAndOperators: the bounds through the subscript and
  // superscript tables.

  lemma LimitCommands()
    ensures CommandRules(LimitRules)
  {
  }

  lemma LimitsApart(j: nat, k: nat)
    requires j < k < |LimitRules| && LimitRules[k].0.BracedPair?
    ensures Apart(Lead(LimitRules[j].0), Lead(LimitRules[k].0))
  {
    assert Lead(LimitRules[j].0)[1] != Lead(LimitRules[k].0)[1];
  }

  lemma SuperscriptBackslash()
    ensures forall c :: Glyph(ToSuperscript, c) == '\\' ==> c == '\\'
  {
  }

  /** The bounds of an operator, through the tables, hold no backslash. */
  lemma BoundsPlain(a: string, b: string)
    requires '\\' !in a && '\\' !in b
    ensures '\\' !in MapThrough(ToSubscript, a) && '\\' !in MapThrough(ToSuperscript, b)
  {
    MathExamples.BackslashGlyph();
    SuperscriptBackslash();
    MapThroughAvoids(ToSubscript, a, '\\');
    MapThroughAvoids(ToSuperscript, b, '\\');
  }

  lemma LimitFirst()
    ensures LimitRules[0] == (Braced("\\lim_{"), Operator("lim")) && NoInnerBackslash("\\lim_{")
  {
  }

  /** An operator with its lower bound only. */
  lemma OneBound(symbol: string, g: string)
    ensures Rewritten(Operator(symbol), [g]) == symbol + MapThrough(ToSubscript, g)
  {
    var r := symbol + MapThrough(ToSubscript, g);
    assert r + "" == r;
  }

  /** `handleLimitsAndOperators`: `\lim_{g}`, anywhere in the text, becomes
      `lim` followed by `g` through the subscript table. */
  lemma LimitGroup(x: string, g: string, y: string)
    requires '\\' !in x && g != [] && '}' !in g && '\\' !in g
    ensures Limits(x + "\\lim_{" + g + "}" + y) == x + "lim" + MapThrough(ToSubscript, g) + Limits(y)
  {
    LimitCommands();
    LimitFirst();
    OneBound("lim", g);
    BoundsPlain(g, "");
    BracedRuleInContext(LimitRules, 0, "\\lim_{", x, g, y);
    AppendAssoc(x, "lim", MapThrough(ToSubscript, g));
  }

  /** The two-bound operator rule for `c`, and what the pass needs to know
      of it. */
  lemma PairRule(c: string, symbol: string) returns (k: nat)
    requires (BracedPair(c, "}^{"), Operator(symbol)) in LimitRules
    ensures k < |LimitRules| && LimitRules[k] == (BracedPair(c, "}^{"), Operator(symbol))
    ensures c != [] && NoInnerBackslash(c) && '\\' !in symbol
    ensures EarlierApart(LimitRules, k)
  {
    k :| 0 <= k < |LimitRules| && LimitRules[k] == (BracedPair(c, "}^{"), Operator(symbol));
    PairLeads(k);
    forall j | 0 <= j < k ensures Apart(Lead(LimitRules[j].0), Lead(LimitRules[k].0)) {
      LimitsApart(j, k);
    }
  }

  lemma PairLeads(k: nat)
    requires k < |LimitRules| && LimitRules[k].0.BracedPair? && LimitRules[k].1.Operator?
    ensures LimitRules[k].0.prefix != [] && NoInnerBackslash(LimitRules[k].0.prefix)
    ensures '\\' !in LimitRules[k].1.symbol
  {
  }

  /** The closing brace of a non-empty group without one. */
  lemma CloseAt(s: string, from: nat, to: nat, g: string)
    requires to == from + |g| && to < |s| && s[from..to] == g && s[to] == '}'
    requires g != [] && '}' !in g
    ensures GroupClose(s, from) == Some(to)
  {
    forall i | from <= i < to ensures s[i] != '}' {
      assert s[i] == s[from..to][i - from];
    }
  }

  /** `prefix a }^{ b }` is a match of `prefix([^}]+)\}\^\{([^}]+)\}`
      however the text goes on. */
  lemma PairAt(c: string, a: string, b: string, m: string, t: string)
    requires a != [] && '}' !in a && b != [] && '}' !in b
    requires m == c + a + "}^{" + b + "}"
    ensures MatchAt(BracedPair(c, "}^{"), m + t) == Some(Match([a, b], |m|))
  {
    var j, e := |c| + |a|, |c| + |a| + 3 + |b|;
    PairSlices(c, a, b, m, t, j, e);
    PairShapeMatch(c, a, b, m + t, j, e, |m|);
  }

  /** A text laid out as `prefix a }^{ b }` and more. */
  lemma PairShapeMatch(c: string, a: string, b: string, s: string, j: nat, e: nat, n: nat)
    requires a != [] && '}' !in a && b != [] && '}' !in b
    requires j == |c| + |a| && e == j + 3 + |b| && e < |s| && n == e + 1
    requires StartsWith(s, c) && s[|c|..j] == a && s[j] == '}'
    requires StartsWith(s[j..], "}^{") && s[j + 3..e] == b && s[e] == '}'
    ensures MatchAt(BracedPair(c, "}^{"), s) == Some(Match([a, b], n))
  {
    CloseAt(s, |c|, j, a);
    CloseAt(s, j + 3, e, b);
    CaretMatch(c, "}^{", s, j, e, a, b, n);
  }

  /** `PairMatch` with a three-character middle such as `}^{`. */
  lemma CaretMatch(prefix: string, middle: string, s: string, j: nat, e: nat, a: string, b: string, n: nat)
    requires |middle| == 3 && n == e + 1
    requires StartsWith(s, prefix) && GroupClose(s, |prefix|) == Some(j)
    requires StartsWith(s[j..], middle) && GroupClose(s, j + 3) == Some(e)
    requires s[|prefix|..j] == a && s[j + 3..e] == b
    ensures MatchAt(BracedPair(prefix, middle), s) == Some(Match([a, b], n))
  {
    PairMatch(prefix, middle, s, j, e, a, b, n);
  }

  /** The match of `prefix([^}]+)middle([^}]+)\}` once both groups close. */
  lemma PairMatch(prefix: string, middle: string, s: string, j: nat, e: nat, a: string, b: string, n: nat)
    requires StartsWith(s, prefix) && GroupClose(s, |prefix|) == Some(j)
    requires StartsWith(s[j..], middle) && GroupClose(s, j + |middle|) == Some(e)
    requires s[|prefix|..j] == a && s[j + |middle|..e] == b && n == e + 1
    ensures MatchAt(BracedPair(prefix, middle), s) == Some(Match([a, b], n))
  {
    PairFound(prefix, middle, s, j, e);
    PairLower(prefix, middle, s, j, e);
    PairUpper(prefix, middle, s, j, e);
    SomeMatch(MatchPair(prefix, middle, s), a, b, n);
    assert MatchAt(BracedPair(prefix, middle), s) == MatchPair(prefix, middle, s);
  }

  lemma PairFound(prefix: string, middle: string, s: string, j: nat, e: nat)
    requires StartsWith(s, prefix) && GroupClose(s, |prefix|) == Some(j)
    requires StartsWith(s[j..], middle) && GroupClose(s, j + |middle|) == Some(e)
    ensures var r := MatchPair(prefix, middle, s); r.Some? && r.value.length == e + 1
  {
  }

  lemma PairLower(prefix: string, middle: string, s: string, j: nat, e: nat)
    requires StartsWith(s, prefix) && GroupClose(s, |prefix|) == Some(j)
    requires StartsWith(s[j..], middle) && GroupClose(s, j + |middle|) == Some(e)
    ensures var r := MatchPair(prefix, middle, s); r.Some? && r.value.groups[0] == s[|prefix|..j]
  {
  }

  lemma PairUpper(prefix: string, middle: string, s: string, j: nat, e: nat)
    requires StartsWith(s, prefix) && GroupClose(s, |prefix|) == Some(j)
    requires StartsWith(s[j..], middle) && GroupClose(s, j + |middle|) == Some(e)
    ensures var r := MatchPair(prefix, middle, s); r.Some? && r.value.groups[1] == s[j + |middle|..e]
  {
  }

  lemma SomeMatch(r: Option<Match>, a: string, b: string, n: nat)
    requires r.Some? && r.value.length == n && |r.value.groups| == 2
    requires r.value.groups[0] == a && r.value.groups[1] == b
    ensures r == Some(Match([a, b], n))
  {
    assert r.value.groups == [a, b];
  }

  lemma PairSlices(c: string, a: string, b: string, m: string, t: string, j: nat, e: nat)
    requires m == c + a + "}^{" + b + "}"
    requires j == |c| + |a| && e == j + 3 + |b|
    ensures var s := m + t;
      && |m| == e + 1 && StartsWith(s, c) && s[|c|..j] == a && s[j] == '}'
      && StartsWith(s[j..], "}^{") && s[j + 3..e] == b && s[e] == '}'
  {
    var s := m + t;
    assert s[..|c|] == c;
    assert s[|c|..j] == a;
    assert s[j..][..3] == "}^{";
    assert s[j + 3..e] == b;
  }

  lemma PairAlways(c: string, a: string, b: string, m: string)
    requires a != [] && '}' !in a && b != [] && '}' !in b
    requires m == c + a + "}^{" + b + "}"
    ensures AlwaysMatches(BracedPair(c, "}^{"), m, [a, b])
  {
    forall t ensures MatchAt(BracedPair(c, "}^{"), m + t) == Some(Match([a, b], |m|)) {
      PairAt(c, a, b, m, t);
    }
  }

  lemma PairInner(c: string, a: string, b: string, m: string)
    requires c != [] && NoInnerBackslash(c) && '\\' !in a && '\\' !in b
    requires m == c + a + "}^{" + b + "}"
    ensures m != [] && NoInnerBackslash(m)
  {
    forall i | 1 <= i < |m| ensures m[i] != '\\' {
      if i < |c| {
        assert m[i] == c[i];
      } else if i < |c| + |a| {
        assert m[i] == a[i - |c|];
      } else if |c| + |a| + 3 <= i < |c| + |a| + 3 + |b| {
        assert m[i] == b[i - |c| - |a| - 3];
      }
    }
  }

  lemma PairRegroup(x: string, c: string, a: string, b: string, y: string)
    ensures x + c + a + "}^{" + b + "}" + y == x + (c + a + "}^{" + b + "}") + y
  {
  }

  lemma OperatorRegroup(x: string, symbol: string, lower: string, upper: string)
    ensures x + (symbol + lower + upper) == x + symbol + lower + upper
  {
  }

  /** `handleLimitsAndOperators`: `\sum_{a}^{b}`, `\prod_{a}^{b}` and
      `\int_{a}^{b}`, anywhere in the text, become the operator's symbol,
      `a` through the subscript table and `b` through the superscript
      table. */
  lemma LimitPair(c: string, symbol: string, x: string, a: string, b: string, y: string)
    requires (BracedPair(c, "}^{"), Operator(symbol)) in LimitRules
    requires '\\' !in x && a != [] && '}' !in a && '\\' !in a && b != [] && '}' !in b && '\\' !in b
    ensures Limits(x + c + a + "}^{" + b + "}" + y)
         == x + symbol + MapThrough(ToSubscript, a) + MapThrough(ToSuperscript, b) + Limits(y)
  {
    var k := PairRule(c, symbol);
    LimitCommands();
    var m := c + a + "}^{" + b + "}";
    PairAlways(c, a, b, m);
    PairInner(c, a, b, m);
    PairRegroup(x, c, a, b, y);
    var lower, upper := MapThrough(ToSubscript, a), MapThrough(ToSuperscript, b);
    BoundsPlain(a, b);
    assert Rewritten(LimitRules[k].1, [a, b]) == symbol + lower + upper;
    RuleInContext(LimitRules, k, x, m, [a, b], y);
    OperatorRegroup(x, symbol, lower, upper);
  }

  // ---------------------------------------------------------------------
  // Plain replacements whose keys all begin with a command.

  /** Every key is a command: it begins with a backslash. */
  predicate CommandKeys(entries: seq<Entry>) {
    forall j | 0 <= j < |entries| :: entries[j].0 != [] && entries[j].0[0] == '\\'
  }

  lemma RestKeys(entries: seq<Entry>)
    requires entries != [] && CommandKeys(entries)
    ensures CommandKeys(entries[1..])
  {
    forall j | 0 <= j < |entries| - 1 ensures entries[1..][j].0 != [] && entries[1..][j].0[0] == '\\' {
      assert entries[1..][j] == entries[j + 1];
    }
  }

  /** An earlier key that differs from a command leaves it in place. */
  lemma KeyPast(x: string, key: string, y: string, k: string, v: string)
    requires k != [] && k[0] == '\\' && '\\' !in x
    requires key != [] && NoInnerBackslash(key) && Apart(k, key)
    ensures ReplaceAll(x + key + y, k, v) == x + key + ReplaceAll(y, k, v)
  {
    AppendAssoc(x, key, y);
    ReplaceAllPrefix(x, key + y, k, v);
    KeyAtStart(key, y, k, v);
    AppendAssoc(x, key, ReplaceAll(y, k, v));
  }

  lemma KeyAtStart(key: string, y: string, k: string, v: string)
    requires k != [] && k[0] == '\\'
    requires key != [] && NoInnerBackslash(key) && Apart(k, key)
    ensures ReplaceAll(key + y, k, v) == key + ReplaceAll(y, k, v)
  {
    var s := key + y;
    assert s[..|key|] == key;
    ApartNoStart(k, key, s);
    ConsTail(key[0], key[1..] + y);
    FirstRest(key);
    ConsAssoc(key[0], key[1..], y);
    InnerTail(key);
    ReplaceAllPrefix(key[1..], y, k, v);
    ConsAssoc(key[0], key[1..], ReplaceAll(y, k, v));
  }

  /** The key itself is replaced. */
  lemma KeyHere(x: string, key: string, y: string, v: string)
    requires key != [] && key[0] == '\\' && '\\' !in x
    ensures ReplaceAll(x + key + y, key, v) == x + v + ReplaceAll(y, key, v)
  {
    AppendAssoc(x, key, y);
    ReplaceAllPrefix(x, key + y, key, v);
    ReplaceAllKey(key, y, v);
    AppendAssoc(x, v, ReplaceAll(y, key, v));
  }

  /** Text without a backslash passes through every entry in front of
      whatever follows it. */
  lemma {:induction false} ApplyAllPrefix(x: string, t: string, entries: seq<Entry>)
    requires CommandKeys(entries) && '\\' !in x
    ensures ApplyAll(x + t, entries) == x + ApplyAll(t, entries)
    decreases |entries|
  {
    if entries != [] {
      ReplaceAllPrefix(x, t, entries[0].0, entries[0].1);
      RestKeys(entries);
      ApplyAllPrefix(x, ReplaceAll(t, entries[0].0, entries[0].1), entries[1..]);
    }
  }

  /** A command key anywhere in the text becomes its value when no earlier
      key starts at it; the text after it goes through every entry. */
  lemma {:induction false} KeyInContext(entries: seq<Entry>, k: nat, x: string, y: string)
    requires CommandKeys(entries) && k < |entries| && '\\' !in x
    requires NoInnerBackslash(entries[k].0) && '\\' !in entries[k].1
    requires forall j | 0 <= j < k :: Apart(entries[j].0, entries[k].0)
    ensures ApplyAll(x + entries[k].0 + y, entries) == x + entries[k].1 + ApplyAll(y, entries)
    decreases k
  {
    var key, v := entries[k].0, entries[k].1;
    RestKeys(entries);
    if k == 0 {
      KeyHere(x, key, y, v);
      NoBackslashJoin(x, v);
      ApplyAllPrefix(x + v, ReplaceAll(y, key, v), entries[1..]);
    } else {
      KeyPast(x, key, y, entries[0].0, entries[0].1);
      assert entries[1..][k - 1] == entries[k];
      forall j | 0 <= j < k - 1 ensures Apart(entries[1..][j].0, entries[1..][k - 1].0) {
        assert entries[1..][j] == entries[j + 1];
      }
      KeyInContext(entries[1..], k - 1, x, ReplaceAll(y, entries[0].0, entries[0].1));
    }
  }

  lemma NoBackslashJoin(x: string, v: string)
    requires '\\' !in x && '\\' !in v
    ensures '\\' !in x + v
  {
  }

  lemma BracketCommands()
    ensures CommandKeys(BracketPairs)
  {
  }

  lemma BracketLeads(k: nat)
    requires k < |BracketPairs|
    ensures NoInnerBackslash(BracketPairs[k].0) && '\\' !in BracketPairs[k].1
  {
  }

  /** Only `\big` and `\Big` begin a later key (`\bigg`, `\Bigg`). */
  lemma BracketsApart(j: nat, k: nat)
    requires j < k < |BracketPairs| && k != 4 && k != 5
    ensures Apart(BracketPairs[j].0, BracketPairs[k].0)
  {
    var a, b := BracketPairs[j].0, BracketPairs[k].0;
    if a[1] == b[1] {
      assert a[2] != b[2];
    }
  }

  /** `handleBrackets`: a bracket command anywhere in the text becomes its
      glyph, or nothing for the sizing commands; `\bigg` and `\Bigg` are
      the exceptions, see `BiggInContext`. */
  lemma BracketInContext(key: string, v: string, x: string, y: string)
    requires (key, v) in BracketPairs && key != "\\bigg" && key != "\\Bigg" && '\\' !in x
    ensures Formula.Brackets(x + key + y) == x + v + Formula.Brackets(y)
  {
    var k :| 0 <= k < |BracketPairs| && BracketPairs[k] == (key, v);
    assert k != 4 && k != 5;
    BracketCommands();
    BracketLeads(k);
    forall j | 0 <= j < k ensures Apart(BracketPairs[j].0, BracketPairs[k].0) {
      BracketsApart(j, k);
    }
    KeyInContext(BracketPairs, k, x, y);
  }

  /** `\bigg` and `\Bigg` lose only their `\big`/`\Big` part: the
      earlier key matches first and leaves a stray `g`. */
  lemma BiggInContext(x: string, y: string)
    requires '\\' !in x
    ensures Formula.Brackets(x + "\\bigg" + y) == x + "g" + Formula.Brackets(y)
    ensures Formula.Brackets(x + "\\Bigg" + y) == x + "g" + Formula.Brackets(y)
  {
    assert "\\bigg" == "\\big" + "g" && "\\Bigg" == "\\Big" + "g";
    StrayG(x, "\\big", y);
    StrayG(x, "\\Big", y);
  }

  /** A sizing command followed by `g`. */
  lemma StrayG(x: string, big: string, y: string)
    requires big == "\\big" || big == "\\Big"
    requires '\\' !in x
    ensures Formula.Brackets(x + (big + "g") + y) == x + "g" + Formula.Brackets(y)
  {
    assert (big, "") in BracketPairs;
    calc {
      Formula.Brackets(x + (big + "g") + y);
      { GSplit(x, big, y); }
      Formula.Brackets(x + big + ("g" + y));
      { BracketInContext(big, "", x, "g" + y); }
      x + "" + Formula.Brackets("g" + y);
      { EmptyValue(x, Formula.Brackets("g" + y)); }
      x + Formula.Brackets("g" + y);
      { BracketsPrefix("g", y); }
      x + ("g" + Formula.Brackets(y));
      { AppendAssoc(x, "g", Formula.Brackets(y)); }
      x + "g" + Formula.Brackets(y);
    }
  }

  /** Text without a backslash passes through `handleBrackets` unchanged,
      in front of whatever follows it. */
  lemma BracketsPrefix(x: string, t: string)
    requires '\\' !in x
    ensures Formula.Brackets(x + t) == x + Formula.Brackets(t)
  {
    BracketCommands();
    ApplyAllPrefix(x, t, BracketPairs);
  }

  lemma GSplit(x: string, big: string, y: string)
    ensures x + (big + "g") + y == x + big + ("g" + y)
  {
  }

  lemma EmptyValue(x: string, r: string)
    ensures x + "" + r == x + r
  {
  }
}

=== FILE: inline_parser.dfy ===
/** The inline level of the Markdown parser: one left-to-right scan that
    turns a line's text into text, link and image nodes. */
module InlineParser {
  import opened Wrappers
  import opened Text
  import opened MarkdownNodes

  /** `e` is the first index at or after `from` holding `c`. */
  predicate FirstAt(text: string, c: char, from: nat, e: int) {
    from <= e < |text| && text[e] == c && forall i | from <= i < e :: text[i] != c
  }

  lemma FirstAtIndex(text: string, c: char, from: nat, e: int)
    requires FirstAt(text, c, from, e)
    ensures IndexOfChar(text, c, from) == e
  {
  }

  /** A link or image target with its title dropped: the text before the
      first double quote, trimmed, or all of it when there is no quote. */
  function UrlOf(urlWithTitle: string): (url: string)
    ensures '"' !in url
    ensures '"' !in urlWithTitle ==> url == urlWithTitle
    ensures forall q | FirstAt(urlWithTitle, '"', 0, q) :: url == Trim(urlWithTitle[..q])
  {
    var quote := IndexOfChar(urlWithTitle, '"', 0);
    if quote != -1 then
      var url := Trim(urlWithTitle[..quote]);
      TrimChars(urlWithTitle[..quote]);
      url
    else urlWithTitle
  }

  /** The `[caption](target)` shape with the caption starting at `open`:
      `e` is the first `]` from `open` on, a `(` follows it at once, and `u`
      is the first `)` after that. */
  predicate TargetShape(text: string, open: nat, e: int, u: int) {
    FirstAt(text, ']', open, e) && e + 1 < |text| && text[e + 1] == '(' && FirstAt(text, ')', e + 1, u)
  }

  /** The `[caption](target)` shape shared by images and links, with the caption
      starting at index `open`: the caption, the URL and the characters used,
      found only where the shape is. */
  function Bracketed(text: string, open: nat): (r: Option<(string, string, nat)>)
    requires 1 <= open <= |text|
    ensures r.Some? ==> open + |r.value.0| + 3 <= r.value.2 <= |text|
    ensures r.Some? ==> text[open..open + |r.value.0|] == r.value.0
    ensures r.Some? ==> TargetShape(text, open, open + |r.value.0|, r.value.2 - 1)
  {
    var endText := IndexOfChar(text, ']', open);
    var startUrl := IndexOfChar(text, '(', endText);
    var endUrl := IndexOfChar(text, ')', startUrl);
    if endText != -1 && startUrl == endText + 1 && endUrl != -1 then
      IndexIsFirst(text, ']', open, endText);
      IndexIsFirst(text, ')', startUrl, endUrl);
      var caption := text[open..endText];
      Some((caption, UrlOf(Trim(text[startUrl + 1..endUrl])), endUrl + 1))
    else None
  }

  /** Where the shape is, `Bracketed` finds it: the caption up to the first
      `]`, the URL of the target up to the first `)`, and everything up to
      that `)`. */
  lemma BracketedFound(text: string, open: nat, e: int, u: int)
    requires 1 <= open <= |text| && TargetShape(text, open, e, u)
    ensures Bracketed(text, open) == Some((text[open..e], UrlOf(Trim(text[e + 2..u])), u + 1))
  {
    FirstAtIndex(text, ']', open, e);
    FirstAtIndex(text, '(', e, e + 1);
    FirstAtIndex(text, ')', e + 1, u);
  }

  /** The index `IndexOfChar` finds is the first one. */
  lemma IndexIsFirst(text: string, c: char, from: nat, e: int)
    requires e == IndexOfChar(text, c, from) && e != -1
    ensures FirstAt(text, c, from, e)
  {
  }

  /** What one turn of the scan yields: the node appended and how many
      characters of the remaining text it consumed. */
  datatype Scan = Scan(node: Node, consumed: nat)

  /** An emphasis span opened by `delim`: the text up to the next `delim`
      in `style`, or, when none follows, the first character alone. */
  function ScanDelimited(text: string, delim: string, style: TextStyle): (r: Scan)
    requires delim != [] && StartsWith(text, delim)
    ensures 0 < r.consumed <= |text|
    ensures r.consumed == 1 && r.node == TextNode([text[0]], Normal) <==> !Contains(text[|delim|..], delim)
    ensures Contains(text[|delim|..], delim) ==>
              && 2 * |delim| <= r.consumed
              && r.node == TextNode(text[|delim|..r.consumed - |delim|], style)
              && OccursAt(text, delim, r.consumed - |delim|)
              && !Contains(text[|delim|..r.consumed - 1], delim)
  {
    var end := IndexOf(text, delim, |delim|);
    if end != -1 then
      DelimiterFound(text, delim, end);
      Scan(TextNode(text[|delim|..end], style), end + |delim|)
    else
      DelimiterMissing(text, delim);
      Scan(TextNode([text[0]], Normal), 1)
  }

  /** The closing delimiter, when there is one, is the first occurrence
      after the opening one. */
  lemma DelimiterFound(text: string, delim: string, end: int)
    requires delim != [] && StartsWith(text, delim)
    requires end == IndexOf(text, delim, |delim|) && end != -1
    ensures |delim| <= end && OccursAt(text, delim, end)
    ensures Contains(text[|delim|..], delim)
    ensures !Contains(text[|delim|..end + |delim| - 1], delim)
  {
    OccursInSuffix(text, delim, |delim|, end);
    FirstAfter(text, delim, |delim|, end);
  }

  /** Before the first occurrence from `from` on there is none. */
  lemma FirstAfter(s: string, p: string, from: nat, end: int)
    requires p != [] && end == IndexOf(s, p, from) && end != -1
    ensures from <= end && OccursAt(s, p, end)
    ensures !Contains(s[from..end + |p| - 1], p)
  {
    var hi := end + |p| - 1;
    assert forall i | from <= i <= hi - |p| :: !OccursAt(s, p, i);
    NoOccurrenceInSlice(s, p, from, hi);
  }

  /** An occurrence at or after `lo` is an occurrence in `s[lo..]`. */
  lemma OccursInSuffix(s: string, p: string, lo: nat, i: int)
    requires lo <= i && OccursAt(s, p, i)
    ensures Contains(s[lo..], p)
  {
    var t := s[lo..];
    assert t[i - lo..i - lo + |p|] == s[i..i + |p|];
    assert OccursAt(t, p, i - lo);
  }

  lemma DelimiterMissing(text: string, delim: string)
    requires delim != [] && StartsWith(text, delim)
    requires IndexOf(text, delim, |delim|) == -1
    ensures !Contains(text[|delim|..], delim)
  {
    NoOccurrenceInSlice(text, delim, |delim|, |text|);
    assert text[|delim|..|text|] == text[|delim|..];
  }

  predicate IsLabelChar(c: char) { IsWordChar(c) || c == '-' }

  /** `[\w\-_]+(\.[\w\-_]+)+`: at least two non-empty labels of word
      characters and `-`, separated by single dots. */
  predicate IsDottedName(s: string) {
    && s != [] && s[0] != '.' && s[|s| - 1] != '.' && '.' in s
    && (forall i | 0 <= i < |s| :: IsLabelChar(s[i]) || s[i] == '.')
    && (forall i | 0 <= i < |s| - 1 :: !(s[i] == '.' && s[i + 1] == '.'))
  }

  /** The optional tail `([\w\-.,@?^=%&:/~+#]*[\w\-@?^=%&/~+#])?` of the
      autolink URL pattern. */
  predicate IsUrlTail(s: string) {
    s == [] ||
    ((forall i | 0 <= i < |s| :: IsWordChar(s[i]) || s[i] in "-.,@?^=%&:/~+#")
     && (IsWordChar(s[|s| - 1]) || s[|s| - 1] in "-@?^=%&/~+#"))
  }

  function LowerAscii(s: string): (r: string)
    ensures |r| == |s|
  {
    if s == [] then []
    else [if 'A' <= s[0] <= 'Z' then (s[0] as int + 32) as char else s[0]] + LowerAscii(s[1..])
  }

  /** The whole of `content` matches the autolink URL pattern: a scheme
      http, https or ftp in any letter case, `://`, a dotted host and the
      optional tail. */
  predicate IsAutolinkUrl(content: string) {
    var colon := IndexOfChar(content, ':', 0);
    && colon != -1
    && LowerAscii(content[..colon]) in ["http", "https", "ftp"]
    && StartsWith(content[colon..], "://")
    && var rest := content[colon + 3..];
       exists k | 0 <= k <= |rest| :: IsDottedName(rest[..k]) && IsUrlTail(rest[k..])
  }

  /** The whole of `content` matches `[\w\-.]+@[\w\-]+(\.[\w\-]+)+`. */
  predicate IsEmail(content: string) {
    var at := IndexOfChar(content, '@', 0);
    && at > 0
    && (forall i | 0 <= i < at :: IsLabelChar(content[i]) || content[i] == '.')
    && IsDottedName(content[at + 1..])
  }

  /** `<url>` or `<email>`; anything else between the angle brackets, or a
      missing `>`, leaves a bare "<". With `e` the first `>`, the text
      between is a link to itself when it is a URL, a `mailto:` link when it
      is only an e-mail address, and a bare "<" otherwise. */
  function ScanAutolink(text: string): (r: Scan)
    requires StartsWith(text, "<")
    ensures 0 < r.consumed <= |text|
    ensures r.node.Link? ==> 2 <= r.consumed
    ensures r.node.Link? ==> r.node.children == [TextNode(text[1..r.consumed - 1], Normal)]
                             && (IsAutolinkUrl(text[1..r.consumed - 1]) || IsEmail(text[1..r.consumed - 1]))
    ensures !r.node.Link? ==> r == Scan(TextNode("<", Normal), 1)
    ensures forall e | FirstAt(text, '>', 1, e) ::
              && (r.node.Link? <==> IsAutolinkUrl(text[1..e]) || IsEmail(text[1..e]))
              && (IsAutolinkUrl(text[1..e]) ==> r == Scan(Link(text[1..e], [TextNode(text[1..e], Normal)]), e + 1))
              && (!IsAutolinkUrl(text[1..e]) && IsEmail(text[1..e]) ==>
                    r == Scan(Link("mailto:" + text[1..e], [TextNode(text[1..e], Normal)]), e + 1))
    ensures (forall i | 1 <= i < |text| :: text[i] != '>') ==> r == Scan(TextNode("<", Normal), 1)
  {
    var end := IndexOfChar(text, '>', 1);
    FirstClose(text, end);
    if end != -1 then
      var content := text[1..end];
      if IsAutolinkUrl(content) then Scan(Link(content, [TextNode(content, Normal)]), end + 1)
      else if IsEmail(content) then Scan(Link("mailto:" + content, [TextNode(content, Normal)]), end + 1)
      else Scan(TextNode("<", Normal), 1)
    else Scan(TextNode("<", Normal), 1)
  }

  /** The `>` that `IndexOfChar` finds is the first one, and it finds none
      only when there is none. */
  lemma FirstClose(text: string, end: int)
    requires end == IndexOfChar(text, '>', 1)
    ensures forall e | FirstAt(text, '>', 1, e) :: end == e
    ensures end == -1 <==> forall i | 1 <= i < |text| :: text[i] != '>'
  {
    forall e | FirstAt(text, '>', 1, e) ensures end == e { FirstAtIndex(text, '>', 1, e); }
  }

  /** The characters that end a run of plain text. */
  const Stops: set<char> := {'[', '*', '`', '<'}

  /** A run of plain text: everything up to the next stop character. */
  function ScanPlain(text: string): (r: Scan)
    requires text != [] && text[0] !in Stops
    ensures 0 < r.consumed <= |text|
    ensures r.node == TextNode(text[..r.consumed], Normal)
    ensures forall i | 0 <= i < r.consumed :: text[i] !in Stops
    ensures r.consumed == |text| || text[r.consumed] in Stops
  {
    var next := IndexOfAny(text, Stops);
    if next == -1 then assert text[..|text|] == text; Scan(TextNode(text, Normal), |text|)
    else Scan(TextNode(text[..next], Normal), next)
  }

  /** `startsWith(p)`, testing the first character first. */
  predicate Opens(text: string, p: string) {
    p != [] && text != [] && text[0] == p[0] && StartsWith(text, p)
  }

  predicate IsEscape(text: string) { Opens(text, "\\") && |text| > 1 }
  predicate IsImageStart(text: string) { Opens(text, "!") && |text| > 1 && text[1] == '[' }
  predicate IsLinkStart(text: string) { !IsEscape(text) && !IsImageStart(text) && Opens(text, "[") }

  /** `![alt](url)`: an image exactly when the target shape follows `![`,
      with the alt text up to the first `]` and the URL of the target; a
      bare "!" otherwise. */
  function ScanImage(text: string): (r: Scan)
    requires IsImageStart(text)
    ensures 0 < r.consumed <= |text|
    ensures r.node.Image? || r == Scan(TextNode("!", Normal), 1)
    ensures r.node.Image? <==> exists e, u :: TargetShape(text, 2, e, u)
    ensures forall e, u | TargetShape(text, 2, e, u) ::
              r == Scan(Image(UrlOf(Trim(text[e + 2..u])), text[2..e]), u + 1)
  {
    assert forall e, u | TargetShape(text, 2, e, u) ::
        Bracketed(text, 2) == Some((text[2..e], UrlOf(Trim(text[e + 2..u])), u + 1)) by {
      forall e, u | TargetShape(text, 2, e, u)
        ensures Bracketed(text, 2) == Some((text[2..e], UrlOf(Trim(text[e + 2..u])), u + 1))
      {
        BracketedFound(text, 2, e, u);
      }
    }
    match Bracketed(text, 2)
    case Some((alt, url, n)) => Scan(Image(url, alt), n)
    case None => Scan(TextNode("!", Normal), 1)
  }

  /** `[caption](url)`: a link exactly when the target shape follows `[`,
      whose children are the caption parsed again; a bare "[" otherwise. */
  function ScanLink(text: string): (r: Scan)
    requires Opens(text, "[")
    ensures 0 < r.consumed <= |text|
    ensures r.node.Link? || r == Scan(TextNode("[", Normal), 1)
    ensures r.node.Link? <==> exists e, u :: TargetShape(text, 1, e, u)
    ensures forall e, u | TargetShape(text, 1, e, u) ::
              r == Scan(Link(UrlOf(Trim(text[e + 2..u])), InlineNodes(text[1..e])), u + 1)
    decreases |text|, 0
  {
    assert forall e, u | TargetShape(text, 1, e, u) ::
        Bracketed(text, 1) == Some((text[1..e], UrlOf(Trim(text[e + 2..u])), u + 1)) by {
      forall e, u | TargetShape(text, 1, e, u)
        ensures Bracketed(text, 1) == Some((text[1..e], UrlOf(Trim(text[e + 2..u])), u + 1))
      {
        BracketedFound(text, 1, e, u);
      }
    }
    match Bracketed(text, 1)
    case Some((caption, url, n)) => Scan(Link(url, InlineNodes(caption)), n)
    case None => Scan(TextNode("[", Normal), 1)
  }

  /** One turn of the scan: the first case that applies, in the parser's
      order. */
  function ScanAt(text: string): (r: Scan)
    requires text != []
    ensures 0 < r.consumed <= |text|
    ensures r.node.TextNode? || r.node.Link? || r.node.Image?
    decreases |text|, 1
  {
    if IsEscape(text) then Scan(TextNode([text[1]], Normal), 2)
    else if IsImageStart(text) then ScanImage(text)
    else if Opens(text, "[") then ScanLink(text)
    else ScanEmphasis(text)
  }

  /** The cases after the link case: the `*` and `_` spans, longest
      delimiter first. */
  function ScanEmphasis(text: string): (r: Scan)
    requires text != [] && text[0] != '['
    ensures 0 < r.consumed <= |text|
    ensures r.node.TextNode? || r.node.Link?
  {
    if Opens(text, "***") then ScanDelimited(text, "***", BoldItalic)
    else if Opens(text, "___") then ScanDelimited(text, "___", BoldItalic)
    else if Opens(text, "**") then ScanDelimited(text, "**", Bold)
    else if Opens(text, "*") && !Opens(text, "**") then ScanDelimited(text, "*", Italic)
    else ScanSpan(text)
  }

  /** The remaining cases: strikethrough, underline, code, autolink and
      plain text. */
  function ScanSpan(text: string): (r: Scan)
    requires text != [] && text[0] != '[' && text[0] != '*'
    ensures 0 < r.consumed <= |text|
    ensures r.node.TextNode? || r.node.Link?
  {
    if Opens(text, "~~") then ScanDelimited(text, "~~", Strikethrough)
    else if Opens(text, "__") then ScanDelimited(text, "__", Underline)
    else if Opens(text, "`") then ScanDelimited(text, "`", Code)
    else if Opens(text, "<") then ScanAutolink(text)
    else ScanPlain(text)
  }

  /** The nodes `parseInline` returns for `text`. Every turn appends one node
      and consumes at least one character, so there are at most as many
      nodes as characters, and none exactly when the text is empty. */
  function InlineNodes(text: string): (r: seq<Node>)
    ensures |r| <= |text|
    ensures r == [] <==> text == []
    ensures forall i | 0 <= i < |r| :: r[i].TextNode? || r[i].Link? || r[i].Image?
    decreases |text|, 2
  {
    if text == [] then []
    else
      var scan := ScanAt(text);
      [scan.node] + InlineNodes(text[scan.consumed..])
  }

  lemma ScanAtLink(text: string)
    requires text != [] && IsLinkStart(text)
    ensures ScanAt(text) == ScanLink(text)
  {
  }

  lemma InlineNodesStep(text: string)
    requires text != []
    ensures InlineNodes(text) == [ScanAt(text).node] + InlineNodes(text[ScanAt(text).consumed..])
  {
  }

  /** One turn of the scan loop keeps the nodes still to come. */
  lemma AppendScan(text: string, nodes: seq<Node>, remaining: string, scan: Scan)
    requires remaining != [] && scan == ScanAt(remaining)
    requires InlineNodes(text) == nodes + InlineNodes(remaining)
    ensures 0 < scan.consumed <= |remaining|
    ensures InlineNodes(text) == (nodes + [scan.node]) + InlineNodes(remaining[scan.consumed..])
  {
    InlineNodesStep(remaining);
  }

  /** `parseInline`: the scan loop, descending into link captions. */
  method ParseInline(text: string) returns (nodes: seq<Node>)
    ensures nodes == InlineNodes(text)
    decreases |text|, 1
  {
    nodes := [];
    var remaining := text;
    while remaining != []
      invariant |remaining| <= |text|
      invariant InlineNodes(text) == nodes + InlineNodes(remaining)
      decreases |remaining|
    {
      var scan: Scan;
      if IsLinkStart(remaining) {
        scan := ParseLink(remaining);
        ScanAtLink(remaining);
      } else {
        scan := ScanAt(remaining);
      }
      AppendScan(text, nodes, remaining, scan);
      nodes := nodes + [scan.node];
      remaining := remaining[scan.consumed..];
    }
  }

  /** The link case of the loop, parsing the caption with a recursive call. */
  method ParseLink(text: string) returns (scan: Scan)
    requires StartsWith(text, "[")
    ensures scan == ScanLink(text)
    decreases |text|, 0
  {
    var target := Bracketed(text, 1);
    if target.Some? {
      var (caption, url, n) := target.value;
      var children := ParseInline(caption);
      scan := Scan(Link(url, children), n);
    } else {
      scan := Scan(TextNode("[", Normal), 1);
    }
  }

  /** A string holding `d` holds the first character of `d`. */
  lemma ContainsHead(s: string, d: string)
    requires d != [] && Contains(s, d)
    ensures d[0] in s
  {
    var i :| 0 <= i <= |s| - |d| && OccursAt(s, d, i);
    assert s[i] == s[i..i + |d|][0];
  }

  /** A delimiter made of the first character of `text` has no closer when
      that character does not appear again from index `k` on. */
  lemma NoCloser(text: string, delim: string, k: nat)
    requires 1 <= k <= |delim| && k <= |text|
    requires forall i | 0 <= i < |delim| :: delim[i] == text[0]
    requires text[0] !in text[k..]
    ensures StartsWith(text, delim) ==> !Contains(text[|delim|..], delim)
  {
    if StartsWith(text, delim) && Contains(text[|delim|..], delim) {
      ContainsHead(text[|delim|..], delim);
    }
  }

  /** A text that opens no escape, image or link reaches the emphasis
      cases, and one that opens no `*` span and no `___` reaches the rest. */
  lemma ToEmphasis(text: string)
    requires text != [] && text[0] != '\\' && text[0] != '!' && text[0] != '['
    ensures ScanAt(text) == ScanEmphasis(text)
  {
  }

  lemma ToSpan(text: string)
    requires text != [] && text[0] != '[' && text[0] != '*' && !Opens(text, "___")
    ensures ScanEmphasis(text) == ScanSpan(text)
  {
  }

  /** How the scan reads a text that starts with a lone delimiter: the
      delimiter's own case, whatever comes before it in the parser's order
      being ruled out by the first characters. */
  lemma ScanAtStar(text: string)
    requires text != [] && text[0] == '*' && (|text| == 1 || text[1] != '*')
    ensures ScanAt(text) == ScanDelimited(text, "*", Italic)
  {
    ToEmphasis(text);
    StarCase(text);
  }

  lemma StarCase(text: string)
    requires text != [] && text[0] == '*' && (|text| == 1 || text[1] != '*')
    ensures ScanEmphasis(text) == ScanDelimited(text, "*", Italic)
  {
    assert !Opens(text, "***") && !Opens(text, "**");
  }

  lemma ScanAtTick(text: string)
    requires text != [] && text[0] == '`'
    ensures ScanAt(text) == ScanDelimited(text, "`", Code)
  {
    ToEmphasis(text);
    ToSpan(text);
    TickCase(text);
  }

  lemma TickCase(text: string)
    requires text != [] && text[0] == '`'
    ensures ScanSpan(text) == ScanDelimited(text, "`", Code)
  {
    assert !Opens(text, "~~") && !Opens(text, "__");
  }

  lemma ScanAtUnderscore(text: string)
    requires |text| >= 2 && text[0] == '_' && text[1] == '_' && (|text| == 2 || text[2] != '_')
    ensures ScanAt(text) == ScanDelimited(text, "__", Underline)
  {
    ToEmphasis(text);
    NoTripleUnderscore(text);
    ToSpan(text);
    UnderscoreCase(text);
  }

  lemma NoTripleUnderscore(text: string)
    requires |text| >= 2 && (|text| == 2 || text[2] != '_')
    ensures !Opens(text, "___")
  {
    if |text| > 2 {
      assert text[..3][2] == text[2];
    }
  }

  lemma UnderscoreCase(text: string)
    requires |text| >= 2 && text[0] == '_' && text[1] == '_'
    ensures ScanSpan(text) == ScanDelimited(text, "__", Underline)
  {
    assert !Opens(text, "~~");
    assert text[..2] == "__";
  }

  lemma ScanAtTilde(text: string)
    requires |text| >= 2 && text[0] == '~' && text[1] == '~'
    ensures ScanAt(text) == ScanDelimited(text, "~~", Strikethrough)
  {
    ToEmphasis(text);
    ToSpan(text);
    TildeCase(text);
  }

  lemma TildeCase(text: string)
    requires |text| >= 2 && text[0] == '~' && text[1] == '~'
    ensures ScanSpan(text) == ScanDelimited(text, "~~", Strikethrough)
  {
    assert text[..2] == "~~";
  }

  /** An opening `*` or `` ` `` that is never closed yields that character
      alone, as normal text, and consumes one character. */
  lemma UnclosedStarOrTick(text: string)
    requires text != [] && text[0] in "*`" && text[0] !in text[1..]
    ensures ScanAt(text) == Scan(TextNode([text[0]], Normal), 1)
  {
    if text[0] == '*' {
      assert |text| == 1 || text[1] != '*' by {
        if |text| >= 2 { assert text[1..][0] == text[1]; }
      }
      ScanAtStar(text);
      NoCloser(text, "*", 1);
    } else {
      ScanAtTick(text);
      NoCloser(text, "`", 1);
    }
  }

  /** The same for an opening `__` (not `___`) or `~~` without a closing
      one after it. */
  lemma UnclosedUnderscores(text: string)
    requires |text| >= 2 && text[0] == '_' && text[1] == '_' && (|text| == 2 || text[2] != '_')
    requires !Contains(text[2..], "__")
    ensures ScanAt(text) == Scan(TextNode("_", Normal), 1)
  {
    ScanAtUnderscore(text);
  }

  lemma UnclosedTildes(text: string)
    requires |text| >= 2 && text[0] == '~' && text[1] == '~' && !Contains(text[2..], "~~")
    ensures ScanAt(text) == Scan(TextNode("~", Normal), 1)
  {
    ScanAtTilde(text);
  }

  /** The cases for `***`, `___` and `**`, each before the shorter ones:
      a span up to the first closing delimiter, or, when there is none, the
      first character alone. */
  lemma ScanAtTripleStar(text: string)
    requires |text| >= 3 && text[0] == '*' && text[1] == '*' && text[2] == '*'
    ensures ScanAt(text) == ScanDelimited(text, "***", BoldItalic)
    ensures !Contains(text[3..], "***") ==> ScanAt(text) == Scan(TextNode("*", Normal), 1)
  {
    ToEmphasis(text);
    TripleCase(text, '*');
  }

  lemma ScanAtTripleUnderscore(text: string)
    requires |text| >= 3 && text[0] == '_' && text[1] == '_' && text[2] == '_'
    ensures ScanAt(text) == ScanDelimited(text, "___", BoldItalic)
    ensures !Contains(text[3..], "___") ==> ScanAt(text) == Scan(TextNode("_", Normal), 1)
  {
    ToEmphasis(text);
    TripleCase(text, '_');
  }

  lemma TripleCase(text: string, c: char)
    requires c == '*' || c == '_'
    requires |text| >= 3 && text[0] == c && text[1] == c && text[2] == c
    ensures ScanEmphasis(text) == ScanDelimited(text, [c, c, c], BoldItalic)
  {
    assert text[..3] == [c, c, c];
    if c == '_' {
      assert !Opens(text, "***");
    }
  }

  lemma ScanAtDoubleStar(text: string)
    requires |text| >= 2 && text[0] == '*' && text[1] == '*' && (|text| == 2 || text[2] != '*')
    ensures ScanAt(text) == ScanDelimited(text, "**", Bold)
    ensures !Contains(text[2..], "**") ==> ScanAt(text) == Scan(TextNode("*", Normal), 1)
  {
    ToEmphasis(text);
    DoubleStarCase(text);
  }

  lemma DoubleStarCase(text: string)
    requires |text| >= 2 && text[0] == '*' && text[1] == '*' && (|text| == 2 || text[2] != '*')
    ensures ScanEmphasis(text) == ScanDelimited(text, "**", Bold)
  {
    assert !Opens(text, "***") by {
      if |text| > 2 { assert text[..3][2] == text[2]; }
    }
    assert text[..2] == "**";
  }

  /** The same for a `<` with no `>` after it. */
  lemma UnclosedAngle(text: string)
    requires text != [] && text[0] == '<' && '>' !in text[1..]
    ensures ScanAt(text) == Scan(TextNode("<", Normal), 1)
  {
    ToEmphasis(text);
    ToSpan(text);
    assert ScanSpan(text) == ScanAutolink(text);
  }

  /** Text that starts with no opener and holds none of `[ * ` <` is a single
      plain node: `\`, `![`, `~~` and `__` are seen only where a node starts. */
  lemma {:induction false} PlainRun(text: string)
    requires text != [] && text[0] !in "\\![*_~`<"
    requires forall i | 0 <= i < |text| :: text[i] !in Stops
    ensures InlineNodes(text) == [TextNode(text, Normal)]
  {
    ToEmphasis(text);
    ToSpan(text);
    assert ScanSpan(text) == ScanPlain(text);
    assert ScanPlain(text).consumed == |text|;
    assert text[..|text|] == text;
  }

  /** An image written out in full is one image node, with the alt text and
      the target's URL, followed by the nodes of what comes after it. */
  lemma ImageNode(alt: string, target: string, rest: string)
    requires ']' !in alt && ')' !in target
    ensures InlineNodes("![" + alt + "](" + target + ")" + rest)
         == [Image(UrlOf(Trim(target)), alt)] + InlineNodes(rest)
  {
    var text := "![" + alt + "](" + target + ")" + rest;
    ImageShape(alt, target, rest);
    ScanAtImage(text);
    InlineNodesStep(text);
  }

  lemma ImageShape(alt: string, target: string, rest: string)
    requires ']' !in alt && ')' !in target
    ensures var text := "![" + alt + "](" + target + ")" + rest;
      var e, u := 2 + |alt|, 4 + |alt| + |target|;
      && IsImageStart(text) && TargetShape(text, 2, e, u)
      && text[2..e] == alt && text[e + 2..u] == target && text[u + 1..] == rest
  {
    var text := "![" + alt + "](" + target + ")" + rest;
    var e, u := 2 + |alt|, 4 + |alt| + |target|;
    assert text[..1] == "!" && text[1] == '[';
    assert text[2..e] == alt && text[e] == ']' && text[e + 1] == '(';
    assert text[e + 2..u] == target && text[u] == ')' && text[u + 1..] == rest;
  }

  lemma ScanAtImage(text: string)
    requires IsImageStart(text)
    ensures ScanAt(text) == ScanImage(text)
  {
  }

  /** A link written out in full is one link node, with the target's URL and
      the caption's own nodes, followed by the nodes of what comes after it. */
  lemma LinkNode(caption: string, target: string, rest: string)
    requires ']' !in caption && ')' !in target
    ensures InlineNodes("[" + caption + "](" + target + ")" + rest)
         == [Link(UrlOf(Trim(target)), InlineNodes(caption))] + InlineNodes(rest)
  {
    var text := "[" + caption + "](" + target + ")" + rest;
    var e, u := 1 + |caption|, 3 + |caption| + |target|;
    assert text[1..e] == caption && text[e] == ']' && text[e + 1] == '(';
    assert text[e + 2..u] == target && text[u] == ')' && text[u + 1..] == rest;
    assert TargetShape(text, 1, e, u);
    assert IsLinkStart(text);
    ScanAtLink(text);
    InlineNodesStep(text);
  }

  /** `*abc`: the unclosed `*` alone, then the rest as plain text. */
  lemma UnclosedStar()
    ensures InlineNodes("*abc") == [TextNode("*", Normal), TextNode("abc", Normal)]
  {
    UnclosedStarOrTick("*abc");
    PlainRun("abc");
    InlineNodesStep("*abc");
    assert "*abc"[1..] == "abc";
  }

  /** The URL pattern takes any letter case in the scheme and needs a dot
      in the host. */
  lemma UpperCaseUrl()
    ensures IsAutolinkUrl("HTTPS://a.b/c")
  {
    var url := "HTTPS://a.b/c";
    FirstAtIndex(url, ':', 0, 5);
    assert url[..5] == "HTTPS";
    UpperScheme();
    assert url[5..][..3] == "://";
    var rest := url[8..];
    assert rest[..3] == "a.b" && rest[3..] == "/c";
    HostAndPath();
  }

  lemma UpperScheme()
    ensures LowerAscii("HTTPS") == "https"
  {
    assert LowerAscii("S") == "s";
    assert LowerAscii("PS") == "p" + LowerAscii("S");
    assert LowerAscii("TPS") == "t" + LowerAscii("PS");
    assert LowerAscii("TTPS") == "t" + LowerAscii("TPS");
  }

  lemma HostAndPath()
    ensures IsDottedName("a.b") && IsUrlTail("/c")
  {
    assert "a.b"[1] == '.';
  }

  lemma HostWithoutDot()
    ensures !IsAutolinkUrl("http://ab")
  {
    var bare := "http://ab";
    FirstAtIndex(bare, ':', 0, 4);
    forall k | 0 <= k <= |bare[7..]| ensures !IsDottedName(bare[7..][..k]) {
      assert '.' !in bare[7..][..k];
    }
  }

  /** The e-mail pattern needs a non-empty name and a dot after the `@`. */
  lemma EmailShapes()
    ensures IsEmail("me@a.b") && !IsEmail("me@ab") && !IsEmail("@a.b")
  {
    FirstAtIndex("me@a.b", '@', 0, 2);
    assert "me@a.b"[3..] == "a.b";
    FirstAtIndex("me@ab", '@', 0, 2);
    assert '.' !in "me@ab"[3..];
    FirstAtIndex("@a.b", '@', 0, 0);
  }
}

=== FILE: inline_segments.dfy ===
/** The grouping of a paragraph's inline children that the renderer draws:
    runs of text and links become one text segment, every other child a
    segment of its own. */
module InlineSegments {
  import opened MarkdownNodes

  datatype Segment =
    | TextSegment(nodes: seq<Node>)
    | MathSegment(formula: string, isBlock: bool)
    | ChemicalSegment(formula: string)
    | ImageSegment(image: Node)
    | OtherSegment(node: Node)

  /** The children that join a text run. */
  predicate TextLike(n: Node) {
    n.TextNode? || n.Link?
  }

  /** The children a segment stands for. */
  function Nodes(seg: Segment): seq<Node> {
    match seg
    case TextSegment(nodes) => nodes
    case MathSegment(formula, isBlock) => [MathFormula(formula, isBlock)]
    case ChemicalSegment(formula) => [ChemicalFormula(formula)]
    case ImageSegment(image) => [image]
    case OtherSegment(node) => [node]
  }

  function Flatten(segs: seq<Segment>): seq<Node> {
    if segs == [] then [] else Flatten(segs[..|segs| - 1]) + Nodes(segs[|segs| - 1])
  }

  /** A segment of the kind its children call for: a text segment holds a
      non-empty run of text and links, an image segment an image, and an
      other segment a child that is none of text, link, formula or image. */
  predicate Proper(seg: Segment) {
    match seg
    case TextSegment(nodes) => nodes != [] && forall k | 0 <= k < |nodes| :: TextLike(nodes[k])
    case MathSegment(_, _) => true
    case ChemicalSegment(_) => true
    case ImageSegment(image) => image.Image?
    case OtherSegment(node) => !TextLike(node) && !node.MathFormula? && !node.ChemicalFormula? && !node.Image?
  }

  /** Every segment proper, and no two text segments side by side. */
  predicate Grouped(segs: seq<Segment>) {
    segs == [] ||
    (var init, last := segs[..|segs| - 1], segs[|segs| - 1];
     Grouped(init) && Proper(last) &&
     (init != [] && last.TextSegment? ==> !init[|init| - 1].TextSegment?))
  }

  /** The segment a child that is not text or a link becomes. */
  function Single(child: Node): (seg: Segment)
    requires !TextLike(child)
    ensures Proper(seg) && Nodes(seg) == [child]
  {
    match child
    case MathFormula(formula, isBlock) => MathSegment(formula, isBlock)
    case ChemicalFormula(formula) => ChemicalSegment(formula)
    case Image(_, _) => ImageSegment(child)
    case _ => OtherSegment(child)
  }

  lemma FlattenSnoc(segs: seq<Segment>, seg: Segment)
    ensures Flatten(segs + [seg]) == Flatten(segs) + Nodes(seg)
  {
    assert (segs + [seg])[..|segs|] == segs;
  }

  /** Appending a proper segment keeps a grouping, unless it puts two text
      segments side by side. */
  lemma GroupedSnoc(segs: seq<Segment>, seg: Segment)
    requires Grouped(segs) && Proper(seg)
    requires segs != [] && seg.TextSegment? ==> !segs[|segs| - 1].TextSegment?
    ensures Grouped(segs + [seg])
  {
    assert (segs + [seg])[..|segs|] == segs;
  }

  /** The flush of the open run: a non-empty run becomes one more text
      segment. */
  function Closed(segments: seq<Segment>, current: seq<Node>): seq<Segment> {
    if current == [] then segments else segments + [TextSegment(current)]
  }

  /** The state of `BuildInlineSegments` after the first `i` children: the
      closed segments and the open run cover them, the segments are
      grouped and end with no text segment, and the run holds text and
      links only. */
  predicate Building(children: seq<Node>, i: nat, segments: seq<Segment>, current: seq<Node>) {
    i <= |children|
    && Flatten(segments) + current == children[..i]
    && Grouped(segments)
    && (forall k | 0 <= k < |current| :: TextLike(current[k]))
    && (segments != [] ==> !segments[|segments| - 1].TextSegment?)
    && |segments| + (if current == [] then 0 else 1) <= i
  }

  /** Closing the open run keeps what `Building` promises, as a grouping
      of the children seen. */
  lemma CloseKeeps(children: seq<Node>, i: nat, segments: seq<Segment>, current: seq<Node>)
    requires Building(children, i, segments, current)
    ensures Flatten(Closed(segments, current)) == children[..i]
    ensures i == |children| ==> Flatten(Closed(segments, current)) == children
    ensures Grouped(Closed(segments, current))
    ensures |Closed(segments, current)| <= i
  {
    if current != [] {
      FlattenSnoc(segments, TextSegment(current));
      GroupedSnoc(segments, TextSegment(current));
    }
    assert children[..|children|] == children;
  }

  /** A text or link child joins the open run. */
  lemma TakeText(children: seq<Node>, i: nat, segments: seq<Segment>, current: seq<Node>)
    requires Building(children, i, segments, current) && i < |children| && TextLike(children[i])
    ensures Building(children, i + 1, segments, current + [children[i]])
  {
    assert children[..i + 1] == children[..i] + [children[i]];
  }

  /** Any other child closes the open run and gets a segment of its own. */
  lemma TakeOther(children: seq<Node>, i: nat, segments: seq<Segment>, current: seq<Node>)
    requires Building(children, i, segments, current) && i < |children| && !TextLike(children[i])
    ensures Building(children, i + 1, Closed(segments, current) + [Single(children[i])], [])
  {
    var child := children[i];
    var closed := Closed(segments, current);
    CloseKeeps(children, i, segments, current);
    FlattenSnoc(closed, Single(child));
    GroupedSnoc(closed, Single(child));
    assert children[..i + 1] == children[..i] + [child];
  }

  /** `buildInlineSegments`: `current` collects the open run of text and
      links, and is flushed as one text segment when another child arrives
      and at the end. */
  method BuildInlineSegments(children: seq<Node>) returns (segments: seq<Segment>)
    ensures Flatten(segments) == children
    ensures Grouped(segments)
    ensures |segments| <= |children|
  {
    segments := [];
    var current: seq<Node> := [];
    for i := 0 to |children|
      invariant Building(children, i, segments, current)
    {
      var child := children[i];
      if TextLike(child) {
        TakeText(children, i, segments, current);
        current := current + [child];
      } else {
        TakeOther(children, i, segments, current);
        segments := Closed(segments, current) + [Single(child)];
        current := [];
      }
    }
    CloseKeeps(children, |children|, segments, current);
    segments := Closed(segments, current);
  }

  /** The position of the last child that is neither text nor a link, or -1. */
  function LastOther(xs: seq<Node>): (r: int)
    ensures -1 <= r < |xs|
  {
    if xs == [] then -1
    else if !TextLike(xs[|xs| - 1]) then |xs| - 1
    else LastOther(xs[..|xs| - 1])
  }

  /** Behind a run of text the last other child is the one before the run. */
  lemma {:induction false} LastOtherRun(p: seq<Node>, r: seq<Node>)
    requires p == [] || !TextLike(p[|p| - 1])
    requires forall k | 0 <= k < |r| :: TextLike(r[k])
    ensures LastOther(p + r) == |p| - 1
    decreases |r|
  {
    if r == [] {
      assert p + r == p;
    } else {
      var r' := r[..|r| - 1];
      assert (p + r)[..|p + r| - 1] == p + r';
      LastOtherRun(p, r');
    }
  }

  /** Splitting one sequence into a prefix that is empty or ends with
      another child, followed by a run of text, can be done in one way
      only. */
  lemma RunsAgree(p: seq<Node>, r: seq<Node>, q: seq<Node>, s: seq<Node>)
    requires p + r == q + s
    requires forall k | 0 <= k < |r| :: TextLike(r[k])
    requires forall k | 0 <= k < |s| :: TextLike(s[k])
    requires p == [] || !TextLike(p[|p| - 1])
    requires q == [] || !TextLike(q[|q| - 1])
    ensures p == q && r == s
  {
    LastOtherRun(p, r);
    LastOtherRun(q, s);
    assert p == (p + r)[..|p|] && q == (q + s)[..|q|];
    assert r == (p + r)[|p|..] && s == (q + s)[|q|..];
  }

  /** The last child of a grouping is text exactly when its last segment
      is a text segment. */
  lemma LastKind(segs: seq<Segment>)
    requires Grouped(segs) && segs != []
    ensures Flatten(segs) != []
    ensures TextLike(Flatten(segs)[|Flatten(segs)| - 1]) == segs[|segs| - 1].TextSegment?
  {
    var init, last := segs[..|segs| - 1], segs[|segs| - 1];
    assert segs == init + [last];
    FlattenSnoc(init, last);
    assert Proper(last);
    var n := Nodes(last);
    assert n != [];
    assert Flatten(segs)[|Flatten(segs)| - 1] == n[|n| - 1];
  }

  /** Before a final text segment, the flattened segments are empty or end
      with another child. */
  lemma TrailingRun(init: seq<Segment>, run: seq<Node>)
    requires Grouped(init + [TextSegment(run)])
    ensures Flatten(init) == [] || !TextLike(Flatten(init)[|Flatten(init)| - 1])
  {
    var segs := init + [TextSegment(run)];
    if init != [] {
      assert segs[|segs| - 1].TextSegment?;
      assert !segs[|segs| - 2].TextSegment?;
      assert segs[|segs| - 2] == init[|init| - 1];
      LastKind(init);
    }
  }

  /** Two groupings that both end with a single non-text child end with the
      same segment. */
  lemma SingleLast(x: Segment, y: Segment, p: seq<Node>, q: seq<Node>)
    requires Proper(x) && Proper(y) && !x.TextSegment? && !y.TextSegment?
    requires p + Nodes(x) == q + Nodes(y)
    ensures x == y && p == q
  {
    assert |Nodes(x)| == 1 && |Nodes(y)| == 1;
    assert |p| == |q|;
    var c := (p + Nodes(x))[|p|];
    assert c == Nodes(x)[0] && c == (q + Nodes(y))[|q|] && c == Nodes(y)[0];
    assert p == (p + Nodes(x))[..|p|] && q == (q + Nodes(y))[..|q|];
  }

  /** Only an empty grouping flattens to nothing. */
  lemma FlattenEmpty(segs: seq<Segment>)
    requires Grouped(segs)
    ensures (Flatten(segs) == []) == (segs == [])
  {
    if segs != [] {
      LastKind(segs);
    }
  }

  /** The last segment of a grouping is proper and follows a grouping. */
  lemma GroupedSplit(init: seq<Segment>, last: Segment)
    requires Grouped(init + [last])
    ensures Grouped(init) && Proper(last)
    ensures init != [] && last.TextSegment? ==> !init[|init| - 1].TextSegment?
  {
    assert (init + [last])[..|init|] == init;
  }

  /** The last child a proper segment stands for is text exactly when it is
      a text segment. */
  lemma LastNodeKind(p: seq<Node>, seg: Segment)
    requires Proper(seg)
    ensures p + Nodes(seg) != []
    ensures TextLike((p + Nodes(seg))[|p + Nodes(seg)| - 1]) == seg.TextSegment?
  {
    var n := Nodes(seg);
    assert (p + n)[|p + n| - 1] == n[|n| - 1];
  }

  /** Two groupings of the same children that both end with a text
      segment end with the same run, after the same children. */
  lemma TextLastAgree(ia: seq<Segment>, r: seq<Node>, ib: seq<Segment>, s: seq<Node>)
    requires Grouped(ia + [TextSegment(r)]) && Grouped(ib + [TextSegment(s)])
    requires Flatten(ia) + r == Flatten(ib) + s
    ensures r == s && Flatten(ia) == Flatten(ib)
  {
    GroupedSplit(ia, TextSegment(r));
    GroupedSplit(ib, TextSegment(s));
    TrailingRun(ia, r);
    TrailingRun(ib, s);
    RunsAgree(Flatten(ia), r, Flatten(ib), s);
  }

  /** Two non-empty groupings of the same children end with the same
      segment, after the same children. */
  lemma LastAgree(ia: seq<Segment>, la: Segment, ib: seq<Segment>, lb: Segment)
    requires Grouped(ia + [la]) && Grouped(ib + [lb])
    requires Flatten(ia) + Nodes(la) == Flatten(ib) + Nodes(lb)
    ensures la == lb && Flatten(ia) == Flatten(ib)
  {
    GroupedSplit(ia, la);
    GroupedSplit(ib, lb);
    LastNodeKind(Flatten(ia), la);
    LastNodeKind(Flatten(ib), lb);
    if la.TextSegment? {
      TextLastAgree(ia, la.nodes, ib, lb.nodes);
    } else {
      SingleLast(la, lb, Flatten(ia), Flatten(ib));
    }
  }

  /** A run of text and links is all of the text and links between two
      other children, so the grouping that `BuildInlineSegments` promises
      is the only one. */
  lemma {:induction false} GroupedUnique(a: seq<Segment>, b: seq<Segment>)
    requires Grouped(a) && Grouped(b) && Flatten(a) == Flatten(b)
    ensures a == b
    decreases |a|
  {
    FlattenEmpty(a);
    FlattenEmpty(b);
    if a != [] {
      Peel(a);
      Peel(b);
      Snoc(a);
      Snoc(b);
      LastAgree(a[..|a| - 1], a[|a| - 1], b[..|b| - 1], b[|b| - 1]);
      GroupedUnique(a[..|a| - 1], b[..|b| - 1]);
    }
  }

  /** A non-empty grouping is a grouping with one more segment. */
  lemma Peel(a: seq<Segment>)
    requires Grouped(a) && a != []
    ensures Grouped(a[..|a| - 1])
    ensures Flatten(a) == Flatten(a[..|a| - 1]) + Nodes(a[|a| - 1])
  {
  }

  lemma Snoc(a: seq<Segment>)
    requires a != []
    ensures a == a[..|a| - 1] + [a[|a| - 1]]
  {
  }
}

=== FILE: macros.dfy ===
/** The macro pass of `preprocessMathFormula`: the replacement pairs go
    through `mapOf` (a LinkedHashMap), the entries are sorted by descending
    key length, and each is applied with `String.replace` in that order. */
module Macros {
  import opened Text
  import opened FormulaTables

  type Entry = (string, string)

  predicate HasKey(entries: seq<Entry>, k: string) {
    exists i | 0 <= i < |entries| :: entries[i].0 == k
  }

  predicate UniqueKeys(entries: seq<Entry>) {
    forall a, b | 0 <= a < b < |entries| :: entries[a].0 != entries[b].0
  }

  /** The index of the last pair with key `k`. */
  function LastIndex(pairs: seq<Entry>, k: string): (j: nat)
    requires HasKey(pairs, k)
    ensures j < |pairs| && pairs[j].0 == k
    ensures forall l | j < l < |pairs| :: pairs[l].0 != k
  {
    var n := |pairs| - 1;
    if pairs[n].0 == k then n
    else
      assert HasKey(pairs[..n], k) by {
        var i :| 0 <= i < |pairs| && pairs[i].0 == k;
        assert pairs[..n][i].0 == k;
      }
      LastIndex(pairs[..n], k)
  }

  /** The index of the first pair with key `k`. */
  function FirstIndex(pairs: seq<Entry>, k: string): (j: nat)
    requires HasKey(pairs, k)
    ensures j < |pairs| && pairs[j].0 == k
    ensures forall l | 0 <= l < j :: pairs[l].0 != k
  {
    if pairs[0].0 == k then 0
    else
      assert HasKey(pairs[1..], k) by {
        var i :| 0 <= i < |pairs| && pairs[i].0 == k;
        assert pairs[1..][i - 1].0 == k;
      }
      1 + FirstIndex(pairs[1..], k)
  }

  /** The value `mapOf` keeps for `k`: that of the last pair with key `k`. */
  function LastValue(pairs: seq<Entry>, k: string): string
    requires HasKey(pairs, k)
  {
    pairs[LastIndex(pairs, k)].1
  }

  lemma LastIndexIs(pairs: seq<Entry>, k: string, j: nat)
    requires j < |pairs| && pairs[j].0 == k
    requires forall l | j < l < |pairs| :: pairs[l].0 != k
    ensures HasKey(pairs, k) && LastIndex(pairs, k) == j
  {
  }

  lemma FirstIndexPrefix(pairs: seq<Entry>, m: nat, k: string)
    requires m <= |pairs| && HasKey(pairs[..m], k)
    ensures HasKey(pairs, k) && FirstIndex(pairs, k) == FirstIndex(pairs[..m], k)
  {
    var j := FirstIndex(pairs[..m], k);
    assert pairs[j].0 == k;
  }

  /** `put` on a LinkedHashMap: a key already present keeps its place and
      takes the new value; a new key goes last. */
  function Put(entries: seq<Entry>, k: string, v: string): (r: seq<Entry>)
    requires UniqueKeys(entries)
    ensures UniqueKeys(r)
    ensures HasKey(entries, k) ==>
      |r| == |entries| &&
      forall i | 0 <= i < |r| :: r[i] == (if entries[i].0 == k then (k, v) else entries[i])
    ensures !HasKey(entries, k) ==> r == entries + [(k, v)]
  {
    if entries == [] then [(k, v)]
    else if entries[0].0 == k then [(k, v)] + entries[1..]
    else
      var rest := Put(entries[1..], k, v);
      assert HasKey(entries, k) <==> HasKey(entries[1..], k) by {
        if HasKey(entries, k) {
          var i :| 0 <= i < |entries| && entries[i].0 == k;
          assert entries[1..][i - 1].0 == k;
        }
      }
      [entries[0]] + rest
  }

  /** `mapOf(pairs)`: the pairs put one by one into an empty LinkedHashMap. */
  function MapOf(pairs: seq<Entry>): (r: seq<Entry>)
    ensures UniqueKeys(r)
  {
    if pairs == [] then []
    else
      var n := |pairs| - 1;
      Put(MapOf(pairs[..n]), pairs[n].0, pairs[n].1)
  }

  lemma PutKeys(entries: seq<Entry>, k: string, v: string, x: string)
    requires UniqueKeys(entries)
    ensures HasKey(Put(entries, k, v), x) <==> HasKey(entries, x) || x == k
  {
    var r := Put(entries, k, v);
    if HasKey(entries, k) {
      if HasKey(r, x) {
        var i :| 0 <= i < |r| && r[i].0 == x;
        assert entries[i].0 == x;
      }
      if HasKey(entries, x) {
        var i :| 0 <= i < |entries| && entries[i].0 == x;
        assert r[i].0 == x;
      }
    } else {
      HasKeySnoc(entries, (k, v), x);
    }
  }

  /** `mapOf` has exactly the keys of its pairs. */
  lemma {:induction false} MapOfKeys(pairs: seq<Entry>)
    ensures forall x :: HasKey(MapOf(pairs), x) <==> HasKey(pairs, x)
  {
    if pairs != [] {
      var n := |pairs| - 1;
      MapOfKeys(pairs[..n]);
      assert pairs == pairs[..n] + [pairs[n]];
      forall x ensures HasKey(MapOf(pairs), x) <==> HasKey(pairs, x) {
        PutKeys(MapOf(pairs[..n]), pairs[n].0, pairs[n].1, x);
        HasKeySnoc(pairs[..n], pairs[n], x);
      }
    }
  }

  /** Each key of `mapOf` holds the value of its last pair. */
  lemma {:induction false} MapOfValues(pairs: seq<Entry>)
    ensures forall i | 0 <= i < |MapOf(pairs)| ::
      HasKey(pairs, MapOf(pairs)[i].0) && MapOf(pairs)[i].1 == LastValue(pairs, MapOf(pairs)[i].0)
  {
    if pairs != [] {
      var n := |pairs| - 1;
      var prefix, k, v := pairs[..n], pairs[n].0, pairs[n].1;
      var init := MapOf(prefix);
      var r := MapOf(pairs);
      MapOfValues(prefix);
      MapOfKeys(prefix);
      assert pairs == prefix + [(k, v)];
      forall i | 0 <= i < |r| ensures HasKey(pairs, r[i].0) && r[i].1 == LastValue(pairs, r[i].0) {
        HasKeySnoc(prefix, (k, v), r[i].0);
        if r[i].0 == k {
          LastIndexIs(pairs, k, n);
        } else {
          assert i < |init| && r[i] == init[i] by {
            if !HasKey(init, k) {
              assert r == init + [(k, v)];
            }
          }
          LastIndexIs(pairs, r[i].0, LastIndex(prefix, r[i].0));
        }
      }
    }
  }

  /** `mapOf` keeps each key where it first occurs. */
  lemma {:induction false} MapOfOrder(pairs: seq<Entry>)
    ensures forall a, b | 0 <= a < b < |MapOf(pairs)| ::
      HasKey(pairs, MapOf(pairs)[a].0) && HasKey(pairs, MapOf(pairs)[b].0) &&
      FirstIndex(pairs, MapOf(pairs)[a].0) < FirstIndex(pairs, MapOf(pairs)[b].0)
  {
    if pairs != [] {
      var n := |pairs| - 1;
      var prefix, k, v := pairs[..n], pairs[n].0, pairs[n].1;
      var init := MapOf(prefix);
      var r := MapOf(pairs);
      MapOfOrder(prefix);
      MapOfKeys(prefix);
      assert pairs == prefix + [(k, v)];
      if HasKey(init, k) {
        forall i | 0 <= i < |r| ensures r[i].0 == init[i].0 { }
        forall a, b | 0 <= a < b < |r|
          ensures HasKey(pairs, r[a].0) && HasKey(pairs, r[b].0) && FirstIndex(pairs, r[a].0) < FirstIndex(pairs, r[b].0)
        {
          assert HasKey(init, init[a].0) && HasKey(init, init[b].0);
          FirstIndexPrefix(pairs, n, r[a].0);
          FirstIndexPrefix(pairs, n, r[b].0);
        }
      } else {
        assert r == init + [pairs[n]];
        OrderAppended(pairs, init);
      }
    }
  }

  lemma OrderAppended(pairs: seq<Entry>, init: seq<Entry>)
    requires pairs != [] && UniqueKeys(init)
    requires forall x :: HasKey(init, x) <==> HasKey(pairs[..|pairs| - 1], x)
    requires !HasKey(init, pairs[|pairs| - 1].0)
    requires forall a, b | 0 <= a < b < |init| ::
      HasKey(pairs[..|pairs| - 1], init[a].0) && HasKey(pairs[..|pairs| - 1], init[b].0) &&
      FirstIndex(pairs[..|pairs| - 1], init[a].0) < FirstIndex(pairs[..|pairs| - 1], init[b].0)
    ensures var r := init + [pairs[|pairs| - 1]];
      forall a, b | 0 <= a < b < |r| ::
        HasKey(pairs, r[a].0) && HasKey(pairs, r[b].0) && FirstIndex(pairs, r[a].0) < FirstIndex(pairs, r[b].0)
  {
    var n := |pairs| - 1;
    var r := init + [pairs[n]];
    var k := pairs[n].0;
    assert pairs == pairs[..n] + [pairs[n]];
    HasKeySnoc(pairs[..n], pairs[n], k);
    assert FirstIndex(pairs, k) == n;
    forall a, b | 0 <= a < b < |r|
      ensures HasKey(pairs, r[a].0) && HasKey(pairs, r[b].0) && FirstIndex(pairs, r[a].0) < FirstIndex(pairs, r[b].0)
    {
      assert r[a] == init[a];
      assert HasKey(pairs[..n], init[a].0) by {
        assert init[a].0 == init[a].0;
        assert HasKey(init, init[a].0);
      }
      FirstIndexPrefix(pairs, n, r[a].0);
      if b < |init| {
        assert r[b] == init[b];
        assert HasKey(init, init[b].0);
        FirstIndexPrefix(pairs, n, r[b].0);
      }
    }
  }

  // ---------------------------------------------------------------------
  // `sortedByDescending { it.first.length }`, a stable sort.

  predicate ByDescendingKeyLength(entries: seq<Entry>) {
    forall a, b | 0 <= a < b < |entries| :: |entries[a].0| >= |entries[b].0|
  }

  /** The entries whose key has length `n`, in their order. */
  function WithKeyLength(entries: seq<Entry>, n: nat): seq<Entry> {
    if entries == [] then []
    else
      var last := entries[|entries| - 1];
      WithKeyLength(entries[..|entries| - 1], n) + (if |last.0| == n then [last] else [])
  }

  lemma {:induction false} WithKeyLengthAppend(a: seq<Entry>, b: seq<Entry>, n: nat)
    ensures WithKeyLength(a + b, n) == WithKeyLength(a, n) + WithKeyLength(b, n)
    decreases |b|
  {
    if b == [] {
      assert a + b == a;
    } else {
      var m := |b| - 1;
      assert (a + b)[..|a + b| - 1] == a + b[..m];
      WithKeyLengthAppend(a, b[..m], n);
    }
  }

  /** One step of the insertion sort: `e` goes after every entry whose key is
      at least as long. */
  function InsertByKeyLength(sorted: seq<Entry>, e: Entry): (r: seq<Entry>)
    requires ByDescendingKeyLength(sorted)
    ensures ByDescendingKeyLength(r)
    ensures multiset(r) == multiset(sorted) + multiset{e}
  {
    if sorted == [] || |sorted[|sorted| - 1].0| >= |e.0| then sorted + [e]
    else
      var m := |sorted| - 1;
      var front := InsertByKeyLength(sorted[..m], e);
      InsertStep(sorted, e, front);
      front + [sorted[m]]
  }

  lemma InsertStep(sorted: seq<Entry>, e: Entry, front: seq<Entry>)
    requires sorted != [] && ByDescendingKeyLength(sorted)
    requires |sorted[|sorted| - 1].0| < |e.0|
    requires ByDescendingKeyLength(front)
    requires multiset(front) == multiset(sorted[..|sorted| - 1]) + multiset{e}
    ensures ByDescendingKeyLength(front + [sorted[|sorted| - 1]])
    ensures multiset(front + [sorted[|sorted| - 1]]) == multiset(sorted) + multiset{e}
  {
    var m := |sorted| - 1;
    assert sorted == sorted[..m] + [sorted[m]];
    forall i | 0 <= i < |front| ensures |front[i].0| >= |sorted[m].0| {
      assert front[i] in multiset(front);
    }
  }

  /** Insertion keeps the order of entries with keys of equal length, and puts
      `e` after those already there. */
  lemma {:induction false} InsertStable(sorted: seq<Entry>, e: Entry, n: nat)
    requires ByDescendingKeyLength(sorted)
    ensures WithKeyLength(InsertByKeyLength(sorted, e), n) == WithKeyLength(sorted + [e], n)
    decreases |sorted|
  {
    if !(sorted == [] || |sorted[|sorted| - 1].0| >= |e.0|) {
      var m := |sorted| - 1;
      var init, last := sorted[..m], sorted[m];
      assert sorted == init + [last];
      var front := InsertByKeyLength(init, e);
      calc {
        WithKeyLength(InsertByKeyLength(sorted, e), n);
        WithKeyLength(front + [last], n);
        { WithKeyLengthAppend(front, [last], n); }
        WithKeyLength(front, n) + WithKeyLength([last], n);
        { InsertStable(init, e, n); WithKeyLengthAppend(init, [e], n); }
        WithKeyLength(init, n) + WithKeyLength([e], n) + WithKeyLength([last], n);
        { SinglesCommute(e, last, n); }
        WithKeyLength(init, n) + WithKeyLength([last], n) + WithKeyLength([e], n);
        { WithKeyLengthAppend(init, [last], n); }
        WithKeyLength(sorted, n) + WithKeyLength([e], n);
        { WithKeyLengthAppend(sorted, [e], n); }
        WithKeyLength(sorted + [e], n);
      }
    }
  }

  /** Two entries with keys of different lengths are never both kept. */
  lemma SinglesCommute(x: Entry, y: Entry, n: nat)
    requires |x.0| != |y.0|
    ensures WithKeyLength([x], n) + WithKeyLength([y], n) == WithKeyLength([y], n) + WithKeyLength([x], n)
  {
    assert [x][..0] == [] && [y][..0] == [];
  }

  /** Entries of a permutation come from the original. */
  lemma PermutationMember(xs: seq<Entry>, ys: seq<Entry>, i: nat)
    requires multiset(xs) == multiset(ys) && i < |xs|
    ensures exists j | 0 <= j < |ys| :: ys[j] == xs[i]
  {
    assert xs[i] in multiset(ys);
  }

  lemma HasKeySnoc(xs: seq<Entry>, y: Entry, x: string)
    ensures HasKey(xs + [y], x) <==> HasKey(xs, x) || y.0 == x
  {
    if HasKey(xs + [y], x) && y.0 != x {
      var i :| 0 <= i < |xs + [y]| && (xs + [y])[i].0 == x;
      assert xs[i].0 == x;
    }
    if HasKey(xs, x) {
      var i :| 0 <= i < |xs| && xs[i].0 == x;
      assert (xs + [y])[i].0 == x;
    }
    assert (xs + [y])[|xs|] == y;
  }

  lemma UniqueSnoc(xs: seq<Entry>, y: Entry)
    requires UniqueKeys(xs) && !HasKey(xs, y.0)
    ensures UniqueKeys(xs + [y])
  {
    forall a, b | 0 <= a < b < |xs + [y]| ensures (xs + [y])[a].0 != (xs + [y])[b].0 {
      if b == |xs| {
        assert (xs + [y])[a] == xs[a];
      } else {
        assert (xs + [y])[a] == xs[a] && (xs + [y])[b] == xs[b];
      }
    }
  }

  /** Insertion adds the key of `e` and keeps keys distinct. */
  lemma {:induction false} InsertKeys(sorted: seq<Entry>, e: Entry)
    requires ByDescendingKeyLength(sorted)
    ensures forall x :: HasKey(InsertByKeyLength(sorted, e), x) <==> HasKey(sorted, x) || x == e.0
    ensures UniqueKeys(sorted) && !HasKey(sorted, e.0) ==> UniqueKeys(InsertByKeyLength(sorted, e))
    decreases |sorted|
  {
    if sorted == [] || |sorted[|sorted| - 1].0| >= |e.0| {
      forall x ensures HasKey(sorted + [e], x) <==> HasKey(sorted, x) || x == e.0 {
        HasKeySnoc(sorted, e, x);
      }
      if UniqueKeys(sorted) && !HasKey(sorted, e.0) {
        UniqueSnoc(sorted, e);
      }
    } else {
      var m := |sorted| - 1;
      var init, last := sorted[..m], sorted[m];
      assert sorted == init + [last];
      var front := InsertByKeyLength(init, e);
      InsertKeys(init, e);
      forall x ensures HasKey(front + [last], x) <==> HasKey(sorted, x) || x == e.0 {
        HasKeySnoc(front, last, x);
        HasKeySnoc(init, last, x);
      }
      if UniqueKeys(sorted) && !HasKey(sorted, e.0) {
        HasKeySnoc(init, last, e.0);
        assert !HasKey(init, last.0) by {
          forall i | 0 <= i < |init| ensures init[i].0 != last.0 {
            assert init[i] == sorted[i] && last == sorted[m];
          }
        }
        UniqueSnoc(front, last);
      }
    }
  }

  /** `sortedByDescending { it.first.length }`: sorted by descending key
      length and a permutation of its input. */
  function SortByKeyLength(entries: seq<Entry>): (r: seq<Entry>)
    ensures ByDescendingKeyLength(r)
    ensures multiset(r) == multiset(entries)
  {
    if entries == [] then []
    else
      var m := |entries| - 1;
      assert entries == entries[..m] + [entries[m]];
      InsertByKeyLength(SortByKeyLength(entries[..m]), entries[m])
  }

  /** The sort is stable: entries whose keys have the same length keep their
      order. */
  lemma {:induction false} SortStable(entries: seq<Entry>, n: nat)
    ensures WithKeyLength(SortByKeyLength(entries), n) == WithKeyLength(entries, n)
    decreases |entries|
  {
    if entries != [] {
      var m := |entries| - 1;
      var init, e := entries[..m], entries[m];
      assert entries == init + [e];
      var sorted := SortByKeyLength(init);
      InsertStable(sorted, e, n);
      WithKeyLengthAppend(sorted, [e], n);
      SortStable(init, n);
      WithKeyLengthAppend(init, [e], n);
    }
  }

  /** The sort keeps the set of keys, and distinct keys stay distinct. */
  lemma {:induction false} SortKeys(entries: seq<Entry>)
    ensures forall x :: HasKey(SortByKeyLength(entries), x) <==> HasKey(entries, x)
    ensures UniqueKeys(entries) ==> UniqueKeys(SortByKeyLength(entries))
    decreases |entries|
  {
    if entries != [] {
      var m := |entries| - 1;
      var init, e := entries[..m], entries[m];
      assert entries == init + [e];
      SortKeys(init);
      InsertKeys(SortByKeyLength(init), e);
      forall x ensures HasKey(entries, x) <==> HasKey(init, x) || x == e.0 {
        HasKeySnoc(init, e, x);
      }
      if UniqueKeys(entries) {
        assert !HasKey(init, e.0) by {
          forall i | 0 <= i < |init| ensures init[i].0 != e.0 {
            assert init[i] == entries[i] && e == entries[m];
          }
        }
      }
    }
  }

  // ---------------------------------------------------------------------
  // Applying the entries.

  predicate NonEmptyKeys(entries: seq<Entry>) {
    forall i | 0 <= i < |entries| :: entries[i].0 != []
  }

  /** `result = result.replace(key, value)` for each entry in order. */
  function ApplyAll(s: string, entries: seq<Entry>): string
    requires NonEmptyKeys(entries)
    decreases |entries|
  {
    if entries == [] then s else ApplyAll(ReplaceAll(s, entries[0].0, entries[0].1), entries[1..])
  }

  /** Entries whose keys do not occur leave the text as it is. */
  lemma {:induction false} ApplyAllAbsent(s: string, entries: seq<Entry>)
    requires NonEmptyKeys(entries)
    requires forall i | 0 <= i < |entries| :: !Contains(s, entries[i].0)
    ensures ApplyAll(s, entries) == s
    decreases |entries|
  {
    if entries != [] {
      ReplaceAbsent(s, entries[0].0, entries[0].1);
      ApplyAllAbsent(s, entries[1..]);
    }
  }

  /** When only entry `j` has a key occurring in `s`, and no later key occurs
      in the text entry `j` produces, the pass is that one replacement. */
  lemma {:induction false} ApplyAllOne(s: string, entries: seq<Entry>, j: nat, t: string)
    requires NonEmptyKeys(entries) && j < |entries|
    requires forall i | 0 <= i < j :: !Contains(s, entries[i].0)
    requires t == ReplaceAll(s, entries[j].0, entries[j].1)
    requires forall i | j < i < |entries| :: !Contains(t, entries[i].0)
    ensures ApplyAll(s, entries) == t
    decreases j
  {
    if j == 0 {
      ApplyAllAbsent(t, entries[1..]);
    } else {
      ReplaceAbsent(s, entries[0].0, entries[0].1);
      ApplyAllOne(s, entries[1..], j - 1, t);
    }
  }

  // ---------------------------------------------------------------------
  // The table.

  /** A backslash followed by one or more ASCII letters. */
  predicate CommandKey(k: string) {
    |k| >= 2 && k[0] == '\\' && forall j | 1 <= j < |k| :: 'a' <= k[j] <= 'z' || 'A' <= k[j] <= 'Z'
  }

  /** Commands that are not keys of the table (used by the examples below). */
  const NotKeys: set<string> := {
    "\\l", "\\lef", "\\left", "\\li", "\\f", "\\fr", "\\fra", "\\frac", "\\s", "\\sq",
    "\\t", "\\te", "\\tex", "\\text", "\\b", "\\bi", "\\big", "\\bigg"
  }

  predicate KeysWellFormed(g: seq<Entry>) {
    forall i | 0 <= i < |g| :: CommandKey(g[i].0) && g[i].0 !in NotKeys
  }

  predicate Lacks(g: seq<Entry>, keys: set<string>) {
    forall i | 0 <= i < |g| :: g[i].0 !in keys
  }

  lemma {:induction false} FlattenWellFormed(gs: seq<seq<Entry>>)
    requires forall j | 0 <= j < |gs| :: KeysWellFormed(gs[j])
    ensures KeysWellFormed(Flatten(gs))
  {
    if gs != [] {
      var n := |gs| - 1;
      FlattenWellFormed(gs[..n]);
      var a: seq<Entry>, b: seq<Entry> := Flatten(gs[..n]), gs[n];
      assert Flatten(gs) == a + b;
      forall i | 0 <= i < |a + b| ensures CommandKey((a + b)[i].0) && (a + b)[i].0 !in NotKeys {
        if i >= |a| {
          assert (a + b)[i] == b[i - |a|];
        }
      }
    }
  }

  /** The value of `k` in a concatenation comes from the last part that has `k`. */
  lemma LastValueAppend(a: seq<Entry>, b: seq<Entry>, k: string)
    requires HasKey(a, k) || HasKey(b, k)
    ensures HasKey(a + b, k)
    ensures HasKey(b, k) ==> LastValue(a + b, k) == LastValue(b, k)
    ensures !HasKey(b, k) ==> LastValue(a + b, k) == LastValue(a, k)
  {
    if HasKey(b, k) {
      var j := LastIndex(b, k);
      forall l | |a| + j < l < |a + b| ensures (a + b)[l].0 != k {
        assert (a + b)[l] == b[l - |a|];
      }
      LastIndexIs(a + b, k, |a| + j);
    } else {
      var j := LastIndex(a, k);
      forall l | j < l < |a + b| ensures (a + b)[l].0 != k {
        if l >= |a| {
          assert (a + b)[l] == b[l - |a|];
        }
      }
      LastIndexIs(a + b, k, j);
    }
  }

  /** The value of `k` in the whole table is its value in the last group
      that has it. */
  lemma {:induction false} LastValueFlatten(gs: seq<seq<Entry>>, j: nat, k: string)
    requires j < |gs| && HasKey(gs[j], k)
    requires forall l | j < l < |gs| :: !HasKey(gs[l], k)
    ensures HasKey(Flatten(gs), k) && LastValue(Flatten(gs), k) == LastValue(gs[j], k)
  {
    var n := |gs| - 1;
    var a: seq<Entry>, b: seq<Entry> := Flatten(gs[..n]), gs[n];
    assert Flatten(gs) == a + b;
    if j == n {
      var i := LastIndex(b, k);
      assert (a + b)[|a| + i].0 == k;
      LastValueAppend(a, b, k);
    } else {
      LastValueFlatten(gs[..n], j, k);
      var i := LastIndex(a, k);
      assert (a + b)[i].0 == k;
      LastValueAppend(a, b, k);
    }
  }

  // Facts about each group, checked entry by entry.

  lemma GreekLowercaseKeys()
    ensures forall i | 0 <= i < |GreekLowercase| :: CommandKey(GreekLowercase[i].0)
  {
    GreekLowercaseKeysA();
    GreekLowercaseKeysB();
    GreekLowercaseKeysC();
  }

  lemma GreekLowercaseKeysA()
    ensures forall i | 0 <= i < 8 :: CommandKey(GreekLowercase[i].0)
  {
  }

  lemma GreekLowercaseKeysB()
    ensures forall i | 8 <= i < 16 :: CommandKey(GreekLowercase[i].0)
  {
  }

  lemma GreekLowercaseKeysC()
    ensures forall i | 16 <= i < 23 :: CommandKey(GreekLowercase[i].0)
  {
  }

  lemma GreekLowercaseNotKeys()
    ensures forall i | 0 <= i < |GreekLowercase| :: GreekLowercase[i].0 !in NotKeys
  {
  }

  lemma GreekLowercaseFacts()
    ensures forall i | 0 <= i < |GreekLowercase| :: GreekLowercase[i].0 !in {"\\le", "\\lim", "\\setminus", "\\circ"}
  {
  }

  lemma GreekUppercaseKeys()
    ensures forall i | 0 <= i < |GreekUppercase| :: CommandKey(GreekUppercase[i].0)
  {
  }

  lemma GreekUppercaseNotKeys()
    ensures forall i | 0 <= i < |GreekUppercase| :: GreekUppercase[i].0 !in NotKeys
  {
  }

  lemma GreekUppercaseFacts()
    ensures forall i | 0 <= i < |GreekUppercase| :: GreekUppercase[i].0 !in {"\\le", "\\lim", "\\setminus", "\\circ"}
  {
  }

  lemma MathSymbolsKeys()
    ensures forall i | 0 <= i < |MathSymbols| :: CommandKey(MathSymbols[i].0)
  {
    MathSymbolsKeysA();
    MathSymbolsKeysB();
    MathSymbolsKeysC();
    MathSymbolsKeysD();
    MathSymbolsKeysE();
  }

  lemma MathSymbolsKeysA()
    ensures forall i | 0 <= i < 8 :: CommandKey(MathSymbols[i].0)
  {
  }

  lemma MathSymbolsKeysB()
    ensures forall i | 8 <= i < 16 :: CommandKey(MathSymbols[i].0)
  {
  }

  lemma MathSymbolsKeysC()
    ensures forall i | 16 <= i < 24 :: CommandKey(MathSymbols[i].0)
  {
  }

  lemma MathSymbolsKeysD()
    ensures forall i | 24 <= i < 32 :: CommandKey(MathSymbols[i].0)
  {
  }

  lemma MathSymbolsKeysE()
    ensures forall i | 32 <= i < 37 :: CommandKey(MathSymbols[i].0)
  {
  }

  lemma MathSymbolsNotKeys()
    ensures forall i | 0 <= i < |MathSymbols| :: MathSymbols[i].0 !in NotKeys
  {
    MathSymbolsNotKeysA();
    MathSymbolsNotKeysB();
    MathSymbolsNotKeysC();
  }

  lemma MathSymbolsNotKeysA()
    ensures forall i | 0 <= i < 13 :: MathSymbols[i].0 !in NotKeys
  {
  }

  lemma MathSymbolsNotKeysB()
    ensures forall i | 13 <= i < 26 :: MathSymbols[i].0 !in NotKeys
  {
  }

  lemma MathSymbolsNotKeysC()
    ensures forall i | 26 <= i < 37 :: MathSymbols[i].0 !in NotKeys
  {
  }

  lemma MathSymbolsFacts()
    ensures forall i | 0 <= i < |MathSymbols| :: MathSymbols[i].0 !in {"\\lim", "\\setminus", "\\circ"}
  {
  }

  lemma MathSymbolsDuplicates()
    ensures MathSymbols[7] == ("\\le", "≤")
    ensures forall l | 7 < l < |MathSymbols| :: MathSymbols[l].0 != "\\le"
  {
  }

  lemma AccentArrowsKeys()
    ensures forall i | 0 <= i < |AccentArrows| :: CommandKey(AccentArrows[i].0)
  {
  }

  lemma AccentArrowsNotKeys()
    ensures forall i | 0 <= i < |AccentArrows| :: AccentArrows[i].0 !in NotKeys
  {
  }

  lemma AccentArrowsFacts()
    ensures forall i | 0 <= i < |AccentArrows| :: AccentArrows[i].0 !in {"\\le", "\\lim", "\\setminus", "\\circ"}
  {
  }

  lemma ComparisonKeys()
    ensures forall i | 0 <= i < |Comparison| :: CommandKey(Comparison[i].0)
  {
  }

  lemma ComparisonNotKeys()
    ensures forall i | 0 <= i < |Comparison| :: Comparison[i].0 !in NotKeys
  {
  }

  lemma ComparisonFacts()
    ensures forall i | 0 <= i < |Comparison| :: Comparison[i].0 !in {"\\le", "\\lim", "\\setminus", "\\circ"}
  {
  }

  lemma LogicKeys()
    ensures forall i | 0 <= i < |Logic| :: CommandKey(Logic[i].0)
  {
  }

  lemma LogicNotKeys()
    ensures forall i | 0 <= i < |Logic| :: Logic[i].0 !in NotKeys
  {
  }

  lemma LogicFacts()
    ensures forall i | 0 <= i < |Logic| :: Logic[i].0 !in {"\\le", "\\lim", "\\setminus", "\\circ"}
  {
  }

  lemma SetTheoryKeys()
    ensures forall i | 0 <= i < |SetTheory| :: CommandKey(SetTheory[i].0)
  {
    SetTheoryKeysA();
    SetTheoryKeysB();
    SetTheoryKeysC();
  }

  lemma SetTheoryKeysA()
    ensures forall i | 0 <= i < 6 :: CommandKey(SetTheory[i].0)
  {
  }

  lemma SetTheoryKeysB()
    ensures forall i | 6 <= i < 12 :: CommandKey(SetTheory[i].0)
  {
  }

  lemma SetTheoryKeysC()
    ensures forall i | 12 <= i < 18 :: CommandKey(SetTheory[i].0)
  {
  }

  lemma SetTheoryNotKeys()
    ensures forall i | 0 <= i < |SetTheory| :: SetTheory[i].0 !in NotKeys
  {
  }

  lemma SetTheoryFacts()
    ensures forall i | 0 <= i < |SetTheory| :: SetTheory[i].0 !in {"\\le", "\\lim", "\\circ"}
  {
  }

  lemma SetTheoryDuplicates()
    ensures SetTheory[0] == ("\\setminus", "\\")
    ensures SetTheory[17] == ("\\setminus", "∖")
  {
  }

  lemma CalculusKeys()
    ensures forall i | 0 <= i < |Calculus| :: CommandKey(Calculus[i].0)
  {
    CalculusKeysA();
    CalculusKeysB();
    CalculusKeysC();
  }

  lemma CalculusKeysA()
    ensures forall i | 0 <= i < 7 :: CommandKey(Calculus[i].0)
  {
  }

  lemma CalculusKeysB()
    ensures forall i | 7 <= i < 14 :: CommandKey(Calculus[i].0)
  {
  }

  lemma CalculusKeysC()
    ensures forall i | 14 <= i < 20 :: CommandKey(Calculus[i].0)
  {
  }

  lemma CalculusNotKeys()
    ensures forall i | 0 <= i < |Calculus| :: Calculus[i].0 !in NotKeys
  {
  }

  lemma CalculusFacts()
    ensures forall i | 0 <= i < |Calculus| :: Calculus[i].0 !in {"\\le", "\\setminus", "\\circ"}
  {
  }

  lemma CalculusDuplicates()
    ensures Calculus[3] == ("\\lim", "lim")
    ensures forall l | 3 < l < |Calculus| :: Calculus[l].0 != "\\lim"
  {
  }

  lemma ArrowsKeys()
    ensures forall i | 0 <= i < |Arrows| :: CommandKey(Arrows[i].0)
  {
    ArrowsKeysA();
    ArrowsKeysB();
    ArrowsKeysC();
  }

  lemma ArrowsKeysA()
    ensures forall i | 0 <= i < 5 :: CommandKey(Arrows[i].0)
  {
  }

  lemma ArrowsKeysB()
    ensures forall i | 5 <= i < 10 :: CommandKey(Arrows[i].0)
  {
  }

  lemma ArrowsKeysC()
    ensures forall i | 10 <= i < 13 :: CommandKey(Arrows[i].0)
  {
  }

  lemma ArrowsNotKeys()
    ensures forall i | 0 <= i < |Arrows| :: Arrows[i].0 !in NotKeys
  {
  }

  lemma ArrowsFacts()
    ensures forall i | 0 <= i < |Arrows| :: Arrows[i].0 !in {"\\le", "\\lim", "\\setminus", "\\circ"}
  {
  }

  lemma HarpoonsKeys()
    ensures forall i | 0 <= i < |Harpoons| :: CommandKey(Harpoons[i].0)
  {
    HarpoonsKeysA();
    HarpoonsKeysB();
    HarpoonsKeysC();
  }

  lemma HarpoonsKeysA()
    ensures forall i | 0 <= i < 4 :: CommandKey(Harpoons[i].0)
  {
  }

  lemma HarpoonsKeysB()
    ensures forall i | 4 <= i < 8 :: CommandKey(Harpoons[i].0)
  {
  }

  lemma HarpoonsKeysC()
    ensures forall i | 8 <= i < 10 :: CommandKey(Harpoons[i].0)
  {
  }

  lemma HarpoonsNotKeys()
    ensures forall i | 0 <= i < |Harpoons| :: Harpoons[i].0 !in NotKeys
  {
  }

  lemma HarpoonsFacts()
    ensures forall i | 0 <= i < |Harpoons| :: Harpoons[i].0 !in {"\\le", "\\lim", "\\setminus", "\\circ"}
  {
  }

  lemma LongArrowsKeys()
    ensures forall i | 0 <= i < |LongArrows| :: CommandKey(LongArrows[i].0)
  {
  }

  lemma LongArrowsNotKeys()
    ensures forall i | 0 <= i < |LongArrows| :: LongArrows[i].0 !in NotKeys
  {
  }

  lemma LongArrowsFacts()
    ensures forall i | 0 <= i < |LongArrows| :: LongArrows[i].0 !in {"\\le", "\\lim", "\\setminus", "\\circ"}
  {
  }

  lemma DoubleArrowsKeys()
    ensures forall i | 0 <= i < |DoubleArrows| :: CommandKey(DoubleArrows[i].0)
  {
  }

  lemma DoubleArrowsNotKeys()
    ensures forall i | 0 <= i < |DoubleArrows| :: DoubleArrows[i].0 !in NotKeys
  {
  }

  lemma DoubleArrowsFacts()
    ensures forall i | 0 <= i < |DoubleArrows| :: DoubleArrows[i].0 !in {"\\le", "\\lim", "\\setminus", "\\circ"}
  {
  }

  lemma RelationsKeys()
    ensures forall i | 0 <= i < |Relations| :: CommandKey(Relations[i].0)
  {
  }

  lemma RelationsNotKeys()
    ensures forall i | 0 <= i < |Relations| :: Relations[i].0 !in NotKeys
  {
  }

  lemma RelationsFacts()
    ensures forall i | 0 <= i < |Relations| :: Relations[i].0 !in {"\\lim", "\\setminus", "\\circ"}
  {
  }

  lemma RelationsDuplicates()
    ensures Relations[1] == ("\\le", "≤")
    ensures forall l | 1 < l < |Relations| :: Relations[l].0 != "\\le"
  {
  }

  lemma OperatorsKeys()
    ensures forall i | 0 <= i < |Operators| :: CommandKey(Operators[i].0)
  {
  }

  lemma OperatorsNotKeys()
    ensures forall i | 0 <= i < |Operators| :: Operators[i].0 !in NotKeys
  {
  }

  lemma OperatorsFacts()
    ensures forall i | 0 <= i < |Operators| :: Operators[i].0 !in {"\\le", "\\lim", "\\setminus"}
  {
  }

  lemma OperatorsDuplicates()
    ensures Operators[10] == ("\\circ", "∘")
    ensures forall l | 10 < l < |Operators| :: Operators[l].0 != "\\circ"
  {
  }

  lemma BracketsKeys()
    ensures forall i | 0 <= i < |Brackets| :: CommandKey(Brackets[i].0)
  {
  }

  lemma BracketsNotKeys()
    ensures forall i | 0 <= i < |Brackets| :: Brackets[i].0 !in NotKeys
  {
  }

  lemma BracketsFacts()
    ensures forall i | 0 <= i < |Brackets| :: Brackets[i].0 !in {"\\le", "\\lim", "\\setminus", "\\circ"}
  {
  }

  lemma OtherSymbolsKeys()
    ensures forall i | 0 <= i < |OtherSymbols| :: CommandKey(OtherSymbols[i].0)
  {
    OtherSymbolsKeysA();
    OtherSymbolsKeysB();
    OtherSymbolsKeysC();
    OtherSymbolsKeysD();
    OtherSymbolsKeysE();
    OtherSymbolsKeysF();
  }

  lemma OtherSymbolsKeysA()
    ensures forall i | 0 <= i < 8 :: CommandKey(OtherSymbols[i].0)
  {
  }

  lemma OtherSymbolsKeysB()
    ensures forall i | 8 <= i < 16 :: CommandKey(OtherSymbols[i].0)
  {
  }

  lemma OtherSymbolsKeysC()
    ensures forall i | 16 <= i < 24 :: CommandKey(OtherSymbols[i].0)
  {
  }

  lemma OtherSymbolsKeysD()
    ensures forall i | 24 <= i < 32 :: CommandKey(OtherSymbols[i].0)
  {
  }

  lemma OtherSymbolsKeysE()
    ensures forall i | 32 <= i < 40 :: CommandKey(OtherSymbols[i].0)
  {
  }

  lemma OtherSymbolsKeysF()
    ensures forall i | 40 <= i < 44 :: CommandKey(OtherSymbols[i].0)
  {
  }

  lemma OtherSymbolsNotKeys()
    ensures forall i | 0 <= i < |OtherSymbols| :: OtherSymbols[i].0 !in NotKeys
  {
    OtherSymbolsNotKeysA();
    OtherSymbolsNotKeysB();
    OtherSymbolsNotKeysC();
  }

  lemma OtherSymbolsNotKeysA()
    ensures forall i | 0 <= i < 15 :: OtherSymbols[i].0 !in NotKeys
  {
  }

  lemma OtherSymbolsNotKeysB()
    ensures forall i | 15 <= i < 30 :: OtherSymbols[i].0 !in NotKeys
  {
  }

  lemma OtherSymbolsNotKeysC()
    ensures forall i | 30 <= i < 44 :: OtherSymbols[i].0 !in NotKeys
  {
  }

  lemma OtherSymbolsFacts()
    ensures forall i | 0 <= i < |OtherSymbols| :: OtherSymbols[i].0 !in {"\\le", "\\lim", "\\setminus"}
  {
  }

  lemma OtherSymbolsDuplicates()
    ensures OtherSymbols[1] == ("\\circ", "°")
    ensures forall l | 1 < l < |OtherSymbols| :: OtherSymbols[l].0 != "\\circ"
  {
  }

  lemma GroupWellFormed(g: seq<Entry>)
    requires forall i | 0 <= i < |g| :: CommandKey(g[i].0) && g[i].0 !in NotKeys
    ensures KeysWellFormed(g)
  {
  }

  lemma NoKeyIn(g: seq<Entry>, k: string)
    requires forall i | 0 <= i < |g| :: g[i].0 != k
    ensures !HasKey(g, k)
  {
  }

  /** Every key of the table is a backslash followed by ASCII letters, and
      none is in `NotKeys`. */
  lemma TableWellFormed()
    ensures KeysWellFormed(MacroPairs)
  {
    GreekLowercaseKeys(); GreekLowercaseNotKeys(); GroupWellFormed(GreekLowercase);
    GreekUppercaseKeys(); GreekUppercaseNotKeys(); GroupWellFormed(GreekUppercase);
    MathSymbolsKeys(); MathSymbolsNotKeys(); GroupWellFormed(MathSymbols);
    AccentArrowsKeys(); AccentArrowsNotKeys(); GroupWellFormed(AccentArrows);
    ComparisonKeys(); ComparisonNotKeys(); GroupWellFormed(Comparison);
    LogicKeys(); LogicNotKeys(); GroupWellFormed(Logic);
    SetTheoryKeys(); SetTheoryNotKeys(); GroupWellFormed(SetTheory);
    CalculusKeys(); CalculusNotKeys(); GroupWellFormed(Calculus);
    ArrowsKeys(); ArrowsNotKeys(); GroupWellFormed(Arrows);
    HarpoonsKeys(); HarpoonsNotKeys(); GroupWellFormed(Harpoons);
    LongArrowsKeys(); LongArrowsNotKeys(); GroupWellFormed(LongArrows);
    DoubleArrowsKeys(); DoubleArrowsNotKeys(); GroupWellFormed(DoubleArrows);
    RelationsKeys(); RelationsNotKeys(); GroupWellFormed(Relations);
    OperatorsKeys(); OperatorsNotKeys(); GroupWellFormed(Operators);
    BracketsKeys(); BracketsNotKeys(); GroupWellFormed(Brackets);
    OtherSymbolsKeys(); OtherSymbolsNotKeys(); GroupWellFormed(OtherSymbols);
    FlattenWellFormed(MacroGroups);
  }

  /** A key listed twice keeps its later value: `\circ` gives "°", not "∘",
      and `\setminus` gives "∖", not a backslash; `\le` and `\lim` give "≤"
      and "lim". */
  lemma DuplicatesKeepLaterValue()
    ensures HasKey(MacroPairs, "\\circ") && LastValue(MacroPairs, "\\circ") == "°"
    ensures HasKey(MacroPairs, "\\setminus") && LastValue(MacroPairs, "\\setminus") == "∖"
    ensures HasKey(MacroPairs, "\\le") && LastValue(MacroPairs, "\\le") == "≤"
    ensures HasKey(MacroPairs, "\\lim") && LastValue(MacroPairs, "\\lim") == "lim"
  {
    CircValue();
    SetminusValue();
    LessEqualValue();
    LimValue();
  }

  lemma CircValue()
    ensures HasKey(MacroPairs, "\\circ") && LastValue(MacroPairs, "\\circ") == "°"
  {
    OtherSymbolsDuplicates();
    LastIndexIs(OtherSymbols, "\\circ", 1);
    LastValueFlatten(MacroGroups, 15, "\\circ");
  }

  lemma SetminusValue()
    ensures HasKey(MacroPairs, "\\setminus") && LastValue(MacroPairs, "\\setminus") == "∖"
  {
    SetminusInGroup();
    SetminusNotLater();
    LastValueFlatten(MacroGroups, 6, "\\setminus");
  }

  lemma SetminusInGroup()
    ensures MacroGroups[6] == SetTheory
    ensures HasKey(SetTheory, "\\setminus") && LastValue(SetTheory, "\\setminus") == "∖"
  {
    SetTheoryDuplicates();
    LastIndexIs(SetTheory, "\\setminus", 17);
  }

  lemma SetminusNotLater()
    ensures forall l | 6 < l < |MacroGroups| :: !HasKey(MacroGroups[l], "\\setminus")
  {
    CalculusFacts(); NoKeyIn(Calculus, "\\setminus");
    ArrowsFacts(); NoKeyIn(Arrows, "\\setminus");
    HarpoonsFacts(); NoKeyIn(Harpoons, "\\setminus");
    LongArrowsFacts(); NoKeyIn(LongArrows, "\\setminus");
    DoubleArrowsFacts(); NoKeyIn(DoubleArrows, "\\setminus");
    RelationsFacts(); NoKeyIn(Relations, "\\setminus");
    OperatorsFacts(); NoKeyIn(Operators, "\\setminus");
    BracketsFacts(); NoKeyIn(Brackets, "\\setminus");
    OtherSymbolsFacts(); NoKeyIn(OtherSymbols, "\\setminus");
  }

  lemma LessEqualValue()
    ensures HasKey(MacroPairs, "\\le") && LastValue(MacroPairs, "\\le") == "≤"
  {
    LessEqualInGroup();
    LessEqualNotLater();
    LastValueFlatten(MacroGroups, 12, "\\le");
  }

  lemma LessEqualInGroup()
    ensures MacroGroups[12] == Relations
    ensures HasKey(Relations, "\\le") && LastValue(Relations, "\\le") == "≤"
  {
    RelationsDuplicates();
    LastIndexIs(Relations, "\\le", 1);
  }

  lemma LessEqualNotLater()
    ensures forall l | 12 < l < |MacroGroups| :: !HasKey(MacroGroups[l], "\\le")
  {
    OperatorsFacts(); NoKeyIn(Operators, "\\le");
    BracketsFacts(); NoKeyIn(Brackets, "\\le");
    OtherSymbolsFacts(); NoKeyIn(OtherSymbols, "\\le");
  }

  lemma LimValue()
    ensures HasKey(MacroPairs, "\\lim") && LastValue(MacroPairs, "\\lim") == "lim"
  {
    LimInGroup();
    LimNotLater();
    LastValueFlatten(MacroGroups, 7, "\\lim");
  }

  lemma LimInGroup()
    ensures MacroGroups[7] == Calculus
    ensures HasKey(Calculus, "\\lim") && LastValue(Calculus, "\\lim") == "lim"
  {
    CalculusDuplicates();
    LastIndexIs(Calculus, "\\lim", 3);
  }

  lemma LimNotLater()
    ensures forall l | 7 < l < |MacroGroups| :: !HasKey(MacroGroups[l], "\\lim")
  {
    ArrowsFacts(); NoKeyIn(Arrows, "\\lim");
    HarpoonsFacts(); NoKeyIn(Harpoons, "\\lim");
    LongArrowsFacts(); NoKeyIn(LongArrows, "\\lim");
    DoubleArrowsFacts(); NoKeyIn(DoubleArrows, "\\lim");
    RelationsFacts(); NoKeyIn(Relations, "\\lim");
    OperatorsFacts(); NoKeyIn(Operators, "\\lim");
    BracketsFacts(); NoKeyIn(Brackets, "\\lim");
    OtherSymbolsFacts(); NoKeyIn(OtherSymbols, "\\lim");
  }

  // ---------------------------------------------------------------------
  // The pass over the real table.

  /** The entries in the order the macro pass applies them. */
  function MacroOrder(): (r: seq<Entry>)
    ensures UniqueKeys(r) && ByDescendingKeyLength(r) && NonEmptyKeys(r)
    ensures forall k :: HasKey(r, k) <==> HasKey(MacroPairs, k)
    ensures forall i | 0 <= i < |r| ::
      CommandKey(r[i].0) && r[i].0 !in NotKeys &&
      HasKey(MacroPairs, r[i].0) && r[i].1 == LastValue(MacroPairs, r[i].0)
  {
    TableWellFormed();
    OrderOf(MacroPairs);
    SortByKeyLength(MapOf(MacroPairs))
  }

  /** Any table with well-formed keys, deduplicated and sorted longest key
      first, keeps its keys, each with its last value. */
  lemma OrderOf(pairs: seq<Entry>)
    requires KeysWellFormed(pairs)
    ensures var r := SortByKeyLength(MapOf(pairs));
      && UniqueKeys(r) && ByDescendingKeyLength(r) && NonEmptyKeys(r)
      && (forall k :: HasKey(r, k) <==> HasKey(pairs, k))
      && forall i | 0 <= i < |r| ::
           CommandKey(r[i].0) && r[i].0 !in NotKeys &&
           HasKey(pairs, r[i].0) && r[i].1 == LastValue(pairs, r[i].0)
  {
    var m := MapOf(pairs);
    var r := SortByKeyLength(m);
    MapOfKeys(pairs);
    SortKeys(m);
    MapOfValues(pairs);
    forall i | 0 <= i < |r|
      ensures CommandKey(r[i].0) && r[i].0 !in NotKeys
      ensures HasKey(pairs, r[i].0) && r[i].1 == LastValue(pairs, r[i].0)
    {
      PermutationMember(r, m, i);
      var j :| 0 <= j < |m| && m[j] == r[i];
      var l :| 0 <= l < |pairs| && pairs[l].0 == m[j].0;
    }
  }

  /** The replacement loop of `preprocessMathFormula`: each entry in turn,
      longest key first. */
  method ApplyMacros(formula: string) returns (result: string)
    ensures result == ApplyAll(formula, MacroOrder())
  {
    var order := MacroOrder();
    result := formula;
    for i := 0 to |order|
      invariant NonEmptyKeys(order[i..])
      invariant ApplyAll(result, order[i..]) == ApplyAll(formula, order)
    {
      assert order[i..][1..] == order[i + 1..];
      result := ReplaceAll(result, order[i].0, order[i].1);
    }
    assert order[|order|..] == [];
  }

  /** A command key occurs in `s` only at a backslash, within the run of
      letters that follows it. */
  lemma CommandOccurrence(s: string, k: string) returns (p: nat)
    requires CommandKey(k) && Contains(s, k)
    ensures p < |s| && s[p] == '\\' && |k| <= 1 + LetterRun(s, p + 1) && k == s[p..p + |k|]
  {
    var q :| 0 <= q <= |s| - |k| && OccursAt(s, k, q);
    p := q;
    assert s[p] == k[0];
    forall j | p + 1 <= j < p + |k| ensures IsLetter(s[j]) {
      assert s[j] == k[j - p];
    }
    LetterRunAtLeast(s, p + 1, |k| - 1);
  }

  lemma {:induction false} LetterRunAtLeast(s: string, i: nat, m: nat)
    requires i + m <= |s| && forall j | i <= j < i + m :: IsLetter(s[j])
    ensures m <= LetterRun(s, i)
    decreases m
  {
    if m > 0 {
      LetterRunAtLeast(s, i + 1, m - 1);
    }
  }

  /** A text in which no key of the table occurs passes unchanged. */
  lemma MacroPassNone(s: string)
    requires forall key | CommandKey(key) && key !in NotKeys :: !Contains(s, key)
    ensures ApplyAll(s, MacroOrder()) == s
  {
    ApplyAllAbsent(s, MacroOrder());
  }

  /** A text in which only the key `k` occurs, and in which no other key
      occurs after `k` is replaced, goes through exactly that replacement. */
  lemma MacroPassOne(s: string, k: string, t: string)
    requires HasKey(MacroPairs, k) && k != [] && t == ReplaceAll(s, k, LastValue(MacroPairs, k))
    requires forall key | CommandKey(key) && key !in NotKeys && key != k :: !Contains(s, key)
    requires forall key | CommandKey(key) && key !in NotKeys && key != k :: !Contains(t, key)
    ensures ApplyAll(s, MacroOrder()) == t
  {
    var order := MacroOrder();
    var j :| 0 <= j < |order| && order[j].0 == k;
    ApplyAllOne(s, order, j, t);
  }

  lemma NoBackslashNoKey(t: string, key: string)
    requires '\\' !in t && CommandKey(key)
    ensures !Contains(t, key)
  {
    forall q | 0 <= q <= |t| - |key| ensures !OccursAt(t, key, q) {
      assert t[q] in t;
      assert t[q..q + |key|][0] == t[q];
    }
  }

  lemma BiggKeys(key: string)
    requires CommandKey(key)
    ensures Contains("\\bigg(", key) ==> key in NotKeys
  {
    var s := "\\bigg(";
    if Contains(s, key) {
      var p := CommandOccurrence(s, key);
      assert p == 0;
      assert LetterRun(s, 1) == 4;
      assert s[..2] == "\\b" && s[..3] == "\\bi" && s[..4] == "\\big" && s[..5] == "\\bigg";
    }
  }

  /** Nor in `\bigg(`: `handleBrackets` receives it intact. */
  lemma MacrosKeepBigg()
    ensures ApplyAll("\\bigg(", MacroOrder()) == "\\bigg("
  {
    forall key | CommandKey(key) && key !in NotKeys ensures !Contains("\\bigg(", key) {
      BiggKeys(key);
    }
    MacroPassNone("\\bigg(");
  }

  lemma SplitRootKeys(key: string)
    requires CommandKey(key)
    ensures Contains("\\sq\\text{rt}{x}", key) ==> key in NotKeys
  {
    var s := "\\sq\\text{rt}{x}";
    if Contains(s, key) {
      var p := CommandOccurrence(s, key);
      assert p == 0 || p == 3;
      SplitRootAt(key, p);
    }
  }

  lemma SplitRootAt(key: string, p: nat)
    requires var s := "\\sq\\text{rt}{x}";
      (p == 0 || p == 3) && |key| >= 2 && |key| <= 1 + LetterRun(s, p + 1) && key == s[p..p + |key|]
    ensures key in NotKeys
  {
    var s := "\\sq\\text{rt}{x}";
    if p == 0 {
      assert LetterRun(s, 1) == 2 by {
        assert s[3] == '\\';
      }
      assert s[..2] == "\\s" && s[..3] == "\\sq";
    } else {
      assert LetterRun(s, 4) == 4 by {
        assert s[8] == '{';
      }
      assert s[3..5] == "\\t" && s[3..6] == "\\te" && s[3..7] == "\\tex" && s[3..8] == "\\text";
    }
  }

  /** Nor in `\sq\text{rt}{x}`, which `handleTextCommand` later turns into
      `\sqrt{x}`. */
  lemma MacrosKeepSplitRoot()
    ensures ApplyAll("\\sq\\text{rt}{x}", MacroOrder()) == "\\sq\\text{rt}{x}"
  {
    forall key | CommandKey(key) && key !in NotKeys ensures !Contains("\\sq\\text{rt}{x}", key) {
      SplitRootKeys(key);
    }
    MacroPassNone("\\sq\\text{rt}{x}");
  }

  lemma LeftKeys(key: string)
    requires CommandKey(key)
    ensures Contains("\\left(", key) ==> key in NotKeys || key == "\\le"
  {
    var s := "\\left(";
    if Contains(s, key) {
      var p := CommandOccurrence(s, key);
      assert p == 0;
      assert LetterRun(s, 1) == 4;
      assert s[..2] == "\\l" && s[..3] == "\\le" && s[..4] == "\\lef" && s[..5] == "\\left";
    }
  }

  lemma LeftReplaced()
    ensures ReplaceAll("\\left(", "\\le", "≤") == "≤ft("
  {
    var s := "\\left(";
    assert s[..3] == "\\le" && s[3..] == "ft(";
    calc {
      ReplaceAll("ft(", "\\le", "≤");
      { assert "ft("[..3] != "\\le" && "ft("[1..] == "t("; }
      "f" + ReplaceAll("t(", "\\le", "≤");
    }
  }

  /** `\le` is a key and `\left` is not, so `\left(` loses its command
      before `handleBrackets` can remove it. */
  lemma LeftBecomesLessEqual()
    ensures ApplyAll("\\left(", MacroOrder()) == "≤ft("
  {
    LessEqualValue();
    LeftReplaced();
    forall key | CommandKey(key) && key !in NotKeys && key != "\\le" ensures !Contains("\\left(", key) {
      LeftKeys(key);
    }
    forall key | CommandKey(key) && key !in NotKeys && key != "\\le" ensures !Contains("≤ft(", key) {
      NoBackslashNoKey("≤ft(", key);
    }
    MacroPassOne("\\left(", "\\le", "≤ft(");
  }

  lemma EscapedLimKeys(key: string)
    requires CommandKey(key)
    ensures Contains("\\\\lim_{x}", key) ==> key in NotKeys || key == "\\lim"
  {
    var s := "\\\\lim_{x}";
    if Contains(s, key) {
      var p := CommandOccurrence(s, key);
      assert p == 0 || p == 1;
      assert LetterRun(s, 1) == 0;
      assert LetterRun(s, 2) == 3;
      assert s[1..3] == "\\l" && s[1..4] == "\\li" && s[1..5] == "\\lim";
    }
  }

  lemma LimKeys(key: string)
    requires CommandKey(key)
    ensures Contains("\\lim_{x}", key) ==> key in NotKeys || key == "\\lim"
  {
    var t := "\\lim_{x}";
    if Contains(t, key) {
      var p := CommandOccurrence(t, key);
      assert p == 0;
      assert LetterRun(t, 1) == 3;
      assert t[..2] == "\\l" && t[..3] == "\\li" && t[..4] == "\\lim";
    }
  }

  lemma EscapedLimReplaced()
    ensures ReplaceAll("\\\\lim_{x}", "\\lim", "lim") == "\\lim_{x}"
  {
    var s, t := "\\\\lim_{x}", "\\lim_{x}";
    assert s[..4] != "\\lim" && s[1..] == t;
    assert t[..4] == "\\lim" && t[4..] == "_{x}";
    assert "_{x}"[..4] != "\\lim" && "_{x}"[1..] == "{x}";
  }

  /** An escaped backslash before `lim` survives as a command: the pass turns
      `\\lim_{x}` into `\lim_{x}`, which `handleLimitsAndOperators` then
      matches. */
  lemma DoubleBackslashLim()
    ensures ApplyAll("\\\\lim_{x}", MacroOrder()) == "\\lim_{x}"
  {
    LimValue();
    EscapedLimReplaced();
    forall key | CommandKey(key) && key !in NotKeys && key != "\\lim" ensures !Contains("\\\\lim_{x}", key) {
      EscapedLimKeys(key);
    }
    forall key | CommandKey(key) && key !in NotKeys && key != "\\lim" ensures !Contains("\\lim_{x}", key) {
      LimKeys(key);
    }
    MacroPassOne("\\\\lim_{x}", "\\lim", "\\lim_{x}");
  }
}

=== FILE: markdown_nodes.dfy ===
/** The Markdown syntax tree: one constructor per node class of the parser. */
module MarkdownNodes {
  import opened Wrappers

  datatype TextStyle = Normal | Bold | Italic | BoldItalic | Code | Strikethrough | Underline

  /** A list item; `checked` is absent for an item that is not a task. */
  datatype Item = Item(children: seq<Node>, checked: Option<bool>)

  datatype Node =
    | Paragraph(children: seq<Node>)
    | Heading(level: nat, children: seq<Node>)
    | TextNode(text: string, style: TextStyle)
    | Link(url: string, children: seq<Node>)
    | Image(url: string, altText: string)
    | Audio(url: string)
    | Video(url: string)
    | ListItem(item: Item)
    | UnorderedList(items: seq<Item>)
    | OrderedList(items: seq<Item>, startIndex: int)
    | CodeBlock(code: string, language: string)
    | Blockquote(children: seq<Node>)
    | HorizontalRule
    | Table(headers: seq<Node>, rows: seq<seq<Node>>)
      /** Formula nodes the renderer handles; no parser rule builds them. */
    | MathFormula(formula: string, isBlock: bool)
    | ChemicalFormula(formula: string)
}

=== FILE: math_examples.dfy ===
/** What `preprocessMathFormula` makes of a few inputs, end to end. These are
    the inputs on which the handlers after the macro pass behave otherwise
    than their names suggest. */
module MathExamples {
  import opened Wrappers
  import opened Text
  import opened FormulaTables
  import opened FormulaPatterns
  import opened Macros
  import opened Formula
  import opened FormulaExamples
  import opened ChemicalExamples

  /** A pattern whose fixed start holds a character the text lacks never
      matches in it. */
  lemma NoLeadNoMatch(s: string, p: Pattern, c: char)
    requires c !in s && c in Lead(p)
    ensures !ContainsMatch(s, p) && Replace(s, p, Unwrap) == s
  {
    var lead := Lead(p);
    var k :| 0 <= k < |lead| && lead[k] == c;
    AbsentChar(s, lead, k);
    forall i | 0 <= i < |s| ensures MatchAt(p, s[i..]).None? {
      MatchLead(p, s[i..]);
      if i + |lead| <= |s| {
        assert !OccursAt(s, lead, i);
        assert s[i..][..|lead|] == s[i..i + |lead|];
      }
    }
    ReplaceNoLead(s, p, Unwrap);
  }

  /** Rules whose fixed starts all hold a character the text lacks leave it
      as it is. */
  lemma RulesFixedBy(s: string, rules: seq<(Pattern, Rewrite)>, c: char)
    requires c !in s && forall j | 0 <= j < |rules| :: c in Lead(rules[j].0)
    ensures ReplaceEach(s, rules) == s
  {
    forall j | 0 <= j < |rules| ensures Lead(rules[j].0) != [] && !Contains(s, Lead(rules[j].0)) {
      var lead := Lead(rules[j].0);
      var k :| 0 <= k < |lead| && lead[k] == c;
      AbsentChar(s, lead, k);
    }
    ReplaceEachFixed(s, rules);
  }

  /** Replacements whose keys all hold a character the text lacks leave it as
      it is. */
  lemma PairsFixedBy(s: string, pairs: seq<(string, string)>, c: char)
    requires NonEmptyKeys(pairs)
    requires c !in s && forall j | 0 <= j < |pairs| :: c in pairs[j].0
    ensures ApplyAll(s, pairs) == s
  {
    forall j | 0 <= j < |pairs| ensures !Contains(s, pairs[j].0) {
      var k :| 0 <= k < |pairs[j].0| && pairs[j].0[k] == c;
      AbsentChar(s, pairs[j].0, k);
    }
    ApplyAllAbsent(s, pairs);
  }

  /** No backslash, underscore or caret. */
  predicate NoMarkup(s: string) {
    '\\' !in s && '_' !in s && '^' !in s
  }

  lemma BackslashLeads()
    ensures forall j | 0 <= j < |FontRules| :: '\\' in Lead(FontRules[j].0)
    ensures forall j | 0 <= j < |MatrixRules| :: '\\' in Lead(MatrixRules[j].0)
    ensures forall j | 0 <= j < |LimitRules| :: '\\' in Lead(LimitRules[j].0)
    ensures forall j | 0 <= j < |AccentRules| :: '\\' in Lead(AccentRules[j].0)
    ensures forall j | 0 <= j < |BracketPairs| :: '\\' in BracketPairs[j].0
  {
  }

  lemma FontsKeep(s: string)
    requires '\\' !in s
    ensures MathFonts(s) == s
  {
    BackslashLeads();
    RulesFixedBy(s, FontRules, '\\');
  }

  lemma MatricesKeep(s: string)
    requires '\\' !in s
    ensures CasesEnvironment(Matrices(s)) == s
  {
    assert Matrices(s) == s by {
      BackslashLeads();
      RulesFixedBy(s, MatrixRules, '\\');
    }
    CasesKeep(s);
  }

  lemma CasesKeep(s: string)
    requires '\\' !in s
    ensures CasesEnvironment(s) == s
  {
    assert '\\' in Lead(Environment("cases"));
    NoLeadNoMatch(s, Environment("cases"), '\\');
    ReplaceNoMatch(s, Environment("cases"), Cases);
  }

  lemma FractionsKeep(s: string)
    requires '\\' !in s
    ensures Fractions(s) == s
  {
    AbsentChar(s, "\\frac{", 0);
  }

  lemma RootsKeep(s: string)
    requires '\\' !in s
    ensures Roots(s) == s
  {
    NoLeadNoMatch(s, SquareRoot, '\\');
    AbsentChar(s, "\\sqrt[", 0);
    ReplaceNoLead(s, IndexedRoot, RootWithIndex);
  }

  lemma LimitsKeep(s: string)
    requires '\\' !in s
    ensures Limits(s) == s
  {
    BackslashLeads();
    RulesFixedBy(s, LimitRules, '\\');
  }

  lemma ScriptsKeep(s: string)
    requires '_' !in s && '^' !in s
    ensures Superscripts(Subscripts(s)) == s
  {
    ScriptRulesOf();
    ScriptsAbsent(s, '_', false, Subscript);
    ScriptsAbsent(s, '^', true, Superscript);
  }

  lemma BracketsAccentsKeep(s: string)
    requires '\\' !in s
    ensures Accents(Formula.Brackets(s)) == s
  {
    BackslashLeads();
    PairsFixedBy(s, BracketPairs, '\\');
    RulesFixedBy(s, AccentRules, '\\');
  }

  /** Every handler leaves a text without markup as it is. */
  lemma HandlersKeepPlain(s: string)
    requires NoMarkup(s)
    ensures Handlers(s) == s
  {
    FontsKeep(s);
    NoLeadNoMatch(s, TextCommand, '\\');
    MatricesKeep(s);
    FractionsKeep(s);
    RootsKeep(s);
    LimitsKeep(s);
    ScriptsKeep(s);
    BracketsAccentsKeep(s);
  }

  /** No brace and no whitespace. */
  predicate Settled(s: string) {
    '{' !in s && '}' !in s && forall i | 0 <= i < |s| :: !IsWhitespace(s[i])
  }

  /** The clean-up leaves a settled text without backslash as it is. */
  lemma CleanupKeepsSettled(s: string)
    requires '\\' !in s && Settled(s)
    ensures Cleanup(s) == s
  {
    assert Unbraced(s) == s by { UnbracedTrimmed(s); }
    assert Spacing(s) == s by { SpacingKeeps(s); }
    assert Replace(s, CommandName, Constant("")) == s by {
      AbsentChar(s, "\\", 0);
      ReplaceNoLead(s, CommandName, Constant(""));
    }
    assert Replace(s, WhitespaceRun, Constant(" ")) == s by { NoWhitespaceRun(s, Constant(" ")); }
    UnbracedTrimmed(s);
  }

  lemma SpacingKeeps(s: string)
    requires '\\' !in s
    ensures Spacing(s) == s
  {
    AbsentChar(s, "\\,", 0); ReplaceAbsent(s, "\\,", " ");
    AbsentChar(s, "\\;", 0); ReplaceAbsent(s, "\\;", " ");
    AbsentChar(s, "\\:", 0); ReplaceAbsent(s, "\\:", " ");
    AbsentChar(s, "\\!", 0); ReplaceAbsent(s, "\\!", "");
    AbsentChar(s, "\\quad", 0); ReplaceAbsent(s, "\\quad", "  ");
    AbsentChar(s, "\\qquad", 0); ReplaceAbsent(s, "\\qquad", "    ");
  }

  /** `preprocessMathFormula` is the handlers and the clean-up after the
      macro pass. */
  lemma AfterMacros(formula: string, t: string)
    requires ApplyAll(formula, MacroOrder()) == t
    ensures PreprocessMath(formula) == Cleanup(Handlers(t))
  {
  }

  lemma LeftPlain()
    ensures NoMarkup("≤ft(") && Settled("≤ft(")
  {
  }

  /** `\left(` comes out as `≤ft(`: the macro pass replaces its `\le`, and
      nothing later undoes it. */
  lemma LeftEndToEnd()
    ensures PreprocessMath("\\left(") == "≤ft("
  {
    LeftBecomesLessEqual();
    AfterMacros("\\left(", "≤ft(");
    LeftPlain();
    HandlersKeepPlain("≤ft(");
    CleanupKeepsSettled("≤ft(");
  }

  /** The font commands all hold an `m`. */
  lemma FontsKeepM(s: string)
    requires 'm' !in s
    ensures MathFonts(s) == s
  {
    assert forall j | 0 <= j < |FontRules| :: 'm' in Lead(FontRules[j].0);
    RulesFixedBy(s, FontRules, 'm');
  }

  /** The environments all hold an `e`. */
  lemma EnvironmentsKeepE(s: string)
    requires 'e' !in s
    ensures CasesEnvironment(Matrices(s)) == s
  {
    assert Matrices(s) == s by {
      assert forall j | 0 <= j < |MatrixRules| :: 'e' in Lead(MatrixRules[j].0);
      RulesFixedBy(s, MatrixRules, 'e');
    }
    assert 'e' in Lead(Environment("cases"));
    NoLeadNoMatch(s, Environment("cases"), 'e');
    ReplaceNoMatch(s, Environment("cases"), Cases);
  }

  /** Both root patterns hold an `s`. */
  /** `\frac{` holds an `f`. */
  lemma FractionsKeepF(s: string)
    requires 'f' !in s
    ensures Fractions(s) == s
  {
    var p := "\\frac{";
    assert p[1] == 'f';
    AbsentChar(s, p, 1);
  }

  lemma RootsKeepS(s: string)
    requires 's' !in s
    ensures Roots(s) == s
  {
    NoLeadNoMatch(s, SquareRoot, 's');
    AbsentChar(s, "\\sqrt[", 1);
    ReplaceNoLead(s, IndexedRoot, RootWithIndex);
  }

  /** The big operators all hold an `_`. */
  lemma LimitsKeepUnderscore(s: string)
    requires '_' !in s
    ensures Limits(s) == s
  {
    assert forall j | 0 <= j < |LimitRules| :: '_' in Lead(LimitRules[j].0);
    RulesFixedBy(s, LimitRules, '_');
  }

  /** The handlers before the bracket pass leave a text with no `m`, `t`,
      `e`, `f`, `s`, `_` or `^` as it is: every pattern they look for holds
      one of these. */
  lemma EarlyHandlersKeep(s: string)
    requires 'm' !in s && 't' !in s && 'e' !in s && 'f' !in s && 's' !in s && '_' !in s && '^' !in s
    ensures Superscripts(Subscripts(Limits(Roots(Fractions(CasesEnvironment(Matrices(UnwrapText(MathFonts(s))))))))) == s
  {
    FontsKeepM(s);
    NoLeadNoMatch(s, TextCommand, 't');
    EnvironmentsKeepE(s);
    FractionsKeepF(s);
    RootsKeepS(s);
    LimitsKeepUnderscore(s);
    ScriptsKeep(s);
  }

  /** `\big` is replaced before `\bigg`: the bracket pass turns `\bigg(`
      into `g(`. */
  lemma BiggBrackets()
    ensures Formula.Brackets("\\bigg(") == "g("
  {
    BiggBeforeBig();
    BigStripped();
    BiggAfterBig();
    assert NonEmptyKeys(BracketPairs);
    assert "g(" == ReplaceAll("\\bigg(", BracketPairs[2].0, BracketPairs[2].1);
    ApplyAllOne("\\bigg(", BracketPairs, 2, "g(");
  }

  /** `\left` and `\right` do not occur in `\bigg(`. */
  lemma BiggBeforeBig()
    ensures forall i | 0 <= i < 2 :: !Contains("\\bigg(", BracketPairs[i].0)
  {
    AbsentChar("\\bigg(", "\\left", 1);
    AbsentChar("\\bigg(", "\\right", 1);
  }

  lemma BigStripped()
    ensures ReplaceAll("\\bigg(", BracketPairs[2].0, BracketPairs[2].1) == "g("
  {
    var s := "\\bigg(";
    assert s[..4] == "\\big" && s[4..] == "g(";
    assert "g("[1..] == "(";
  }

  /** No later bracket command occurs in `g(`. */
  lemma BiggAfterBig()
    ensures forall j | 2 < j < |BracketPairs| :: !Contains("g(", BracketPairs[j].0)
  {
    forall j | 2 < j < |BracketPairs| ensures !Contains("g(", BracketPairs[j].0) {
      AbsentChar("g(", BracketPairs[j].0, 0);
    }
  }

  lemma BiggPlain()
    ensures NoMarkup("g(") && Settled("g(")
  {
  }

  /** When the handlers before the bracket pass keep `s`, the handlers
      amount to the bracket pass followed by the accent pass. */
  lemma LateHandlers(s: string, b: string, out: string)
    requires Superscripts(Subscripts(Limits(Roots(Fractions(CasesEnvironment(Matrices(UnwrapText(MathFonts(s))))))))) == s
    requires Formula.Brackets(s) == b && Accents(b) == out
    ensures Handlers(s) == out
  {
  }

  lemma BiggAccents()
    ensures Accents("g(") == "g("
  {
    BackslashLeads();
    RulesFixedBy("g(", AccentRules, '\\');
  }

  lemma BiggHandlers()
    ensures Handlers("\\bigg(") == "g("
  {
    EarlyHandlersKeep("\\bigg(");
    BiggBrackets();
    BiggAccents();
    LateHandlers("\\bigg(", "g(", "g(");
  }

  /** So `\bigg(` comes out of `preprocessMathFormula` as `g(`. */
  lemma BiggEndToEnd()
    ensures PreprocessMath("\\bigg(") == "g("
  {
    MacrosKeepBigg();
    AfterMacros("\\bigg(", "\\bigg(");
    BiggHandlers();
    BiggPlain();
    CleanupKeepsSettled("g(");
  }

  // ---------------------------------------------------------------------
  // `\frac{a}{b}`: the fraction handler leaves it, the clean-up strips it.

  /** `s` opens with a backslash and `c`, and has no other backslash. */
  predicate SoleCommand(s: string, c: char) {
    |s| >= 2 && s[0] == '\\' && s[1] == c && '\\' !in s[1..]
  }

  /** `key` is a command whose first letter is not `c`. */
  predicate OtherCommand(key: string, c: char) {
    |key| >= 2 && key[0] == '\\' && key[1] != c
  }

  /** A text whose only command starts with `c` holds no other command. */
  lemma OneCommand(s: string, key: string, c: char)
    requires SoleCommand(s, c) && OtherCommand(key, c)
    ensures !Contains(s, key)
  {
    forall i | 0 <= i <= |s| - |key| ensures !OccursAt(s, key, i) {
      if i == 0 {
        assert s[i..i + |key|][1] == s[1];
      } else {
        assert s[i] == s[1..][i - 1];
        assert s[i..i + |key|][0] == s[i];
      }
    }
  }

  lemma OtherRulesKeep(s: string, rules: seq<(Pattern, Rewrite)>, c: char)
    requires SoleCommand(s, c) && forall j | 0 <= j < |rules| :: OtherCommand(Lead(rules[j].0), c)
    ensures ReplaceEach(s, rules) == s
  {
    forall j | 0 <= j < |rules| ensures Lead(rules[j].0) != [] && !Contains(s, Lead(rules[j].0)) {
      OneCommand(s, Lead(rules[j].0), c);
    }
    ReplaceEachFixed(s, rules);
  }

  /** No pattern of the handlers after the macro pass starts with `\f`. */
  lemma FontLeads()
    ensures forall j | 0 <= j < |FontRules| :: OtherCommand(Lead(FontRules[j].0), 'f')
  {
  }

  lemma MatrixLeads()
    ensures forall j | 0 <= j < |MatrixRules| :: OtherCommand(Lead(MatrixRules[j].0), 'f')
    ensures OtherCommand(Lead(Environment("cases")), 'f')
  {
  }

  lemma LimitLeads()
    ensures forall j | 0 <= j < |LimitRules| :: OtherCommand(Lead(LimitRules[j].0), 'f')
  {
  }

  lemma BracketAccentLeads()
    ensures forall j | 0 <= j < |BracketPairs| :: OtherCommand(BracketPairs[j].0, 'f')
    ensures forall j | 0 <= j < |AccentRules| :: OtherCommand(Lead(AccentRules[j].0), 'f')
  {
  }

  /** The only command is a `\frac` whose numerator does not open with a
      brace, and there is no `_` or `^`. */
  predicate FractionOnly(s: string) {
    |s| >= 7 && OccursAt(s, "\\frac{", 0) && '\\' !in s[1..] && s[6] != '{' && '_' !in s && '^' !in s
  }

  lemma FractionOnlySole(s: string)
    requires FractionOnly(s)
    ensures SoleCommand(s, 'f')
  {
    assert s[..6] == "\\frac{";
    assert s[0] == s[..6][0] && s[1] == s[..6][1];
  }

  lemma FractionOnlyFraction(s: string)
    requires FractionOnly(s)
    ensures Fractions(s) == s
  {
    assert OccursAt(s, "\\frac{", 0);
    FractionNeedsDoubleBrace(s);
  }

  /** The handlers up to the fraction pass leave such a text as it is. */
  lemma FractionOnlyEarly(s: string)
    requires FractionOnly(s)
    ensures Fractions(CasesEnvironment(Matrices(UnwrapText(MathFonts(s))))) == s
  {
    FractionOnlySole(s);
    SoleFractionFonts(s);
    SoleFractionText(s);
    SoleFractionEnvironments(s);
    FractionOnlyFraction(s);
  }

  lemma SoleFractionFonts(s: string)
    requires SoleCommand(s, 'f')
    ensures MathFonts(s) == s
  {
    FontLeads();
    OtherRulesKeep(s, FontRules, 'f');
  }

  lemma SoleFractionText(s: string)
    requires SoleCommand(s, 'f')
    ensures UnwrapText(s) == s
  {
    OneCommand(s, Lead(TextCommand), 'f');
    NoLeadOccurs(s, TextCommand);
  }

  lemma SoleFractionEnvironments(s: string)
    requires SoleCommand(s, 'f')
    ensures CasesEnvironment(Matrices(s)) == s
  {
    MatrixLeads();
    OtherRulesKeep(s, MatrixRules, 'f');
    OneCommand(s, Lead(Environment("cases")), 'f');
    ReplaceNoLead(s, Environment("cases"), Cases);
  }

  lemma FractionOnlyRoots(s: string)
    requires SoleCommand(s, 'f')
    ensures Roots(s) == s
  {
    OneCommand(s, Lead(SquareRoot), 'f');
    NoLeadOccurs(s, SquareRoot);
    OneCommand(s, "\\sqrt[", 'f');
    ReplaceNoLead(s, IndexedRoot, RootWithIndex);
  }

  /** Every handler leaves such a text as it is: the fraction handler looks
      for a second `{` right after `\frac{`, and no other handler looks for
      a command starting with `f`. */
  lemma FractionOnlyHandlers(s: string)
    requires FractionOnly(s)
    ensures Handlers(s) == s
  {
    FractionOnlyEarly(s);
    FractionOnlySole(s);
    FractionOnlyRoots(s);
    assert Limits(s) == s by { LimitLeads(); OtherRulesKeep(s, LimitRules, 'f'); }
    ScriptsKeep(s);
    FractionOnlyLate(s);
    LateHandlers(s, s, s);
  }

  lemma FractionOnlyLate(s: string)
    requires SoleCommand(s, 'f')
    ensures Formula.Brackets(s) == s && Accents(s) == s
  {
    BracketAccentLeads();
    forall j | 0 <= j < |BracketPairs| ensures !Contains(s, BracketPairs[j].0) {
      OneCommand(s, BracketPairs[j].0, 'f');
    }
    ApplyAllAbsent(s, BracketPairs);
    OtherRulesKeep(s, AccentRules, 'f');
  }

  /** The spacing commands are `\,`, `\;`, `\:`, `\!` and `\q…`. */
  lemma SpacingKeepsF(s: string)
    requires SoleCommand(s, 'f')
    ensures Spacing(s) == s
  {
    OneCommand(s, "\\,", 'f'); ReplaceAbsent(s, "\\,", " ");
    OneCommand(s, "\\;", 'f'); ReplaceAbsent(s, "\\;", " ");
    OneCommand(s, "\\:", 'f'); ReplaceAbsent(s, "\\:", " ");
    OneCommand(s, "\\!", 'f'); ReplaceAbsent(s, "\\!", "");
    OneCommand(s, "\\quad", 'f'); ReplaceAbsent(s, "\\quad", "  ");
    OneCommand(s, "\\qquad", 'f'); ReplaceAbsent(s, "\\qquad", "    ");
  }

  /** Removing both occurrences of a one-character key. */
  lemma RemoveTwice(x: string, y: string, z: string, k: string)
    requires |k| == 1 && k[0] !in x && k[0] !in y && k[0] !in z
    ensures ReplaceAll(x + k + y + k + z, k, "") == x + y + z
  {
    assert x + k + y + k + z == x + k + (y + k + z);
    RemoveOnce(x, k, y + k + z);
    RemoveOnce(y, k, z);
    assert z + [] == z;
    ReplaceAllPrefix(z, [], k, "");
  }

  /** Brace removal turns `\frac{a}{b}` into `\fracab`. */
  lemma FractionUnbraced(a: string, b: string)
    requires '{' !in a && '}' !in a && '{' !in b && '}' !in b
    ensures Unbraced("\\frac{" + a + "}{" + b + "}") == "\\frac" + a + b
  {
    var s := "\\frac{" + a + "}{" + b + "}";
    assert s == "\\frac" + "{" + (a + "}") + "{" + (b + "}");
    RemoveTwice("\\frac", a + "}", b + "}", "{");
    assert "\\frac" + (a + "}") + (b + "}") == ("\\frac" + a) + "}" + b + "}" + [];
    RemoveTwice("\\frac" + a, b, [], "}");
    assert "\\frac" + a + b + [] == "\\frac" + a + b;
  }

  /** No backslash, brace, script mark or whitespace. */
  predicate Bare(x: string) {
    '\\' !in x && '{' !in x && '}' !in x && '_' !in x && '^' !in x &&
    forall i | 0 <= i < |x| :: !IsWhitespace(x[i])
  }

  /** The only commands in `\frac{…` without another backslash are the
      prefixes of `\frac`, and none of them is a macro key. */
  lemma FractionMacroKey(s: string, key: string)
    requires FractionOnly(s) && CommandKey(key) && Contains(s, key)
    ensures key in NotKeys
  {
    FractionOnlySole(s);
    assert forall i | 1 <= i < |s| :: s[i] != '\\' by {
      forall i | 1 <= i < |s| ensures s[i] != '\\' {
        assert s[i] == s[1..][i - 1];
      }
    }
    var p := CommandOccurrence(s, key);
    assert s[..6] == "\\frac{";
    assert s[5] == '{';
    assert LetterRun(s, 5) == 0;
    assert LetterRun(s, 1) == 4;
    assert s[..2] == "\\f" && s[..3] == "\\fr" && s[..4] == "\\fra" && s[..5] == "\\frac";
  }

  lemma FractionMacros(s: string)
    requires FractionOnly(s)
    ensures ApplyAll(s, MacroOrder()) == s
  {
    forall key | CommandKey(key) && key !in NotKeys ensures !Contains(s, key) {
      if Contains(s, key) {
        FractionMacroKey(s, key);
      }
    }
    MacroPassNone(s);
  }

  /** The unknown-command pass removes `\frac` and the letters that follow
      it; a numerator that does not start with a letter ends the name. */
  lemma FractionCommandRemoved(a: string, b: string)
    requires a != [] && !IsLetter(a[0]) && '\\' !in a + b
    ensures Replace("\\frac" + a + b, CommandName, Constant("")) == a + b
  {
    var t := "\\frac" + a + b;
    FracCommandMatch(a, b);
    ReplaceHit(t, CommandName, Constant(""), Match([t[1..5]], 5));
    assert Rewritten(Constant(""), [t[1..5]]) == "";
    AbsentChar(a + b, "\\", 0);
    ReplaceNoLead(a + b, CommandName, Constant(""));
    assert "" + (a + b) == a + b;
  }

  /** The command-name pattern matches exactly `\frac` at the front. */
  lemma FracCommandMatch(a: string, b: string)
    requires a != [] && !IsLetter(a[0])
    ensures var t := "\\frac" + a + b;
      t[5..] == a + b && MatchAt(CommandName, t) == Some(Match([t[1..5]], 5))
  {
    var t := "\\frac" + a + b;
    assert t[..5] == "\\frac" && t[5] == a[0] && t[5..] == a + b;
    assert LetterRun(t, 5) == 0;
    assert LetterRun(t, 1) == 4;
  }

  lemma FractionCleanup(a: string, b: string)
    requires Bare(a) && Bare(b) && a != [] && !IsLetter(a[0])
    ensures Cleanup("\\frac{" + a + "}{" + b + "}") == a + b
  {
    FractionUnbraced(a, b);
    var t := "\\frac" + a + b;
    assert SoleCommand(t, 'f') by {
      assert t[1..] == "frac" + a + b;
      assert '\\' !in a + b;
    }
    SpacingKeepsF(t);
    FractionCommandRemoved(a, b);
    assert forall i | 0 <= i < |a + b| :: !IsWhitespace((a + b)[i]) by {
      forall i | 0 <= i < |a + b| ensures !IsWhitespace((a + b)[i]) {
        if i < |a| { assert (a + b)[i] == a[i]; } else { assert (a + b)[i] == b[i - |a|]; }
      }
    }
    NoWhitespaceRun(a + b, Constant(" "));
    TrimFixed(a + b);
  }

  /** `\frac{a}{b}` comes out of `preprocessMathFormula` as `ab` whenever
      `a` does not open with a letter (so `\frac{1}{2}` gives `12`): the
      fraction handler only converts `\frac{{a}{b}`, and the clean-up then
      drops the braces and the unknown command `\frac`. */
  lemma FractionDropped(a: string, b: string)
    requires Bare(a) && Bare(b) && a != [] && !IsLetter(a[0])
    ensures PreprocessMath("\\frac{" + a + "}{" + b + "}") == a + b
  {
    FractionShape(a, b);
    FractionCleanup(a, b);
    FractionOnlyCleanedUp("\\frac{" + a + "}{" + b + "}");
  }

  lemma FractionShape(a: string, b: string)
    requires Bare(a) && Bare(b) && a != []
    ensures FractionOnly("\\frac{" + a + "}{" + b + "}")
  {
    var s := "\\frac{" + a + "}{" + b + "}";
    assert s[..6] == "\\frac{" && s[6] == a[0];
    assert s[1..] == "frac{" + a + "}{" + b + "}";
    assert '\\' !in a + b;
    assert s == "\\frac{" + (a + ("}{" + (b + "}")));
  }

  /** A numerator that opens with a letter is swallowed with `\\frac`:
      the unknown-command pass removes `\\frac` and every letter that
      follows it, so `\\frac{x+1}{2}` gives `+12`. */
  lemma FractionSwallowed(a: string, b: string)
    requires Bare(a) && Bare(b) && a != [] && IsLetter(a[0])
    ensures PreprocessMath("\\frac{" + a + "}{" + b + "}") == (a + b)[LetterRun(a + b, 0)..]
  {
    FractionShape(a, b);
    FractionCleanupLetter(a, b);
    FractionOnlyCleanedUp("\\frac{" + a + "}{" + b + "}");
  }

  /** With letters only, `\\frac{a}{b}` comes out empty. */
  lemma FractionOfLetters(a: string, b: string)
    requires a != [] && forall i | 0 <= i < |a| :: IsLetter(a[i])
    requires forall i | 0 <= i < |b| :: IsLetter(b[i])
    ensures PreprocessMath("\\frac{" + a + "}{" + b + "}") == ""
  {
    var ab := a + b;
    forall i | 0 <= i < |ab| ensures IsLetter(ab[i]) {
      if i < |a| { assert ab[i] == a[i]; } else { assert ab[i] == b[i - |a|]; }
    }
    LetterRunFrom(ab, 0, |ab|);
    LettersBare(a);
    LettersBare(b);
    FractionSwallowed(a, b);
  }

  lemma LettersBare(x: string)
    requires forall i | 0 <= i < |x| :: IsLetter(x[i])
    ensures Bare(x)
  {
    forall i | 0 <= i < |x| ensures !IsWhitespace(x[i]) && x[i] !in "\\{}_^" {
      assert IsLetter(x[i]);
    }
  }

  lemma FractionCleanupLetter(a: string, b: string)
    requires Bare(a) && Bare(b) && a != [] && IsLetter(a[0])
    ensures Cleanup("\\frac{" + a + "}{" + b + "}") == (a + b)[LetterRun(a + b, 0)..]
  {
    FractionUnbraced(a, b);
    var t := "\\frac" + a + b;
    assert SoleCommand(t, 'f') by {
      assert t[1..] == "frac" + a + b;
      assert '\\' !in a + b;
    }
    SpacingKeepsF(t);
    FractionLetterCommand(a, b);
    var r := (a + b)[LetterRun(a + b, 0)..];
    BareTail(a, b, LetterRun(a + b, 0));
    NoWhitespaceRun(r, Constant(" "));
    TrimFixed(r);
  }

  /** The unknown-command pass on `\\frac` followed by letters removes
      them all with the command. */
  lemma FractionLetterCommand(a: string, b: string)
    requires a != [] && IsLetter(a[0]) && '\\' !in a + b
    ensures Replace("\\frac" + a + b, CommandName, Constant("")) == (a + b)[LetterRun(a + b, 0)..]
  {
    var ab := a + b;
    var t := "\\frac" + ab;
    assert "\\frac" + a + b == t;
    var k := LetterRun(ab, 0);
    FracLetterMatch(ab);
    ReplaceHit(t, CommandName, Constant(""), Match([t[1..5 + k]], 5 + k));
    assert Rewritten(Constant(""), [t[1..5 + k]]) == "";
    assert t[5 + k..] == ab[k..];
    SliceAvoids(ab, k, '\\');
    AbsentChar(ab[k..], "\\", 0);
    ReplaceNoLead(ab[k..], CommandName, Constant(""));
    assert "" + ab[k..] == ab[k..];
  }

  /** The command-name pattern takes `\\frac` and the letters after it. */
  lemma FracLetterMatch(ab: string)
    ensures var t := "\\frac" + ab; var k := LetterRun(ab, 0);
      MatchAt(CommandName, t) == Some(Match([t[1..5 + k]], 5 + k))
  {
    var t := "\\frac" + ab;
    assert t[0] == '\\' && t[1] == 'f' && t[2] == 'r' && t[3] == 'a' && t[4] == 'c';
    LetterRunFrom(t, 1, 5);
    LetterRunSuffix("\\frac", ab, 0);
  }

  lemma SliceAvoids(s: string, k: nat, c: char)
    requires k <= |s| && c !in s
    ensures c !in s[k..]
  {
    forall i | 0 <= i < |s| - k ensures s[k..][i] != c {
      assert s[k..][i] == s[k + i];
    }
  }

  /** What is left of two bare texts after a prefix holds no whitespace. */
  lemma BareTail(a: string, b: string, k: nat)
    requires Bare(a) && Bare(b) && k <= |a + b|
    ensures forall i | 0 <= i < |(a + b)[k..]| :: !IsWhitespace((a + b)[k..][i])
  {
    var r := (a + b)[k..];
    forall i | 0 <= i < |r| ensures !IsWhitespace(r[i]) {
      var j := i + k;
      assert r[i] == (a + b)[j];
      if j < |a| { assert (a + b)[j] == a[j]; } else { assert (a + b)[j] == b[j - |a|]; }
    }
  }

  /** A run of letters from `i` to `j` adds its length to the run from `j`. */
  lemma {:induction false} LetterRunFrom(t: string, i: nat, j: nat)
    requires i <= j <= |t| && forall k | i <= k < j :: IsLetter(t[k])
    ensures LetterRun(t, i) == (j - i) + LetterRun(t, j)
    decreases j - i
  {
    if i < j {
      LetterRunFrom(t, i + 1, j);
    }
  }

  /** The letter run inside `y` does not see the `x` in front of it. */
  lemma {:induction false} LetterRunSuffix(x: string, y: string, k: nat)
    requires k <= |y|
    ensures LetterRun(x + y, |x| + k) == LetterRun(y, k)
    decreases |y| - k
  {
    if k < |y| {
      assert (x + y)[|x| + k] == y[k];
      LetterRunSuffix(x, y, k + 1);
    }
  }

  /** A text of the `FractionOnly` shape is only cleaned up. */
  lemma FractionOnlyCleanedUp(s: string)
    ensures FractionOnly(s) ==> PreprocessMath(s) == Cleanup(s)
  {
    if FractionOnly(s) {
      FractionMacros(s);
      FractionOnlyHandlers(s);
      PassesFix(s, Cleanup(s));
    }
  }

  /** A formula that the macro table and the handlers both leave alone is
      only cleaned up. */
  lemma PassesFix(s: string, t: string)
    requires ApplyAll(s, MacroOrder()) == s && Handlers(s) == s && Cleanup(s) == t
    ensures PreprocessMath(s) == t
  {
  }

  // ---------------------------------------------------------------------
  // `\sqrt` written with `\text` inside its name reaches the root handler.

  /** Unwrapping `\text{g}` right after a command name `\x` joins `g` onto
      that name. */
  lemma TextJoinsCommand(x: string, g: string, y: string)
    requires x != [] && x[0] != 't' && '\\' !in x && '\\' !in g && '\\' !in y && g != [] && '}' !in g
    ensures UnwrapText("\\" + (x + "\\text{" + g + "}" + y)) == "\\" + (x + g + y)
  {
    var s := "\\" + (x + "\\text{" + g + "}" + y);
    var t := "\\" + (x + g + y);
    assert Replace(s, TextCommand, Unwrap) == t by { TextJoinStep(x, g, y); }
    assert ContainsMatch(s, TextCommand) by { TextJoinMatch(x, g, y); }
    assert !ContainsMatch(t, TextCommand) by {
      assert (x + g + y)[0] == x[0];
      TextJoinDone(x + g + y);
    }
    UnwrapOnce(s, t);
  }

  /** One round of the text handler, when it leaves nothing to unwrap. */
  lemma UnwrapOnce(s: string, t: string)
    requires ContainsMatch(s, TextCommand) && Replace(s, TextCommand, Unwrap) == t
    requires !ContainsMatch(t, TextCommand)
    ensures UnwrapText(s) == t
  {
  }

  lemma TextJoinStep(x: string, g: string, y: string)
    requires x != [] && x[0] != 't' && '\\' !in x && '\\' !in y && g != [] && '}' !in g
    ensures Replace("\\" + (x + "\\text{" + g + "}" + y), TextCommand, Unwrap) == "\\" + (x + g + y)
  {
    var rest := x + "\\text{" + g + "}" + y;
    assert rest[0] == x[0];
    NotTextAt(rest);
    SkipFirst("\\", rest, TextCommand, Unwrap);
    GroupPass(x, "\\text{", g, y, Unwrap);
  }

  lemma NotTextAt(rest: string)
    requires rest != [] && rest[0] != 't'
    ensures MatchAt(TextCommand, "\\" + rest).None?
  {
    var s := "\\" + rest;
    if |s| >= 6 {
      assert s[..6][1] == rest[0];
    }
    assert !StartsWith(s, "\\text{");
  }

  lemma SkipFirst(c: string, rest: string, p: Pattern, rw: Rewrite)
    requires |c| == 1 && MatchAt(p, c + rest).None?
    ensures Replace(c + rest, p, rw) == c + Replace(rest, p, rw)
  {
    ReplaceSkip(c + rest, p, rw);
    assert (c + rest)[1..] == rest && [(c + rest)[0]] == c;
  }

  lemma TextJoinMatch(x: string, g: string, y: string)
    requires g != [] && '}' !in g
    ensures ContainsMatch("\\" + (x + "\\text{" + g + "}" + y), TextCommand)
  {
    var s := "\\" + (x + "\\text{" + g + "}" + y);
    GroupAtStart("\\text{", g, y);
    assert s[1 + |x|..] == "\\text{" + g + "}" + y;
  }

  lemma TextJoinDone(w: string)
    requires w != [] && w[0] != 't' && '\\' !in w
    ensures !ContainsMatch("\\" + w, TextCommand)
  {
    var t := "\\" + w;
    assert t[1..] == w;
    assert SoleCommand(t, w[0]);
    OneCommand(t, "\\text{", w[0]);
    NoLeadOccurs(t, TextCommand);
  }

  /** The root handler turns `\sqrt{h}` into `√(h)`. */
  lemma RootOfGroup(h: string)
    requires h != [] && '}' !in h && '\\' !in h
    ensures Roots("\\sqrt{" + h + "}") == "√(" + h + ")"
  {
    RootStep(h);
    RootDone(h);
    RootsOnce("\\sqrt{" + h + "}", "√(" + h + ")");
  }

  lemma RootDone(h: string)
    requires '\\' !in h
    ensures !ContainsMatch("√(" + h + ")", SquareRoot)
    ensures Replace("√(" + h + ")", IndexedRoot, RootWithIndex) == "√(" + h + ")"
  {
    var t := "√(" + h + ")";
    NoLeadNoMatch(t, SquareRoot, '\\');
    AbsentChar(t, "\\sqrt[", 0);
    ReplaceNoLead(t, IndexedRoot, RootWithIndex);
  }

  /** One round of the square-root loop, when it leaves nothing to convert
      and no indexed root. */
  lemma RootsOnce(s: string, t: string)
    requires ContainsMatch(s, SquareRoot) && Replace(s, SquareRoot, Root) == t
    requires !ContainsMatch(t, SquareRoot) && Replace(t, IndexedRoot, RootWithIndex) == t
    ensures Roots(s) == t
  {
  }

  lemma RootStep(h: string)
    requires h != [] && '}' !in h
    ensures ContainsMatch("\\sqrt{" + h + "}", SquareRoot)
    ensures Replace("\\sqrt{" + h + "}", SquareRoot, Root) == "√(" + h + ")"
  {
    var s := "\\sqrt{" + h + "}";
    assert s + [] == s;
    GroupAtStart("\\sqrt{", h, []);
    assert s[0..] == s;
    var m := Match([h], |s|);
    ReplaceHit(s, SquareRoot, Root, m);
    assert s[|s|..] == [];
  }

  lemma SplitRootSpelled(h: string)
    ensures "\\sq\\text{rt}{" + h + "}" == "\\" + ("sq" + "\\text{" + "rt" + "}" + ("{" + h + "}"))
  {
  }

  lemma RootSpelled(h: string)
    ensures "\\" + ("sq" + "rt" + ("{" + h + "}")) == "\\sqrt{" + h + "}"
  {
  }

  /** `\sq\text{rt}{h}` becomes `\sqrt{h}` in the text handler, and `√(h)`
      in the root handler. */
  lemma SplitRootReachesRoots(h: string)
    requires h != [] && '}' !in h && '\\' !in h
    ensures UnwrapText("\\sq\\text{rt}{" + h + "}") == "\\sqrt{" + h + "}"
    ensures Roots("\\sqrt{" + h + "}") == "√(" + h + ")"
  {
    TextJoinsCommand("sq", "rt", "{" + h + "}");
    SplitRootSpelled(h);
    RootSpelled(h);
    RootOfGroup(h);
  }

  // ---------------------------------------------------------------------
  // `\lim_{…}` reaches the big-operator handler.

  lemma BackslashGlyph()
    ensures forall c :: Glyph(ToSubscript, c) == '\\' ==> c == '\\'
  {
  }

  /** The big-operator handler turns `\lim_{g}` into `lim` followed by `g`
      through the subscript table. */
  lemma LimitOfGroup(g: string)
    requires g != [] && '}' !in g && '\\' !in g
    ensures Limits("\\lim_{" + g + "}") == "lim" + MapThrough(ToSubscript, g)
  {
    var s := "\\lim_{" + g + "}";
    var t := "lim" + MapThrough(ToSubscript, g);
    assert Replace(s, LimitRules[0].0, LimitRules[0].1) == t by { LimitStep(g); }
    LimitRest(g);
  }

  /** The other big operators find no backslash in the result. */
  lemma LimitRest(g: string)
    requires '\\' !in g
    ensures ReplaceEach("lim" + MapThrough(ToSubscript, g), LimitRules[1..]) == "lim" + MapThrough(ToSubscript, g)
  {
    var t := "lim" + MapThrough(ToSubscript, g);
    assert '\\' !in t by {
      BackslashGlyph();
      MapThroughAvoids(ToSubscript, g, '\\');
    }
    BackslashLeads();
    RulesFixedBy(t, LimitRules[1..], '\\');
  }

  lemma LimitStep(g: string)
    requires g != [] && '}' !in g
    ensures Replace("\\lim_{" + g + "}", Braced("\\lim_{"), Operator("lim")) == "lim" + MapThrough(ToSubscript, g)
  {
    var s := "\\lim_{" + g + "}";
    assert s + [] == s;
    GroupAtStart("\\lim_{", g, []);
    ReplaceHit(s, Braced("\\lim_{"), Operator("lim"), Match([g], |s|));
    assert s[|s|..] == [];
  }
}

=== FILE: numerals.dfy ===
/** Decimal numerals: the value of a run of digits, the numeral that prints
    a number, and Kotlin's `toInt`/`toLong` on top of them. */
module Numerals {
  import opened Wrappers
  import opened Text

  /** The range of Kotlin's `Int`. */
  const IntMin: int := -0x8000_0000
  const IntMax: int := 0x7FFF_FFFF

  /** The range of Kotlin's `Long`. */
  const LongMin: int := -0x8000_0000_0000_0000
  const LongMax: int := 0x7FFF_FFFF_FFFF_FFFF

  function DigitValue(c: char): (d: nat)
    requires IsDigit(c)
    ensures d < 10
  {
    c as int - '0' as int
  }

  function Digit(d: nat): (c: char)
    requires d < 10
    ensures IsDigit(c) && DigitValue(c) == d
  {
    ('0' as int + d) as char
  }

  /** The value of a run of decimal digits, most significant first. */
  function DigitsValue(s: string): nat
    requires AllDigits(s)
  {
    if s == [] then 0 else DigitsValue(s[..|s| - 1]) * 10 + DigitValue(s[|s| - 1])
  }

  /** The decimal numeral of `n`, without leading zeros. */
  function Decimal(n: nat): (s: string)
    ensures s != [] && AllDigits(s)
    ensures n > 0 ==> s[0] != '0'
  {
    if n < 10 then [Digit(n)] else Decimal(n / 10) + [Digit(n % 10)]
  }

  /** Reading back the numeral of `n` gives `n`. */
  lemma {:induction false} DecimalValue(n: nat)
    ensures DigitsValue(Decimal(n)) == n
  {
    if n >= 10 {
      var s := Decimal(n);
      assert s[..|s| - 1] == Decimal(n / 10);
      DecimalValue(n / 10);
    }
  }

  /** `n` printed in decimal, with a leading '-' when negative. */
  function Signed(n: int): (s: string)
    ensures s != []
  {
    if n < 0 then "-" + Decimal(-n) else Decimal(n)
  }

  /** Kotlin's `toInt()` (`lo`, `hi` = `IntMin`, `IntMax`) and `toLong()`
      (`LongMin`, `LongMax`): an optional '+' or '-' followed by at least one
      digit, whose value must lie in range. `None` stands for the
      `NumberFormatException` thrown otherwise. */
  function ParseInteger(s: string, lo: int, hi: int): (r: Option<int>)
    ensures r.Some? ==> lo <= r.value <= hi
    ensures r.Some? && r.value < 0 ==> s != [] && s[0] == '-'
    ensures r.Some? ==> exists k | 0 <= k < |s| :: IsDigit(s[k])
  {
    if s == [] then None
    else
      var digits := if s[0] == '-' || s[0] == '+' then s[1..] else s;
      if digits == [] || !AllDigits(digits) then None
      else
        assert IsDigit(s[|s| - 1]);
        var v := if s[0] == '-' then 0 - DigitsValue(digits) as int else DigitsValue(digits) as int;
        if lo <= v <= hi then Some(v) else None
  }

  /** A run of digits reads as its value, when that is in range. */
  lemma ParseDigits(d: string, lo: int, hi: int)
    requires d != [] && AllDigits(d) && lo <= DigitsValue(d) <= hi
    ensures ParseInteger(d, lo, hi) == Some(DigitsValue(d) as int)
  {
    assert IsDigit(d[0]);
  }

  /** A '-' before a run of digits negates its value. */
  lemma ParseNegated(d: string, lo: int, hi: int)
    requires d != [] && AllDigits(d) && lo <= -(DigitsValue(d) as int) <= hi
    ensures ParseInteger("-" + d, lo, hi) == Some(-(DigitsValue(d) as int))
  {
    assert ("-" + d)[1..] == d;
  }

  /** Kotlin reads back every number it prints that lies in range. */
  lemma ParseSigned(n: int, lo: int, hi: int)
    requires lo <= n <= hi
    ensures ParseInteger(Signed(n), lo, hi) == Some(n)
  {
    if n < 0 {
      DecimalValue(-n);
      ParseNegated(Decimal(-n), lo, hi);
    } else {
      DecimalValue(n);
      ParseDigits(Decimal(n), lo, hi);
    }
  }

  /** A text without a digit is never a number. */
  lemma NoDigitNoNumber(s: string, lo: int, hi: int)
    requires forall k | 0 <= k < |s| :: !IsDigit(s[k])
    ensures ParseInteger(s, lo, hi) == None
  {
  }
}

=== FILE: releases.dfy ===
/** The app and the download server together: the server lists the newest
    release first, and the app offers it when it is newer than the
    installed one. Stamps are as the build writes them, leading zeros
    included. */
module Releases {
  import opened Wrappers
  import opened Text
  import opened Numerals
  import opened Versions
  import UpdateChecker
  import ApkServer

  /** The file name a release is published under. */
  function ApkName(w: Written): (name: string)
    ensures EndsWith(name, ".apk")
  {
    var name := Spelled(w) + ".apk";
    assert name[|name| - 4..] == ".apk";
    name
  }

  /** The server reads a release's file name as its stamp. */
  lemma NameValue(w: Written)
    requires DigitRuns(w)
    ensures ApkServer.ExtractInfo(ApkName(w)) == ValueOf(w)
  {
    ApkServer.ExtractSpelled(w);
  }

  /** The directory holding one release file per stamp. */
  function ApkNames(stamps: seq<Written>): (files: seq<string>)
    ensures |files| == |stamps|
    ensures forall i | 0 <= i < |stamps| :: files[i] == ApkName(stamps[i])
  {
    if stamps == [] then []
    else [ApkName(stamps[0])] + ApkNames(stamps[1..])
  }

  /** What is not below something above `c` is above `c`. */
  lemma AboveNotBelow(a: seq<int>, b: seq<int>, c: seq<int>)
    requires |a| == |b| == |c|
    requires !LexGreater(b, a) && LexGreater(b, c)
    ensures LexGreater(a, c)
  {
    LexTotal(a, b);
    if a != b {
      LexTransitive(a, b, c);
    }
  }

  /** The release the server lists as latest is the release of one of
      the stamps, and no stamp is above it. */
  lemma LatestStamp(stamps: seq<Written>) returns (l: nat)
    requires forall i | 0 <= i < |stamps| :: DigitRuns(stamps[i]) && InRange(ValueOf(stamps[i]))
    requires ApkServer.ApkListing(ApkNames(stamps)).latest.Some?
    ensures l < |stamps|
    ensures ApkServer.ApkListing(ApkNames(stamps)).latest.value == ApkName(stamps[l])
    ensures forall i | 0 <= i < |stamps| :: !LexGreater(Key(ValueOf(stamps[i])), Key(ValueOf(stamps[l])))
  {
    var files := ApkNames(stamps);
    var latest := ApkServer.ApkListing(files).latest;
    ApkServer.LatestIsNewest(files);
    l :| 0 <= l < |files| && files[l] == latest.value;
    NameValue(stamps[l]);
    forall i | 0 <= i < |stamps| ensures !LexGreater(Key(ValueOf(stamps[i])), Key(ValueOf(stamps[l]))) {
      assert files[i] in files;
      NameValue(stamps[i]);
    }
  }

  /** A release newer than the installed one makes the app offer the
      latest. */
  lemma NewerOffered(stamps: seq<Written>, installed: Written, i: nat)
    requires DigitRuns(installed) && InRange(ValueOf(installed))
    requires forall i | 0 <= i < |stamps| :: DigitRuns(stamps[i]) && InRange(ValueOf(stamps[i]))
    requires i < |stamps| && LexGreater(Key(ValueOf(stamps[i])), Key(ValueOf(installed)))
    ensures ApkServer.ApkListing(ApkNames(stamps)).latest.Some?
    ensures UpdateChecker.IsNewVersionAvailable(Spelled(installed), ApkServer.ApkListing(ApkNames(stamps)).latest.value)
  {
    var files := ApkNames(stamps);
    ApkServer.LatestIsNewest(files);
    assert files[i] in files;
    var l := LatestStamp(stamps);
    AboveNotBelow(Key(ValueOf(stamps[l])), Key(ValueOf(stamps[i])), Key(ValueOf(installed)));
    UpdateChecker.SpelledOfferedIffNewer(installed, stamps[l]);
  }

  /** What the app offers is a release newer than the installed one. */
  lemma OfferedNewer(stamps: seq<Written>, installed: Written) returns (l: nat)
    requires DigitRuns(installed) && InRange(ValueOf(installed))
    requires forall i | 0 <= i < |stamps| :: DigitRuns(stamps[i]) && InRange(ValueOf(stamps[i]))
    requires ApkServer.ApkListing(ApkNames(stamps)).latest.Some?
    requires UpdateChecker.IsNewVersionAvailable(Spelled(installed), ApkServer.ApkListing(ApkNames(stamps)).latest.value)
    ensures l < |stamps| && LexGreater(Key(ValueOf(stamps[l])), Key(ValueOf(installed)))
  {
    l := LatestStamp(stamps);
    UpdateChecker.SpelledOfferedIffNewer(installed, stamps[l]);
  }

  /** When every release file is named after a stamp both sides read in full, the app
      offers an update exactly when some release is newer than the
      installed one. */
  lemma OfferIffSomeReleaseNewer(stamps: seq<Written>, installed: Written)
    requires DigitRuns(installed) && InRange(ValueOf(installed))
    requires forall i | 0 <= i < |stamps| :: DigitRuns(stamps[i]) && InRange(ValueOf(stamps[i]))
    ensures var files := ApkNames(stamps);
            var latest := ApkServer.ApkListing(files).latest;
            (latest.Some? && UpdateChecker.IsNewVersionAvailable(Spelled(installed), latest.value))
            <==> exists i | 0 <= i < |stamps| :: LexGreater(Key(ValueOf(stamps[i])), Key(ValueOf(installed)))
  {
    var latest := ApkServer.ApkListing(ApkNames(stamps)).latest;
    if exists i | 0 <= i < |stamps| :: LexGreater(Key(ValueOf(stamps[i])), Key(ValueOf(installed))) {
      var i :| 0 <= i < |stamps| && LexGreater(Key(ValueOf(stamps[i])), Key(ValueOf(installed)));
      NewerOffered(stamps, installed, i);
    }
    if latest.Some? && UpdateChecker.IsNewVersionAvailable(Spelled(installed), latest.value) {
      var l := OfferedNewer(stamps, installed);
    }
  }
}

=== FILE: text.dfy ===
/** The string operations of the Kotlin and JavaScript standard libraries that
    the modelled code relies on, over strings as sequences of characters. */
module Text {

  /** A character Kotlin's `trim()` removes and the regular-expression class
      `\s` matches (the ASCII ones). */
  predicate IsWhitespace(c: char) {
    c == ' ' || c == '\t' || c == '\n' || c == '\U{000B}' || c == '\U{000C}' || c == '\r'
  }

  /** The class `\d` of a Java regular expression. */
  predicate IsDigit(c: char) { '0' <= c <= '9' }

  /** The class `[a-zA-Z]`. */
  predicate IsLetter(c: char) { 'a' <= c <= 'z' || 'A' <= c <= 'Z' }

  /** The class `\w` of a Java regular expression. */
  predicate IsWordChar(c: char) { IsLetter(c) || IsDigit(c) || c == '_' }

  /** The characters that `.` in a Java regular expression does not match. */
  predicate IsLineTerminator(c: char) {
    c == '\n' || c == '\r' || c == '\U{0085}' || c == '\U{2028}' || c == '\U{2029}'
  }

  /** The number of ASCII digits starting at index `i`. */
  function DigitRun(s: string, i: nat): (n: nat)
    requires i <= |s|
    ensures i + n <= |s|
    ensures forall k | i <= k < i + n :: IsDigit(s[k])
    ensures i + n == |s| || !IsDigit(s[i + n])
    decreases |s| - i
  {
    if i < |s| && IsDigit(s[i]) then 1 + DigitRun(s, i + 1) else 0
  }

  /** The number of ASCII letters starting at index `i`. */
  function LetterRun(s: string, i: nat): (n: nat)
    requires i <= |s|
    ensures i + n <= |s|
    ensures forall k | i <= k < i + n :: IsLetter(s[k])
    ensures i + n == |s| || !IsLetter(s[i + n])
    decreases |s| - i
  {
    if i < |s| && IsLetter(s[i]) then 1 + LetterRun(s, i + 1) else 0
  }

  predicate AllWhitespace(s: string) { forall i | 0 <= i < |s| :: IsWhitespace(s[i]) }

  predicate AllDigits(s: string) { forall i | 0 <= i < |s| :: IsDigit(s[i]) }

  predicate StartsWith(s: string, p: string) { |p| <= |s| && s[..|p|] == p }

  predicate EndsWith(s: string, p: string) { |p| <= |s| && s[|s| - |p|..] == p }

  /** `p` occurs in `s` starting at index `i`. */
  predicate OccursAt(s: string, p: string, i: int) {
    0 <= i && i + |p| <= |s| && s[i..i + |p|] == p
  }

  predicate Contains(s: string, p: string) {
    exists i | 0 <= i <= |s| - |p| :: OccursAt(s, p, i)
  }

  /** Kotlin's `indexOf(p, from)`: the first occurrence of `p` at or after
      `from` (a negative `from` counts as 0), or -1 when there is none. */
  function IndexOf(s: string, p: string, from: int): (r: int)
    ensures r == -1 || (0 <= from <= r && OccursAt(s, p, r)) || (from < 0 <= r && OccursAt(s, p, r))
    ensures forall i | (if from < 0 then 0 else from) <= i && (r == -1 || i < r) :: !OccursAt(s, p, i)
    decreases |s| - from
  {
    if from < 0 then IndexOf(s, p, 0)
    else if from + |p| > |s| then -1
    else if s[from..from + |p|] == p then from
    else IndexOf(s, p, from + 1)
  }

  /** A slice holds no occurrence of `p` when `s` has none starting inside
      the slice. */
  lemma NoOccurrenceInSlice(s: string, p: string, lo: int, hi: int)
    requires 0 <= lo <= hi <= |s|
    requires forall i | lo <= i <= hi - |p| :: !OccursAt(s, p, i)
    ensures !Contains(s[lo..hi], p)
  {
    var part := s[lo..hi];
    forall j | 0 <= j <= |part| - |p| ensures !OccursAt(part, p, j) {
      SliceOfSlice(s, lo, hi, j, j + |p|);
      assert !OccursAt(s, p, lo + j);
    }
  }

  /** A slice of a slice is a slice. */
  lemma SliceOfSlice(s: string, lo: int, hi: int, a: int, b: int)
    requires 0 <= lo <= hi <= |s| && 0 <= a <= b <= hi - lo
    ensures s[lo..hi][a..b] == s[lo + a..lo + b]
  {
    forall k | 0 <= k < b - a ensures s[lo..hi][a..b][k] == s[lo + a..lo + b][k] { }
  }

  /** A one-character string occurs exactly where the character does. */
  lemma ContainsChar(s: string, c: char)
    ensures Contains(s, [c]) <==> c in s
  {
    if c in s {
      var j :| 0 <= j < |s| && s[j] == c;
      assert s[j..j + 1] == [c];
      assert OccursAt(s, [c], j);
    }
    if Contains(s, [c]) {
      var j :| 0 <= j <= |s| - 1 && OccursAt(s, [c], j);
      assert s[j..j + 1][0] == s[j] == c;
    }
  }

  /** Kotlin's `indexOf(c, from)` on a single character. */
  function IndexOfChar(s: string, c: char, from: int): (r: int)
    ensures r == -1 || ((if from < 0 then 0 else from) <= r < |s| && s[r] == c)
    ensures forall i | (if from < 0 then 0 else from) <= i < |s| && (r == -1 || i < r) :: s[i] != c
  {
    var r := IndexOf(s, [c], from);
    assert forall i | (if from < 0 then 0 else from) <= i < |s| :: OccursAt(s, [c], i) <==> s[i] == c by {
      forall i | (if from < 0 then 0 else from) <= i < |s| ensures OccursAt(s, [c], i) <==> s[i] == c {
        assert s[i..i + 1] == [s[i]];
      }
    }
    if r != -1 then assert s[r..r + 1] == [s[r]]; r else r
  }

  /** Kotlin's `indexOfAny(chars)`: the first index holding one of `chars`, or -1. */
  function IndexOfAny(s: string, chars: set<char>): (r: int)
    ensures r == -1 || (0 <= r < |s| && s[r] in chars)
    ensures forall i | 0 <= i < |s| && (r == -1 || i < r) :: s[i] !in chars
  {
    if s == [] then -1
    else if s[0] in chars then 0
    else
      var r := IndexOfAny(s[1..], chars);
      if r == -1 then -1 else r + 1
  }

  /** Kotlin's `drop(n)`: everything after the first `n` characters. */
  function Drop(s: string, n: nat): (r: string)
    ensures |r| == if n <= |s| then |s| - n else 0
    ensures n <= |s| ==> s == s[..n] + r
  {
    if n <= |s| then s[n..] else []
  }

  /** The number of whitespace characters at the start of `s`. */
  function LeadingSpace(s: string): (n: nat)
    ensures n <= |s| && AllWhitespace(s[..n])
    ensures n == |s| || !IsWhitespace(s[n])
  {
    if s != [] && IsWhitespace(s[0]) then
      var n := 1 + LeadingSpace(s[1..]);
      assert s[..n] == [s[0]] + s[1..][..n - 1];
      n
    else 0
  }

  /** The first character of `[c] + u` is `c`, and the rest is `u`. */
  lemma ConsTail(c: char, u: string)
    ensures ([c] + u)[0] == c && ([c] + u)[1..] == u
  {
  }

  lemma ConsAssoc(c: char, y: string, r: string)
    ensures [c] + (y + r) == ([c] + y) + r
  {
  }

  lemma AppendAssoc(a: string, b: string, c: string)
    ensures a + b + c == a + (b + c)
  {
  }

  lemma FirstRest(m: string)
    requires m != []
    ensures m == [m[0]] + m[1..]
  {
  }

  lemma DropFront(m: string, y: string)
    ensures (m + y)[|m|..] == y
  {
  }

  /** Kotlin's `trim()`: `s` without its leading and trailing whitespace. */
  function Trim(s: string): (r: string)
    ensures |r| <= |s|
    ensures r == [] || (!IsWhitespace(r[0]) && !IsWhitespace(r[|r| - 1]))
    decreases |s|
  {
    if s != [] && IsWhitespace(s[0]) then Trim(s[1..])
    else if s != [] && IsWhitespace(s[|s| - 1]) then Trim(s[..|s| - 1])
    else s
  }

  /** `Trim(s)` is the slice of `s` that starts after its leading
      whitespace. */
  lemma {:induction false} TrimSlice(s: string)
    ensures LeadingSpace(s) + |Trim(s)| <= |s|
    ensures Trim(s) == s[LeadingSpace(s)..LeadingSpace(s) + |Trim(s)|]
    decreases |s|
  {
    if s != [] && IsWhitespace(s[0]) {
      var tail := s[1..];
      TrimSlice(tail);
      var n, r := LeadingSpace(tail), Trim(tail);
      assert tail[n..n + |r|] == s[1 + n..1 + n + |r|];
    } else if s != [] && IsWhitespace(s[|s| - 1]) {
      var init := s[..|s| - 1];
      TrimSlice(init);
      assert init[0] == s[0];
      assert LeadingSpace(init) == 0;
      var r := Trim(init);
      assert init[..|r|] == s[..|r|];
    }
  }

  /** A string whose ends are not whitespace is its own trim; in particular
      trimming twice is trimming once. */
  lemma TrimFixed(s: string)
    requires s == [] || (!IsWhitespace(s[0]) && !IsWhitespace(s[|s| - 1]))
    ensures Trim(s) == s
  {
  }

  lemma TrimTwice(s: string)
    ensures Trim(Trim(s)) == Trim(s)
  {
    TrimFixed(Trim(s));
  }

  /** Every character of `Trim(s)` is one of `s`. */
  lemma TrimChars(s: string)
    ensures forall i | 0 <= i < |Trim(s)| :: Trim(s)[i] in s
  {
    var a := LeadingSpace(s);
    var r := Trim(s);
    TrimSlice(s);
    forall i | 0 <= i < |r| ensures r[i] in s {
      assert r[i] == s[a + i];
    }
  }

  /** Kotlin's `split(sep)`: the pieces between the non-overlapping occurrences
      of `sep`, found left to right; empty pieces are kept. */
  function Split(s: string, sep: string): (r: seq<string>)
    requires sep != []
    ensures |r| >= 1
    ensures forall k | 0 <= k < |r| :: !Contains(r[k], sep)
    decreases |s|
  {
    var i := IndexOf(s, sep, 0);
    if i == -1 then
      assert !Contains(s, sep) by {
        forall j | 0 <= j <= |s| - |sep| ensures !OccursAt(s, sep, j) { }
      }
      [s]
    else
      var head := s[..i];
      assert !Contains(head, sep) by {
        forall j | 0 <= j <= |head| - |sep| ensures !OccursAt(head, sep, j) {
          assert head[j..j + |sep|] == s[j..j + |sep|];
          assert !OccursAt(s, sep, j);
        }
      }
      [head] + Split(s[i + |sep|..], sep)
  }

  /** Kotlin's `joinToString(sep)`. */
  function Join(parts: seq<string>, sep: string): (r: string)
    ensures |parts| == 1 ==> r == parts[0]
  {
    if |parts| == 0 then ""
    else if |parts| == 1 then parts[0]
    else parts[0] + sep + Join(parts[1..], sep)
  }

  /** Joining the pieces of a split with the separator gives the string back. */
  lemma {:induction false} JoinSplit(s: string, sep: string)
    requires sep != []
    ensures Join(Split(s, sep), sep) == s
    decreases |s|
  {
    var i := IndexOf(s, sep, 0);
    if i != -1 {
      var rest := s[i + |sep|..];
      JoinSplit(rest, sep);
      var parts := Split(rest, sep);
      assert Split(s, sep) == [s[..i]] + parts;
      assert ([s[..i]] + parts)[1..] == parts;
      assert Join(Split(s, sep), sep) == s[..i] + sep + rest;
      assert s[i..i + |sep|] == sep;
      ThreePieces(s, i, i + |sep|);
    }
  }

  /** A text with no occurrence of the separator is one piece. */
  lemma SplitWhole(s: string, sep: string)
    requires sep != [] && !Contains(s, sep)
    ensures Split(s, sep) == [s]
  {
  }

  /** The first piece ends at the first separator, when none starts
      inside `a` (nor straddles its end). */
  lemma SplitFirst(a: string, sep: string, b: string)
    requires sep != [] && !Contains(a + sep[..|sep| - 1], sep)
    ensures Split(a + sep + b, sep) == [a] + Split(b, sep)
  {
    var s := a + sep + b;
    var t := a + sep[..|sep| - 1];
    assert s[..|t|] == t;
    forall j | 0 <= j < |a| ensures !OccursAt(s, sep, j) {
      assert j <= |t| - |sep| && !OccursAt(t, sep, j);
      assert s[j..j + |sep|] == t[j..j + |sep|];
    }
    assert OccursAt(s, sep, |a|) by {
      assert s[|a|..|a| + |sep|] == sep;
    }
    var i := IndexOf(s, sep, 0);
    assert i == |a|;
    assert s[..|a|] == a;
    assert s[|a| + |sep|..] == b;
  }

  /** Joining one more piece in front. */
  lemma JoinCons(x: string, rest: seq<string>, sep: string)
    requires rest != []
    ensures Join([x] + rest, sep) == x + sep + Join(rest, sep)
  {
    assert ([x] + rest)[1..] == rest;
  }

  lemma ThreePieces(s: string, i: nat, j: nat)
    requires i <= j <= |s|
    ensures s == s[..i] + s[i..j] + s[j..]
  {
    assert s[..j] == s[..i] + s[i..j];
    assert s == s[..j] + s[j..];
  }

  /** A character in none of the parts and not in the separator is not in
      their join. */
  lemma {:induction false} JoinAvoids(parts: seq<string>, sep: string, c: char)
    requires c !in sep && forall k | 0 <= k < |parts| :: c !in parts[k]
    ensures c !in Join(parts, sep)
    decreases |parts|
  {
    if |parts| > 1 {
      JoinAvoids(parts[1..], sep, c);
      assert Join(parts, sep) == parts[0] + sep + Join(parts[1..], sep);
    }
  }

  /** The total number of characters of `parts`. */
  function TotalLength(parts: seq<string>): nat {
    if parts == [] then 0 else |parts[0]| + TotalLength(parts[1..])
  }

  lemma {:induction false} JoinLength(parts: seq<string>, sep: string)
    requires |parts| >= 1
    ensures |Join(parts, sep)| == TotalLength(parts) + (|parts| - 1) * |sep|
  {
    if |parts| > 1 {
      JoinLength(parts[1..], sep);
    }
  }

  lemma {:induction false} TotalLengthAppend(parts: seq<string>, last: string)
    ensures TotalLength(parts + [last]) == TotalLength(parts) + |last|
  {
    if parts != [] {
      assert (parts + [last])[1..] == parts[1..] + [last];
      TotalLengthAppend(parts[1..], last);
    }
  }

  /** Pieces each shorter than their counterparts add up to less. */
  lemma {:induction false} TotalLengthShorter(xs: seq<string>, ys: seq<string>)
    requires |xs| == |ys|
    requires forall k | 0 <= k < |xs| :: |xs[k]| < |ys[k]|
    ensures TotalLength(xs) + |xs| <= TotalLength(ys)
  {
    if xs != [] {
      TotalLengthShorter(xs[1..], ys[1..]);
    }
  }

  /** Kotlin's `lines()`: the pieces between line breaks, where a line
      break is "\r\n", "\n" or "\r". */
  function Lines(s: string): (r: seq<string>)
    ensures |r| >= 1
    ensures |Join(r, "\n")| <= |s|
    ensures forall k | 0 <= k < |r| :: '\n' !in r[k] && '\r' !in r[k]
    ensures ('\n' !in s && '\r' !in s) <==> r == [s]
    decreases |s|
  {
    var i := IndexOfAny(s, {'\n', '\r'});
    if i == -1 then [s]
    else
      var w := if s[i] == '\r' && i + 1 < |s| && s[i + 1] == '\n' then 2 else 1;
      var rest := Lines(s[i + w..]);
      var r := [s[..i]] + rest;
      assert r[1..] == rest;
      assert s[i] in s;
      r
  }

  /** Kotlin's `replace(k, v)`: every non-overlapping occurrence of `k`,
      found left to right, replaced by `v`. */
  function ReplaceAll(s: string, k: string, v: string): (r: string)
    requires k != []
    ensures forall i | 0 <= i < |r| :: r[i] in s || r[i] in v
    decreases |s|
  {
    if |s| < |k| then s
    else if s[..|k|] == k then v + ReplaceAll(s[|k|..], k, v)
    else [s[0]] + ReplaceAll(s[1..], k, v)
  }

  /** Replacing a string that does not occur changes nothing. */
  lemma {:induction false} ReplaceAbsent(s: string, k: string, v: string)
    requires k != [] && !Contains(s, k)
    ensures ReplaceAll(s, k, v) == s
    decreases |s|
  {
    if |s| >= |k| {
      assert !OccursAt(s, k, 0);
      assert !Contains(s[1..], k) by {
        forall j | 0 <= j <= |s[1..]| - |k| ensures !OccursAt(s[1..], k, j) {
          assert !OccursAt(s, k, j + 1);
          assert s[1..][j..j + |k|] == s[j + 1..j + 1 + |k|];
        }
      }
      ReplaceAbsent(s[1..], k, v);
    }
  }

  /** Replacing every occurrence of one character by a text without it
      leaves none. */
  lemma {:induction false} ReplaceAllRemoves(s: string, c: char, v: string)
    requires c !in v
    ensures c !in ReplaceAll(s, [c], v)
    decreases |s|
  {
    if |s| >= 1 {
      ReplaceAllRemoves(s[1..], c, v);
      var rest := ReplaceAll(s[1..], [c], v);
      var head := if s[..1] == [c] then v else [s[0]];
      assert ReplaceAll(s, [c], v) == head + rest;
      assert c !in head + rest by {
        forall i | 0 <= i < |head + rest| ensures (head + rest)[i] != c {
          if i >= |head| {
            assert (head + rest)[i] == rest[i - |head|];
          } else if s[..1] != [c] {
            assert s[..1] == [s[0]];
          }
        }
      }
    }
  }

  /** `replace(k, v)` passes over a prefix that cannot begin an occurrence. */
  lemma {:induction false} ReplaceAllPrefix(x: string, t: string, k: string, v: string)
    requires k != [] && k[0] !in x
    ensures ReplaceAll(x + t, k, v) == x + ReplaceAll(t, k, v)
    decreases |x|
  {
    if x == [] {
      assert x + t == t;
    } else {
      var s := x + t;
      assert s[0] == x[0] && s[1..] == x[1..] + t;
      if |s| >= |k| {
        assert s[..|k|][0] == x[0];
      }
      ReplaceAllPrefix(x[1..], t, k, v);
      FirstRest(x);
      ConsAssoc(x[0], x[1..], ReplaceAll(t, k, v));
    }
  }

  /** An occurrence at the start is replaced. */
  lemma ReplaceAllKey(k: string, y: string, v: string)
    requires k != []
    ensures ReplaceAll(k + y, k, v) == v + ReplaceAll(y, k, v)
  {
    assert (k + y)[..|k|] == k && (k + y)[|k|..] == y;
  }

  /** Removing a one-character key drops its first occurrence. */
  lemma RemoveOnce(x: string, k: string, rest: string)
    requires |k| == 1 && k[0] !in x
    ensures ReplaceAll(x + k + rest, k, "") == x + ReplaceAll(rest, k, "")
  {
    var y := k + rest;
    assert x + k + rest == x + y;
    ReplaceAllPrefix(x, y, k, "");
    ReplaceAllKey(k, rest, "");
    assert "" + ReplaceAll(rest, k, "") == ReplaceAll(rest, k, "");
  }

  /** A text lacking one of the characters of `p` does not contain `p`. */
  lemma AbsentChar(s: string, p: string, j: nat)
    requires j < |p| && p[j] !in s
    ensures !Contains(s, p)
  {
    forall i | 0 <= i <= |s| - |p| ensures !OccursAt(s, p, i) {
      assert s[i..i + |p|][j] == s[i + j];
      assert s[i + j] in s;
    }
  }

  /** Splitting at a character the text lacks gives the text back whole. */
  lemma SplitNoSeparator(s: string, c: char)
    requires c !in s
    ensures Split(s, [c]) == [s]
  {
    var r := IndexOfChar(s, c, 0);
    assert r == -1;
  }

  /** The first occurrence of a character, found by `IndexOf`. */
  lemma FirstChar(s: string, c: char, j: nat)
    requires j < |s| && s[j] == c
    requires forall i | 0 <= i < j :: s[i] != c
    ensures IndexOf(s, [c], 0) == j
  {
    var r := IndexOfChar(s, c, 0);
    assert r == j;
  }

  /** Splitting at a single character: a last piece free of the separator
      is split off last. */
  lemma {:induction false} SplitSnoc(x: string, c: char, y: string)
    requires c !in y
    ensures Split(x + [c] + y, [c]) == Split(x, [c]) + [y]
    decreases |x|
  {
    var s := x + [c] + y;
    var j := IndexOfChar(x, c, 0);
    if j == -1 {
      FirstChar(s, c, |x|);
      assert s[..|x|] == x && s[|x| + 1..] == y;
      SplitNoSeparator(x, c);
      SplitNoSeparator(y, c);
    } else {
      FirstChar(s, c, j);
      FirstChar(x, c, j);
      var rest := x[j + 1..];
      assert s[..j] == x[..j];
      assert s[j + 1..] == rest + [c] + y;
      SplitSnoc(rest, c, y);
    }
  }
}

=== FILE: update_checker.dfy ===
/** The app's update check: whether the release the server names is newer
    than the installed one, and which changelog entry is shown for it. */
module UpdateChecker {
  import opened Wrappers
  import opened Text
  import opened Numerals
  import opened Versions

  /** The server the app asks. */
  const ApiBaseUrl: string := "http://192.168.0.197:3001"

  /** The answer of the server's release listing; absent fields are `None`. */
  datatype UpdateResponse = UpdateResponse(
    success: bool,
    data: Option<seq<string>>,
    latest: Option<string>,
    latestSize: Option<string>,
    changelog: Option<map<string, string>>)

  /** What the app offers the user when a newer release exists. */
  datatype UpdateInfo = UpdateInfo(latestVersion: string, downloadUrl: string, changelog: string, fileSize: string)

  /** Kotlin's `removeSuffix`: drops one trailing `suffix`, if there is one. */
  function RemoveSuffix(s: string, suffix: string): (r: string)
    ensures EndsWith(s, suffix) ==> r + suffix == s
    ensures !EndsWith(s, suffix) ==> r == s
  {
    if EndsWith(s, suffix) then s[..|s| - |suffix|] else s
  }

  /** The first three dot-separated parts of a version name read as an
      `Int`, a `Long` and an `Int`; `None` when there are fewer than three
      parts or one of them is not a number in range. */
  function VersionOf(name: string): (r: Option<Version>)
    ensures r.Some? ==> |Split(name, ".")| >= 3
    ensures r.Some? ==> IntMin <= r.value.major <= IntMax && LongMin <= r.value.date <= LongMax
                        && IntMin <= r.value.time <= IntMax
  {
    var parts := Split(name, ".");
    if |parts| < 3 then None
    else
      match (ParseInteger(parts[0], IntMin, IntMax), ParseInteger(parts[1], LongMin, LongMax),
             ParseInteger(parts[2], IntMin, IntMax))
      case (Some(major), Some(date), Some(time)) => Some(Version(major, date, time))
      case _ => None
  }

  /** The nested comparison of `isNewVersionAvailable`: major version
      first, then the date, then the time. */
  predicate Newer(latest: Version, current: Version) {
    if latest.major > current.major then true
    else if latest.major == current.major then
      if latest.date > current.date then true
      else if latest.date == current.date then latest.time > current.time
      else false
    else false
  }

  /** The nested comparison is the lexicographic order on the stamps. */
  lemma NewerIsLexGreater(latest: Version, current: Version)
    ensures Newer(latest, current) <==> LexGreater(Key(latest), Key(current))
  {
    KeyOrder(latest, current);
  }

  /** `isNewVersionAvailable`: the installed name is split as it is, the
      published one after dropping one ".apk"; a name that does not read
      as a version makes the answer false. */
  function IsNewVersionAvailable(current: string, latest: string): (r: bool)
    ensures r <==> VersionOf(current).Some? && VersionOf(RemoveSuffix(latest, ".apk")).Some?
                   && LexGreater(Key(VersionOf(RemoveSuffix(latest, ".apk")).value), Key(VersionOf(current).value))
  {
    match (VersionOf(current), VersionOf(RemoveSuffix(latest, ".apk")))
    case (Some(c), Some(l)) => NewerIsLexGreater(l, c); Newer(l, c)
    case _ => false
  }

  /** Parts after the third do not change the version a name reads as. */
  lemma ExtraPartIgnored(name: string, extra: string)
    requires '.' !in extra && |Split(name, ".")| >= 3
    ensures VersionOf(name + "." + extra) == VersionOf(name)
  {
    SplitSnoc(name, '.', extra);
    var parts := Split(name + "." + extra, ".");
    assert parts[..3] == Split(name, ".")[..3];
  }

  /** A trailing ".apk" is a fourth part, which is ignored. */
  lemma ApkIgnored(stem: string)
    requires |Split(stem, ".")| >= 3
    ensures VersionOf(stem + ".apk") == VersionOf(stem)
  {
    assert stem + ".apk" == stem + "." + "apk";
    ExtraPartIgnored(stem, "apk");
  }

  /** Dropping ".apk" never changes a version that reads either way. */
  lemma SuffixIgnored(name: string)
    requires VersionOf(name).Some? && VersionOf(RemoveSuffix(name, ".apk")).Some?
    ensures VersionOf(RemoveSuffix(name, ".apk")) == VersionOf(name)
  {
    if EndsWith(name, ".apk") {
      var stem := RemoveSuffix(name, ".apk");
      ApkIgnored(stem);
    }
  }

  /** No release is newer than itself, with or without ".apk". */
  lemma NotNewerThanItself(name: string)
    ensures !IsNewVersionAvailable(name, name)
    ensures !IsNewVersionAvailable(name, name + ".apk")
  {
    if VersionOf(name).Some? {
      LexIrreflexive(Key(VersionOf(name).value));
      if VersionOf(RemoveSuffix(name, ".apk")).Some? {
        SuffixIgnored(name);
      }
    }
    assert RemoveSuffix(name + ".apk", ".apk") == name;
  }

  /** Of two releases at most one is newer than the other. */
  lemma NeverBothWays(a: string, b: string)
    ensures !(IsNewVersionAvailable(a, b) && IsNewVersionAvailable(b, a))
  {
    var va, vb := VersionOf(a), VersionOf(b);
    if va.Some? && VersionOf(RemoveSuffix(a, ".apk")).Some? {
      SuffixIgnored(a);
    }
    if vb.Some? && VersionOf(RemoveSuffix(b, ".apk")).Some? {
      SuffixIgnored(b);
    }
    if va.Some? && vb.Some? {
      LexAsymmetric(Key(va.value), Key(vb.value));
    }
  }

  /** A written stamp whose numbers are in range reads as its value;
      leading zeros do not count. */
  lemma SpelledReads(w: Written)
    requires DigitRuns(w) && InRange(ValueOf(w))
    ensures VersionOf(Spelled(w)) == Some(ValueOf(w))
  {
    SplitSpelled(w);
    ParseDigits(w.major, IntMin, IntMax);
    ParseDigits(w.date, LongMin, LongMax);
    ParseDigits(w.time, IntMin, IntMax);
  }

  /** The app's own version name, with the time padded to four digits. */
  lemma PaddedReads()
    ensures VersionOf("1.20260106.0243") == Some(Version(1, 20260106, 243))
  {
    var w := Written("1", "20260106", "0243");
    assert Spelled(w) == "1.20260106.0243";
    PaddedDigits();
    assert ValueOf(w) == Version(1, 20260106, 243);
    SpelledReads(w);
  }

  /** A stamp printed in decimal reads back as itself. */
  lemma DottedReads(v: Version)
    requires Natural(v) && v.major <= IntMax && v.date <= LongMax && v.time <= IntMax
    ensures VersionOf(Dotted(v)) == Some(v)
  {
    PrintedSpelled(v);
    SpelledReads(Printed(v));
  }

  /** For an installed `major.date.time` and a published
      `major.date.time.apk`, written with or without leading zeros, an
      update is offered exactly when the published stamp is
      lexicographically greater. */
  lemma SpelledOfferedIffNewer(installed: Written, published: Written)
    requires DigitRuns(installed) && InRange(ValueOf(installed))
    requires DigitRuns(published) && InRange(ValueOf(published))
    ensures IsNewVersionAvailable(Spelled(installed), Spelled(published) + ".apk")
            <==> LexGreater(Key(ValueOf(published)), Key(ValueOf(installed)))
  {
    SpelledReads(installed);
    SpelledReads(published);
    assert RemoveSuffix(Spelled(published) + ".apk", ".apk") == Spelled(published);
  }

  /** The same for stamps printed without leading zeros. */
  lemma UpdateOfferedIffNewer(installed: Version, published: Version)
    requires Natural(installed) && installed.major <= IntMax && installed.date <= LongMax && installed.time <= IntMax
    requires Natural(published) && published.major <= IntMax && published.date <= LongMax && published.time <= IntMax
    ensures IsNewVersionAvailable(Dotted(installed), Dotted(published) + ".apk")
            <==> LexGreater(Key(published), Key(installed))
  {
    PrintedSpelled(installed);
    PrintedSpelled(published);
    SpelledOfferedIffNewer(Printed(installed), Printed(published));
  }

  /** `getCurrentLanguageCode`, with the locale's language and country as
      parameters. */
  function LanguageCode(language: string, country: string): (code: string)
    ensures code == "zh-cn" <==> language == "zh" && country == "CN"
    ensures code == "zh-tw" <==> language == "zh" && country == "TW"
    ensures code == "ja" <==> language == "ja"
    ensures code == "en" <==> !(language == "zh" && (country == "CN" || country == "TW")) && language != "ja"
  {
    if language == "zh" && country == "CN" then "zh-cn"
    else if language == "zh" && country == "TW" then "zh-tw"
    else if language == "ja" then "ja"
    else "en"
  }

  /** The country matters for Chinese only. */
  lemma CountryOnlyForChinese(language: string, country1: string, country2: string)
    requires language != "zh"
    ensures LanguageCode(language, country1) == LanguageCode(language, country2)
  {
  }

  /** The changelog shown: the entry for the language code, else the
      English entry, else nothing. */
  function ChangelogText(changelog: Option<map<string, string>>, code: string): (text: string)
    ensures text == "" || (changelog.Some? && text in changelog.value.Values)
    ensures changelog.Some? && code in changelog.value ==> text == changelog.value[code]
    ensures changelog.Some? && code !in changelog.value && "en" in changelog.value ==> text == changelog.value["en"]
    ensures changelog.None? || (code !in changelog.value && "en" !in changelog.value) ==> text == ""
  {
    match changelog
    case None => ""
    case Some(entries) =>
      if code in entries then entries[code]
      else if "en" in entries then entries["en"]
      else ""
  }

  /** `checkForUpdates` once the server has answered: an offer exactly
      when the answer succeeded, names a release and that release is newer
      than the installed one. */
  function UpdateFor(response: UpdateResponse, currentVersion: string, language: string, country: string): (r: Option<UpdateInfo>)
    ensures r.Some? <==> response.success && response.latest.Some?
                         && IsNewVersionAvailable(currentVersion, response.latest.value)
    ensures r.Some? ==> r.value.latestVersion == response.latest.value
                        && r.value.downloadUrl == ApiBaseUrl + "/api/download_apk/" + response.latest.value
                        && r.value.changelog == ChangelogText(response.changelog, LanguageCode(language, country))
                        && r.value.fileSize == response.latestSize.GetOr("0.0")
  {
    if response.success && response.latest.Some? then
      var latest := response.latest.value;
      if IsNewVersionAvailable(currentVersion, latest) then
        Some(UpdateInfo(latest, ApiBaseUrl + "/api/download_apk/" + latest,
                        ChangelogText(response.changelog, LanguageCode(language, country)),
                        response.latestSize.GetOr("0.0")))
      else None
    else None
  }

  /** The installed release is never offered again. */
  lemma NoOfferOfInstalled(response: UpdateResponse, currentVersion: string, language: string, country: string)
    requires response.latest == Some(currentVersion) || response.latest == Some(currentVersion + ".apk")
    ensures UpdateFor(response, currentVersion, language, country) == None
  {
    NotNewerThanItself(currentVersion);
  }
}

=== FILE: versions.dfy ===
/** Release stamps `major.yyyymmdd.hhmm`, the order the app and the
    download server both put them in, and their printed form. */
module Versions {
  import opened Text
  import opened Numerals

  /** A release stamp: major version, date and time. */
  datatype Version = Version(major: int, date: int, time: int)

  /** The stamp as the sequence it is compared by. */
  function Key(v: Version): (k: seq<int>)
    ensures |k| == 3
  {
    [v.major, v.date, v.time]
  }

  /** `a` comes after `b` in the lexicographic order of equally long
      integer sequences. */
  predicate LexGreater(a: seq<int>, b: seq<int>)
    requires |a| == |b|
    decreases |a|
  {
    |a| > 0 && (a[0] > b[0] || (a[0] == b[0] && LexGreater(a[1..], b[1..])))
  }

  lemma {:induction false} LexIrreflexive(a: seq<int>)
    ensures !LexGreater(a, a)
    decreases |a|
  {
    if |a| > 0 {
      LexIrreflexive(a[1..]);
    }
  }

  lemma {:induction false} LexAsymmetric(a: seq<int>, b: seq<int>)
    requires |a| == |b|
    ensures !(LexGreater(a, b) && LexGreater(b, a))
    decreases |a|
  {
    if |a| > 0 && a[0] == b[0] {
      LexAsymmetric(a[1..], b[1..]);
    }
  }

  lemma {:induction false} LexTransitive(a: seq<int>, b: seq<int>, c: seq<int>)
    requires |a| == |b| == |c|
    requires LexGreater(a, b) && LexGreater(b, c)
    ensures LexGreater(a, c)
    decreases |a|
  {
    if a[0] == b[0] == c[0] {
      LexTransitive(a[1..], b[1..], c[1..]);
    }
  }

  /** Two different sequences of one length are ordered one way or the
      other. */
  lemma {:induction false} LexTotal(a: seq<int>, b: seq<int>)
    requires |a| == |b|
    ensures a == b || LexGreater(a, b) || LexGreater(b, a)
    decreases |a|
  {
    if |a| > 0 && a[0] == b[0] {
      LexTotal(a[1..], b[1..]);
      if a[1..] == b[1..] {
        assert a == [a[0]] + a[1..] && b == [b[0]] + b[1..];
      }
    }
  }

  /** On stamps the lexicographic order compares the major versions, then
      the dates, then the times; equal keys are equal stamps. */
  lemma KeyOrder(a: Version, b: Version)
    ensures LexGreater(Key(a), Key(b)) <==>
              a.major > b.major || (a.major == b.major && (a.date > b.date || (a.date == b.date && a.time > b.time)))
    ensures Key(a) == Key(b) <==> a == b
  {
    var ka, kb := Key(a), Key(b);
    var a1, b1 := ka[1..], kb[1..];
    var a2, b2 := a1[1..], b1[1..];
    assert !LexGreater(a2[1..], b2[1..]);
    assert LexGreater(a2, b2) == (a.time > b.time);
    assert LexGreater(a1, b1) == (a.date > b.date || (a.date == b.date && LexGreater(a2, b2)));
    if Key(a) == Key(b) {
      assert ka[0] == kb[0] && ka[1] == kb[1] && ka[2] == kb[2];
    }
  }

  predicate Natural(v: Version) {
    v.major >= 0 && v.date >= 0 && v.time >= 0
  }

  /** The stamp printed as `major.date.time`. */
  function Dotted(v: Version): string
    requires Natural(v)
  {
    Decimal(v.major) + "." + Decimal(v.date) + "." + Decimal(v.time)
  }

  /** A printed stamp splits at its dots into its three numerals. */
  lemma SplitDotted(v: Version)
    requires Natural(v)
    ensures Split(Dotted(v), ".") == [Decimal(v.major), Decimal(v.date), Decimal(v.time)]
  {
    PrintedSpelled(v);
    SplitSpelled(Printed(v));
  }

  /** Within the `Int`, `Long` and `Int` ranges the app reads the three
      parts into. */
  predicate InRange(v: Version) {
    IntMin <= v.major <= IntMax && LongMin <= v.date <= LongMax && IntMin <= v.time <= IntMax
  }

  /** A stamp as it is written in a file or version name: three runs of
      digits, leading zeros allowed. The build pads the time to four digits,
      so a real name reads `1.20260106.0243`. */
  datatype Written = Written(major: string, date: string, time: string)

  predicate DigitRuns(w: Written) {
    w.major != [] && AllDigits(w.major) && w.date != [] && AllDigits(w.date)
    && w.time != [] && AllDigits(w.time)
  }

  function Spelled(w: Written): string {
    w.major + "." + w.date + "." + w.time
  }

  /** The stamp a written one stands for; leading zeros do not count. */
  function ValueOf(w: Written): (v: Version)
    requires DigitRuns(w)
    ensures Natural(v)
  {
    Version(DigitsValue(w.major), DigitsValue(w.date), DigitsValue(w.time))
  }

  /** A stamp written without leading zeros. */
  function Printed(v: Version): Written
    requires Natural(v)
  {
    Written(Decimal(v.major), Decimal(v.date), Decimal(v.time))
  }

  /** Printing is one way of writing a stamp, and it reads back as the
      stamp. */
  lemma PrintedSpelled(v: Version)
    requires Natural(v)
    ensures DigitRuns(Printed(v)) && Spelled(Printed(v)) == Dotted(v)
    ensures ValueOf(Printed(v)) == v
  {
    DecimalValue(v.major);
    DecimalValue(v.date);
    DecimalValue(v.time);
  }

  lemma DigitsNoDot(s: string)
    requires AllDigits(s)
    ensures '.' !in s
  {
    forall k | 0 <= k < |s| ensures s[k] != '.' {
      assert IsDigit(s[k]);
    }
  }

  /** A written stamp splits at its dots into its three digit runs. */
  lemma SplitSpelled(w: Written)
    requires DigitRuns(w)
    ensures Split(Spelled(w), ".") == [w.major, w.date, w.time]
  {
    var a, b, c := w.major, w.date, w.time;
    DigitsNoDot(a);
    DigitsNoDot(b);
    DigitsNoDot(c);
    var ab := a + "." + b;
    assert Split(a, ".") == [a] by { SplitNoSeparator(a, '.'); }
    assert Split(ab, ".") == [a, b] by { SplitSnoc(a, '.', b); }
    assert Spelled(w) == ab + ['.'] + c;
    SplitSnoc(ab, '.', c);
  }

  /** The digit runs of `1.20260106.0243`, read one digit at a time. */
  lemma PaddedDigits()
    ensures AllDigits("1") && DigitsValue("1") == 1
    ensures AllDigits("20260106") && DigitsValue("20260106") == 20260106
    ensures AllDigits("0243") && DigitsValue("0243") == 243
  {
    assert DigitsValue("1") == 1 by { assert "1"[..0] == ""; }
    PaddedTime();
    PaddedDate();
  }

  lemma PaddedTime()
    ensures AllDigits("0243") && DigitsValue("0243") == 243
  {
    assert DigitsValue("02") == 2 by { assert "02"[..1] == "0"; assert "0"[..0] == ""; }
    assert DigitsValue("024") == 24 by { assert "024"[..2] == "02"; }
    assert DigitsValue("0243") == 243 by { assert "0243"[..3] == "024"; }
  }

  lemma PaddedDate()
    ensures AllDigits("20260106") && DigitsValue("20260106") == 20260106
  {
    assert DigitsValue("2026") == 2026 by { PaddedYear(); }
    assert DigitsValue("20260") == 20260 by { assert "20260"[..4] == "2026"; }
    assert DigitsValue("202601") == 202601 by { assert "202601"[..5] == "20260"; }
    assert DigitsValue("2026010") == 2026010 by { assert "2026010"[..6] == "202601"; }
    assert DigitsValue("20260106") == 20260106 by { assert "20260106"[..7] == "2026010"; }
  }

  lemma PaddedYear()
    ensures AllDigits("2026") && DigitsValue("2026") == 2026
  {
    assert DigitsValue("20") == 20 by { assert "20"[..1] == "2"; assert "2"[..0] == ""; }
    assert DigitsValue("202") == 202 by { assert "202"[..2] == "20"; }
    assert DigitsValue("2026") == 2026 by { assert "2026"[..3] == "202"; }
  }
}

=== FILE: wrappers.dfy ===
/** The optional value used wherever the modelled code returns `null` or
    catches a failed parse. */
module Wrappers {

  datatype Option<+T> = None | Some(value: T) {

    /** The wrapped value, or `default` when there is none (Kotlin's `?:`). */
    function GetOr(default: T): T {
      match this
      case Some(v) => v
      case None => default
    }
  }
}
